=== FILE: README.md ===
# MEA-NAP dashboard data logic, in Dafny

The MEA-NAP dashboard is a Dash application that plots the results of the
MEA-NAP pipeline for microelectrode-array recordings. Cultures are recorded at
several ages, counted in days in vitro (DIV), and belong to experimental
groups. Beneath its plotting code sits a layer of pure data logic, and this
project models that layer and proves properties of it:

- **Experiment names.** DIV parsing (`extract_div_value`,
  `extract_div_from_experiment_name`), lag parsing of
  `*_nodeMetrics_lag<N>.mat` names, and recovery of group names and DIVs
  from nested MATLAB values (`extract_with_regex`, `unwrap_nested_array`,
  the robust extractors).
- **Value filters.** NaN/infinity removal, the per-metric validity ranges,
  thresholds and the active-electrode count.
- **Re-bucketing.** The conversion of loaded experiments into the
  dashboard's data dict (`by_experiment`, `by_group`, `by_div`), the
  metric processors, the DIV helpers, the plot-side regrouping of the
  callbacks, and the GraphData scan. Each bucket is a record of parallel
  lists.
- **Classification and lookup rules.** Plot type, effect size,
  significance stars, the metric registry and aggregation type,
  comparison validation, export file names, and node-role proportions.

Each source file of the core is one module: `Config`, `Utilities`,
`DataHelpers`, `MetricProcessors`, `VisualizationHelpers`,
`ExperimentMatLoader`, `DataLoader`, `NeuronalActivity`,
`NetworkActivity`, `NeuronalCallbacks` and `UtilsApi`. Shared vocabulary
sits underneath:

- `Wrappers`: `Option` and `Result`.
- `Numeric`: numpy numbers, a finite real, NaN or a signed infinity, with
  numpy's comparisons.
- `Seqs`: subsequences, filters, counts, sorting and de-duplication.
- `Text`: Python string operations on ASCII text.
- `Dicts`: Python dicts as insertion-ordered association lists.
- `DashboardData`: the shared record types.

Where the Python code raises, for example `len()` of a scalar or a
`KeyError`, the model returns a `Result` failure carrying the exception's
text.

## Model

| member | source | states |
|---|---|---|
| Config.MetricFieldName | utils/config.py:269-271 | FRActive reads its node field FRActiveNode; every other metric reads the field of its own name |
| Config.FieldNameSharing | utils/config.py:115-128 | mapping a field name a second time changes nothing, and two metric names read the same stored field exactly when they are equal or are FRActive and FRActiveNode |
| Config.AggregationType | utils/config.py:320-327 | node_level exactly for node-level metrics; recording_level only for recording-level metrics |
| Config.MetricListsDisjoint | utils/config.py:245-255 | no metric is both node-level and recording-level |
| Config.AggregationExactlyOne | utils/config.py:320-327 | each of node_level, recording_level and unknown is returned exactly when the metric is node-level, recording-level, or neither |
| Config.RecordingOptionsMatchCatalogue | utils/config.py:52-64 | the recording dropdown has one entry per recording-level metric, every entry tagged recording_level, and every recording-level metric is offered |
| Config.NodeOptionsMatchCatalogue | utils/config.py:41-49 | the node dropdown offers exactly the node-level metrics in catalogue order, every entry tagged node_level |
| Config.MatlabColor | utils/config.py:281-283 | DIV 50 and DIV 53 get their own colours; every other DIV gets the default colour |
| Config.ValidateActivityType | utils/config.py:289-291 | true exactly for "neuronal" and "network" |
| Config.ValidateComparisonType | utils/config.py:293-299 | false for any other activity; for neuronal and network activity, true exactly when the comparison is in that activity's list |
| Config.NeuronalComparisonsAreNetworkComparisons | utils/config.py:241-242 | every neuronal comparison is also a network comparison; graphmetricsbylag and nodecartography are network comparisons only |
| Config.DefaultMetric | utils/config.py:308-314 | recording or network asks give numActiveElec; every other ask gives FR |
| Utilities.ExtractDivValue | data_processing/utilities.py:77-88 | a number exactly when the marker-free text ends in digits (before an optional final newline), and then the value of the maximal trailing digit run; otherwise the marker-free text itself |
| Utilities.BeforeFinalNewline | data_processing/utilities.py:80 | the text a `$` anchor ends on is the text itself or the text minus one final newline |
| Utilities.DivMarkersRemovedEverywhere | data_processing/utilities.py:77 | every "DIV" is removed, not only a leading one: the text before the first marker is kept and removal continues after it |
| Utilities.NoDivBefore | data_processing/utilities.py:77 | in marker-free text followed by "DIV", no marker starts before that "DIV" |
| Utilities.ConcatNoDiv | data_processing/utilities.py:77 | marker-free text followed by digits holds no marker |
| Utilities.MarkerThenClean | data_processing/utilities.py:77 | removing markers from "DIV", then marker-free text, then digits leaves the text and the digits |
| Utilities.DivOfTrailingNumber | data_processing/utilities.py:77-83 | "DIV", then marker-free text not ending in a digit, then the decimal form of n, yields n |
| Utilities.DivRoundTrip | data_processing/utilities.py:77-83 | for every natural n, "DIV" followed by the decimal form of n yields n |
| Utilities.NoDivMarker | data_processing/utilities.py:77 | text without a 'D' holds no "DIV" marker |
| Utilities.DivOfDatedName | data_processing/utilities.py:69 | a date-stamped name such as DIV20240816-24w-50 yields its last number |
| Utilities.DivTextUnchanged | data_processing/utilities.py:88 | marker-free text that does not end in digits comes back unchanged as text |
| Utilities.SafeFlatten | data_processing/utilities.py:104-136 | None gives no items; a list or tuple gives its items in order; an array gives its non-None elements in order, all of them; any other value gives itself alone |
| Utilities.FlattenIdempotent | data_processing/utilities.py:104-136 | flattening the list a flatten produced gives the same items again |
| Utilities.ExtractStructData | data_processing/utilities.py:163-182 | a present field gives a value stored under it (the one `Get` finds, in a well-formed dict); a missing field gives the default |
| DashboardData.SelectPresent | utils/metric_processors.py:300-303 | with no selection everything available; otherwise the selected items present in the data, in selection order, and every selected item that is present |
| DashboardData.ActivityEntry | utils/metric_processors.py:732 | testing an activity for a metric raises exactly when the activity is None; a missing activity holds no metric; otherwise the entry stored under the metric |
| DataHelpers.ValidateDataStructure | utils/data_helpers.py:38 | true exactly when every required key is present, so true for an empty key list |
| DataHelpers.ValidateExperimentData | utils/data_helpers.py:75-76 | true exactly when the record has group, div and activity |
| DataHelpers.AllHaveMetricData | utils/data_helpers.py:55-61 | true exactly when every listed group exists, stores the metric and the stored value is truthy |
| DataHelpers.ValidateMetricData | utils/data_helpers.py:52-63 | false without by_group; otherwise true exactly when every listed group exists, stores the metric and the stored value is truthy |
| DataHelpers.CleanNumericArray | utils/data_helpers.py:110-115 | an order-preserving subsequence of the input holding only finite values, every finite input value, and as many values as the input has finite ones |
| DataHelpers.CleanIdempotent | utils/data_helpers.py:110-115 | cleaning cleaned values changes nothing |
| DataHelpers.ParseOperation | utils/data_helpers.py:132-141 | an operation is recognised exactly when it is greater, less, greater_equal or less_equal |
| DataHelpers.FilterByThreshold | utils/data_helpers.py:130-141 | an unknown operation raises a ValueError naming it; otherwise the result is an order-preserving subsequence of the cleaned input whose values all pass the comparison |
| DataHelpers.FilterByThresholdIsOneFilter | utils/data_helpers.py:130-139 | thresholding keeps exactly the finite input values that pass the comparison, in input order |
| DataHelpers.GreaterAndLessEqualPartition | utils/data_helpers.py:130-139 | the values above the threshold and those at or below it together number the cleaned values |
| DataHelpers.CalculateActiveElectrodes | utils/data_helpers.py:387-389 | the number of finite rates strictly above the threshold, at most the input length |
| DataHelpers.ActiveCountsAgree | utils/data_helpers.py:387-389 | for a non-negative threshold, this count equals the active count of the recording-level processor |
| DataHelpers.FirstDivMatchFrom | utils/data_helpers.py:239 | the leftmost position where "DIV" is followed by a digit, or none when there is no such position |
| DataHelpers.FirstInRange | utils/data_helpers.py:244-248 | the first part that is a numeral in [40, 100], or none when no part is |
| DataHelpers.ExtractDivFromNameFirstMatch | utils/data_helpers.py:239-241 | the leftmost "DIV" followed by digits decides the result: the value of its maximal digit run |
| DataHelpers.ExtractDivFromNameFallback | utils/data_helpers.py:243-250 | with no "DIV" followed by digits, the result is the value of the first `_`-part that is a numeral in [40, 100], and there is none exactly when no part qualifies |
| DataHelpers.ExtractDivFromNameFallbackRange | utils/data_helpers.py:243-248 | a DIV found among the `_`-parts lies in [40, 100] |
| DataHelpers.ExtractDivFromNameRoundTrip | utils/data_helpers.py:239-241 | a name with its first "DIV" followed by the decimal form of n, then a non-digit or the end, yields n |
| DataHelpers.ExtractDivFromNumeral | utils/data_helpers.py:239-241 | the name "DIV" followed by the decimal form of n yields n |
| DataHelpers.DivParsersAgree | utils/data_helpers.py:239-241 | on "DIV" followed by the decimal form of n, this parser and the loader's DIV parser both give n |
| DataHelpers.PickByNameIsFilter | utils/data_helpers.py:208-212 | the index loop keeps exactly the value/name pairs of the zipped lists whose name passes, in order |
| DataHelpers.PickNamed | utils/data_helpers.py:208-212 | equal-length value and name lists, every kept name passes, the kept pairs are an order-preserving subsequence of the zipped lists, and every passing pair is kept |
| DataHelpers.DivFilterEntry | utils/data_helpers.py:198-217 | a stored group entry has equal-length lists and every kept name mentions the target DIV |
| DataHelpers.FilterDataByDiv | utils/data_helpers.py:191-219 | a missing groups key, or a missing by_group when groups is non-empty, raises; otherwise the call succeeds exactly when no group raises; groups is copied, divs is the target alone, and no unlisted group gets an entry |
| DataHelpers.FilterDataByDivEntry | utils/data_helpers.py:197-217 | each listed group holds exactly its own filtered entry, or nothing when it was skipped |
| DataHelpers.FilterDataByDivEntriesMention | utils/data_helpers.py:208-217 | no group is stored twice; every stored entry has equal-length lists and each name in it mentions the target DIV |
| DataHelpers.OrganizeName | utils/data_helpers.py:274-288 | after one name, a DIV has a bucket exactly when it had one or the name yields it |
| DataHelpers.OrganizeNamePreserves | utils/data_helpers.py:274-288 | one name keeps every bucket's three lists aligned, its names yielding its DIV, and its groups listed |
| DataHelpers.OrganizeNames | utils/data_helpers.py:274-288 | after one group's names, the buckets are the earlier ones plus the DIVs those names yield |
| DataHelpers.OrganizeNamesPreserves | utils/data_helpers.py:274-288 | walking one group's names keeps every bucket well formed |
| DataHelpers.OrganizeGroup | utils/data_helpers.py:265-288 | a skipped group adds no bucket; a walked group adds the DIVs its names yield |
| DataHelpers.NameDivsSome | utils/data_helpers.py:275-277 | every DIV collected from a list of names is yielded by one of them |
| DataHelpers.NameDivsOf | utils/data_helpers.py:275-277 | every DIV a name yields is collected |
| DataHelpers.NoDivNamesNoDivs | utils/data_helpers.py:275-277 | names none of which yields a DIV give no buckets |
| DataHelpers.OrganizeGroups | utils/data_helpers.py:265-290 | the buckets are exactly the DIVs that the walked groups' names yield |
| DataHelpers.OrganizeGroupsWellFormed | utils/data_helpers.py:265-288 | every bucket's lists are aligned, its names yield its DIV, and its groups are among the listed ones |
| DataHelpers.OrganizeDataByDiv | utils/data_helpers.py:263-290 | a missing groups key, or a missing by_group when groups is non-empty, raises; otherwise the buckets are exactly the DIVs the names of the walked groups yield |
| DataHelpers.OrganizeDataByDivWellFormed | utils/data_helpers.py:284-288 | values, groups and exp_names of each bucket have equal length; each name yields the bucket's DIV; each group is one of data['groups'] |
| DataHelpers.ValidPercentage | utils/data_helpers.py:609 | the valid percentage lies in [0, 100]: 0 for an empty list or no valid value, 100 when every value is valid |
| DataHelpers.FieldStats | utils/data_helpers.py:585-598 | total is valid plus NaN; a list counts its entries and its finite ones; any other value counts as one, valid exactly when it is a finite number |
| DataHelpers.QualityLoop | utils/data_helpers.py:576-610 | the report keeps the metric name; the aggregate total is aggregate valid plus aggregate NaN; no more groups have data than there are valid values |
| DataHelpers.QualityLoopTotals | utils/data_helpers.py:601-603 | the running total, valid and NaN counts are the sums of the per-group stats of the groups that store the metric |
| DataHelpers.SumStatsSnoc | utils/data_helpers.py:601-603 | the sum over the groups is the sum over all but the last plus the last group's stats, when it stores the metric |
| DataHelpers.QualityLoopGroupsWithData | utils/data_helpers.py:597-598 | groups_with_data lists, in order, exactly the groups with at least one valid value |
| DataHelpers.QualityLoopStats | utils/data_helpers.py:605-610 | groups_stats holds one entry per walked group that stores the metric, with that group's counts |
| DataHelpers.CheckDataQuality | utils/data_helpers.py:576-613 | a missing by_group with non-empty groups raises; otherwise the totals add up, equal the per-group stats summed over the listed groups that store the metric, and groups_with_data lists exactly the groups with valid data, in order |
| DataHelpers.CheckDataQualityStats | utils/data_helpers.py:605-610 | each listed group that stores the metric has its own stats entry, whose total is valid plus NaN and whose percentage lies in [0, 100] |
| MetricProcessors.FieldVariations | utils/metric_processors.py:435-446 | the metric's own name always comes first; a metric outside the table has only its own name |
| MetricProcessors.FirstPresent | utils/metric_processors.py:351-357 | the value under the first listed name the activity has, with no earlier name present; nothing exactly when no listed name is present |
| MetricProcessors.ValidValues | utils/metric_processors.py:457-489 | an order-preserving subsequence of the input that holds only values valid for the metric, and every valid input value |
| MetricProcessors.EnhancedFilteringIsValidFilter | utils/metric_processors.py:457-489 | the enhanced filter keeps exactly the finite values in the metric's range: [0, 1] for the burst fraction, at least 0 for FR, burst rate, burst duration and in-burst FR, above 0 for the two ISI metrics, any finite value otherwise |
| MetricProcessors.FilterValidValuesAgrees | utils/metric_processors.py:771-786 | the older filter gives the same result as the enhanced filter for every metric |
| MetricProcessors.EmptyGroups | utils/metric_processors.py:316-320 | one empty bucket per group to process, keyed in first-seen order |
| MetricProcessors.EmptyDivs | utils/metric_processors.py:323-328 | one empty bucket per DIV of the data, keyed in first-seen order |
| MetricProcessors.Gathered | utils/metric_processors.py:388-399 | the reference bucket's values, names and groups lists have equal length |
| MetricProcessors.GatheredNamesPicked | utils/metric_processors.py:388-399 | every name in a bucket belongs to an experiment that the bucket's rule picks, recorded with that experiment's group |
| MetricProcessors.AggregateSucceeds | utils/metric_processors.py:334-399 | the pass over the experiments succeeds exactly when no experiment raises |
| MetricProcessors.AggregateKeys | utils/metric_processors.py:388-399 | the pass adds no bucket and removes none |
| MetricProcessors.AddToGroupGet | utils/metric_processors.py:388-390 | an experiment extends only the bucket of its own truthy group, and only when that bucket exists |
| MetricProcessors.AddToDivGet | utils/metric_processors.py:396-399 | an experiment extends only the bucket of its own truthy DIV, and only when that bucket exists |
| MetricProcessors.AggregateGroupReference | utils/metric_processors.py:334-399 | each group bucket ends with its initial contents followed by exactly the values and names of that group's experiments, in experiment order |
| MetricProcessors.AggregateDivReference | utils/metric_processors.py:334-399 | each DIV bucket ends with its initial contents followed by exactly the values, names and groups of that DIV's experiments, in experiment order |
| MetricProcessors.GatheredValuesSatisfy | utils/metric_processors.py:388-399 | a property that holds for every value each experiment contributes holds for every value in a bucket |
| MetricProcessors.RunProcessor | utils/metric_processors.py:301-328 | a processor succeeds exactly when groups and divs are present and no experiment raises; it builds by_div exactly when it is one of the processors that do |
| MetricProcessors.ProcessorGroups | utils/metric_processors.py:301-328 | by_group has exactly the selected groups present in the data (all groups for an empty selection); each holds that group's values with one name per value; groups, divs and by_experiment are copied unchanged |
| MetricProcessors.ProcessorDivs | utils/metric_processors.py:323-328 | by_div has exactly the data's DIVs, each holding exactly that DIV's values, names and groups |
| MetricProcessors.NodeContributionSpec | utils/metric_processors.py:338-392 | a node-level experiment raises exactly when its activity is None or the first variation present holds a scalar; otherwise it contributes the valid values of that array, and nothing when no variation is present or it holds None |
| MetricProcessors.NodeLevelValuesValid | utils/metric_processors.py:383-399 | every value a node-level processor stores in a group or DIV bucket is valid for the metric |
| MetricProcessors.SumAbove | utils/metric_processors.py:609 | values all above t sum to more than t times their number |
| MetricProcessors.ActiveContributionSpec | utils/metric_processors.py:594-613 | an experiment raises exactly when its activity is None; otherwise it contributes one FRActive value exactly when its FR array has a finite rate strictly above the threshold, and that value is itself above the threshold |
| MetricProcessors.MeanOfActiveAbove | utils/metric_processors.py:605-609 | the mean of the active electrodes lies strictly above the threshold |
| MetricProcessors.MeanAbove | utils/metric_processors.py:609 | the mean of values all above t is above t |
| MetricProcessors.DivAbove | utils/metric_processors.py:609 | a total above t times n, divided by n, is above t |
| MetricProcessors.ActiveCountSpec | utils/metric_processors.py:676-677 | for a non-negative threshold the count is the number of finite rates strictly above it, at most the number of electrodes |
| MetricProcessors.CountContributionSpec | utils/metric_processors.py:665-689 | an experiment raises exactly when its activity is None; each experiment with an FR array contributes exactly one count, the number of finite rates above the threshold, between 0 and the number of electrodes; any other contributes nothing |
| MetricProcessors.ScalarContributionSpec | utils/metric_processors.py:732-740 | an experiment raises exactly when its activity is None or the stored entry is None or an array of other than one element; a stored scalar is contributed exactly when finite, and at most one value is contributed |
| MetricProcessors.ScalarValuesFinite | utils/metric_processors.py:696-757 | every value the scalar processor stores in a group or DIV bucket is finite |
| MetricProcessors.FactoryContributionSpec | utils/metric_processors.py:902-912 | with an extractor that exists (the corrected processor, see Findings), an experiment never raises, contributes at most one value and never NaN, and an infinite cached value is kept |
| MetricProcessors.FactoryValuesNotNaN | utils/metric_processors.py:872-917 | no value a factory-made processor stores in a group bucket is NaN |
| MetricProcessors.FactoryNeverRaises | utils/metric_processors.py:874-917 | with an extractor that exists (the corrected processor, see Findings), a factory-made processor fails only for a missing groups or divs key, and builds no by_div |
| MetricProcessors.FactoryAsWrittenRaises | utils/metric_processors.py:874-917 | as written, a factory-made processor succeeds exactly when the groups and divs keys are present and every experiment has cached `recording_metrics`; with both keys present a failure is the ImportError of line 904; when every experiment is cached the result is the corrected processor's for any extractor |
| MetricProcessors.FactoryImportFails | utils/metric_processors.py:902-905 | one experiment as the loaders produce it, without `recording_metrics`, makes the as-written processor fail with the ImportError |
| MetricProcessors.AggregateError | utils/metric_processors.py:901-913 | when the pass over `by_experiment` raises, it raises the exception of some experiment's step |
| MetricProcessors.RegisterSpec | utils/metric_processors.py:946-948 | registration adds every missing name, overwrites no existing entry, and gives each new name its own factory-made processor |
| MetricProcessors.GetMetricProcessor | utils/metric_processors.py:822-827 | a KeyError exactly when the metric is not available; otherwise its registered processor |
| MetricProcessors.AvailableMetrics | utils/metric_processors.py:792-948 | a metric is available exactly when it is in the literal registry or on the missing-metrics list, and the literal entry takes precedence |
| MetricProcessors.ProcessMetric | utils/metric_processors.py:829-832 | an unavailable metric raises; an available one runs its registered processor |
| MetricProcessors.MetricListsAgreeWithConfig | utils/metric_processors.py:838-846 | the processors' node list is the configuration's; every metric on their recording list is recording-level in the configuration, which also lists metrics they do not, such as meanNBstLengthS |
| VisualizationHelpers.DeterminePlotType | utils/visualization_helpers.py:610-617 | empty for no value, single_point for one, scatter for two or three, violin for four or more |
| VisualizationHelpers.PrepareViolinData | utils/visualization_helpers.py:207-237 | the values are the cleaned input; the plot type is empty, single_point or violin exactly when the number of finite values is 0, 1, or at least 2 and at least the minimum |
| VisualizationHelpers.ViolinAgreesWithPlotType | utils/visualization_helpers.py:207-237 | with the default minimum of four, the violin preparation picks the plot type that the plot-type rule picks for the cleaned values |
| VisualizationHelpers.CleanField | utils/visualization_helpers.py:287 | a list is cleaned, a number is cleaned as a one-element array, and None raises |
| VisualizationHelpers.DivPlotValues | utils/visualization_helpers.py:266-287 | fails exactly when the stored metric is None, or is a number while some experiment name mentions the DIV; a stored list with names gives the cleaned entries at the positions, below the list's length, whose name mentions `DIV<d>`, in order, and the cleaned whole list when there is no such position or no names; a stored number gives itself cleaned; the values are all finite |
| VisualizationHelpers.DivPlotFallback | utils/visualization_helpers.py:283-285 | when no experiment name mentions the DIV, the whole stored list is plotted, cleaned |
| DataHelpers.NamedPositions | utils/visualization_helpers.py:271-274 | the positions the index loop keeps are exactly the indices below both lengths whose name passes, in increasing order |
| DataHelpers.PickNamedPositions | utils/data_helpers.py:208-212 | the values the index loop keeps are the values at `NamedPositions`, in order |
| VisualizationHelpers.OrganizePlotData | utils/visualization_helpers.py:255-289 | a missing by_group raises as soon as a group is requested; otherwise the call succeeds exactly when, for every requested group that exists and stores the metric, no requested DIV makes `DivPlotValues` raise |
| VisualizationHelpers.OrganizePlotDataGroups | utils/visualization_helpers.py:257-264 | the plotted groups are exactly the requested groups that exist and store the metric, each once, in request order |
| VisualizationHelpers.OrganizePlotDataEntry | utils/visualization_helpers.py:266-287 | a plotted group maps every requested DIV to finite values: that DIV's entries, or the whole stored list when no name mentions the DIV |
| VisualizationHelpers.AnyPlottable | utils/visualization_helpers.py:651-662 | true exactly when some listed group stores the metric as a non-empty list or as a number |
| VisualizationHelpers.ValidatePlotData | utils/visualization_helpers.py:647-664 | false without by_group; otherwise true exactly when some listed group stores the metric as a non-empty list or as a number |
| VisualizationHelpers.MetricDataIsPlottable | utils/visualization_helpers.py:647-664 | data that passes the metric-data validation for a non-empty group list can be plotted |
| VisualizationHelpers.FilenameParts | utils/visualization_helpers.py:458-471 | "MEA-NAP" first, then the metric, the comparison, "group-" and the first group, and "DIV" and the first DIV, each only when present, in that order |
| VisualizationHelpers.GenerateExportFilename | utils/visualization_helpers.py:452-453 | a non-empty custom name is returned verbatim |
| VisualizationHelpers.ExportFilenameRoundTrip | utils/visualization_helpers.py:455-474 | when no part holds `_`, splitting the generated name at `_` gives back "MEA-NAP", the present parts, and the timestamp's date and time |
| VisualizationHelpers.CalculatePlotDimensions | utils/visualization_helpers.py:630-633 | the width is the larger of the base width and 300 per group; the height is the configured plot height |
| ExperimentMatLoader.WordRunLength | data_processing/experiment_mat_loader.py:89 | the run starting at a position holds only characters of `[A-Za-z0-9_]` and stops at the first other character or the end of the text |
| ExperimentMatLoader.ExtractWithRegex | data_processing/experiment_mat_loader.py:81-93 | whatever is recovered is a non-empty word of `[A-Za-z0-9_]`; nothing is recovered exactly when no quoted word and no run of five word characters occurs anywhere |
| ExperimentMatLoader.QuotedWordFound | data_processing/experiment_mat_loader.py:84-86 | where the quoted pattern is first found, its group is a non-empty word lying inside the text |
| ExperimentMatLoader.LongRunFound | data_processing/experiment_mat_loader.py:89-91 | where the unquoted pattern is first found, its group is a word lying inside the text |
| ExperimentMatLoader.NoPatternMatches | data_processing/experiment_mat_loader.py:93 | when both searches fail, neither pattern matches at any position |
| ExperimentMatLoader.ExtractQuotedName | data_processing/experiment_mat_loader.py:84-86 | a quoted word with no quote before it is exactly the name recovered from an array's text |
| ExperimentMatLoader.ExtractUnquotedIsLong | data_processing/experiment_mat_loader.py:89-91 | without any quoted word, a recovered name has at least five characters |
| ExperimentMatLoader.UnwrapFrom | data_processing/experiment_mat_loader.py:63-79 | a value the loop returns is never itself an array |
| ExperimentMatLoader.UnwrapNestedArray | data_processing/experiment_mat_loader.py:58-79 | the result is a leaf, never an array, and a value that is not an array comes back unchanged |
| ExperimentMatLoader.UnwrapFromWrapped | data_processing/experiment_mat_loader.py:63-79 | a leaf inside k one-element arrays comes back exactly when fewer than the remaining iterations are needed |
| ExperimentMatLoader.UnwrapWrapped | data_processing/experiment_mat_loader.py:61-79 | a leaf nested in fewer than twenty one-element arrays is recovered, deeper nesting yields nothing |
| ExperimentMatLoader.ExtractTextRobust | data_processing/experiment_mat_loader.py:46-56 | the answer is "Unknown" or a non-empty text mentioning neither "array" nor "dtype"; it is "Unknown" whenever no method's result is accepted |
| ExperimentMatLoader.ExtractTextRobustFirst | data_processing/experiment_mat_loader.py:123-133 | the first method whose result is accepted decides the text, whatever the later methods would give |
| ExperimentMatLoader.ExtractDivRobust | data_processing/experiment_mat_loader.py:163-173 | the DIV is 0 exactly when no method yields a positive integer |
| ExperimentMatLoader.ExtractDivRobustFirst | data_processing/experiment_mat_loader.py:163-168 | the first method yielding a positive integer decides the DIV |
| ExperimentMatLoader.WithinBurstAt | data_processing/experiment_mat_loader.py:205-236 | an electrode gets a value only when its masks pass and its time in bursts exceeds 1e-10, and then the value is spikes in bursts per second over time in bursts per second |
| ExperimentMatLoader.CalculateWithinBurstFiringRate | data_processing/experiment_mat_loader.py:175-245 | one output per FR entry; all NaN when the four arrays' lengths differ, otherwise electrode by electrode the masked ratio |
| ExperimentMatLoader.WithinBurstClosedForm | data_processing/experiment_mat_loader.py:220-236 | for finite inputs past the masks the rate equals FR times fraction times 60000 over burst rate times burst duration |
| ExperimentMatLoader.MetricContribution | data_processing/experiment_mat_loader.py:566-578 | a recording-level metric adds at most one value and never a NaN |
| ExperimentMatLoader.ContributionsFrom | data_processing/experiment_mat_loader.py:566-578 | reading the metrics succeeds exactly when every one of them is readable, and then yields one contribution per metric in catalogue order |
| ExperimentMatLoader.Contributed | data_processing/experiment_mat_loader.py:566-596 | an accepted experiment adds exactly one contribution per metric of the 22-metric catalogue |
| ExperimentMatLoader.Extend | data_processing/experiment_mat_loader.py:566-596 | each metric list grows by that metric's contribution and by nothing else |
| ExperimentMatLoader.ConvertLoop | data_processing/experiment_mat_loader.py:501-596 | the loop fails exactly when some experiment's metrics cannot be read, with the error of the first such experiment; otherwise every experiment's updates are applied in input order |
| ExperimentMatLoader.ConvertToDashboardFormat | data_processing/experiment_mat_loader.py:454-617 | the conversion succeeds exactly when every experiment can be read, and its DIV list is then sorted |
| ExperimentMatLoader.SortDivs | data_processing/experiment_mat_loader.py:599 | after the final step the DIV list is sorted |
| ExperimentMatLoader.AdvanceGrouped | data_processing/experiment_mat_loader.py:501-596 | one pass of the loop body keeps every part of the state equal to the grouping of the experiments seen so far |
| ExperimentMatLoader.FoldGrouped | data_processing/experiment_mat_loader.py:501-596 | after any number of passes, each part of the state is an independent grouping of the experiments by name, by group or by DIV |
| ExperimentMatLoader.Gather | data_processing/experiment_mat_loader.py:574-578 | a recording-level metric gathers at most one value per experiment and no NaN |
| ExperimentMatLoader.Columns | data_processing/experiment_mat_loader.py:566-596 | one list per catalogue metric, each the metric's contributions gathered across the experiments |
| ExperimentMatLoader.FoldAddToGroup | data_processing/experiment_mat_loader.py:563-578 | a group's bucket built pass by pass lists its experiments' names in order and, per metric, their contributions concatenated in the same order |
| ExperimentMatLoader.FoldAddToDiv | data_processing/experiment_mat_loader.py:581-596 | a DIV's bucket built pass by pass holds the names and the groups of its experiments position by position, and their contributions per metric |
| ExperimentMatLoader.FoldAddName | data_processing/experiment_mat_loader.py:539 | the per-group experiment list built pass by pass is the names in input order |
| ExperimentMatLoader.FoldAddToDivIndex | data_processing/experiment_mat_loader.py:540-542 | a group's DIV index built pass by pass is its experiments' names bucketed by DIV |
| ExperimentMatLoader.ConvertedParts | data_processing/experiment_mat_loader.py:501-599 | the converted format, part by part, equals the groupings of the experiments, with the DIV list sorted |
| ExperimentMatLoader.ConvertGroups | data_processing/experiment_mat_loader.py:529-533 | the group list holds every experiment's stripped group once in order of first appearance, and by_group, info.groups, info.experiments and info.divs are keyed by exactly that list |
| ExperimentMatLoader.ConvertDivs | data_processing/experiment_mat_loader.py:535-599 | the DIV list is strictly increasing and holds exactly the experiments' DIVs; by_div has one entry per DIV |
| ExperimentMatLoader.ConvertGroupBucket | data_processing/experiment_mat_loader.py:563-578 | a group's bucket and its info.experiments entry list that group's experiments in input order, with their contributions per metric |
| ExperimentMatLoader.ConvertDivBucket | data_processing/experiment_mat_loader.py:581-596 | a DIV's bucket lists the names and the groups of the experiments at that DIV, with as many groups as names |
| ExperimentMatLoader.ConvertDivIndex | data_processing/experiment_mat_loader.py:540-542 | info.divs of a group is keyed by that group's DIVs and lists, under each, its experiments at that DIV in input order |
| ExperimentMatLoader.GroupDivIndex | data_processing/experiment_mat_loader.py:540-542 | a group's DIV index equals the names of its own experiments bucketed by DIV |
| ExperimentMatLoader.DivNames | data_processing/experiment_mat_loader.py:540-542 | bucketing names by DIV files each DIV once and lists under it the names of the experiments at that DIV |
| ExperimentMatLoader.ConvertByExperiment | data_processing/experiment_mat_loader.py:522-526 | by_experiment has one entry per name, holding the record of the last experiment with that name |
| DataLoader.FirstDivPart | data_processing/data_loader.py:67-70 | a part found is one of the parts and mentions "DIV" |
| DataLoader.FirstDivPartOfFilter | data_processing/data_loader.py:67-70 | the part searched for is the head of the comprehension's list of parts mentioning "DIV", and nothing when that list is empty |
| DataLoader.DivKeyOfDivParts | data_processing/data_loader.py:67-70 | the DIV key is read from the first entry of the comprehension's list, and exists exactly when that list is non-empty |
| DataLoader.DivKeyPresent | data_processing/data_loader.py:67-68 | an experiment has a DIV key exactly when one of its `_`-separated parts contains "DIV" |
| DataLoader.DivKeyFirstPart | data_processing/data_loader.py:67-70 | the key is read from the first part containing "DIV", whatever later parts say |
| DataLoader.LagOfRestRoundTrip | data_processing/data_loader.py:78-84 | the lag written after `_nodeMetrics_lag` in a file name is the lag read back, for every integer lag |
| DataLoader.LagAsWrittenMisreads | data_processing/data_loader.py:76-84 | in a folder holding only the experiment `E_DIV1_lag1.x` with the file of lag 5, the scan as written lists lag 1 and not 5, and the corrected scan lists 5 and not 1 |
| DataLoader.ReadersOnMisread | data_processing/data_loader.py:82 | for the experiment `E_DIV1_lag1.x`, the as-written reading of `E_DIV1_lag1.x_nodeMetrics_lag5.mat` gives lag 1 and the corrected reading gives lag 5 |
| DataLoader.MisreadHasDiv | data_processing/data_loader.py:67-68 | `E_DIV1_lag1.x` has a `_`-part mentioning "DIV", so its lag files are listed |
| DataLoader.OneFileLags | data_processing/data_loader.py:68-90 | a scan of one experiment with a DIV part and one lag file lists exactly the lag read from that file, for any lag reading |
| DataLoader.CorrectedLagRoundTrip | data_processing/data_loader.py:78-84 | the corrected reading gives back the lag written after the matched `_lag`, whatever the experiment is called |
| DataLoader.ExpLags | data_processing/data_loader.py:68-87 | an experiment without a DIV part contributes no lag; one with a DIV part contributes exactly the lags read from its listed files |
| DataLoader.ScanGraphData | data_processing/data_loader.py:38-92 | for any lag reading, the group list is the folder listing; experiments and DIV indices are keyed by exactly the distinct groups; the lag list is strictly increasing; the source's reading is AsWrittenReader |
| DataLoader.ScanLags | data_processing/data_loader.py:76-90 | for any lag reading, a lag is listed exactly when an experiment with a DIV part has a lag file that reads as it |
| DataLoader.ScanExperiments | data_processing/data_loader.py:53-74 | with distinct group folders, each group's experiment list is its folder's listing, complete and in order, and its DIV index is that of its own experiments |
| DataLoader.DivIndexGet | data_processing/data_loader.py:66-74 | a group's bucket for a DIV lists, in order, exactly its experiments whose first DIV part gives that DIV |
| DataLoader.SortedNumDivs | data_processing/data_loader.py:103 | numeric DIVs come out without repeats, strictly increasing, holding exactly the DIVs given |
| DataLoader.SortedTextDivs | data_processing/data_loader.py:103 | text DIVs come out without repeats, strictly increasing, holding exactly the DIVs given |
| DataLoader.CompileDivs | data_processing/data_loader.py:103 | compiling the DIVs fails exactly when numbers and texts are mixed, with Python's comparison error; otherwise the result is strictly increasing and holds exactly the DIVs the groups list |
| DataLoader.DivIndexKeys | data_processing/data_loader.py:66-74 | a DIV is a key of a group's index exactly when one of its experiments has a DIV part giving it |
| DataLoader.ScanDivKeysSound | data_processing/data_loader.py:72-74 | every DIV the groups list comes from some experiment's DIV part |
| DataLoader.ScanDivKeysComplete | data_processing/data_loader.py:72-74 | with distinct group folders, every experiment's DIV part gives a listed DIV |
| DataLoader.ScanDivKeys | data_processing/data_loader.py:53-74 | with distinct group folders, the DIVs listed are exactly the first-part DIVs of the experiments that have one |
| DataLoader.LoadGroup | data_processing/data_loader.py:549-555 | every experiment taken up belongs to the group and carries the DIV its first DIV part gives |
| DataLoader.LoadGroupNames | data_processing/data_loader.py:549-553 | a group's experiments are taken up exactly when they have a DIV part, in listing order |
| DataLoader.LoadOrder | data_processing/data_loader.py:548-555 | the loop succeeds exactly when every group has an experiments entry; every experiment it takes up belongs to a listed group and has a DIV part giving its DIV |
| DataLoader.InitialRoleCounts | data_processing/data_loader.py:696-703 | a fresh count record holds exactly the six nodal roles, in order |
| DataLoader.CountRoles | data_processing/data_loader.py:778-779 | the roles keep their order, and each count grows by the number of equal entries among the file's roles |
| DataLoader.RoleCountsAccumulate | data_processing/data_loader.py:778-779 | after several files each role's count is the number of equal entries among all their roles together |
| DataLoader.RoleCountsStep | data_processing/data_loader.py:778-779 | counting one more file on top of the counts so far gives the counts of both together |
| DataLoader.RoleNamesDistinct | data_processing/data_loader.py:696-703 | the six role names differ from each other |
| DataLoader.SumOfCountEntries | data_processing/data_loader.py:794 | with distinct names, the counts add up to the number of entries carrying one of those names |
| DataLoader.RoleTotal | data_processing/data_loader.py:794 | the total of the counts is the number of roles, across all files, that carry one of the six names |
| DataLoader.EntryBelowSum | data_processing/data_loader.py:794 | no count exceeds the total |
| DataLoader.SumOfShares | data_processing/data_loader.py:796-800 | the shares times the total give back the sum of the counts |
| DataLoader.SharesBounded | data_processing/data_loader.py:796-800 | with a positive total every share lies between 0 and 1 |
| DataLoader.SharesSumToOne | data_processing/data_loader.py:796-800 | with a positive total the shares add up to 1 |
| DataLoader.RoleProportions | data_processing/data_loader.py:794-802 | the same roles as the counts, each share in [0, 1]; with a positive total each share is its count over the total and they add up to 1, otherwise every share is 0 |
| NeuronalActivity.PlotGroups | components/neuronal_activity.py:500-503 | with no selection every group is shown; otherwise the selected groups present in the data, in selection order, and every one of them |
| NeuronalActivity.PlotDivs | components/neuronal_activity.py:505-508 | with no selection all DIVs in ascending order, as a permutation of the data's DIVs; otherwise the selected DIVs present in the data, in selection order, and every one of them |
| NeuronalActivity.RecordingIndices | components/neuronal_activity.py:551-555 | exactly the positions of the experiments whose first DIV part gives the DIV, strictly ascending |
| NeuronalActivity.RecordingPart | components/neuronal_activity.py:550-565 | fails exactly when some experiment matches and the stored metric is not a list; when the list reaches the last matching position, the values at the matching positions in order; otherwise nothing |
| NeuronalActivity.RecordingIndicesBelowLast | components/neuronal_activity.py:557-558 | in an ascending index list no index exceeds the last, so one length test covers every index |
| NeuronalActivity.NodeMatchAsWrittenOvermatches | components/neuronal_activity.py:569 | the experiment `S_DIV50` passes the node-level test for DIV 5 as well as for DIV 50, while the recording-level test accepts it only for DIV 50 |
| NeuronalActivity.ExpActivity | components/neuronal_activity.py:570-572 | an experiment missing from by_experiment gives nothing; otherwise the read raises exactly when the activity is None or the stored metric is not a list, and gives the stored list, or nothing when the metric is missing |
| NeuronalActivity.NodePart | components/neuronal_activity.py:568-572 | succeeds exactly when every accepted experiment's activity can be read, and then is their values concatenated in listing order |
| NeuronalActivity.CellData | components/neuronal_activity.py:547-572 | for any node test: a group record without experiment names raises; otherwise the cell raises exactly when a recording metric has matching positions and a stored value that is not a list, or an accepted experiment's activity raises; on success it is the recording-level part (empty for a node metric) followed by the accepted experiments' activity in listing order; the source's test is NodeMatchAsWrittenOf |
| NeuronalActivity.CellNodeSources | components/neuronal_activity.py:568-572 | node-level data reaches a cell only from listed experiments whose first DIV part is that DIV |
| NeuronalActivity.DetailedStatsOf | components/neuronal_activity.py:397-438 | nothing for no data; data holding NaN gives NaN statistics and no outliers; otherwise the given moments; one value has no spread and a degenerate interval; from two values the sample spread and a coefficient of variation of 0 for a zero mean; outliers only from five values on, exactly the values outside Tukey's fences, in order |
| NeuronalActivity.FiniteFences | components/neuronal_activity.py:426-429 | with finite quartiles a value is an outlier exactly when it lies below q25 - 1.5 iqr or above q75 + 1.5 iqr |
| NeuronalActivity.InfiniteQuartilesNoOutliers | components/neuronal_activity.py:426-429 | ordered quartiles of which one is infinite make no value an outlier |
| NeuronalActivity.EffectSize | components/neuronal_activity.py:472-479 | negligible, small, medium and large exactly on the magnitude bands below 0.2, below 0.5, below 0.8 and from 0.8 |
| NeuronalActivity.StatisticalTest | components/neuronal_activity.py:441-491 | no result when either sample has fewer than three values; the t-test unless both samples exceed eight values and either fails normality; significant exactly when p is below 0.05; Cohen's d is 0 without pooled spread |
| NeuronalActivity.SignificanceLabel | components/neuronal_activity.py:739-744 | "ns" when not significant, otherwise one to three stars |
| NeuronalActivity.SignificanceOfTest | components/neuronal_activity.py:739-744 | for a test result the label is "ns" exactly when p is at least 0.05 |
| NetworkActivity.AsList | components/network_activity.py:79-83 | an array is taken as it is, a single value becomes a one-element list |
| NetworkActivity.DivValuesAsWritten | components/network_activity.py:86-111 | every value kept is finite, no more values than survive the finiteness filter, and without experiment names every DIV gets all of them |
| NetworkActivity.Sources | components/network_activity.py:105-107 | exactly the positions of the experiments whose name matches the DIV and whose value is finite, ascending |
| NetworkActivity.DivValues | components/network_activity.py:86-111 | without names all finite values; otherwise the k-th value is the value of the k-th experiment, in order, whose name matches and whose value is finite |
| NetworkActivity.PartMatchAsWrittenOvermatches | components/network_activity.py:106 | the experiment `S_DIV50` passes the written per-part test for DIV 5 as well as for DIV 50, while its first DIV part gives DIV 50 only |
| NetworkActivity.DivValuesMisattributes | components/network_activity.py:86-107 | a non-finite value before a matching experiment shifts later values back: the DIV of one experiment receives the value measured in another, which pairing by experiment does not |
| NetworkActivity.GroupDivValues | components/network_activity.py:67-111 | for any DIV test: a column exists exactly when the group and metric are present and have a finite value; its values are finite; without experiment names they are all the finite values in order; with names the k-th value is the value of the k-th accepted experiment whose own value is finite |
| NetworkActivity.LagDivValues | components/network_activity.py:279-286 | fails only without experiment names, or without the metric once some experiment matches; otherwise the metric's entries of the matching experiments that the list reaches, in order |
| NetworkActivity.LagPoints | components/network_activity.py:277-291 | for any DIV test: the walk succeeds exactly when every lag the group has can be read; the points' lags are a subsequence of the lags walked; each point holds the non-empty values of its lag; every lag with values has a point |
| NetworkActivity.LagSeriesAscending | components/network_activity.py:266-291 | for any DIV test, the line of a DIV lists its lags in ascending order, each one a lag of the data |
| NetworkActivity.ExpRoleShare | components/network_activity.py:383-400 | an experiment of the group and DIV raises exactly when its lags are None, its record at the lag is None, or its roles are None; a share is recorded exactly for such an experiment with a non-empty role list at the lag, and it is the fraction of nodes holding the role, in [0, 1] |
| NetworkActivity.CartAt | components/network_activity.py:388-391 | looking up a lag raises exactly when the lags are None or the record stored at the lag is None; otherwise the stored record, if any |
| NetworkActivity.RoleShareFailureIndependentOfRole | components/network_activity.py:374-400 | whether an experiment's share raises does not depend on the role asked for |
| NetworkActivity.DivProportions | components/network_activity.py:379-400 | succeeds exactly when no experiment's share raises, else fails with the first error; the proportions are, in by_experiment order, the shares of exactly the experiments that have one, each in [0, 1] |
| NetworkActivity.RoleDivs | components/network_activity.py:371-404 | succeeds exactly when no DIV's proportions raise, else fails with the first error in ascending DIV order; the DIVs on a role's line are ascending, taken from the sorted DIVs, and are exactly those with at least one proportion |
| NetworkActivity.CartographyData | components/network_activity.py:457-490 | succeeds exactly when every experiment of the group and DIV has readable lags and every drawn record gives each colored role a p and z entry; the records drawn are, in by_experiment order, exactly the records at the lag of those experiments that hold p, z and roles |
| NeuronalCallbacks.MetricToPlot | callbacks/neuronal_callbacks.py:26-27 | the empty figure is drawn exactly when no metric, or the empty metric, is selected; otherwise the selected metric is plotted |
| NeuronalCallbacks.MetricValue | callbacks/neuronal_callbacks.py:112-113 | an experiment has a value for the metric exactly when its activity exists, is not None and stores the metric, and the value is the stored one |
| NeuronalCallbacks.Regroup | callbacks/neuronal_callbacks.py:101-120 | refiling succeeds exactly when every experiment's key can be read and names a pre-created key; otherwise it fails with the error of the first experiment that does not fit; the result is keyed by exactly the pre-created keys, each holding the experiments filed under it in input order |
| NeuronalCallbacks.KeysCoverSnoc | callbacks/neuronal_callbacks.py:108-120 | every key is pre-created for a list exactly when it is for the list without its last entry and for that entry |
| NeuronalCallbacks.SkipStep | callbacks/neuronal_callbacks.py:108-113 | an experiment without a key leaves every column as it was |
| NeuronalCallbacks.FileStep | callbacks/neuronal_callbacks.py:119-120 | filing an experiment extends its own key's column and no other, and keeps the keys |
| NeuronalCallbacks.RecordingByGroup | callbacks/neuronal_callbacks.py:67-120 | a group list that is stored but is not a list raises first, then an activity that is None; otherwise succeeds exactly when every experiment carrying the metric names a listed group; then every listed group has a column, holding in order the values and the names of its experiments that carry the metric |
| NeuronalCallbacks.GroupColumnsAligned | callbacks/neuronal_callbacks.py:119-120 | a group's value and name columns have the same length, and value k is the metric of the experiment named at position k, of that group |
| NeuronalCallbacks.FiledEntry | callbacks/neuronal_callbacks.py:108-120 | each experiment filed under a group is an experiment of the data, of that group, storing the metric |
| NeuronalCallbacks.RecordingByAge | callbacks/neuronal_callbacks.py:163-186 | succeeds exactly when every experiment with a group and a DIV part has an activity that is not None and, when it carries the metric, a listed DIV; a failure is the first such misfit, with the matching error; then every listed DIV has a column holding in order the values, names and groups of its experiments |
| NeuronalCallbacks.DivFits | callbacks/neuronal_callbacks.py:174-182 | an experiment fits the by-age loop exactly when, having a group and a DIV part, its activity is not None and a carried metric has a listed DIV; a misfit raises the None error or the KeyError accordingly |
| UtilsApi.AllMetrics | utils/__init__.py:111-118 | the node and recording lists are the option values of the two dropdown lists, in dropdown order; the two level lists are the processors' lists |
| UtilsApi.OfferedMetricsAvailable | utils/__init__.py:114-115 | every metric a dropdown offers has a processor |
| UtilsApi.Errors | utils/__init__.py:145-157 | the messages kept are in check order, and each message is present exactly when its check fails |
| UtilsApi.ValidateRequest | utils/__init__.py:143-162 | valid exactly when there is no message; one message per failed check, in the order metric, comparison against the neuronal list, groups, DIVs |
| UtilsApi.ErrorsDistinct | utils/__init__.py:148-157 | the four messages differ from each other whatever the metric and the comparison |
| UtilsApi.KeptInOrder | utils/__init__.py:145-157 | keeping some of four messages in their order gives a subsequence of the four |
| UtilsApi.RouteRequest | utils/__init__.py:192-201 | the two by-group comparisons and only they draw the by-group plot, the two by-age ones and only they the by-age plot, both on the metric's stored field; anything else draws an error plot naming the comparison |
| UtilsApi.RoutingAgreesWithValidation | utils/__init__.py:192-201 | a comparison passes the neuronal validation exactly when routing draws a plot for it rather than the error plot |

## Findings

| source | as written | input that shows it | evidently intended | confidence | as-written member | corrected member |
|---|---|---|---|---|---|---|
| components/network_activity.py:86-107 | the non-finite values are dropped first, and then the i-th surviving value is given to the DIV of the i-th experiment name | names `[a, b]` with `a` at the plotted DIV and `b` elsewhere, values `[NaN, v]`: the DIV of `a` receives `v`, which was measured in `b` | each value stays with its own experiment, and a non-finite value is dropped together with its name | not executed | NetworkActivity.DivValuesAsWritten, NetworkActivity.DivValuesMisattributes | NetworkActivity.DivValues |
| components/neuronal_activity.py:569 | node-level data goes to a DIV when the text `DIV{div}` occurs anywhere in the experiment name; the loop variable `div_part` is unused | the experiment `S_DIV50` is accepted for DIV 5 as well as for DIV 50, so its values are plotted twice | the same rule as the recording-level test at lines 553-554: the first `_`-part containing "DIV" gives the DIV | not executed | NeuronalActivity.NodeMatchAsWritten, NeuronalActivity.NodeMatchAsWrittenOvermatches | NeuronalActivity.NodeMatch, NeuronalActivity.CellNodeSources |
| components/network_activity.py:106 | both network plots send an experiment to a DIV when `DIV{div}` is a substring of one of its `_`-parts (the same test recurs at line 284) | the experiment `S_DIV50` passes the test for DIV 5 as well as for DIV 50 | the first `_`-part containing "DIV" gives the DIV, as the neuronal recording-level test reads it | not executed | NetworkActivity.PartMatchAsWritten, NetworkActivity.PartMatchAsWrittenOvermatches | NeuronalActivity.NodeMatch, NeuronalActivity.CellNodeSources |
| data_processing/data_loader.py:82 | the lag is read from the text after the first `_lag` in the file name | experiment `E_DIV1_lag1.x`, file `E_DIV1_lag1.x_nodeMetrics_lag5.mat`: the scan records lag 1 instead of 5 | the lag is the text after the file's own `{exp}_nodeMetrics_lag` prefix, up to the next `.` | not executed | DataLoader.AsWrittenReader, DataLoader.AsWrittenLag, DataLoader.LagAsWrittenMisreads | DataLoader.CorrectedReader, DataLoader.CorrectedLag, DataLoader.CorrectedLagRoundTrip |
| utils/metric_processors.py:902-905 | an experiment without `recording_metrics` makes the processor import `extract_recording_level_metrics` from `data_processing.experiment_mat_loader`, which defines no such function, and neither loader stores `recording_metrics` | one experiment `E_DIV14` of group `G` with no `recording_metrics`: the processor raises ImportError | the recording metrics are computed by an extractor that exists, and the metric is read from them | not executed | MetricProcessors.ProcessFactoryAsWritten, MetricProcessors.FactoryImportFails, MetricProcessors.FactoryAsWrittenRaises | MetricProcessors.ProcessFactory, MetricProcessors.FactoryNeverRaises |

`DataLoader.ScanGraphData` and `DataLoader.ScanLags` take the lag reading
as a parameter, and `NeuronalActivity.CellData`,
`NetworkActivity.GroupDivValues` and `NetworkActivity.LagPoints` take the
DIV test. Their contracts hold for any choice. The source's own choices are
`DataLoader.AsWrittenReader`, `NeuronalActivity.NodeMatchAsWrittenOf` and
`NetworkActivity.PartMatchAsWrittenOf`. The corrected ones are
`DataLoader.CorrectedReader` and `NeuronalActivity.NodeMatchOf`.
`NetworkActivity.GroupDivValues` pairs each value with its own experiment,
which is the corrected pairing.

## Left out

- File and MAT-file input is not modelled: `load_mat_file`, the h5py, mat73 and scipy readers, `find_experiment_mat_files`, `load_single_experiment_file`, and the directory listing and glob of the scans. The scan receives the listed folders and lag-file names as data, in the order the filesystem lists them.
- Plotly figure construction is not modelled: traces, layout, colours, annotation placement and random jitter. The model states which values each plot receives and which labels it shows.
- Statistics computed by numpy and scipy are inputs. These are the mean, median, standard deviation, SEM, percentiles, the t interval, and the Shapiro-Wilk, t and Mann-Whitney tests, passed in as `Moments` and `TestInputs`. Kernel density estimates are left out.
- Floating-point values are exact reals, so rounding and overflow are not modelled.
- Only ASCII characters are digits or whitespace. Python's `\d`, `isdigit` and `strip` also accept other Unicode characters.
- Diagnostic `print` output and the debug loops of the recording callback are left out. The wall-clock timestamp of the export file name is a parameter.
- `extract_recording_level_metrics` is defined nowhere in the repository: the module it is imported from has no such function. The corrected factory processor `MetricProcessors.ProcessFactory` takes the extractor as the parameter `extract`, and `MetricProcessors.ProcessMetric` passes it on. The as-written processor, `MetricProcessors.ProcessFactoryAsWritten`, fails at the import (Findings).
- MetricProcessors.ProcessFactory: the extracted metrics are not written back into the experiment records. The source stores them under `recording_metrics` in the `by_experiment` dict that the result shares, so in the corrected processor the returned `by_experiment` would gain that key. The as-written processor never writes back, because the import fails first.
- MetricProcessors.ProcessMetric: the processors registered by the factory run the corrected `ProcessFactory`. The source's registry raises the ImportError of `ProcessFactoryAsWritten` for any experiment without cached recording metrics.
- MetricProcessors.ScalarContribution: a one-element array is stored as its element. The source appends the one-element array object itself, which the buckets of numbers here cannot hold.
- NetworkActivity.RoleDivs: DIVs are numbers. `DataLoader.CompileDivs` can compile text DIVs, which the source sorts and matches in the network plots (components/network_activity.py:93, 265 and 371). `Dataset.divs` and the plot inputs hold numeric DIVs only, so a dataset with text DIVs does not reach the plots in this model.
- NetworkActivity.GroupDivValues: takes a numeric DIV only, for the reason given for `RoleDivs`.
- NetworkActivity.LagPoints: takes a numeric DIV only, for the reason given for `RoleDivs`.
- NeuronalActivity.StatisticalTest: the `except` that turns a scipy error into no result is not modelled, because the library's results are inputs that always exist.
- NeuronalActivity.StatisticalTest: the p-values in `TestInputs` are reals, so the NaN p-value scipy returns, for example for a t-test on two constant samples, cannot be given. Any p of at least 0.05 gives the same `significant` flag and label as NaN does, but the result's `pValue` differs.
- NetworkActivity.LagPoints: a lag entry without `network_metrics` is not modelled, because the per-lag record is taken to be that entry. The metric's entry is taken to be a list. The mean and SEM of each point are left to numpy.
- NetworkActivity.CartographyData: the contract states which records are drawn and when drawing raises. The traces themselves are plotting: one per colored role in set order, holding the p and z values of that role's nodes. The boundary lines drawn from `boundaries` are left out too.
- NetworkActivity.GroupDivValues: with experiment names, each value is paired with its own experiment, the corrected pairing. The source's pairing of the i-th finite value with the i-th name is `NetworkActivity.DivValuesAsWritten`, listed under Findings.
- ExperimentMatLoader.UnwrapNestedArray: a leaf that is not a string stands for its `str()`, which is not spelled out.
- ExperimentMatLoader.ConvertToDashboardFormat: the experiment's `Info.Grp[0]` and `Info.DIV[0]` arrive already unwrapped, and the `int()` of an array DIV is not modelled.
- ExperimentMatLoader.ContributionsFrom: an array stored for a recording-level metric is treated as raising. numpy raises only for arrays of two or more values; shorter ones would be appended as arrays.
- Metric arrays holding `None` are not modelled, because `Num` has no None. A metric entry as a whole may be None.
- A `by_experiment` entry with a missing `group` key and one whose group is None are the same record in the model. Both are `None`.
- NeuronalCallbacks.RecordingByGroup: an experiment whose group is None is skipped, as one without a group key is. The source would file it under None and raise a KeyError.
- NeuronalCallbacks.RecordingByAge: an experiment whose group is None is skipped, as one without a group key is, because the record cannot tell the two apart. The source checks only that the `group` key exists, so such an experiment is treated like any other: its value and name go into its DIV's column with None as its group, a None activity raises a TypeError, and an unlisted DIV raises a KeyError. The model drops the experiment from the column and succeeds in those two cases.
- NeuronalCallbacks.RecordingByGroup: `data['by_group']` is taken to be present. Without it the debug loop raises a KeyError as soon as a group is listed.
- MetricProcessors.NodeContributionSpec: for the first three experiments the source lists the activity's keys before testing it, so an activity that is None raises an AttributeError there. The model gives the TypeError text for every experiment. Which experiments raise is the same.
- NeuronalCallbacks.RecordingByAge: a negative DIV in `divs` is read as DIV 0. The DIVs parsed from experiment names are never negative.
- The remaining plotting of components/neuronal_activity.py and components/network_activity.py is left out. This covers the by-age violin layout, the DIV comparison annotations and the figure sizes. So are Dash callback registration, app start-up and the network callbacks.

=== FILE: config.dfy ===
/**
 * utils/config.py: metric catalogues, validation lists and the small
 * lookup functions built on them.
 */
module Config {

  /** `MEA_NAP_SETTINGS['active_electrode_threshold']`, in Hz. */
  const ActiveElectrodeThreshold: real := 0.01

  /** `PLOT_CONFIG['height']`, in pixels. */
  const PlotHeight: nat := 500

  /** One entry of a metric option list: display label, value and aggregation tag. */
  datatype MetricOption = MetricOption(display: string, value: string, aggregation: string)

  const NeuronalNodeMetrics: seq<MetricOption> := [
    MetricOption("Mean Firing Rate Node", "FR", "node_level"),
    MetricOption("Unit Burst Rate (per minute)", "channelBurstRate", "node_level"),
    MetricOption("Unit within Burst Firing Rate", "channelFRinBurst", "node_level"),
    MetricOption("Unit Burst Duration", "channelBurstDur", "node_level"),
    MetricOption("Unit ISI within Burst", "channelISIwithinBurst", "node_level"),
    MetricOption("Unit ISI outside Burst", "channeISIoutsideBurst", "node_level"),
    MetricOption("Unit fraction for spikes in bursts", "channelFracSpikesInBursts", "node_level")
  ]

  const NeuronalRecordingMetrics: seq<MetricOption> := [
    MetricOption("Mean Firing Rate Active Node", "FRActive", "recording_level"),
    MetricOption("Number of Active Electrodes", "numActiveElec", "recording_level"),
    MetricOption("Mean Firing Rate", "FRmean", "recording_level"),
    MetricOption("Median Firing Rate", "FRmedian", "recording_level"),
    MetricOption("Network Burst Rate (per min)", "NBurstRate", "recording_level"),
    MetricOption("Mean Network Burst Length (s)", "meanNBstLengthS", "recording_level"),
    MetricOption("Mean ISI within Network Bursts (ms)", "meanISIWithinNbursts_ms", "recording_level"),
    MetricOption("Mean ISI outside Network Bursts (ms)", "meanISIoutsideNbursts_ms", "recording_level"),
    MetricOption("CV of Inter-Network-Burst Intervals", "CVofINBI", "recording_level"),
    MetricOption("Fraction of Spikes in Network Bursts", "fracInNburst", "recording_level"),
    MetricOption("Mean Channels in Network Bursts", "meanNumChansInvolvedInNbursts", "recording_level")
  ]

  /** `METRIC_FIELD_MAP`. */
  const MetricFieldMap: map<string, string> := map[
    "FRActive" := "FRActiveNode",
    "FR" := "FR",
    "channelBurstRate" := "channelBurstRate",
    "channelFRinBurst" := "channelFRinBurst",
    "channelBurstDur" := "channelBurstDur",
    "channelISIwithinBurst" := "channelISIwithinBurst",
    "channeISIoutsideBurst" := "channeISIoutsideBurst",
    "channelFracSpikesInBursts" := "channelFracSpikesInBursts",
    "numActiveElec" := "numActiveElec",
    "NBurstRate" := "NBurstRate",
    "FRmean" := "FRmean",
    "FRmedian" := "FRmedian"
  ]

  /** `DEFAULT_VALUES['node_metric']` and `DEFAULT_VALUES['recording_metric']`. */
  const DefaultNodeMetric: string := "FR"
  const DefaultRecordingMetric: string := "numActiveElec"

  /** `MATLAB_COLORS`: two DIVs have their own colour. */
  const MatlabColors: map<int, string> := map[50 := "#FFD700", 53 := "#8A2BE2"]
  const MatlabDefaultColor: string := "#1f77b4"

  const ValidActivityTypes: seq<string> := ["neuronal", "network"]
  const ValidComparisonTypes: seq<string> := ["nodebygroup", "nodebyage", "recordingsbygroup", "recordingsbyage"]
  const ValidNetworkComparisonTypes: seq<string> :=
    ["nodebygroup", "nodebyage", "recordingsbygroup", "recordingsbyage", "graphmetricsbylag", "nodecartography"]

  const NodeLevelMetrics: seq<string> := [
    "FR", "channelBurstRate", "channelFRinBurst",
    "channelBurstDur", "channelISIwithinBurst", "channeISIoutsideBurst",
    "channelFracSpikesInBursts"
  ]

  const RecordingLevelMetrics: seq<string> := [
    "FRActive", "numActiveElec", "NBurstRate", "FRmean", "FRmedian", "meanNBstLengthS",
    "meanISIWithinNbursts_ms", "meanISIoutsideNbursts_ms", "CVofINBI",
    "fracInNburst", "meanNumChansInvolvedInNbursts"
  ]

  /** The `value` of every option, in order. */
  function OptionValues(opts: seq<MetricOption>): (r: seq<string>)
    ensures |r| == |opts|
    ensures forall i | 0 <= i < |opts| :: r[i] == opts[i].value
  {
    seq(|opts|, i requires 0 <= i < |opts| => opts[i].value)
  }

  /** `get_metric_field_name`: the stored field behind a metric name. */
  function MetricFieldName(metric: string): (r: string)
    ensures metric == "FRActive" ==> r == "FRActiveNode"
    ensures metric != "FRActive" ==> r == metric
  {
    if metric in MetricFieldMap then MetricFieldMap[metric] else metric
  }

  /**
   * Mapping a field name again changes nothing, and two metric names read
   * the same field exactly when they are equal or are FRActive and
   * FRActiveNode.
   */
  lemma FieldNameSharing(a: string, b: string)
    ensures MetricFieldName(MetricFieldName(a)) == MetricFieldName(a)
    ensures MetricFieldName(a) == MetricFieldName(b) <==>
              a == b || ({a, b} == {"FRActive", "FRActiveNode"})
  {
    if {a, b} == {"FRActive", "FRActiveNode"} {
      assert a in {"FRActive", "FRActiveNode"} && b in {"FRActive", "FRActiveNode"};
    }
    if a != b && MetricFieldName(a) == MetricFieldName(b) {
      assert a == "FRActive" || b == "FRActive";
    }
  }

  predicate IsNodeLevelMetric(metric: string) {
    metric in NodeLevelMetrics
  }

  predicate IsRecordingLevelMetric(metric: string) {
    metric in RecordingLevelMetrics
  }

  datatype Aggregation = NodeLevel | RecordingLevel | UnknownAggregation

  /** `get_aggregation_type`. */
  function AggregationType(metric: string): (r: Aggregation)
    ensures r == NodeLevel <==> IsNodeLevelMetric(metric)
    ensures r == RecordingLevel ==> IsRecordingLevelMetric(metric)
  {
    if IsNodeLevelMetric(metric) then NodeLevel
    else if IsRecordingLevelMetric(metric) then RecordingLevel
    else UnknownAggregation
  }

  /** The node-level and recording-level catalogues share no metric. */
  lemma MetricListsDisjoint(metric: string)
    ensures !(IsNodeLevelMetric(metric) && IsRecordingLevelMetric(metric))
  {
    if IsNodeLevelMetric(metric) {
      assert metric[0] == 'F' || metric[0] == 'c';
      assert metric == "FR" || metric[..7] == "channel" || metric[..6] == "channe";
    }
  }

  /** Because the lists are disjoint, the aggregation type is exactly one of the three. */
  lemma AggregationExactlyOne(metric: string)
    ensures AggregationType(metric) == NodeLevel <==> IsNodeLevelMetric(metric)
    ensures AggregationType(metric) == RecordingLevel <==> IsRecordingLevelMetric(metric)
    ensures AggregationType(metric) == UnknownAggregation <==> !IsNodeLevelMetric(metric) && !IsRecordingLevelMetric(metric)
  {
    MetricListsDisjoint(metric);
  }

  /** The node option list offers exactly the node-level catalogue, in order. */
  lemma NodeOptionsMatchCatalogue()
    ensures OptionValues(NeuronalNodeMetrics) == NodeLevelMetrics
    ensures forall o | o in NeuronalNodeMetrics :: o.aggregation == "node_level" && IsNodeLevelMetric(o.value)
  {
  }

  /**
   * The recording option list offers every recording-level metric once,
   * in its own order, each tagged "recording_level".
   */
  lemma RecordingOptionsMatchCatalogue()
    ensures |NeuronalRecordingMetrics| == |RecordingLevelMetrics|
    ensures forall o | o in NeuronalRecordingMetrics :: o.aggregation == "recording_level" && IsRecordingLevelMetric(o.value)
    ensures forall m | m in RecordingLevelMetrics :: m in OptionValues(NeuronalRecordingMetrics)
  {
    var vs := OptionValues(NeuronalRecordingMetrics);
    assert vs == ["FRActive", "numActiveElec", "FRmean", "FRmedian", "NBurstRate", "meanNBstLengthS",
                  "meanISIWithinNbursts_ms", "meanISIoutsideNbursts_ms", "CVofINBI",
                  "fracInNburst", "meanNumChansInvolvedInNbursts"];
  }

  /** `get_matlab_color`. */
  function MatlabColor(div: int): (r: string)
    ensures div == 50 ==> r == "#FFD700"
    ensures div == 53 ==> r == "#8A2BE2"
    ensures div != 50 && div != 53 ==> r == MatlabDefaultColor
  {
    if div in MatlabColors then MatlabColors[div] else MatlabDefaultColor
  }

  /** `validate_activity_type`. */
  function ValidateActivityType(activity: string): (r: bool)
    ensures r <==> activity == "neuronal" || activity == "network"
  {
    activity in ValidActivityTypes
  }

  /** `validate_comparison_type`. */
  function ValidateComparisonType(comparison: string, activity: string): (r: bool)
    ensures !ValidateActivityType(activity) ==> !r
    ensures activity == "neuronal" ==> (r <==> comparison in ValidComparisonTypes)
    ensures activity == "network" ==> (r <==> comparison in ValidNetworkComparisonTypes)
  {
    if activity == "neuronal" then comparison in ValidComparisonTypes
    else if activity == "network" then comparison in ValidNetworkComparisonTypes
    else false
  }

  /** Every neuronal comparison is also a valid network comparison; the network list has two more. */
  lemma NeuronalComparisonsAreNetworkComparisons(comparison: string)
    ensures ValidateComparisonType(comparison, "neuronal") ==> ValidateComparisonType(comparison, "network")
    ensures ValidateComparisonType("graphmetricsbylag", "network") && !ValidateComparisonType("graphmetricsbylag", "neuronal")
    ensures ValidateComparisonType("nodecartography", "network") && !ValidateComparisonType("nodecartography", "neuronal")
  {
  }

  /** `get_default_metric`. */
  function DefaultMetric(metricType: string): (r: string)
    ensures metricType in ["recording", "network"] <==> r == DefaultRecordingMetric
    ensures r == DefaultNodeMetric || r == DefaultRecordingMetric
  {
    if metricType in ["node", "electrode"] then DefaultNodeMetric
    else if metricType in ["recording", "network"] then DefaultRecordingMetric
    else DefaultNodeMetric
  }
}

=== FILE: dashboard_data.dfy ===
/**
 * The in-memory data shape shared by the loaders, the metric processors
 * and the plotting components: per-experiment records, per-group and
 * per-DIV buckets of parallel lists, and the dataset that holds them.
 */
module DashboardData {
  import opened Wrappers
  import opened Numeric
  import opened Seqs
  import opened Dicts

  /** A metric entry as stored in an `activity` dict: an array, a scalar or None. */
  datatype Field = Arr(items: seq<Num>) | Scalar(x: Num) | Null

  /**
   * A dict key that code tests with `in` before using its value: missing,
   * present holding None (which `in` and `len()` reject), or present
   * holding a value.
   */
  datatype Slot<+T> = Missing | NoneValue | Holds(value: T)

  const NoneNotIterable: string := "TypeError: argument of type 'NoneType' is not iterable"
  const NoLenError: string := "TypeError: object has no len()"
  const NotIterableError: string := "TypeError: object is not iterable"

  /**
   * One entry of `by_experiment`. For `group`, `div` and
   * `recording_metrics`, which the code reads with `.get()`, a missing key
   * and a None value are both `None`; `activity` keeps the two apart.
   */
  datatype ExpRecord = ExpRecord(
    group: Option<string>,
    div: Option<int>,
    activity: Slot<Dict<string, Field>>,
    recordingMetrics: Option<Dict<string, Num>>)

  /** The activity, or an empty one when the key is missing; used only where None is ruled out. */
  function ActivityOrEmpty(e: ExpRecord): Dict<string, Field> {
    if e.activity.Holds? then e.activity.value else []
  }

  /**
   * The metric's entry in the activity, looked up with `in` first: a
   * missing activity holds no metric, and an activity that is None makes
   * the membership test raise.
   */
  function ActivityEntry(e: ExpRecord, metric: string): (r: Result<Option<Field>>)
    ensures r.Failure? <==> e.activity.NoneValue?
    ensures e.activity.Missing? ==> r == Success(None)
    ensures e.activity.Holds? ==> r == Success(Get(e.activity.value, metric))
  {
    match e.activity
    case Missing => Success(None)
    case NoneValue => Failure(NoneNotIterable)
    case Holds(act) => Success(Get(act, metric))
  }

  /** A `by_group` entry: metric lists keyed by name, plus the optional `exp_names` list. */
  datatype GroupRecord = GroupRecord(fields: Dict<string, Field>, expNames: Option<seq<string>>)

  /** The dashboard's data dict; a missing top-level key is `None`. */
  datatype Dataset = Dataset(
    byGroup: Option<Dict<string, GroupRecord>>,
    byExperiment: Option<Dict<string, ExpRecord>>,
    groups: Option<seq<string>>,
    divs: Option<seq<int>>)

  /** Python truthiness of a stored metric: a non-empty list, a non-zero number. */
  predicate FieldTruthy(f: Field) {
    match f
    case Arr(xs) => |xs| > 0
    case Scalar(x) => x != Fin(0.0)
    case Null => false
  }

  /** Python truthiness of an optional group name: present and non-empty. */
  predicate GroupTruthy(g: Option<string>) {
    g.Some? && g.value != ""
  }

  /** Python truthiness of an optional DIV: present and non-zero. */
  predicate DivTruthy(d: Option<int>) {
    d.Some? && d.value != 0
  }

  /**
   * The selection rule used throughout the dashboard: the selected items
   * that exist in the data, in selection order, or everything available
   * when nothing is selected.
   */
  function SelectPresent<T(==)>(selected: seq<T>, available: seq<T>): (r: seq<T>)
    ensures selected == [] ==> r == available
    ensures selected != [] ==> IsSubseq(r, selected)
    ensures selected != [] ==> forall i | 0 <= i < |selected| :: selected[i] in r <==> selected[i] in available
    ensures selected != [] ==> forall k | 0 <= k < |r| :: r[k] in selected && r[k] in available
  {
    if selected == [] then available
    else
      var r := Filter((x: T) => x in available, selected);
      SubseqMembers(r, selected);
      r
  }
}

=== FILE: data_helpers.dfy ===
/**
 * utils/data_helpers.py: validation of the data dict, cleaning and
 * thresholding of value arrays, DIV recovery from experiment names, the
 * two DIV re-bucketing helpers and the per-metric quality report.
 */
module DataHelpers {
  import opened Wrappers
  import opened Numeric
  import opened Seqs
  import opened Text
  import opened Dicts
  import opened DashboardData
  import Utilities
  import MetricProcessors

  // ------------------------------------------------------------ validation

  /** `validate_data_structure`: every required key is in the dict. */
  function ValidateDataStructure<V>(data: Dict<string, V>, required: seq<string>): (r: bool)
    ensures r <==> forall i | 0 <= i < |required| :: HasKey(data, required[i])
    decreases |required|
  {
    if required == [] then true
    else ValidateDataStructure(data, required[..|required| - 1]) && HasKey(data, required[|required| - 1])
  }

  /** `validate_experiment_data`: the three keys every experiment record needs. */
  function ValidateExperimentData<V>(exp: Dict<string, V>): (r: bool)
    ensures r <==> HasKey(exp, "group") && HasKey(exp, "div") && HasKey(exp, "activity")
  {
    var required := ["group", "div", "activity"];
    var ok := ValidateDataStructure(exp, required);
    assert ok <==> HasKey(exp, required[0]) && HasKey(exp, required[1]) && HasKey(exp, required[2]);
    ok
  }

  /** The group is in `by_group`, stores the metric, and the stored value is truthy. */
  predicate HasMetricData(byGroup: Dict<string, GroupRecord>, group: string, metric: string) {
    match Get(byGroup, group)
    case None => false
    case Some(rec) =>
      match Get(rec.fields, metric)
      case None => false
      case Some(f) => FieldTruthy(f)
  }

  /** The loop of `validate_metric_data` over the listed groups. */
  function AllHaveMetricData(byGroup: Dict<string, GroupRecord>, groups: seq<string>, metric: string): (r: bool)
    ensures r <==> forall i | 0 <= i < |groups| :: HasMetricData(byGroup, groups[i], metric)
    decreases |groups|
  {
    if groups == [] then true
    else HasMetricData(byGroup, groups[0], metric) && AllHaveMetricData(byGroup, groups[1..], metric)
  }

  /** `validate_metric_data`. */
  function ValidateMetricData(data: Dataset, metric: string, groups: seq<string>): (r: bool)
    ensures data.byGroup.None? ==> !r
    ensures data.byGroup.Some? ==>
              (r <==> forall i | 0 <= i < |groups| :: HasMetricData(data.byGroup.value, groups[i], metric))
  {
    match data.byGroup
    case None => false
    case Some(bg) => AllHaveMetricData(bg, groups, metric)
  }

  /** `is_valid_numeric_value` for a number or None. */
  predicate IsValidNumericValue(v: Option<Num>) {
    v.Some? && IsFinite(v.value)
  }

  // --------------------------------------------------- cleaning and thresholds

  /** `clean_numeric_array`: the finite values, in order. */
  function CleanNumericArray(values: seq<Num>): (r: seq<Num>)
    ensures IsSubseq(r, values)
    ensures forall k | 0 <= k < |r| :: r[k].Fin?
    ensures forall i | 0 <= i < |values| && values[i].Fin? :: values[i] in r
    ensures |r| == Count(IsFinite, values)
  {
    Filter(IsFinite, values)
  }

  /** Cleaning a cleaned array changes nothing. */
  lemma CleanIdempotent(values: seq<Num>)
    ensures CleanNumericArray(CleanNumericArray(values)) == CleanNumericArray(values)
  {
    FilterFilter(IsFinite, IsFinite, IsFinite, values);
  }

  /** The four operations `filter_by_threshold` knows. */
  datatype Comparison = Greater | Less | GreaterEqual | LessEqual

  function ParseOperation(op: string): (r: Option<Comparison>)
    ensures r.Some? <==> op in ["greater", "less", "greater_equal", "less_equal"]
  {
    if op == "greater" then Some(Greater)
    else if op == "less" then Some(Less)
    else if op == "greater_equal" then Some(GreaterEqual)
    else if op == "less_equal" then Some(LessEqual)
    else None
  }

  /** The numpy comparison `x <op> t`. */
  predicate Satisfies(c: Comparison, x: Num, t: real) {
    match c
    case Greater => Gt(x, t)
    case Less => Lt(x, t)
    case GreaterEqual => Ge(x, t)
    case LessEqual => Le(x, t)
  }

  function Passes(c: Comparison, t: real): Num -> bool {
    (x: Num) => Satisfies(c, x, t)
  }

  /** A finite value that passes the comparison. */
  function FinitePasses(c: Comparison, t: real): Num -> bool {
    (x: Num) => x.Fin? && Satisfies(c, x, t)
  }

  /** `filter_by_threshold`: the cleaned values passing the comparison; an unknown operation raises. */
  function FilterByThreshold(values: seq<Num>, threshold: real, op: string): (r: Result<seq<Num>>)
    ensures r.Failure? <==> ParseOperation(op).None?
    ensures r.Failure? ==> r.error == "ValueError: Unknown operation: " + op
    ensures r.Success? ==> IsSubseq(r.value, CleanNumericArray(values))
    ensures r.Success? ==> forall k | 0 <= k < |r.value| ::
              r.value[k].Fin? && Satisfies(ParseOperation(op).value, r.value[k], threshold)
  {
    match ParseOperation(op)
    case None => Failure("ValueError: Unknown operation: " + op)
    case Some(c) =>
      var clean := CleanNumericArray(values);
      var r := Filter(Passes(c, threshold), clean);
      SubseqMembers(r, clean);
      assert forall k | 0 <= k < |r| :: r[k] in clean;
      Success(r)
  }

  /** Thresholding is one filter over the raw input: finite and passing. */
  lemma FilterByThresholdIsOneFilter(values: seq<Num>, threshold: real, c: Comparison, op: string)
    requires ParseOperation(op) == Some(c)
    ensures FilterByThreshold(values, threshold, op) == Success(Filter(FinitePasses(c, threshold), values))
  {
    FilterFilter(IsFinite, Passes(c, threshold), FinitePasses(c, threshold), values);
  }

  /** On finite values "greater" and "less_equal" split the cleaned input between them. */
  lemma {:induction false} GreaterAndLessEqualPartition(values: seq<Num>, threshold: real)
    ensures |FilterByThreshold(values, threshold, "greater").value|
          + |FilterByThreshold(values, threshold, "less_equal").value|
         == |CleanNumericArray(values)|
  {
    var clean := CleanNumericArray(values);
    forall i | 0 <= i < |clean|
      ensures Passes(LessEqual, threshold)(clean[i]) == !Passes(Greater, threshold)(clean[i])
    {
      assert clean[i].Fin?;
    }
    CountComplement(Passes(Greater, threshold), Passes(LessEqual, threshold), clean);
  }

  /** `calculate_active_electrodes`: the finite rates strictly above the threshold. */
  function CalculateActiveElectrodes(frValues: seq<Num>, threshold: real): (r: nat)
    ensures r == Count(FiniteAbove(threshold), frValues)
    ensures r <= |frValues|
  {
    var clean := CleanNumericArray(frValues);
    FilterByThresholdIsOneFilter(clean, threshold, Greater, "greater");
    CleanIdempotent(frValues);
    FilterFilter(IsFinite, Passes(Greater, threshold), FiniteAbove(threshold), frValues);
    CountBound(FiniteAbove(threshold), frValues);
    |FilterByThreshold(clean, threshold, "greater").value|
  }

  /**
   * The helper and the recording-level count processor agree whenever the
   * threshold is non-negative.
   */
  lemma ActiveCountsAgree(frValues: seq<Num>, threshold: real)
    requires threshold >= 0.0
    ensures MetricProcessors.ActiveCount(frValues, threshold) == CalculateActiveElectrodes(frValues, threshold)
  {
    MetricProcessors.ActiveCountSpec(frValues, threshold);
  }

  // --------------------------------------------- extract_div_from_experiment_name

  /** `DIV(\d+)` matches at index `i`. */
  predicate DivMatchAt(s: string, i: nat) {
    OccursAt(s, "DIV", i) && i + 3 < |s| && IsDigit(s[i + 3])
  }

  /** The number the match at `i` captures: the maximal digit run after "DIV". */
  function DivNumberAt(s: string, i: nat): nat
    requires DivMatchAt(s, i)
  {
    DigitsValue(LeadingDigits(s[i + 3..]))
  }

  /** The leftmost match at or after `k`, given none before `k`. */
  function FirstDivMatchFrom(s: string, k: nat): (r: Option<nat>)
    requires forall j: nat | j < k :: !DivMatchAt(s, j)
    ensures r.Some? ==> DivMatchAt(s, r.value) && forall j: nat | j < r.value :: !DivMatchAt(s, j)
    ensures r.None? ==> forall j: nat :: !DivMatchAt(s, j)
    decreases |s| - k
  {
    if k + 3 >= |s| then None
    else if DivMatchAt(s, k) then Some(k)
    else FirstDivMatchFrom(s, k + 1)
  }

  /** A `_`-part that `isdigit` accepts and whose value is a plausible DIV. */
  predicate InDivRange(part: string) {
    IsDigitString(part) && 40 <= DigitsValue(part) <= 100
  }

  /** The first part in range, as an index. */
  function FirstInRange(parts: seq<string>): (r: Option<nat>)
    ensures r.Some? ==> r.value < |parts| && InDivRange(parts[r.value])
    ensures r.Some? ==> forall j | 0 <= j < r.value :: !InDivRange(parts[j])
    ensures r.None? ==> forall j | 0 <= j < |parts| :: !InDivRange(parts[j])
    decreases |parts|
  {
    if parts == [] then None
    else if InDivRange(parts[0]) then Some(0)
    else
      match FirstInRange(parts[1..])
      case None => None
      case Some(j) => Some(j + 1)
  }

  /** `extract_div_from_experiment_name`. */
  function ExtractDivFromName(name: string): (r: Option<nat>)
  {
    match FirstDivMatchFrom(name, 0)
    case Some(i) => Some(DivNumberAt(name, i))
    case None =>
      var parts := Split(name, '_');
      match FirstInRange(parts)
      case Some(k) => Some(DigitsValue(parts[k]))
      case None => None
  }

  /** The leftmost `DIV<digits>` wins, whatever else the name holds. */
  lemma ExtractDivFromNameFirstMatch(name: string, i: nat)
    requires DivMatchAt(name, i)
    requires forall j: nat | j < i :: !DivMatchAt(name, j)
    ensures ExtractDivFromName(name) == Some(DivNumberAt(name, i))
  {
    var f := FirstDivMatchFrom(name, 0);
    assert f.Some?;
    assert f.value == i;
  }

  /**
   * Without any `DIV<digits>`, the first `_`-part that is a numeral in
   * [40, 100] is the DIV, and there is none when no part qualifies.
   */
  lemma ExtractDivFromNameFallback(name: string)
    requires forall j: nat :: !DivMatchAt(name, j)
    ensures var parts := Split(name, '_');
            && (ExtractDivFromName(name).None? <==> forall k | 0 <= k < |parts| :: !InDivRange(parts[k]))
            && (ExtractDivFromName(name).Some? ==>
                  exists k | 0 <= k < |parts| ::
                    && InDivRange(parts[k])
                    && (forall j | 0 <= j < k :: !InDivRange(parts[j]))
                    && ExtractDivFromName(name).value == DigitsValue(parts[k]))
  {
    var parts := Split(name, '_');
    var f := FirstInRange(parts);
    if f.Some? {
      assert InDivRange(parts[f.value]);
    }
  }

  /** Any DIV the name yields from its `_`-parts lies in [40, 100]. */
  lemma ExtractDivFromNameFallbackRange(name: string)
    requires forall j: nat :: !DivMatchAt(name, j)
    requires ExtractDivFromName(name).Some?
    ensures 40 <= ExtractDivFromName(name).value <= 100
  {
    var parts := Split(name, '_');
    var f := FirstInRange(parts);
    assert InDivRange(parts[f.value]);
  }

  lemma {:induction false} LeadingDigitsOfNumeral(d: string, rest: string)
    requires IsDigitString(d)
    requires rest == [] || !IsDigit(rest[0])
    ensures LeadingDigits(d + rest) == d
    decreases |d|
  {
    var s := d + rest;
    assert s[0] == d[0] && IsDigit(s[0]);
    if |d| > 1 {
      assert s[1..] == d[1..] + rest;
      LeadingDigitsOfNumeral(d[1..], rest);
      assert LeadingDigits(s) == [d[0]] + d[1..];
    } else {
      assert s[1..] == rest;
      assert LeadingDigits(rest) == [];
      assert LeadingDigits(s) == [d[0]];
    }
  }

  /**
   * A name with "DIV" followed by the numeral of n, and no earlier "DIV",
   * yields n.
   */
  lemma ExtractDivFromNameRoundTrip(prefix: string, n: nat, rest: string)
    requires !Contains(prefix, "DIV")
    requires rest == [] || !IsDigit(rest[0])
    ensures ExtractDivFromName(prefix + "DIV" + NatToString(n) + rest) == Some(n)
  {
    var d := NatToString(n);
    var name := prefix + "DIV" + d + rest;
    var i := |prefix|;
    Utilities.NoDivBefore(prefix, d + rest);
    assert name == prefix + "DIV" + (d + rest);
    assert name[i..i + 3] == "DIV";
    assert name[i + 3] == d[0];
    forall j: nat | j < i
      ensures !DivMatchAt(name, j)
    {
      assert !OccursAt(prefix + "DIV" + (d + rest), "DIV", j);
    }
    assert name[i + 3..] == d + rest;
    LeadingDigitsOfNumeral(d, rest);
    DecimalRoundTrip(n);
    ExtractDivFromNameFirstMatch(name, i);
  }

  /** The name "DIV<n>" yields n. */
  lemma ExtractDivFromNumeral(n: nat)
    ensures ExtractDivFromName("DIV" + NatToString(n)) == Some(n)
  {
    var d := NatToString(n);
    var name := "DIV" + d;
    assert name[..3] == "DIV" && name[3] == d[0];
    assert name[3..] == d + [];
    LeadingDigitsOfNumeral(d, []);
    DecimalRoundTrip(n);
    ExtractDivFromNameFirstMatch(name, 0);
  }

  /** On "DIV<n>" this parser and `extract_div_value` agree. */
  lemma DivParsersAgree(n: nat)
    ensures ExtractDivFromName("DIV" + NatToString(n)) == Some(n)
    ensures Utilities.ExtractDivValue("DIV" + NatToString(n)) == Utilities.DivNum(n)
  {
    ExtractDivFromNumeral(n);
    Utilities.DivRoundTrip(n);
  }

  // ------------------------------------------------------ filter_data_by_div

  /** A metric list and its experiment names, index-aligned. */
  datatype NamedValues = NamedValues(values: seq<Num>, expNames: seq<string>)

  /** The dict `filter_data_by_div` returns. */
  datatype DivFiltered = DivFiltered(byGroup: Dict<string, NamedValues>, groups: seq<string>, divs: seq<int>)

  /** A pair whose name passes `keep`. */
  function KeepName(keep: string -> bool): ((Num, string)) -> bool {
    (p: (Num, string)) => keep(p.1)
  }

  /**
   * The index loop shared by the DIV filters: walk the names and keep
   * position i when its name passes and i is a valid index into the values.
   */
  function PickByName(vals: seq<Num>, names: seq<string>, keep: string -> bool): seq<(Num, string)>
    decreases |names|
  {
    if names == [] then []
    else
      var n := |names| - 1;
      var prev := PickByName(vals, names[..n], keep);
      if keep(names[n]) && n < |vals| then prev + [(vals[n], names[n])] else prev
  }

  lemma ZipSnoc(vals: seq<Num>, names: seq<string>, x: string)
    ensures Zip(vals, names + [x]) == if |names| < |vals| then Zip(vals, names) + [(vals[|names|], x)] else Zip(vals, names)
  {
  }

  /** The loop keeps exactly the passing pairs of `zip(values, names)`. */
  lemma {:induction false} PickByNameIsFilter(vals: seq<Num>, names: seq<string>, keep: string -> bool)
    ensures PickByName(vals, names, keep) == Filter(KeepName(keep), Zip(vals, names))
    decreases |names|
  {
    if names != [] {
      var n := |names| - 1;
      PickByNameIsFilter(vals, names[..n], keep);
      SplitLast(names);
      ZipSnoc(vals, names[..n], names[n]);
      if n < |vals| {
        FilterAppend(KeepName(keep), Zip(vals, names[..n]), [(vals[n], names[n])]);
      }
    }
  }

  /** The picked pairs, split back into a values list and a names list. */
  function PickNamed(vals: seq<Num>, names: seq<string>, keep: string -> bool): (r: NamedValues)
    ensures |r.values| == |r.expNames|
    ensures forall k | 0 <= k < |r.expNames| :: keep(r.expNames[k])
    ensures IsSubseq(Zip(r.values, r.expNames), Zip(vals, names))
    ensures forall i | 0 <= i < |vals| && i < |names| && keep(names[i]) :: (vals[i], names[i]) in Zip(r.values, r.expNames)
  {
    var p := PickByName(vals, names, keep);
    PickByNameIsFilter(vals, names, keep);
    ZipUnzip(p);
    var z := Zip(vals, names);
    assert forall i | 0 <= i < |vals| && i < |names| :: z[i] == (vals[i], names[i]);
    NamedValues(Firsts(p), Seconds(p))
  }

  /** The names cut to the values' length: position i is only looked at while i is a valid index into the values. */
  function Aligned(vals: seq<Num>, names: seq<string>): (r: seq<string>)
    ensures |r| <= |vals| && |r| <= |names|
    ensures forall i | 0 <= i < |r| :: r[i] == names[i]
    ensures |r| == |vals| || |r| == |names|
  {
    if |names| <= |vals| then names else names[..|vals|]
  }

  /** The positions the index loop keeps, in increasing order. */
  function NamedPositions(vals: seq<Num>, names: seq<string>, keep: string -> bool): (r: seq<nat>)
    ensures forall k | 0 <= k < |r| :: r[k] < |vals| && r[k] < |names| && keep(names[r[k]])
    ensures forall i | 0 <= i < |vals| && i < |names| && keep(names[i]) :: i in r
    ensures forall j, k | 0 <= j < k < |r| :: r[j] < r[k]
  {
    Positions(keep, Aligned(vals, names))
  }

  lemma PositionsSnoc<T>(p: T -> bool, s: seq<T>, x: T)
    ensures Positions(p, s + [x]) == if p(x) then Positions(p, s) + [|s|] else Positions(p, s)
  {
    assert (s + [x])[..|s|] == s;
  }

  lemma PickSnoc(vals: seq<Num>, idx: seq<nat>, n: nat)
    requires n < |vals| && forall k | 0 <= k < |idx| :: idx[k] < |vals|
    ensures Pick(vals, idx + [n]) == Pick(vals, idx) + [vals[n]]
  {
  }

  lemma FirstsSnoc(z: seq<(Num, string)>, p: (Num, string))
    ensures Firsts(z + [p]) == Firsts(z) + [p.0]
  {
  }

  /** One more name adds its position when it passes and is a valid index. */
  lemma NamedPositionsSnoc(vals: seq<Num>, names: seq<string>, keep: string -> bool)
    requires names != []
    ensures var n := |names| - 1;
            NamedPositions(vals, names, keep) ==
              if keep(names[n]) && n < |vals| then NamedPositions(vals, names[..n], keep) + [n]
              else NamedPositions(vals, names[..n], keep)
  {
    var n := |names| - 1;
    var pre := names[..n];
    if n < |vals| {
      assert Aligned(vals, names) == pre + [names[n]];
      assert Aligned(vals, pre) == pre;
      PositionsSnoc(keep, pre, names[n]);
    } else {
      assert Aligned(vals, names) == Aligned(vals, pre);
    }
  }

  /** The values the index loop keeps are those at `NamedPositions`, in order. */
  lemma {:induction false} PickByNamePositions(vals: seq<Num>, names: seq<string>, keep: string -> bool)
    ensures Firsts(PickByName(vals, names, keep)) == Pick(vals, NamedPositions(vals, names, keep))
    decreases |names|
  {
    if names != [] {
      var n := |names| - 1;
      var pre := names[..n];
      PickByNamePositions(vals, pre, keep);
      NamedPositionsSnoc(vals, names, keep);
      if keep(names[n]) && n < |vals| {
        FirstsSnoc(PickByName(vals, pre, keep), (vals[n], names[n]));
        PickSnoc(vals, NamedPositions(vals, pre, keep), n);
      }
    }
  }

  /** `PickNamed` keeps the values at `NamedPositions`. */
  lemma PickNamedPositions(vals: seq<Num>, names: seq<string>, keep: string -> bool)
    ensures PickNamed(vals, names, keep).values == Pick(vals, NamedPositions(vals, names, keep))
  {
    PickByNamePositions(vals, names, keep);
  }

  /** The name mentions `DIV<d>` anywhere. */
  function MentionsDiv(d: int): string -> bool {
    (name: string) => Contains(name, "DIV" + IntToString(d))
  }

  /**
   * One group of `filter_data_by_div`: skipped (`None`) when absent or
   * lacking the metric or `exp_names`; `len()` of a non-list raises once a
   * name matches.
   */
  function DivFilterEntry(rec: Option<GroupRecord>, metric: string, d: int): (r: Result<Option<NamedValues>>)
    ensures r.Success? && r.value.Some? ==>
              && |r.value.value.values| == |r.value.value.expNames|
              && forall k | 0 <= k < |r.value.value.expNames| :: MentionsDiv(d)(r.value.value.expNames[k])
  {
    if rec.None? then Success(None)
    else
      var f: Option<Field> := Get(rec.value.fields, metric);
      var names: Option<seq<string>> := rec.value.expNames;
      if f.None? || names.None? then Success(None)
      else if f.value.Arr? then Success(Some(PickNamed(f.value.items, names.value, MentionsDiv(d))))
      else if Count(MentionsDiv(d), names.value) > 0 then Failure("TypeError: object has no len()")
      else Success(Some(NamedValues([], [])))
  }

  predicate EntryMentions(e: NamedValues, d: int) {
    && |e.values| == |e.expNames|
    && forall k | 0 <= k < |e.expNames| :: MentionsDiv(d)(e.expNames[k])
  }

  /** The per-group step as a function of the group name. */
  function DivFilterStep(bg: Dict<string, GroupRecord>, metric: string, d: int): string -> Result<Option<NamedValues>> {
    (g: string) => DivFilterEntry(Get(bg, g), metric, d)
  }

  /** Every group's entry is computed without raising. */
  predicate AllEntriesSucceed(bg: Dict<string, GroupRecord>, groups: seq<string>, metric: string, d: int) {
    forall i | 0 <= i < |groups| :: DivFilterStep(bg, metric, d)(groups[i]).Success?
  }

  function MentionsPred(d: int): NamedValues -> bool {
    (e: NamedValues) => EntryMentions(e, d)
  }

  /** `filter_data_by_div`. */
  function FilterDataByDiv(data: Dataset, metric: string, d: int): (r: Result<DivFiltered>)
    ensures data.groups.None? ==> r == Failure("KeyError: 'groups'")
    ensures data.groups.Some? && data.groups.value != [] && data.byGroup.None? ==> r == Failure("KeyError: 'by_group'")
    ensures data.groups.Some? && (data.groups.value == [] || data.byGroup.Some?) ==>
              (r.Success? <==> AllEntriesSucceed(data.byGroup.GetOr([]), data.groups.value, metric, d))
    ensures r.Success? ==> r.value.groups == data.groups.value && r.value.divs == [d]
    ensures r.Success? ==> forall g | g !in data.groups.value :: !HasKey(r.value.byGroup, g)
  {
    if data.groups.None? then Failure("KeyError: 'groups'")
    else if data.groups.value != [] && data.byGroup.None? then Failure("KeyError: 'by_group'")
    else
      var entries :- AssignEach(data.groups.value, DivFilterStep(data.byGroup.GetOr([]), metric, d));
      Success(DivFiltered(entries, data.groups.value, [d]))
  }

  /**
   * Each listed group holds its entry: the index-aligned pairs of its metric
   * list and `exp_names` whose name mentions `DIV<d>`, or nothing when the
   * group is skipped.
   */
  lemma FilterDataByDivEntry(data: Dataset, metric: string, d: int, i: nat)
    requires FilterDataByDiv(data, metric, d).Success?
    requires i < |data.groups.value|
    ensures var bg := data.byGroup.GetOr([]);
            && DivFilterEntry(Get(bg, data.groups.value[i]), metric, d).Success?
            && Get(FilterDataByDiv(data, metric, d).value.byGroup, data.groups.value[i])
               == DivFilterEntry(Get(bg, data.groups.value[i]), metric, d).value
  {
    AssignEachGet(data.groups.value, DivFilterStep(data.byGroup.GetOr([]), metric, d), i);
  }

  /** Every stored entry has lists of equal length, and each of its names mentions `DIV<d>`. */
  lemma FilterDataByDivEntriesMention(data: Dataset, metric: string, d: int)
    requires FilterDataByDiv(data, metric, d).Success?
    ensures Valid(FilterDataByDiv(data, metric, d).value.byGroup)
    ensures forall e | e in FilterDataByDiv(data, metric, d).value.byGroup :: EntryMentions(e.1, d)
  {
    var step := DivFilterStep(data.byGroup.GetOr([]), metric, d);
    AssignEachInvariant(data.groups.value, step, MentionsPred(d));
    AssignEachValid(data.groups.value, step);
  }

  // ---------------------------------------------------- organize_data_by_div

  /** One DIV bucket of `organize_data_by_div`: three index-aligned lists. */
  datatype DivRecord = DivRecord(values: seq<Num>, groups: seq<string>, expNames: seq<string>)

  /** The name yields a DIV. */
  function HasDiv(): string -> bool {
    (name: string) => ExtractDivFromName(name).Some?
  }

  /** The DIVs a list of names yields. */
  function NameDivs(names: seq<string>): (r: set<nat>)
    decreases |names|
  {
    if names == [] then {}
    else
      var n := |names| - 1;
      NameDivs(names[..n]) + match ExtractDivFromName(names[n]) case Some(v) => {v} case None => {}
  }

  /** The group's `exp_names`, when the group exists and has both the metric and `exp_names`. */
  function GroupNames(bg: Dict<string, GroupRecord>, g: string, metric: string): Option<seq<string>> {
    match Get(bg, g)
    case None => None
    case Some(rec) => if HasKey(rec.fields, metric) then rec.expNames else None
  }

  /** The DIVs the listed groups' names yield. */
  function MentionedDivs(bg: Dict<string, GroupRecord>, groups: seq<string>, metric: string): set<nat>
    decreases |groups|
  {
    if groups == [] then {}
    else
      var n := |groups| - 1;
      MentionedDivs(bg, groups[..n], metric)
        + match GroupNames(bg, groups[n], metric) case Some(ns) => NameDivs(ns) case None => {}
  }

  /** A bucket whose lists are aligned, whose names all yield its DIV and whose groups are listed. */
  predicate RecordWellFormed(key: nat, rec: DivRecord, groups: seq<string>) {
    && |rec.values| == |rec.groups| == |rec.expNames|
    && (forall k | 0 <= k < |rec.expNames| :: ExtractDivFromName(rec.expNames[k]) == Some(key))
    && (forall k | 0 <= k < |rec.groups| :: rec.groups[k] in groups)
  }

  predicate Organized(acc: Dict<nat, DivRecord>, groups: seq<string>) {
    Valid(acc) && forall e | e in acc :: RecordWellFormed(e.0, e.1, groups)
  }

  /** The body of the inner loop for the name at index `i`. */
  function OrganizeName(acc: Dict<nat, DivRecord>, group: string, vals: seq<Num>, i: nat, name: string): (r: Dict<nat, DivRecord>)
    ensures forall v: nat :: HasKey(r, v) <==> HasKey(acc, v) || ExtractDivFromName(name) == Some(v)
  {
    match ExtractDivFromName(name)
    case None => acc
    case Some(v) =>
      var acc2 := if HasKey(acc, v) then acc else Put(acc, v, DivRecord([], [], []));
      if i < |vals| then
        var rec := Get(acc2, v).value;
        Put(acc2, v, DivRecord(rec.values + [vals[i]], rec.groups + [group], rec.expNames + [name]))
      else acc2
  }

  lemma OrganizeNamePreserves(acc: Dict<nat, DivRecord>, group: string, vals: seq<Num>, i: nat, name: string, groups: seq<string>)
    requires Organized(acc, groups) && group in groups
    ensures Organized(OrganizeName(acc, group, vals, i, name), groups)
  {
    match ExtractDivFromName(name)
    case None =>
    case Some(v) =>
      var acc2 := if HasKey(acc, v) then acc else Put(acc, v, DivRecord([], [], []));
      if !HasKey(acc, v) {
        PutValid(acc, v, DivRecord([], [], []));
      }
      assert Organized(acc2, groups);
      if i < |vals| {
        var rec := Get(acc2, v).value;
        assert RecordWellFormed(v, rec, groups);
        var rec2 := DivRecord(rec.values + [vals[i]], rec.groups + [group], rec.expNames + [name]);
        assert RecordWellFormed(v, rec2, groups);
        PutValid(acc2, v, rec2);
      }
  }

  /** The inner loop over one group's names, from index 0. */
  function OrganizeNames(acc: Dict<nat, DivRecord>, group: string, vals: seq<Num>, names: seq<string>): (r: Dict<nat, DivRecord>)
    ensures forall v: nat :: HasKey(r, v) <==> HasKey(acc, v) || v in NameDivs(names)
    decreases |names|
  {
    if names == [] then acc
    else
      var n := |names| - 1;
      OrganizeName(OrganizeNames(acc, group, vals, names[..n]), group, vals, n, names[n])
  }

  lemma {:induction false} OrganizeNamesPreserves(acc: Dict<nat, DivRecord>, group: string, vals: seq<Num>, names: seq<string>, groups: seq<string>)
    requires Organized(acc, groups) && group in groups
    ensures Organized(OrganizeNames(acc, group, vals, names), groups)
    decreases |names|
  {
    if names != [] {
      var n := |names| - 1;
      OrganizeNamesPreserves(acc, group, vals, names[..n], groups);
      OrganizeNamePreserves(OrganizeNames(acc, group, vals, names[..n]), group, vals, n, names[n], groups);
    }
  }

  /** One group of the outer loop: skipped, its names walked, or `len()` of a non-list raising. */
  function OrganizeGroup(acc: Dict<nat, DivRecord>, bg: Dict<string, GroupRecord>, g: string, metric: string): (r: Result<Dict<nat, DivRecord>>)
    ensures r.Success? ==> forall v: nat :: HasKey(r.value, v) <==>
              HasKey(acc, v) || (GroupNames(bg, g, metric).Some? && v in NameDivs(GroupNames(bg, g, metric).value))
  {
    match GroupNames(bg, g, metric)
    case None => Success(acc)
    case Some(names) =>
      var f := Get(Get(bg, g).value.fields, metric).value;
      if f.Arr? then Success(OrganizeNames(acc, g, f.items, names))
      else if Count(HasDiv(), names) > 0 then Failure("TypeError: object has no len()")
      else
        NoDivNamesNoDivs(names);
        Success(acc)
  }

  /** Every DIV in `NameDivs` comes from some name. */
  lemma {:induction false} NameDivsSome(names: seq<string>, v: nat) returns (k: nat)
    requires v in NameDivs(names)
    ensures k < |names| && ExtractDivFromName(names[k]) == Some(v)
    decreases |names|
  {
    var n := |names| - 1;
    if v in NameDivs(names[..n]) {
      k := NameDivsSome(names[..n], v);
    } else {
      k := n;
    }
  }

  /** Every DIV a name yields is in `NameDivs`. */
  lemma {:induction false} NameDivsOf(names: seq<string>, k: nat)
    requires k < |names| && ExtractDivFromName(names[k]).Some?
    ensures ExtractDivFromName(names[k]).value in NameDivs(names)
    decreases |names|
  {
    var n := |names| - 1;
    if k < n {
      assert names[..n][k] == names[k];
      NameDivsOf(names[..n], k);
    }
  }

  /** Names none of which yields a DIV yield no DIVs. */
  lemma {:induction false} NoDivNamesNoDivs(names: seq<string>)
    requires Count(HasDiv(), names) == 0
    ensures NameDivs(names) == {}
    decreases |names|
  {
    if names != [] {
      CountLast(HasDiv(), names);
      NoDivNamesNoDivs(names[..|names| - 1]);
    }
  }

  /** The outer loop over `data['groups']`. */
  function OrganizeGroups(bg: Dict<string, GroupRecord>, groups: seq<string>, metric: string): (r: Result<Dict<nat, DivRecord>>)
    ensures r.Success? ==> forall v: nat :: HasKey(r.value, v) <==> v in MentionedDivs(bg, groups, metric)
    decreases |groups|
  {
    if groups == [] then Success([])
    else
      var n := |groups| - 1;
      var acc :- OrganizeGroups(bg, groups[..n], metric);
      OrganizeGroup(acc, bg, groups[n], metric)
  }

  lemma {:induction false} OrganizeGroupsWellFormed(bg: Dict<string, GroupRecord>, groups: seq<string>, metric: string, all: seq<string>)
    requires forall i | 0 <= i < |groups| :: groups[i] in all
    requires OrganizeGroups(bg, groups, metric).Success?
    ensures Organized(OrganizeGroups(bg, groups, metric).value, all)
    decreases |groups|
  {
    if groups != [] {
      var n := |groups| - 1;
      assert forall i | 0 <= i < n :: groups[..n][i] == groups[i];
      OrganizeGroupsWellFormed(bg, groups[..n], metric, all);
      var acc := OrganizeGroups(bg, groups[..n], metric).value;
      match GroupNames(bg, groups[n], metric)
      case None =>
      case Some(names) =>
        var f := Get(Get(bg, groups[n]).value.fields, metric).value;
        if f.Arr? {
          OrganizeNamesPreserves(acc, groups[n], f.items, names, all);
        }
    }
  }

  /** `organize_data_by_div`. */
  function OrganizeDataByDiv(data: Dataset, metric: string): (r: Result<Dict<nat, DivRecord>>)
    ensures data.groups.None? ==> r == Failure("KeyError: 'groups'")
    ensures data.groups.Some? && data.groups.value != [] && data.byGroup.None? ==> r == Failure("KeyError: 'by_group'")
    ensures r.Success? ==> forall v: nat :: HasKey(r.value, v) <==> v in MentionedDivs(data.byGroup.GetOr([]), data.groups.value, metric)
  {
    if data.groups.None? then Failure("KeyError: 'groups'")
    else if data.groups.value != [] && data.byGroup.None? then Failure("KeyError: 'by_group'")
    else OrganizeGroups(data.byGroup.GetOr([]), data.groups.value, metric)
  }

  /**
   * Every bucket keeps its three lists aligned; each name in it yields the
   * bucket's DIV and each group in it is one of `data['groups']`.
   */
  lemma OrganizeDataByDivWellFormed(data: Dataset, metric: string)
    requires OrganizeDataByDiv(data, metric).Success?
    ensures Organized(OrganizeDataByDiv(data, metric).value, data.groups.value)
  {
    OrganizeGroupsWellFormed(data.byGroup.GetOr([]), data.groups.value, metric, data.groups.value);
  }

  // ------------------------------------------------------ check_data_quality

  /** One `groups_stats` entry. */
  datatype GroupStats = GroupStats(total: nat, valid: nat, nan: nat, validPercentage: real)

  /** The report `check_data_quality` returns. */
  datatype QualityReport = QualityReport(
    metric: string,
    groupsWithData: seq<string>,
    totalValues: nat,
    validValues: nat,
    nanValues: nat,
    groupsStats: Dict<string, GroupStats>)

  lemma RatioAtMostOne(valid: real, total: real)
    requires 0.0 <= valid <= total && total > 0.0
    ensures 0.0 <= valid / total <= 1.0
  {
    assert valid / total * total == valid;
  }

  /** `valid / total * 100`, or 0 for an empty list. */
  function ValidPercentage(valid: nat, total: nat): (p: real)
    requires valid <= total
    ensures 0.0 <= p <= 100.0
    ensures total == 0 ==> p == 0.0
    ensures 0 < total && valid == total ==> p == 100.0
    ensures 0 < total && valid == 0 ==> p == 0.0
  {
    if total > 0 then
      RatioAtMostOne(valid as real, total as real);
      valid as real / total as real * 100.0
    else 0.0
  }

  /**
   * The counts for one stored metric: a list counts its finite entries,
   * anything else counts as one value, valid when it is a finite number.
   */
  function FieldStats(f: Field): (s: GroupStats)
    ensures s.total == s.valid + s.nan
    ensures s.validPercentage == ValidPercentage(s.valid, s.total)
    ensures f.Arr? ==> s.total == |f.items| && s.valid == Count(IsFinite, f.items)
    ensures !f.Arr? ==> s.total == 1 && (s.valid == 1 <==> IsValidNumericValue(if f.Scalar? then Some(f.x) else None))
  {
    match f
    case Arr(xs) =>
      CountBound(IsFinite, xs);
      var valid := Count(IsFinite, xs);
      GroupStats(|xs|, valid, |xs| - valid, ValidPercentage(valid, |xs|))
    case Scalar(x) =>
      var valid := if IsValidNumericValue(Some(x)) then 1 else 0;
      GroupStats(1, valid, 1 - valid, ValidPercentage(valid, 1))
    case Null =>
      GroupStats(1, 0, 1, ValidPercentage(0, 1))
  }

  /** The stats of a group that exists and stores the metric. */
  function StatsOf(bg: Dict<string, GroupRecord>, g: string, metric: string): Option<GroupStats> {
    match Get(bg, g)
    case None => None
    case Some(rec) =>
      match Get(rec.fields, metric)
      case None => None
      case Some(f) => Some(FieldStats(f))
  }

  /** The group has at least one valid value for the metric. */
  function HasValidData(bg: Dict<string, GroupRecord>, metric: string): string -> bool {
    (g: string) => StatsOf(bg, g, metric).Some? && StatsOf(bg, g, metric).value.valid > 0
  }

  function StatsStep(bg: Dict<string, GroupRecord>, metric: string): string -> Result<Option<GroupStats>> {
    (g: string) => Success(StatsOf(bg, g, metric))
  }

  /** The loop of `check_data_quality` over the groups. */
  function QualityLoop(bg: Dict<string, GroupRecord>, groups: seq<string>, metric: string): (r: QualityReport)
    ensures r.metric == metric
    ensures r.totalValues == r.validValues + r.nanValues
    ensures |r.groupsWithData| <= r.validValues
    decreases |groups|
  {
    if groups == [] then QualityReport(metric, [], 0, 0, 0, [])
    else
      var n := |groups| - 1;
      var g := groups[n];
      var prev := QualityLoop(bg, groups[..n], metric);
      match StatsOf(bg, g, metric)
      case None => prev
      case Some(st) =>
        QualityReport(
          metric,
          prev.groupsWithData + (if st.valid > 0 then [g] else []),
          prev.totalValues + st.total,
          prev.validValues + st.valid,
          prev.nanValues + st.nan,
          Put(prev.groupsStats, g, st))
  }

  /** `groups_with_data` lists, in loop order, the groups with at least one valid value. */
  lemma {:induction false} QualityLoopGroupsWithData(bg: Dict<string, GroupRecord>, groups: seq<string>, metric: string)
    ensures QualityLoop(bg, groups, metric).groupsWithData == Filter(HasValidData(bg, metric), groups)
    decreases |groups|
  {
    if groups != [] {
      var n := |groups| - 1;
      QualityLoopGroupsWithData(bg, groups[..n], metric);
      QualityLoopSnoc(bg, groups, metric);
      FilterStep(HasValidData(bg, metric), groups, QualityLoop(bg, groups[..n], metric).groupsWithData,
                 QualityLoop(bg, groups, metric).groupsWithData);
    }
  }

  lemma QualityLoopSnoc(bg: Dict<string, GroupRecord>, groups: seq<string>, metric: string)
    requires groups != []
    ensures var n := |groups| - 1;
            QualityLoop(bg, groups, metric).groupsWithData
              == QualityLoop(bg, groups[..n], metric).groupsWithData
                 + if HasValidData(bg, metric)(groups[n]) then [groups[n]] else []
  {
  }

  /** `groups_stats` is the dict the loop assigns: each listed group that stores the metric, with its stats. */
  lemma {:induction false} QualityLoopStats(bg: Dict<string, GroupRecord>, groups: seq<string>, metric: string)
    ensures QualityLoop(bg, groups, metric).groupsStats == AssignEach(groups, StatsStep(bg, metric)).value
    decreases |groups|
  {
    if groups != [] {
      var n := |groups| - 1;
      QualityLoopStats(bg, groups[..n], metric);
      AssignEachSnoc(groups, StatsStep(bg, metric));
    }
  }

  /** Value counts summed over groups. */
  datatype Totals = Totals(total: nat, valid: nat, nan: nat)

  function TotalsOf(r: QualityReport): Totals {
    Totals(r.totalValues, r.validValues, r.nanValues)
  }

  /**
   * The reference for the report's counts: the per-group stats of every
   * listed group that stores the metric, added up from the first group on.
   */
  function SumStats(bg: Dict<string, GroupRecord>, groups: seq<string>, metric: string): Totals
    decreases |groups|
  {
    if groups == [] then Totals(0, 0, 0)
    else
      var rest := SumStats(bg, groups[1..], metric);
      match StatsOf(bg, groups[0], metric)
      case None => rest
      case Some(st) => Totals(st.total + rest.total, st.valid + rest.valid, st.nan + rest.nan)
  }

  /** Adding the last group's stats to the sum over the others. */
  lemma {:induction false} SumStatsSnoc(bg: Dict<string, GroupRecord>, groups: seq<string>, metric: string)
    requires groups != []
    ensures var n := |groups| - 1; var pre := SumStats(bg, groups[..n], metric);
            SumStats(bg, groups, metric) ==
              match StatsOf(bg, groups[n], metric)
              case None => pre
              case Some(st) => Totals(pre.total + st.total, pre.valid + st.valid, pre.nan + st.nan)
    decreases |groups|
  {
    var n := |groups| - 1;
    if n > 0 {
      SumStatsSnoc(bg, groups[1..], metric);
      assert groups[1..][..n - 1] == groups[..n][1..];
      assert groups[1..][n - 1] == groups[n];
    }
  }

  /** The loop's running totals are the sums of the per-group stats. */
  lemma {:induction false} QualityLoopTotals(bg: Dict<string, GroupRecord>, groups: seq<string>, metric: string)
    ensures TotalsOf(QualityLoop(bg, groups, metric)) == SumStats(bg, groups, metric)
    decreases |groups|
  {
    if groups != [] {
      var n := |groups| - 1;
      QualityLoopTotals(bg, groups[..n], metric);
      SumStatsSnoc(bg, groups, metric);
    }
  }

  /** `check_data_quality`. */
  function CheckDataQuality(data: Dataset, metric: string): (r: Result<QualityReport>)
    ensures data.groups.Some? && data.groups.value != [] && data.byGroup.None? <==> r.Failure?
    ensures r.Success? ==>
              && r.value.metric == metric
              && r.value.totalValues == r.value.validValues + r.value.nanValues
              && |r.value.groupsWithData| <= r.value.validValues
              && r.value.groupsWithData == Filter(HasValidData(data.byGroup.GetOr([]), metric), data.groups.GetOr([]))
              && TotalsOf(r.value) == SumStats(data.byGroup.GetOr([]), data.groups.GetOr([]), metric)
  {
    var groups := data.groups.GetOr([]);
    if groups != [] && data.byGroup.None? then Failure("KeyError: 'by_group'")
    else
      QualityLoopGroupsWithData(data.byGroup.GetOr([]), groups, metric);
      QualityLoopTotals(data.byGroup.GetOr([]), groups, metric);
      Success(QualityLoop(data.byGroup.GetOr([]), groups, metric))
  }

  /**
   * Each listed group that stores the metric has its own stats entry, which
   * splits its total into valid and NaN and has a percentage in [0, 100].
   */
  lemma CheckDataQualityStats(data: Dataset, metric: string, i: nat)
    requires CheckDataQuality(data, metric).Success?
    requires i < |data.groups.GetOr([])|
    ensures var g := data.groups.GetOr([])[i];
            var st := StatsOf(data.byGroup.GetOr([]), g, metric);
            && Get(CheckDataQuality(data, metric).value.groupsStats, g) == st
            && (st.Some? ==> st.value.total == st.value.valid + st.value.nan
                             && 0.0 <= st.value.validPercentage <= 100.0)
  {
    var bg := data.byGroup.GetOr([]);
    var groups := data.groups.GetOr([]);
    QualityLoopStats(bg, groups, metric);
    AssignEachGet(groups, StatsStep(bg, metric), i);
  }
}

=== FILE: data_loader.dfy ===
/**
 * data_processing/data_loader.py, its pure fragments: the GraphData scan
 * (experiment lists, DIV buckets, lag values), the compiled DIV list, the
 * DIV filter of the network and cartography loaders, and the counting of
 * nodal roles with their proportions.
 */
module DataLoader {
  import opened Wrappers
  import opened Seqs
  import opened Text
  import opened Dicts
  import opened Utilities

  // ------------------------------------------------------------ DIV part

  function MentionsDiv(part: string): bool {
    Contains(part, "DIV")
  }

  /** The `_`-separated parts of an experiment name that mention "DIV", as the list comprehension collects them. */
  function DivParts(exp: string): seq<string> {
    Filter(MentionsDiv, Split(exp, '_'))
  }

  /** The first of `parts` that mentions "DIV". */
  function FirstDivPart(parts: seq<string>): (r: Option<string>)
    ensures r.Some? ==> r.value in parts && MentionsDiv(r.value)
  {
    if parts == [] then None
    else if MentionsDiv(parts[0]) then Some(parts[0])
    else FirstDivPart(parts[1..])
  }

  /** The DIV value of the first `_`-part mentioning "DIV", or None when no part does. */
  function DivKey(exp: string): Option<DivValue> {
    match FirstDivPart(Split(exp, '_'))
    case None => None
    case Some(part) => Some(ExtractDivValue(part))
  }

  predicate HasDivPart(exp: string) {
    FirstDivPart(Split(exp, '_')).Some?
  }

  lemma {:induction false} FirstDivPartOfFilter(parts: seq<string>)
    ensures FirstDivPart(parts) == if Filter(MentionsDiv, parts) == [] then None else Some(Filter(MentionsDiv, parts)[0])
    decreases |parts|
  {
    if parts != [] {
      FirstDivPartOfFilter(parts[1..]);
    }
  }

  /** The key is read, through `extract_div_value`, from the first of the parts that mention "DIV". */
  lemma DivKeyOfDivParts(exp: string)
    ensures DivKey(exp) == if DivParts(exp) == [] then None else Some(ExtractDivValue(DivParts(exp)[0]))
    ensures HasDivPart(exp) <==> DivParts(exp) != []
  {
    FirstDivPartOfFilter(Split(exp, '_'));
  }

  lemma {:induction false} FirstDivPartSome(parts: seq<string>)
    ensures FirstDivPart(parts).Some? <==> exists k | 0 <= k < |parts| :: MentionsDiv(parts[k])
    decreases |parts|
  {
    if parts != [] {
      FirstDivPartSome(parts[1..]);
      assert forall k | 1 <= k < |parts| :: parts[1..][k - 1] == parts[k];
    }
  }

  /** An experiment has a DIV key exactly when one of its `_`-parts mentions "DIV". */
  lemma DivKeyPresent(exp: string)
    ensures HasDivPart(exp) <==> exists k | 0 <= k < |Split(exp, '_')| :: Contains(Split(exp, '_')[k], "DIV")
  {
    FirstDivPartSome(Split(exp, '_'));
  }

  lemma {:induction false} FirstDivPartAt(parts: seq<string>, k: nat)
    requires k < |parts| && MentionsDiv(parts[k])
    requires forall j | 0 <= j < k :: !MentionsDiv(parts[j])
    ensures FirstDivPart(parts) == Some(parts[k])
    decreases k
  {
    if k > 0 {
      assert !MentionsDiv(parts[0]);
      FirstDivPartAt(parts[1..], k - 1);
    }
  }

  /** The key is read from the first part that mentions "DIV". */
  lemma DivKeyFirstPart(exp: string, k: nat)
    requires k < |Split(exp, '_')| && Contains(Split(exp, '_')[k], "DIV")
    requires forall j | 0 <= j < k :: !Contains(Split(exp, '_')[j], "DIV")
    ensures DivKey(exp) == Some(ExtractDivValue(Split(exp, '_')[k]))
  {
    FirstDivPartAt(Split(exp, '_'), k);
  }

  // ---------------------------------------------------------------- lags

  /** The `_lag` separator of node-metric file names. */
  const LagMarker: string := "_lag"

  /**
   * The lag as the scan reads it: the text between the FIRST `_lag` and the
   * next `.`, through `int()`. The glob only lists names containing `_lag`.
   */
  function LagAsWritten(basename: string): (r: Option<int>)
    requires Contains(basename, LagMarker)
  {
    var parts := SplitStr(basename, LagMarker);
    SplitFound(basename, LagMarker);
    ParseInt(Split(parts[1], '.')[0])
  }

  /** The start of every file name the scan's glob pattern `{exp}_nodeMetrics_lag*.mat` lists. */
  function NodeMetricsPrefix(exp: string): string {
    exp + "_nodeMetrics" + LagMarker
  }

  /**
   * The lag of `{exp}_nodeMetrics_lag{rest}`: the text of `rest` up to its
   * first `.`, through `int()`.
   */
  function LagOfRest(rest: string): Option<int> {
    ParseInt(Split(rest, '.')[0])
  }

  /** Every name the glob lists holds `_lag` right after `_nodeMetrics`. */
  lemma PrefixHasMarker(exp: string, rest: string)
    ensures Contains(NodeMetricsPrefix(exp) + rest, LagMarker)
  {
    var name := NodeMetricsPrefix(exp) + rest;
    var i := |exp| + |"_nodeMetrics"|;
    assert name[i..i + 4] == LagMarker;
    assert OccursAt(name, LagMarker, i);
  }

  /** The source's reading of the lag of `{exp}_nodeMetrics_lag{rest}`: after the first `_lag` of the whole name. */
  function AsWrittenLag(exp: string, rest: string): Option<int> {
    PrefixHasMarker(exp, rest);
    LagAsWritten(NodeMetricsPrefix(exp) + rest)
  }

  /** The corrected reading: after the `_lag` the glob matched. */
  function CorrectedLag(exp: string, rest: string): Option<int> {
    LagOfRest(rest)
  }

  /** A way of reading the lag of a listed file from the experiment's name and the text after the glob's `_lag`. */
  type LagReader = (string, string) -> Option<int>

  const AsWrittenReader: LagReader := (exp: string, rest: string) => AsWrittenLag(exp, rest)
  const CorrectedReader: LagReader := (exp: string, rest: string) => CorrectedLag(exp, rest)

  /** The lag written into a file name is the lag read back, whatever the experiment is called. */
  lemma LagOfRestRoundTrip(lag: int)
    ensures LagOfRest(IntToString(lag) + ".mat") == Some(lag)
  {
    var d := IntToString(lag);
    assert '.' !in d by {
      if lag >= 0 {
        assert AllDigits(d);
      } else {
        assert d == "-" + NatToString(-lag);
        assert AllDigits(NatToString(-lag));
        forall k | 0 <= k < |d|
          ensures d[k] != '.'
        {
          if k > 0 {
            assert d[k] == NatToString(-lag)[k - 1];
          }
        }
      }
    }
    assert Join([d, "mat"], ['.']) == d + ".mat";
    SplitJoin([d, "mat"], '.');
    IntRoundTrip(lag);
  }

  lemma LagMarkerAt(s: string, i: nat)
    requires i + 4 <= |s| && s[i] == '_' && s[i + 1] == 'l' && s[i + 2] == 'a' && s[i + 3] == 'g'
    ensures OccursAt(s, LagMarker, i)
  {
    assert s[i..i + 4] == LagMarker;
  }

  lemma NoLagMarkerAt(s: string, i: nat)
    requires i + 1 < |s| && (s[i] != '_' || s[i + 1] != 'l')
    ensures !OccursAt(s, LagMarker, i)
  {
    if i + 4 <= |s| {
      assert s[i..i + 4][0] == s[i] && s[i..i + 4][1] == s[i + 1];
    }
  }

  lemma FindLagInName(name: string)
    requires name == "E_DIV1_lag1.x_nodeMetrics_lag5.mat"
    ensures Find(name, LagMarker) == Some(6)
  {
    LagMarkerAt(name, 6);
    forall j: nat | j < 6
      ensures !OccursAt(name, LagMarker, j)
    {
      NoLagMarkerAt(name, j);
    }
  }

  lemma FindLagInRest(rest: string)
    requires rest == "1.x_nodeMetrics_lag5.mat"
    ensures Find(rest, LagMarker) == Some(15)
    ensures rest[..15] == "1.x_nodeMetrics"
  {
    LagMarkerAt(rest, 15);
    forall j: nat | j < 15
      ensures !OccursAt(rest, LagMarker, j)
    {
      NoLagMarkerAt(rest, j);
    }
  }

  lemma MisreadTail(name: string)
    requires name == "E_DIV1_lag1.x_nodeMetrics_lag5.mat"
    ensures name[10..] == "1.x_nodeMetrics_lag5.mat"
  {
  }

  lemma SplitMisread(name: string)
    requires name == "E_DIV1_lag1.x_nodeMetrics_lag5.mat"
    ensures Contains(name, LagMarker)
    ensures |SplitStr(name, LagMarker)| >= 2 && SplitStr(name, LagMarker)[1] == "1.x_nodeMetrics"
  {
    FindLagInName(name);
    var rest := name[10..];
    MisreadTail(name);
    FindLagInRest(rest);
    SplitStrFound(name, LagMarker, 6);
    SplitStrFound(rest, LagMarker, 15);
  }

  lemma ParseOne(mid: string)
    requires mid == "1.x_nodeMetrics"
    ensures ParseInt(Split(mid, '.')[0]) == Some(1)
  {
    SplitBeforeDot(mid, "1", "x_nodeMetrics");
    ParseSingleDigit("1");
  }

  /** Text made of two dot-free parts joined by a dot splits back into them. */
  lemma SplitBeforeDot(s: string, a: string, b: string)
    requires s == a + "." + b && '.' !in a && '.' !in b
    ensures Split(s, '.') == [a, b]
  {
    assert Join([a, b], ['.']) == s;
    SplitJoin([a, b], '.');
  }

  /** A one-digit text parses to that digit's value. */
  lemma ParseSingleDigit(t: string)
    requires |t| == 1 && IsDigit(t[0])
    ensures ParseInt(t) == Some(DigitValue(t[0]))
  {
    ParseDigits(t);
    assert t[..0] == [];
  }

  lemma LagOfFive(rest: string)
    requires rest == "5.mat"
    ensures LagOfRest(rest) == Some(5)
  {
    SplitBeforeDot(rest, "5", "mat");
    ParseSingleDigit("5");
  }

  // ------------------------------------------------- scan_graph_data_folder

  /**
   * One experiment folder: its name and, for each file the lag glob lists
   * in it, the text after `{exp}_nodeMetrics_lag`.
   */
  datatype ExpFolder = ExpFolder(name: string, lagRests: seq<string>)

  /** One group folder: its name and its experiment folders. */
  datatype GroupFolder = GroupFolder(name: string, exps: seq<ExpFolder>)

  datatype ScanInfo = ScanInfo(
    groups: seq<string>,
    experiments: Dict<string, seq<string>>,
    divs: Dict<string, Dict<DivValue, seq<string>>>,
    lags: seq<int>)

  function FolderName(g: GroupFolder): string {
    g.name
  }

  function ExpName(e: ExpFolder): string {
    e.name
  }

  function ExpDivKey(e: ExpFolder): DivValue {
    DivKey(e.name).GetOr(DivText(""))
  }

  function ExpHasDiv(e: ExpFolder): bool {
    HasDivPart(e.name)
  }

  /** A group's `divs` entry: its experiments with a DIV part, bucketed by DIV in listing order. */
  function DivIndex(g: GroupFolder): Dict<DivValue, seq<string>> {
    Bucket(Filter(ExpHasDiv, g.exps), ExpDivKey, [], AppendMapped(ExpName))
  }

  function SetExperiments(previous: seq<string>, g: GroupFolder): seq<string> {
    Map(ExpName, g.exps)
  }

  function SetDivIndex(previous: Dict<DivValue, seq<string>>, g: GroupFolder): Dict<DivValue, seq<string>> {
    DivIndex(g)
  }

  function ReadIn(exp: string, read: LagReader): string -> Option<int> {
    rest => read(exp, rest)
  }

  /** The lags one experiment contributes; the glob runs only for experiments with a DIV part. */
  function ExpLags(e: ExpFolder, read: LagReader): (r: seq<int>)
    ensures !ExpHasDiv(e) ==> r == []
    ensures forall x :: x in r <==> ExpHasDiv(e) && exists j | 0 <= j < |e.lagRests| :: read(e.name, e.lagRests[j]) == Some(x)
  {
    if !ExpHasDiv(e) then [] else FilterMap(ReadIn(e.name, read), e.lagRests)
  }

  function LagsOf(read: LagReader): ExpFolder -> seq<int> {
    e => ExpLags(e, read)
  }

  function GroupLags(g: GroupFolder, read: LagReader): seq<int> {
    Flatten(Map(LagsOf(read), g.exps))
  }

  function GroupLagsOf(read: LagReader): GroupFolder -> seq<int> {
    g => GroupLags(g, read)
  }

  /**
   * `scan_graph_data_folder` over the listed folders: every group, every
   * experiment per group, the DIV buckets, and the sorted distinct lags,
   * each listed file's lag read by `read`. The source reads with
   * `AsWrittenReader`; `CorrectedReader` is the corrected reading.
   */
  function ScanGraphData(folders: seq<GroupFolder>, read: LagReader): (r: ScanInfo)
    ensures r.groups == Map(FolderName, folders)
    ensures Keys(r.experiments) == Dedup(r.groups) && Keys(r.divs) == Dedup(r.groups)
    ensures StrictlyIncreasing(r.lags)
  {
    ScanInfo(
      Map(FolderName, folders),
      Bucket(folders, FolderName, [], SetExperiments),
      Bucket(folders, FolderName, [], SetDivIndex),
      SortedDistinct(Flatten(Map(GroupLagsOf(read), folders))))
  }

  /**
   * A lag is listed exactly when some experiment with a DIV part has a
   * lag file whose lag reads as it.
   */
  lemma ScanLags(folders: seq<GroupFolder>, read: LagReader, lag: int)
    ensures lag in ScanGraphData(folders, read).lags <==>
            exists i, k, j | 0 <= i < |folders| && 0 <= k < |folders[i].exps| && 0 <= j < |folders[i].exps[k].lagRests| ::
              ExpHasDiv(folders[i].exps[k]) && read(folders[i].exps[k].name, folders[i].exps[k].lagRests[j]) == Some(lag)
  {
    var gl := Map(GroupLagsOf(read), folders);
    FlattenMember(gl, lag);
    forall i | 0 <= i < |folders|
      ensures lag in gl[i] <==> exists k, j | 0 <= k < |folders[i].exps| && 0 <= j < |folders[i].exps[k].lagRests| ::
                ExpHasDiv(folders[i].exps[k]) && read(folders[i].exps[k].name, folders[i].exps[k].lagRests[j]) == Some(lag)
    {
      FlattenMember(Map(LagsOf(read), folders[i].exps), lag);
    }
  }

  /** The corrected reading lists the lag written after the matched `_lag`, whatever the experiment is called. */
  lemma CorrectedLagRoundTrip(exp: string, lag: int)
    ensures CorrectedReader(exp, IntToString(lag) + ".mat") == Some(lag)
  {
    LagOfRestRoundTrip(lag);
  }

  /**
   * The first `_lag` may belong to the experiment's own name: in a folder
   * holding only `E_DIV1_lag1.x` with its lag-5 file, the scan as written
   * lists lag 1 and not lag 5; the corrected scan lists 5 and not 1.
   */
  lemma LagAsWrittenMisreads()
    ensures var folders := [GroupFolder("G", [ExpFolder("E_DIV1_lag1.x", ["5.mat"])])];
            && 1 in ScanGraphData(folders, AsWrittenReader).lags
            && 5 !in ScanGraphData(folders, AsWrittenReader).lags
            && 5 in ScanGraphData(folders, CorrectedReader).lags
            && 1 !in ScanGraphData(folders, CorrectedReader).lags
  {
    var e := ExpFolder("E_DIV1_lag1.x", ["5.mat"]);
    var folders := [GroupFolder("G", [e])];
    ReadersOnMisread(e);
    MisreadHasDiv(e);
    OneFileLags(folders, AsWrittenReader, 1);
    OneFileLags(folders, AsWrittenReader, 5);
    OneFileLags(folders, CorrectedReader, 5);
    OneFileLags(folders, CorrectedReader, 1);
  }

  /** The two readings of `E_DIV1_lag1.x_nodeMetrics_lag5.mat`. */
  lemma ReadersOnMisread(e: ExpFolder)
    requires e.name == "E_DIV1_lag1.x"
    ensures AsWrittenReader(e.name, "5.mat") == Some(1)
    ensures CorrectedReader(e.name, "5.mat") == Some(5)
  {
    var name := NodeMetricsPrefix(e.name) + "5.mat";
    assert name == "E_DIV1_lag1.x_nodeMetrics_lag5.mat";
    SplitMisread(name);
    ParseOne(SplitStr(name, LagMarker)[1]);
    LagOfFive("5.mat");
  }

  /** A scan of one experiment with a DIV part and one lag file lists exactly the lag read from that file. */
  lemma OneFileLags(folders: seq<GroupFolder>, read: LagReader, lag: int)
    requires |folders| == 1 && |folders[0].exps| == 1 && |folders[0].exps[0].lagRests| == 1
    requires ExpHasDiv(folders[0].exps[0])
    ensures lag in ScanGraphData(folders, read).lags <==> read(folders[0].exps[0].name, folders[0].exps[0].lagRests[0]) == Some(lag)
  {
    ScanLags(folders, read, lag);
  }

  /** `E_DIV1_lag1.x` has the DIV part `DIV1`, so the scan globs its lag files. */
  lemma MisreadHasDiv(e: ExpFolder)
    requires e.name == "E_DIV1_lag1.x"
    ensures ExpHasDiv(e)
  {
    var parts := ["E", "DIV1", "lag1.x"];
    assert parts[1..][1..] == ["lag1.x"];
    assert Join(parts[1..][1..], ['_']) == "lag1.x";
    assert Join(parts[1..], ['_']) == "DIV1_lag1.x";
    assert Join(parts, ['_']) == e.name;
    assert '_' !in parts[0] && '_' !in parts[1] && '_' !in parts[2];
    SplitJoin(parts, '_');
    assert parts[1][0..3] == "DIV";
    assert OccursAt(parts[1], "DIV", 0);
    DivKeyPresent(e.name);
  }

  /** With distinct group folders, a group's experiment list is its folder's listing, complete and in order. */
  lemma ScanExperiments(folders: seq<GroupFolder>, read: LagReader, i: nat)
    requires NoDup(Map(FolderName, folders))
    requires i < |folders|
    ensures Get(ScanGraphData(folders, read).experiments, folders[i].name) == Some(Map(ExpName, folders[i].exps))
    ensures Get(ScanGraphData(folders, read).divs, folders[i].name) == Some(DivIndex(folders[i]))
  {
    var g := folders[i].name;
    assert Map(FolderName, folders)[i] == g;
    BucketGet(folders, FolderName, [], SetExperiments, g);
    BucketGet(folders, FolderName, [], SetDivIndex, g);
    FilterKeyUnique(FolderName, folders, i);
    assert FolderName(folders[i]) == g;
  }

  /**
   * A group's DIV bucket for `d` lists, in order, exactly its experiments
   * whose first DIV part gives `d`; experiments without one are in no bucket.
   */
  lemma DivIndexGet(g: GroupFolder, d: DivValue)
    ensures Get(DivIndex(g), d).GetOr([]) == Map(ExpName, Filter(KeyIs(ExpDivKey, d), Filter(ExpHasDiv, g.exps)))
  {
    var withDiv := Filter(ExpHasDiv, g.exps);
    BucketGet(withDiv, ExpDivKey, [], AppendMapped(ExpName), d);
    FoldAppendMapped(ExpName, Filter(KeyIs(ExpDivKey, d), withDiv));
  }

  // ------------------------------------------------------- compiled divs

  function GroupDivKeys(entry: (string, Dict<DivValue, seq<string>>)): seq<DivValue> {
    Keys(entry.1)
  }

  /** Every DIV any group lists, repeats included. */
  function AllDivKeys(divs: Dict<string, Dict<DivValue, seq<string>>>): seq<DivValue> {
    Flatten(Map(GroupDivKeys, divs))
  }

  /** Python's `<` between two DIV values; a number and a text are not comparable. */
  predicate DivLt(a: DivValue, b: DivValue) {
    (a.DivNum? && b.DivNum? && a.n < b.n) || (a.DivText? && b.DivText? && StrLt(a.s, b.s))
  }

  const MixedDivsError: string := "TypeError: '<' not supported between instances of 'str' and 'int'"

  function NumOrZero(d: DivValue): nat {
    if d.DivNum? then d.n else 0
  }

  function TextOrEmpty(d: DivValue): string {
    if d.DivText? then d.s else ""
  }

  function AsDivNum(n: int): DivValue {
    DivNum(if n < 0 then 0 else n)
  }

  function AsDivText(s: string): DivValue {
    DivText(s)
  }

  /** The distinct DIVs in ascending order, when every DIV is a number. */
  function SortedNumDivs(all: seq<DivValue>): (r: seq<DivValue>)
    requires forall d | d in all :: d.DivNum?
    ensures forall d :: d in r <==> d in all
    ensures forall i, j | 0 <= i < j < |r| :: DivLt(r[i], r[j])
  {
    var nums := Map(NumOrZero, all);
    var sorted := SortedDistinct(nums);
    var r := Map(AsDivNum, sorted);
    assert forall k | 0 <= k < |sorted| :: sorted[k] >= 0 && r[k] == DivNum(sorted[k]) by {
      forall k | 0 <= k < |sorted|
        ensures sorted[k] >= 0 && r[k] == DivNum(sorted[k])
      {
        assert sorted[k] in nums;
      }
    }
    assert forall d | d in r :: d in all by {
      forall d | d in r
        ensures d in all
      {
        var k :| 0 <= k < |r| && r[k] == d;
        assert sorted[k] in nums;
        var j :| 0 <= j < |all| && nums[j] == sorted[k];
        assert all[j] == d;
      }
    }
    assert forall d | d in all :: d in r by {
      forall d | d in all
        ensures d in r
      {
        var j :| 0 <= j < |all| && all[j] == d;
        assert nums[j] == d.n;
        assert d.n in sorted;
        var k :| 0 <= k < |sorted| && sorted[k] == d.n;
        assert r[k] == d;
      }
    }
    r
  }

  /** The distinct DIVs in ascending order, when every DIV is a text. */
  function SortedTextDivs(all: seq<DivValue>): (r: seq<DivValue>)
    requires forall d | d in all :: d.DivText?
    ensures forall d :: d in r <==> d in all
    ensures forall i, j | 0 <= i < j < |r| :: DivLt(r[i], r[j])
  {
    var texts := Map(TextOrEmpty, all);
    var sorted := SortedDistinctStr(texts);
    var r := Map(AsDivText, sorted);
    assert forall d | d in r :: d in all by {
      forall d | d in r
        ensures d in all
      {
        var k :| 0 <= k < |r| && r[k] == d;
        assert sorted[k] in texts;
        var j :| 0 <= j < |all| && texts[j] == sorted[k];
        assert all[j] == d;
      }
    }
    assert forall d | d in all :: d in r by {
      forall d | d in all
        ensures d in r
      {
        var j :| 0 <= j < |all| && all[j] == d;
        assert texts[j] == d.s;
        assert d.s in sorted;
        var k :| 0 <= k < |sorted| && sorted[k] == d.s;
        assert r[k] == d;
      }
    }
    r
  }

  /**
   * The compiled `divs`: the distinct DIVs the groups list, sorted.
   * Sorting a number against a text raises, so DIVs of both kinds fail.
   */
  function CompileDivs(divs: Dict<string, Dict<DivValue, seq<string>>>): (r: Result<seq<DivValue>>)
    ensures r.Success? <==> (forall d | d in AllDivKeys(divs) :: d.DivNum?) || (forall d | d in AllDivKeys(divs) :: d.DivText?)
    ensures r.Failure? ==> r.error == MixedDivsError
    ensures r.Success? ==> forall d :: d in r.value <==> d in AllDivKeys(divs)
    ensures r.Success? ==> forall i, j | 0 <= i < j < |r.value| :: DivLt(r.value[i], r.value[j])
  {
    var all := AllDivKeys(divs);
    if forall d | d in all :: d.DivNum? then Success(SortedNumDivs(all))
    else if forall d | d in all :: d.DivText? then Success(SortedTextDivs(all))
    else Failure(MixedDivsError)
  }

  /** The experiments of one group folder with a DIV part that gives `d`. */
  predicate DivInFolder(g: GroupFolder, d: DivValue) {
    exists k | 0 <= k < |g.exps| :: ExpHasDiv(g.exps[k]) && ExpDivKey(g.exps[k]) == d
  }

  lemma DivIndexKeys(g: GroupFolder, d: DivValue)
    ensures d in Keys(DivIndex(g)) <==> DivInFolder(g, d)
  {
    BucketFilteredKeys(ExpHasDiv, g.exps, ExpDivKey, [], AppendMapped(ExpName), d);
  }

  lemma ScanDivKeysSound(folders: seq<GroupFolder>, read: LagReader, d: DivValue)
    requires d in AllDivKeys(ScanGraphData(folders, read).divs)
    ensures exists i | 0 <= i < |folders| :: DivInFolder(folders[i], d)
  {
    var divs := Bucket(folders, FolderName, [], SetDivIndex);
    assert ScanGraphData(folders, read).divs == divs;
    FlattenMapMember(GroupDivKeys, divs, d);
    var e :| e in divs && d in GroupDivKeys(e);
    var i, previous := BucketEntryFrom(folders, FolderName, [], SetDivIndex, e);
    DivIndexKeys(folders[i], d);
  }

  lemma ScanDivKeysComplete(folders: seq<GroupFolder>, read: LagReader, d: DivValue, i: nat)
    requires NoDup(Map(FolderName, folders))
    requires i < |folders| && DivInFolder(folders[i], d)
    ensures d in AllDivKeys(ScanGraphData(folders, read).divs)
  {
    var divs := ScanGraphData(folders, read).divs;
    DivIndexKeys(folders[i], d);
    ScanExperiments(folders, read, i);
    var e := (folders[i].name, DivIndex(folders[i]));
    assert e in divs && d in GroupDivKeys(e);
    FlattenMapMember(GroupDivKeys, divs, d);
  }

  /**
   * With distinct group folders, the DIVs the groups list are exactly the
   * first-part DIVs of their experiments that have one.
   */
  lemma ScanDivKeys(folders: seq<GroupFolder>, read: LagReader, d: DivValue)
    requires NoDup(Map(FolderName, folders))
    ensures d in AllDivKeys(ScanGraphData(folders, read).divs) <==> exists i | 0 <= i < |folders| :: DivInFolder(folders[i], d)
  {
    if d in AllDivKeys(ScanGraphData(folders, read).divs) {
      ScanDivKeysSound(folders, read, d);
    }
    if exists i | 0 <= i < |folders| :: DivInFolder(folders[i], d) {
      var i :| 0 <= i < |folders| && DivInFolder(folders[i], d);
      ScanDivKeysComplete(folders, read, d, i);
    }
  }

  // -------------------------------------------------- DIV filter of loaders

  /** An experiment the network and cartography loaders take up, with its group and DIV. */
  datatype Loaded = Loaded(exp: string, group: string, div: DivValue)

  function LoadedName(l: Loaded): string {
    l.exp
  }

  function LoadGroup(group: string, exps: seq<string>): (r: seq<Loaded>)
    ensures forall k | 0 <= k < |r| :: r[k].group == group && DivKey(r[k].exp) == Some(r[k].div)
    decreases |exps|
  {
    if exps == [] then []
    else
      var n := |exps| - 1;
      var pre := LoadGroup(group, exps[..n]);
      match DivKey(exps[n])
      case None => pre
      case Some(d) => pre + [Loaded(exps[n], group, d)]
  }

  /** A group's loaded experiments are its names with a DIV part, in listing order. */
  lemma {:induction false} LoadGroupNames(group: string, exps: seq<string>)
    ensures Map(LoadedName, LoadGroup(group, exps)) == Filter(HasDivPart, exps)
    decreases |exps|
  {
    if exps != [] {
      var n := |exps| - 1;
      LoadGroupNames(group, exps[..n]);
      LoadGroupSnoc(group, exps);
      FilterStep(HasDivPart, exps, Map(LoadedName, LoadGroup(group, exps[..n])),
                 Map(LoadedName, LoadGroup(group, exps)));
    }
  }

  /** One more name adds itself exactly when it has a DIV part. */
  lemma LoadGroupSnoc(group: string, exps: seq<string>)
    requires exps != []
    ensures var n := |exps| - 1;
            Map(LoadedName, LoadGroup(group, exps))
              == Map(LoadedName, LoadGroup(group, exps[..n])) + if HasDivPart(exps[n]) then [exps[n]] else []
  {
    var n := |exps| - 1;
    var x := exps[n];
    var pre := LoadGroup(group, exps[..n]);
    if DivKey(x).Some? {
      MapSnoc(LoadedName, pre, Loaded(x, group, DivKey(x).value));
    }
  }

  const MissingGroupError: string := "KeyError: group"

  /**
   * The loaders' walk over every group and then over that group's
   * experiments, skipping names without a DIV part; a group without an experiments
   * entry raises.
   */
  function LoadOrder(groups: seq<string>, experiments: Dict<string, seq<string>>): (r: Result<seq<Loaded>>)
    ensures r.Success? <==> forall g | g in groups :: g in Keys(experiments)
    ensures r.Failure? ==> r.error == MissingGroupError
    ensures r.Success? ==> forall k | 0 <= k < |r.value| ::
              r.value[k].group in groups && HasDivPart(r.value[k].exp) && DivKey(r.value[k].exp) == Some(r.value[k].div)
    decreases |groups|
  {
    if groups == [] then Success([])
    else
      var n := |groups| - 1;
      assert forall g | g in groups :: g in groups[..n] || g == groups[n] by {
        SplitLast(groups);
      }
      var pre :- LoadOrder(groups[..n], experiments);
      match Get(experiments, groups[n])
      case None => Failure(MissingGroupError)
      case Some(exps) => Success(pre + LoadGroup(groups[n], exps))
  }

  /** The loaders never fail on what the scan produced. */
  lemma LoadOrderOfScan(folders: seq<GroupFolder>, read: LagReader)
    ensures LoadOrder(ScanGraphData(folders, read).groups, ScanGraphData(folders, read).experiments).Success?
  {
  }

  // --------------------------------------------------------- role counting

  /** The six nodal roles of the node cartography, in the order of the count records. */
  const RoleNames: seq<string> :=
    ["Peripheral", "Non-hub connector", "Non-hub kinless", "Provincial hub", "Connector hub", "Kinless hub"]

  function RoleIs(role: string): string -> bool {
    (r: string) => r == role
  }

  function IsRoleName(r: string): bool {
    r in RoleNames
  }

  function ZeroCount(role: string): (string, nat) {
    (role, 0)
  }

  /** A fresh `role_counts` record: every role at 0. */
  function InitialRoleCounts(): (r: Dict<string, nat>)
    ensures Keys(r) == RoleNames
  {
    Map(ZeroCount, RoleNames)
  }

  function AddRoles(roles: seq<string>): ((string, nat)) -> (string, nat) {
    (e: (string, nat)) => (e.0, e.1 + Count(RoleIs(e.0), roles))
  }

  /** Every counted role gains the number of nodes whose role reads as its name. */
  function CountRoles(counts: Dict<string, nat>, roles: seq<string>): (r: Dict<string, nat>)
    ensures Keys(r) == Keys(counts)
    ensures forall k | 0 <= k < |r| :: r[k].1 == counts[k].1 + Count(RoleIs(counts[k].0), roles)
  {
    var r := Map(AddRoles(roles), counts);
    assert forall k | 0 <= k < |r| :: r[k] == AddRoles(roles)(counts[k]);
    r
  }

  function CountEntry(s: seq<string>): string -> (string, nat) {
    role => (role, Count(RoleIs(role), s))
  }

  /**
   * The counts after the roles of several files: each role's count is the
   * number of equal entries among all their roles together.
   */
  lemma {:induction false} RoleCountsAccumulate(files: seq<seq<string>>)
    ensures FoldLeft(CountRoles, InitialRoleCounts(), files) == Map(CountEntry(Flatten(files)), RoleNames)
    decreases |files|
  {
    var all := Flatten(files);
    if files == [] {
      assert forall k | 0 <= k < |RoleNames| :: CountEntry(all)(RoleNames[k]) == ZeroCount(RoleNames[k]);
    } else {
      var n := |files| - 1;
      var pre := files[..n];
      SplitLast(files);
      FoldLeftSnoc(CountRoles, InitialRoleCounts(), pre, files[n]);
      RoleCountsAccumulate(pre);
      FlattenSnoc(pre, files[n]);
      RoleCountsStep(RoleNames, Flatten(pre), files[n]);
    }
  }

  /** Counting one more file's roles on top of the counts of `seen` gives the counts of both together. */
  lemma RoleCountsStep(names: seq<string>, seen: seq<string>, roles: seq<string>)
    ensures CountRoles(Map(CountEntry(seen), names), roles) == Map(CountEntry(seen + roles), names)
  {
    var before := Map(CountEntry(seen), names);
    var after := CountRoles(before, roles);
    forall k | 0 <= k < |names|
      ensures after[k] == CountEntry(seen + roles)(names[k])
    {
      CountAppend(RoleIs(names[k]), seen, roles);
      assert Keys(after)[k] == Keys(before)[k];
    }
  }

  /** The six role names differ from each other (their lengths already do). */
  lemma RoleNamesDistinct()
    ensures NoDup(RoleNames)
  {
    var lengths := [10, 17, 15, 14, 13, 11];
    assert forall k | 0 <= k < 6 :: |RoleNames[k]| == lengths[k];
  }

  function SumCounts(d: Dict<string, nat>): nat
    decreases |d|
  {
    if d == [] then 0 else SumCounts(d[..|d| - 1]) + d[|d| - 1].1
  }

  function AmongNames(names: seq<string>): string -> bool {
    r => r in names
  }

  lemma {:induction false} SumOfCountEntries(names: seq<string>, s: seq<string>)
    requires NoDup(names)
    ensures SumCounts(Map(CountEntry(s), names)) == Count(AmongNames(names), s)
    decreases |names|
  {
    if names == [] {
      CountExt(AmongNames(names), (r: string) => false, s);
      CountZero(s);
    } else {
      var n := |names| - 1;
      var pre := names[..n];
      SplitLast(names);
      MapSnoc(CountEntry(s), pre, names[n]);
      assert Map(CountEntry(s), names)[..n] == Map(CountEntry(s), pre);
      SumOfCountEntries(pre, s);
      assert names[n] !in pre;
      CountDisjoint(AmongNames(pre), RoleIs(names[n]), AmongNames(names), s);
    }
  }

  lemma {:induction false} CountZero(s: seq<string>)
    ensures Count((r: string) => false, s) == 0
    decreases |s|
  {
    if s != [] {
      CountZero(s[1..]);
    }
  }

  /** The counts add up to the number of roles that carry one of the six names; others are not counted. */
  lemma RoleTotal(files: seq<seq<string>>)
    ensures SumCounts(FoldLeft(CountRoles, InitialRoleCounts(), files)) == Count(IsRoleName, Flatten(files))
  {
    RoleCountsAccumulate(files);
    RoleNamesDistinct();
    SumOfCountEntries(RoleNames, Flatten(files));
    CountExt(AmongNames(RoleNames), IsRoleName, Flatten(files));
  }

  // ------------------------------------------------------ role proportions

  function SumShares(d: Dict<string, real>): real
    decreases |d|
  {
    if d == [] then 0.0 else SumShares(d[..|d| - 1]) + d[|d| - 1].1
  }

  function Share(total: nat): ((string, nat)) -> (string, real)
    requires total > 0
  {
    (e: (string, nat)) => (e.0, e.1 as real / total as real)
  }

  function NoShare(e: (string, nat)): (string, real) {
    (e.0, 0.0)
  }

  lemma {:induction false} EntryBelowSum(d: Dict<string, nat>, k: nat)
    requires k < |d|
    ensures d[k].1 <= SumCounts(d)
    decreases |d|
  {
    if k < |d| - 1 {
      EntryBelowSum(d[..|d| - 1], k);
    }
  }

  lemma {:induction false} SumOfShares(d: Dict<string, nat>, total: nat)
    requires total > 0
    ensures SumShares(Map(Share(total), d)) * total as real == SumCounts(d) as real
    decreases |d|
  {
    if d != [] {
      var n := |d| - 1;
      var r := Map(Share(total), d);
      assert r[..n] == Map(Share(total), d[..n]);
      SumOfShares(d[..n], total);
      var x := SumShares(r[..n]);
      var c := d[n].1;
      assert r[n].1 == c as real / total as real;
      Scale(x, c, total);
    }
  }

  lemma Scale(x: real, c: nat, t: nat)
    requires t > 0
    ensures (x + c as real / t as real) * t as real == x * t as real + c as real
  {
  }

  lemma ShareBounds(c: nat, t: nat)
    requires 0 < t && c <= t
    ensures 0.0 <= c as real / t as real <= 1.0
  {
  }

  lemma Cancel(s: real, t: nat, c: real)
    requires t > 0 && s * t as real == c && c == t as real
    ensures s == 1.0
  {
    var tr := t as real;
    assert tr / tr == 1.0;
    calc {
      s;
      s * (tr / tr);
      (s * tr) / tr;
      tr / tr;
    }
  }

  /** With a positive total, each share lies in [0, 1]. */
  lemma SharesBounded(counts: Dict<string, nat>)
    requires SumCounts(counts) > 0
    ensures var r := Map(Share(SumCounts(counts)), counts);
            forall k | 0 <= k < |r| :: 0.0 <= r[k].1 <= 1.0
  {
    var total := SumCounts(counts);
    var r := Map(Share(total), counts);
    forall k | 0 <= k < |r|
      ensures 0.0 <= r[k].1 <= 1.0
    {
      ShareAt(counts, k);
    }
  }

  lemma ShareAt(counts: Dict<string, nat>, k: nat)
    requires SumCounts(counts) > 0 && k < |counts|
    ensures var s := Map(Share(SumCounts(counts)), counts)[k].1;
            0.0 <= s <= 1.0
  {
    var total := SumCounts(counts);
    EntryBelowSum(counts, k);
    var s := Map(Share(total), counts)[k].1;
    assert s == counts[k].1 as real / total as real;
    ShareBounds(counts[k].1, total);
  }

  /** With a positive total, the shares add up to 1. */
  lemma SharesSumToOne(counts: Dict<string, nat>)
    requires SumCounts(counts) > 0
    ensures SumShares(Map(Share(SumCounts(counts)), counts)) == 1.0
  {
    var total := SumCounts(counts);
    var x := SumShares(Map(Share(total), counts));
    SumOfShares(counts, total);
    Cancel(x, total, SumCounts(counts) as real);
  }

  /**
   * `role_proportions`: each count over the total when the total is
   * positive, every role at 0 otherwise.
   */
  function RoleProportions(counts: Dict<string, nat>): (r: Dict<string, real>)
    ensures Keys(r) == Keys(counts)
    ensures forall k | 0 <= k < |r| :: 0.0 <= r[k].1 <= 1.0
    ensures SumCounts(counts) > 0 ==> SumShares(r) == 1.0
    ensures SumCounts(counts) > 0 ==> forall k | 0 <= k < |r| :: r[k].1 == counts[k].1 as real / SumCounts(counts) as real
    ensures SumCounts(counts) == 0 ==> forall k | 0 <= k < |r| :: r[k].1 == 0.0
  {
    var total := SumCounts(counts);
    if total > 0 then
      SharesBounded(counts);
      SharesSumToOne(counts);
      Map(Share(total), counts)
    else
      Map(NoShare, counts)
  }
}

=== FILE: dicts.dfy ===
/**
 * Python dictionaries as association lists: keys keep their insertion
 * order, and assigning to an existing key keeps that key's position.
 */
module Dicts {
  import opened Wrappers
  import opened Seqs

  type Dict<K, V> = seq<(K, V)>

  function Keys<K, V>(d: Dict<K, V>): (r: seq<K>)
    ensures |r| == |d|
    ensures forall i | 0 <= i < |d| :: r[i] == d[i].0
  {
    Firsts(d)
  }

  /** A well-formed dictionary: no key twice. */
  predicate Valid<K(==), V>(d: Dict<K, V>) {
    NoDup(Keys(d))
  }

  /** `d.get(k)`. */
  function Get<K(==), V>(d: Dict<K, V>, k: K): (r: Option<V>)
    ensures r.None? <==> k !in Keys(d)
    ensures r.Some? ==> (k, r.value) in d
    decreases |d|
  {
    if d == [] then None
    else if d[0].0 == k then Some(d[0].1)
    else
      assert Keys(d) == [d[0].0] + Keys(d[1..]);
      Get(d[1..], k)
  }

  /** `d[k] = v`. */
  function Put<K(==), V>(d: Dict<K, V>, k: K, v: V): (r: Dict<K, V>)
    ensures Keys(r) == if k in Keys(d) then Keys(d) else Keys(d) + [k]
    ensures forall e | e in r :: e == (k, v) || e in d
    decreases |d|
  {
    if d == [] then [(k, v)]
    else if d[0].0 == k then
      KeysCons(d[0], d[1..]);
      KeysCons((k, v), d[1..]);
      [(k, v)] + d[1..]
    else
      var rest := Put(d[1..], k, v);
      assert [d[0]] + d[1..] == d;
      KeysPutCons(d[0], d[1..], rest, k);
      [d[0]] + rest
  }

  /** The keys after an assignment past the head entry. */
  lemma KeysPutCons<K, V>(e: (K, V), d: Dict<K, V>, rest: Dict<K, V>, k: K)
    requires e.0 != k
    requires Keys(rest) == if k in Keys(d) then Keys(d) else Keys(d) + [k]
    ensures Keys([e] + rest) == if k in Keys([e] + d) then Keys([e] + d) else Keys([e] + d) + [k]
  {
    KeysCons(e, d);
    KeysCons(e, rest);
    assert k in Keys([e] + d) <==> k in Keys(d);
    if k !in Keys(d) {
      assert [e.0] + (Keys(d) + [k]) == ([e.0] + Keys(d)) + [k];
    }
  }

  lemma KeysCons<K, V>(e: (K, V), d: Dict<K, V>)
    ensures Keys([e] + d) == [e.0] + Keys(d)
  {
  }

  /** Assigning a key to a dict keyed by the distinct elements of `ks` keys it by those of `ks + [k]`. */
  lemma PutKeysDedup<K(!new), V>(d: Dict<K, V>, ks: seq<K>, k: K, v: V)
    requires Keys(d) == Dedup(ks)
    ensures Keys(Put(d, k, v)) == Dedup(ks + [k])
  {
    DedupSnoc(ks, k);
  }

  lemma {:induction false} GetPut<K, V>(d: Dict<K, V>, k: K, v: V, k2: K)
    ensures Get(Put(d, k, v), k2) == if k2 == k then Some(v) else Get(d, k2)
    decreases |d|
  {
    if d != [] && d[0].0 != k {
      GetPut(d[1..], k, v, k2);
    }
  }

  lemma PutValid<K, V>(d: Dict<K, V>, k: K, v: V)
    requires Valid(d)
    ensures Valid(Put(d, k, v))
  {
  }

  /** Membership test `k in d`. */
  predicate HasKey<K(==), V>(d: Dict<K, V>, k: K) {
    k in Keys(d)
  }

  /**
   * A loop that assigns each key the value `entry` gives it, skipping
   * keys without one and stopping at the first key where `entry` raises.
   */
  function AssignEach<K(==), V>(keys: seq<K>, entry: K -> Result<Option<V>>): (r: Result<Dict<K, V>>)
    ensures r.Success? <==> forall i | 0 <= i < |keys| :: entry(keys[i]).Success?
    ensures r.Success? ==> forall k | k !in keys :: k !in Keys(r.value)
    decreases |keys|
  {
    if keys == [] then Success([])
    else
      var n := |keys| - 1;
      AllSucceedLast(entry, keys[..n], keys);
      var acc :- AssignEach(keys[..n], entry);
      var e :- entry(keys[n]);
      if e.Some? then Success(Put(acc, keys[n], e.value)) else Success(acc)
  }

  lemma AssignEachSnoc<K, V>(keys: seq<K>, entry: K -> Result<Option<V>>)
    requires keys != [] && forall i | 0 <= i < |keys| :: entry(keys[i]).Success?
    ensures var n := |keys| - 1;
            var acc := AssignEach(keys[..n], entry).value;
            var e := entry(keys[n]).value;
            AssignEach(keys, entry).value == if e.Some? then Put(acc, keys[n], e.value) else acc
  {
    var n := |keys| - 1;
    assert forall i | 0 <= i < n :: keys[..n][i] == keys[i];
  }

  /** Each listed key ends up holding its entry; a key listed twice gets the same entry twice. */
  lemma {:induction false} AssignEachGet<K, V>(keys: seq<K>, entry: K -> Result<Option<V>>, i: nat)
    requires forall j | 0 <= j < |keys| :: entry(keys[j]).Success?
    requires i < |keys|
    ensures Get(AssignEach(keys, entry).value, keys[i]) == entry(keys[i]).value
    decreases |keys|
  {
    var n := |keys| - 1;
    var pre := keys[..n];
    var x := keys[n];
    var k := keys[i];
    AssignEachSnoc(keys, entry);
    var acc := AssignEach(pre, entry).value;
    if k != x {
      assert i < n && pre[i] == k;
      AssignEachGet(pre, entry, i);
      assert Get(acc, k) == entry(k).value;
    } else if k in pre {
      var j := FirstIndex(pre, k);
      AssignEachGet(pre, entry, j);
      assert Get(acc, k) == entry(k).value;
    } else {
      assert k !in Keys(acc);
    }
    AssignGetStep(acc, AssignEach(keys, entry).value, x, entry(x).value, k, entry(k).value, k in pre);
  }

  /** One pass of the assignment loop keeps a key's value, or replaces it when the key is the one assigned. */
  lemma AssignGetStep<K, V>(acc: Dict<K, V>, out: Dict<K, V>, x: K, e: Option<V>, k: K, v: Option<V>, seen: bool)
    requires out == if e.Some? then Put(acc, x, e.value) else acc
    requires k != x ==> Get(acc, k) == v
    requires k == x ==> v == e
    requires k == x && seen ==> Get(acc, k) == v
    requires !seen ==> k !in Keys(acc)
    ensures Get(out, k) == v
  {
    if e.Some? {
      GetPut(acc, x, e.value, k);
    }
  }

  /** A property every assigned entry has holds of every value in the result. */
  lemma {:induction false} AssignEachInvariant<K, V>(keys: seq<K>, entry: K -> Result<Option<V>>, inv: V -> bool)
    requires forall j | 0 <= j < |keys| :: entry(keys[j]).Success?
    requires forall j | 0 <= j < |keys| && entry(keys[j]).value.Some? :: inv(entry(keys[j]).value.value)
    ensures forall e | e in AssignEach(keys, entry).value :: inv(e.1)
    decreases |keys|
  {
    if keys != [] {
      var n := |keys| - 1;
      assert forall j | 0 <= j < n :: keys[..n][j] == keys[j];
      AssignEachSnoc(keys, entry);
      AssignEachInvariant(keys[..n], entry, inv);
    }
  }

  /** The result is a well-formed dict. */
  lemma {:induction false} AssignEachValid<K, V>(keys: seq<K>, entry: K -> Result<Option<V>>)
    requires forall j | 0 <= j < |keys| :: entry(keys[j]).Success?
    ensures Valid(AssignEach(keys, entry).value)
    decreases |keys|
  {
    if keys != [] {
      var n := |keys| - 1;
      assert forall j | 0 <= j < n :: keys[..n][j] == keys[j];
      AssignEachSnoc(keys, entry);
      AssignEachValid(keys[..n], entry);
      var acc := AssignEach(keys[..n], entry).value;
      var e := entry(keys[n]).value;
      if e.Some? {
        PutValid(acc, keys[n], e.value);
      }
    }
  }

  /** The keys are the kept keys, each once, in first-seen order. */
  lemma {:induction false} AssignEachKeys<K(!new), V>(keys: seq<K>, entry: K -> Result<Option<V>>, kept: K -> bool)
    requires forall j | 0 <= j < |keys| :: entry(keys[j]).Success?
    requires forall j | 0 <= j < |keys| :: kept(keys[j]) == entry(keys[j]).value.Some?
    ensures Keys(AssignEach(keys, entry).value) == Dedup(Filter(kept, keys))
    decreases |keys|
  {
    if keys != [] {
      var n := |keys| - 1;
      var pre := keys[..n];
      var x := keys[n];
      AssignPrefix(keys, entry, kept);
      AssignEachSnoc(keys, entry);
      AssignEachKeys(pre, entry, kept);
      FilterStep(kept, keys, Filter(kept, pre), if kept(x) then Filter(kept, pre) + [x] else Filter(kept, pre));
      AssignKeysStep(AssignEach(pre, entry).value, AssignEach(keys, entry).value, Filter(kept, pre), x, entry(x).value);
    }
  }

  /** What holds of every key's entry holds of every key of a prefix. */
  lemma AssignPrefix<K, V>(keys: seq<K>, entry: K -> Result<Option<V>>, kept: K -> bool)
    requires keys != []
    requires forall j | 0 <= j < |keys| :: entry(keys[j]).Success?
    requires forall j | 0 <= j < |keys| :: kept(keys[j]) == entry(keys[j]).value.Some?
    ensures var pre := keys[..|keys| - 1];
            && (forall j | 0 <= j < |pre| :: entry(pre[j]).Success?)
            && (forall j | 0 <= j < |pre| :: kept(pre[j]) == entry(pre[j]).value.Some?)
  {
    var pre := keys[..|keys| - 1];
    forall j | 0 <= j < |pre|
      ensures pre[j] == keys[j]
    {
    }
  }

  /** One pass of the assignment loop extends the key list by the key when its entry is kept. */
  lemma AssignKeysStep<K(!new), V>(acc: Dict<K, V>, out: Dict<K, V>, ks: seq<K>, x: K, e: Option<V>)
    requires Keys(acc) == Dedup(ks)
    requires out == if e.Some? then Put(acc, x, e.value) else acc
    ensures Keys(out) == Dedup(if e.Some? then ks + [x] else ks)
  {
    if e.Some? {
      PutKeysDedup(acc, ks, x, e.value);
    }
  }

  lemma PutPut<K, V>(d: Dict<K, V>, k: K, v: V, w: V)
    ensures Put(Put(d, k, v), k, w) == Put(d, k, w)
    decreases |d|
  {
    if d != [] && d[0].0 != k {
      PutPut(d[1..], k, v, w);
    }
  }

  /**
   * A grouping loop: each element is added into the entry of its key,
   * which starts from `init` the first time the key is seen; appending to
   * a list per key is the common case.
   */
  function Bucket<T, K(==,!new), V>(s: seq<T>, key: T -> K, init: V, add: (V, T) -> V): (r: Dict<K, V>)
    ensures Keys(r) == Dedup(Map(key, s))
    decreases |s|
  {
    if s == [] then []
    else
      var n := |s| - 1;
      var d := Bucket(s[..n], key, init, add);
      var k := key(s[n]);
      var v := add(Get(d, k).GetOr(init), s[n]);
      MapSnoc(key, s[..n], s[n]);
      SplitLast(s);
      PutKeysDedup(d, Map(key, s[..n]), k, v);
      Put(d, k, v)
  }

  lemma BucketSnoc<T, K(!new), V>(s: seq<T>, key: T -> K, init: V, add: (V, T) -> V, x: T)
    ensures var d := Bucket(s, key, init, add);
            Bucket(s + [x], key, init, add) == Put(d, key(x), add(Get(d, key(x)).GetOr(init), x))
  {
    assert (s + [x])[..|s|] == s;
  }

  /** Each key holds the fold of `add` over its own elements, in order. */
  lemma {:induction false} BucketGet<T, K(!new), V>(s: seq<T>, key: T -> K, init: V, add: (V, T) -> V, k: K)
    ensures Get(Bucket(s, key, init, add), k).GetOr(init) == FoldLeft(add, init, Filter(KeyIs(key, k), s))
    ensures k in Map(key, s) ==> Get(Bucket(s, key, init, add), k) == Some(FoldLeft(add, init, Filter(KeyIs(key, k), s)))
    decreases |s|
  {
    if s == [] {
    } else {
      var n := |s| - 1;
      var pre := s[..n];
      var x := s[n];
      SplitLast(s);
      BucketSnoc(pre, key, init, add, x);
      BucketGet(pre, key, init, add, k);
      var d := Bucket(pre, key, init, add);
      var v := add(Get(d, key(x)).GetOr(init), x);
      GetPut(d, key(x), v, k);
      FilterSnoc(KeyIs(key, k), pre, x);
      if key(x) == k {
        assert KeyIs(key, k)(x);
        FoldLeftSnoc(add, init, Filter(KeyIs(key, k), pre), x);
      } else {
        assert !KeyIs(key, k)(x);
        MapSnoc(key, pre, x);
      }
    }
  }

  /** In a well-formed dict, looking up an entry's key finds that entry's value. */
  lemma {:induction false} GetAt<K, V>(d: Dict<K, V>, j: nat)
    requires Valid(d) && j < |d|
    ensures Get(d, d[j].0) == Some(d[j].1)
    decreases |d|
  {
    if j > 0 {
      assert Keys(d)[0] != Keys(d)[j];
      assert forall a | 0 <= a < |d| - 1 :: Keys(d[1..])[a] == Keys(d)[a + 1];
      assert Valid(d[1..]);
      GetAt(d[1..], j - 1);
    }
  }

  /** A key is bucketed from the kept elements exactly when a kept element has it. */
  lemma BucketFilteredKeys<T, K(!new), V>(p: T -> bool, s: seq<T>, key: T -> K, init: V, add: (V, T) -> V, k: K)
    ensures k in Keys(Bucket(Filter(p, s), key, init, add)) <==> exists i | 0 <= i < |s| :: p(s[i]) && key(s[i]) == k
  {
    var kept := Filter(p, s);
    if k in Keys(Bucket(kept, key, init, add)) {
      assert k in Map(key, kept);
      var m :| 0 <= m < |kept| && key(kept[m]) == k;
      FilterIn(p, s, kept[m]);
      var i :| 0 <= i < |s| && s[i] == kept[m];
      assert p(s[i]) && key(s[i]) == k;
    }
    if exists i | 0 <= i < |s| :: p(s[i]) && key(s[i]) == k {
      var i :| 0 <= i < |s| && p(s[i]) && key(s[i]) == k;
      assert s[i] in kept;
      var m :| 0 <= m < |kept| && kept[m] == s[i];
      assert Map(key, kept)[m] == k;
    }
  }

  /** Every entry is the key of some element, holding `add` applied to that element. */
  lemma {:induction false} BucketEntryFrom<T, K(!new), V>(s: seq<T>, key: T -> K, init: V, add: (V, T) -> V, e: (K, V))
      returns (i: nat, previous: V)
    requires e in Bucket(s, key, init, add)
    ensures i < |s| && key(s[i]) == e.0 && e.1 == add(previous, s[i])
    decreases |s|
  {
    if |s| > 0 {
      var n := |s| - 1;
      var pre := s[..n];
      var v := Get(Bucket(pre, key, init, add), key(s[n])).GetOr(init);
      BucketEntryLast(s, key, init, add, e);
      if e in Bucket(pre, key, init, add) {
        i, previous := BucketEntryFrom(pre, key, init, add, e);
      } else {
        i, previous := n, v;
      }
    }
  }

  lemma BucketEntryLast<T, K(!new), V>(s: seq<T>, key: T -> K, init: V, add: (V, T) -> V, e: (K, V))
    requires |s| > 0
    ensures var pre := s[..|s| - 1];
            var x := s[|s| - 1];
            e in Bucket(s, key, init, add) ==>
              e in Bucket(pre, key, init, add) || e == (key(x), add(Get(Bucket(pre, key, init, add), key(x)).GetOr(init), x))
  {
    var n := |s| - 1;
    SplitLast(s);
    BucketSnoc(s[..n], key, init, add, s[n]);
  }

  /** The same keys, in order, each with its value passed through `f`. */
  function MapValues<K(==,!new), V, W>(d: Dict<K, V>, f: V -> W): (r: Dict<K, W>)
    ensures Keys(r) == Keys(d)
    ensures forall k :: Get(r, k) == if Get(d, k).Some? then Some(f(Get(d, k).value)) else None
    decreases |d|
  {
    if d == [] then []
    else
      var rest := MapValues(d[1..], f);
      var r := [(d[0].0, f(d[0].1))] + rest;
      assert r[1..] == rest;
      assert Keys(r) == [d[0].0] + Keys(rest);
      assert Keys(d) == [d[0].0] + Keys(d[1..]);
      r
  }

  /** An empty dict with each key of `keys` assigned `init`. */
  function InitEach<K(==,!new), V>(keys: seq<K>, init: V): (r: Dict<K, V>)
    ensures Keys(r) == Dedup(keys)
    ensures forall k :: Get(r, k) == if k in keys then Some(init) else None
    decreases |keys|
  {
    if keys == [] then []
    else
      var n := |keys| - 1;
      var pre := InitEach(keys[..n], init);
      SplitLast(keys);
      DedupSnoc(keys[..n], keys[n]);
      forall k
        ensures Get(Put(pre, keys[n], init), k) == if k in keys then Some(init) else None
      {
        GetPut(pre, keys[n], init, k);
      }
      Put(pre, keys[n], init)
  }
}

=== FILE: experiment_mat_loader.dfy ===
/**
 * data_processing/experiment_mat_loader.py: recovering names and DIVs from
 * nested MATLAB values, the within-burst firing rate, and the conversion of
 * loaded experiments into the dashboard's data dict.
 */
module ExperimentMatLoader {
  import opened Wrappers
  import opened Numeric
  import opened Seqs
  import opened Text
  import opened Dicts
  import opened Utilities
  import opened DashboardData

  // ------------------------------------------------------ extract_with_regex

  /** The class `[A-Za-z0-9_]`. */
  predicate IsWordChar(c: char) {
    ('A' <= c <= 'Z') || ('a' <= c <= 'z') || ('0' <= c <= '9') || c == '_'
  }

  /** Length of the run of word characters starting at `i`. */
  function WordRunLength(s: string, i: nat): (n: nat)
    ensures i + n <= |s| || (i > |s| && n == 0)
    ensures forall k | i <= k < i + n :: IsWordChar(s[k])
    ensures i + n >= |s| || !IsWordChar(s[i + n])
    decreases |s| - i
  {
    if i < |s| && IsWordChar(s[i]) then 1 + WordRunLength(s, i + 1) else 0
  }

  /** `'([A-Za-z0-9_]+)'` matches at `i`: a quote, a non-empty word run, a quote. */
  predicate QuotedMatchAt(s: string, i: nat) {
    i < |s| && s[i] == '\'' && WordRunLength(s, i + 1) > 0
    && i + 1 + WordRunLength(s, i + 1) < |s| && s[i + 1 + WordRunLength(s, i + 1)] == '\''
  }

  function QuotedAt(s: string): nat -> bool {
    (i: nat) => QuotedMatchAt(s, i)
  }

  /** `([A-Za-z0-9_]{5,})` matches at `i`. */
  function LongRunAt(s: string): nat -> bool {
    (i: nat) => WordRunLength(s, i) >= 5
  }

  predicate AllWordChars(s: string) {
    forall k | 0 <= k < |s| :: IsWordChar(s[k])
  }

  /**
   * `extract_with_regex`: the first quoted word, else the first run of at
   * least five word characters (greedy, so the whole run), else None.
   */
  function ExtractWithRegex(text: string): (r: Option<string>)
    ensures r.Some? ==> |r.value| > 0 && AllWordChars(r.value)
    ensures r.None? <==> (forall i: nat | i < |text| :: !QuotedMatchAt(text, i) && WordRunLength(text, i) < 5)
  {
    match FirstFrom(QuotedAt(text), 0, |text|)
    case Some(i) =>
      QuotedWordFound(text, i);
      Some(text[i + 1..i + 1 + WordRunLength(text, i + 1)])
    case None =>
      match FirstFrom(LongRunAt(text), 0, |text|)
      case Some(i) =>
        LongRunFound(text, i);
        Some(text[i..i + WordRunLength(text, i)])
      case None =>
        NoPatternMatches(text);
        None
  }

  /** Where the quoted pattern is found, its group is a non-empty word inside the text. */
  lemma QuotedWordFound(text: string, i: nat)
    requires FirstFrom(QuotedAt(text), 0, |text|) == Some(i)
    ensures i + 1 + WordRunLength(text, i + 1) <= |text|
    ensures WordRunLength(text, i + 1) > 0 && AllWordChars(text[i + 1..i + 1 + WordRunLength(text, i + 1)])
    ensures exists j: nat | j < |text| :: QuotedMatchAt(text, j)
  {
    assert QuotedAt(text)(i);
    RunIsWord(text, i + 1);
  }

  /** Where the long-run pattern is found, its group is a word inside the text. */
  lemma LongRunFound(text: string, i: nat)
    requires FirstFrom(LongRunAt(text), 0, |text|) == Some(i)
    ensures i + WordRunLength(text, i) <= |text|
    ensures WordRunLength(text, i) > 0 && AllWordChars(text[i..i + WordRunLength(text, i)])
    ensures exists j: nat | j < |text| :: WordRunLength(text, j) >= 5
  {
    assert LongRunAt(text)(i);
    RunIsWord(text, i);
  }

  /** A run of word characters inside the text is a word. */
  lemma RunIsWord(s: string, i: nat)
    requires i + WordRunLength(s, i) <= |s|
    ensures AllWordChars(s[i..i + WordRunLength(s, i)])
  {
    var w := s[i..i + WordRunLength(s, i)];
    forall k | 0 <= k < |w|
      ensures IsWordChar(w[k])
    {
      assert w[k] == s[i + k];
    }
  }

  /** Both searches failing means neither pattern matches anywhere. */
  lemma NoPatternMatches(text: string)
    requires FirstFrom(QuotedAt(text), 0, |text|).None? && FirstFrom(LongRunAt(text), 0, |text|).None?
    ensures forall i: nat | i < |text| :: !QuotedMatchAt(text, i) && WordRunLength(text, i) < 5
  {
    forall j: nat | j < |text|
      ensures !QuotedMatchAt(text, j) && WordRunLength(text, j) < 5
    {
      assert !QuotedAt(text)(j) && !LongRunAt(text)(j);
    }
  }

  /** With no quote before it, a quoted word is what the regex recovers. */
  lemma ExtractQuotedName(pre: string, name: string, post: string)
    requires '\'' !in pre
    requires |name| > 0 && AllWordChars(name)
    ensures ExtractWithRegex(pre + "'" + name + "'" + post) == Some(name)
  {
    var s := pre + "'" + name + "'" + post;
    QuotedWordAt(pre, name, post);
    NoQuoteBefore(pre, s);
    FirstFromFinds(QuotedAt(s), 0, |s|, |pre|);
  }

  /** The quoted word after `pre` matches the pattern, and its group is the word. */
  lemma QuotedWordAt(pre: string, name: string, post: string)
    requires |name| > 0 && AllWordChars(name)
    ensures var s := pre + "'" + name + "'" + post;
            var i := |pre|;
            && QuotedAt(s)(i)
            && WordRunLength(s, i + 1) == |name|
            && s[i + 1..i + 1 + |name|] == name
  {
    var s := pre + "'" + name + "'" + post;
    var i := |pre|;
    assert s[i] == '\'';
    assert forall k | 0 <= k < |name| :: s[i + 1 + k] == name[k];
    assert s[i + 1 + |name|] == '\'';
    WordRunExact(s, i + 1, |name|);
    assert s[i + 1..i + 1 + |name|] == name;
  }

  /** No quoted word starts inside a quote-free prefix. */
  lemma NoQuoteBefore(pre: string, s: string)
    requires '\'' !in pre && pre <= s
    ensures forall j: nat | 0 <= j < |pre| :: !QuotedAt(s)(j)
  {
    forall j: nat | 0 <= j < |pre|
      ensures !QuotedAt(s)(j)
    {
      assert s[j] == pre[j];
    }
  }

  lemma {:induction false} WordRunExact(s: string, i: nat, n: nat)
    requires i + n < |s|
    requires forall k | i <= k < i + n :: IsWordChar(s[k])
    requires !IsWordChar(s[i + n])
    ensures WordRunLength(s, i) == n
    decreases n
  {
    if n > 0 {
      WordRunExact(s, i + 1, n - 1);
    }
  }

  /** Without a quoted word, whatever is recovered is at least five characters long. */
  lemma ExtractUnquotedIsLong(text: string)
    requires forall i: nat | i < |text| :: !QuotedMatchAt(text, i)
    requires ExtractWithRegex(text).Some?
    ensures |ExtractWithRegex(text).value| >= 5
  {
    assert FirstFrom(QuotedAt(text), 0, |text|).None?;
  }

  // ----------------------------------------------------- unwrap_nested_array

  /** `unwrap_nested_array`'s `max_depth`. */
  const MaxUnwrapDepth: nat := 20

  function Product(shape: seq<nat>): nat
    decreases |shape|
  {
    if shape == [] then 1 else shape[0] * Product(shape[1..])
  }

  /** `a[0]` on an array: the first element of a 1-d array, the first row otherwise. */
  function FirstItem(shape: seq<nat>, flat: seq<PyValue>): PyValue
    requires |flat| > 0
  {
    if |shape| <= 1 then flat[0]
    else
      var rowSize := Product(shape[1..]);
      NdArray(shape[1..], flat[..if rowSize <= |flat| then rowSize else |flat|])
  }

  /** The loop of `unwrap_nested_array` with `fuel` iterations left. */
  function UnwrapFrom(v: PyValue, fuel: nat): (r: Option<PyValue>)
    ensures r.Some? ==> !r.value.NdArray?
    decreases fuel
  {
    if fuel == 0 then None
    else
      match v
      case NdArray(shape, flat) =>
        if |flat| == 0 then None
        else if |flat| == 1 then UnwrapFrom(flat[0], fuel - 1)
        else UnwrapFrom(FirstItem(shape, flat), fuel - 1)
      case _ => Some(v)
  }

  /**
   * `unwrap_nested_array`: the first leaf, or None for an empty array or
   * when twenty levels do not reach a leaf. A string leaf is returned as
   * is; any other leaf stands for its `str()`.
   */
  function UnwrapNestedArray(v: PyValue): (r: Option<PyValue>)
    ensures r.Some? ==> !r.value.NdArray?
    ensures !v.NdArray? ==> r == Some(v)
  {
    UnwrapFrom(v, MaxUnwrapDepth)
  }

  /** `v` inside `k` one-element arrays, as MATLAB cells load. */
  function Wrap(v: PyValue, k: nat): PyValue
    decreases k
  {
    if k == 0 then v else NdArray([1], [Wrap(v, k - 1)])
  }

  lemma {:induction false} UnwrapFromWrapped(v: PyValue, k: nat, fuel: nat)
    requires !v.NdArray?
    ensures UnwrapFrom(Wrap(v, k), fuel) == if k < fuel then Some(v) else None
    decreases k
  {
    if k > 0 && fuel > 0 {
      UnwrapFromWrapped(v, k - 1, fuel - 1);
    }
  }

  /** A leaf wrapped in fewer than twenty one-element arrays comes back; deeper nesting gives None. */
  lemma UnwrapWrapped(v: PyValue, k: nat)
    requires !v.NdArray?
    ensures UnwrapNestedArray(Wrap(v, k)) == if k < MaxUnwrapDepth then Some(v) else None
  {
    UnwrapFromWrapped(v, k, MaxUnwrapDepth);
  }

  // ------------------------------------------------------- robust extractors

  /**
   * The acceptance test of `extract_group_name_robust` and
   * `extract_field_name_robust`: the method returned a non-empty string
   * mentioning neither "array" nor "dtype".
   */
  predicate AcceptedText(c: Result<Option<PyValue>>) {
    && c.Success? && c.value.Some? && c.value.value.PyStr?
    && c.value.value.s != ""
    && !Contains(c.value.value.s, "array")
    && !Contains(c.value.value.s, "dtype")
  }

  /**
   * The robust text extractors: the first accepted result of the extraction
   * methods, tried in order (each may raise), else "Unknown".
   */
  function ExtractTextRobust(candidates: seq<Result<Option<PyValue>>>): (r: string)
    ensures r == "Unknown" || (r != "" && !Contains(r, "array") && !Contains(r, "dtype"))
    ensures (forall i | 0 <= i < |candidates| :: !AcceptedText(candidates[i])) ==> r == "Unknown"
    decreases |candidates|
  {
    if candidates == [] then "Unknown"
    else if AcceptedText(candidates[0]) then candidates[0].value.value.s
    else
      assert forall i | 1 <= i < |candidates| :: candidates[1..][i - 1] == candidates[i];
      ExtractTextRobust(candidates[1..])
  }

  /** The first accepted method decides. */
  lemma {:induction false} ExtractTextRobustFirst(candidates: seq<Result<Option<PyValue>>>, i: nat)
    requires i < |candidates| && AcceptedText(candidates[i])
    requires forall j | 0 <= j < i :: !AcceptedText(candidates[j])
    ensures ExtractTextRobust(candidates) == candidates[i].value.value.s
    decreases i
  {
    if i > 0 {
      assert forall j | 0 <= j < i - 1 :: candidates[1..][j] == candidates[j + 1];
      ExtractTextRobustFirst(candidates[1..], i - 1);
    }
  }

  /** `extract_div_value_robust`'s test: the method produced a positive int. */
  predicate AcceptedDiv(c: Result<Option<int>>) {
    c.Success? && c.value.Some? && c.value.value > 0
  }

  /** `extract_div_value_robust`: the first positive DIV a method yields, else 0. */
  function ExtractDivRobust(candidates: seq<Result<Option<int>>>): (r: nat)
    ensures r == 0 <==> forall i | 0 <= i < |candidates| :: !AcceptedDiv(candidates[i])
    decreases |candidates|
  {
    if candidates == [] then 0
    else if AcceptedDiv(candidates[0]) then candidates[0].value.value
    else
      assert forall i | 1 <= i < |candidates| :: candidates[1..][i - 1] == candidates[i];
      ExtractDivRobust(candidates[1..])
  }

  lemma {:induction false} ExtractDivRobustFirst(candidates: seq<Result<Option<int>>>, i: nat)
    requires i < |candidates| && AcceptedDiv(candidates[i])
    requires forall j | 0 <= j < i :: !AcceptedDiv(candidates[j])
    ensures ExtractDivRobust(candidates) == candidates[i].value.value
    decreases i
  {
    if i > 0 {
      assert forall j | 0 <= j < i - 1 :: candidates[1..][j] == candidates[j + 1];
      ExtractDivRobustFirst(candidates[1..], i - 1);
    }
  }

  // ---------------------------------------- calculate_within_burst_firing_rate

  /** Time in bursts below this is treated as zero. */
  const MinTimeInBursts: real := 0.0000000001

  /** Fraction of each second spent bursting: bursts per minute over 60, times milliseconds over 1000. */
  function TimeInBursts(rate: Num, dur: Num): Num {
    Mul(Div(rate, Fin(60.0)), Div(dur, Fin(1000.0)))
  }

  /** The mask of the within-burst calculation for one electrode. */
  predicate BurstInputsValid(fr: Num, frac: Num, rate: Num, dur: Num) {
    && Gt(rate, 0.0) && Gt(dur, 0.0) && Gt(frac, 0.0)
    && !fr.NaN? && !frac.NaN? && !rate.NaN? && !dur.NaN?
  }

  /** One electrode's within-burst firing rate, NaN where the masks exclude it. */
  function WithinBurstAt(fr: Num, frac: Num, rate: Num, dur: Num): (r: Num)
    ensures !r.NaN? ==> BurstInputsValid(fr, frac, rate, dur) && Gt(TimeInBursts(rate, dur), MinTimeInBursts)
    ensures fr.Fin? && frac.Fin? && rate.Fin? && dur.Fin? && BurstInputsValid(fr, frac, rate, dur)
            && rate.r / 60.0 * (dur.r / 1000.0) > MinTimeInBursts
            ==> r == Fin(fr.r * frac.r / (rate.r / 60.0 * (dur.r / 1000.0)))
  {
    if !BurstInputsValid(fr, frac, rate, dur) then NaN
    else
      var time := TimeInBursts(rate, dur);
      if Gt(time, MinTimeInBursts) then Div(Mul(fr, frac), time) else NaN
  }

  /**
   * `calculate_within_burst_firing_rate` on the four per-electrode arrays:
   * all NaN when their lengths differ.
   */
  function CalculateWithinBurstFiringRate(fr: seq<Num>, frac: seq<Num>, rate: seq<Num>, dur: seq<Num>): (r: seq<Num>)
    ensures |r| == |fr|
    ensures !(|fr| == |frac| == |rate| == |dur|) ==> forall i | 0 <= i < |r| :: r[i].NaN?
    ensures |fr| == |frac| == |rate| == |dur| ==>
              forall i | 0 <= i < |r| :: r[i] == WithinBurstAt(fr[i], frac[i], rate[i], dur[i])
  {
    if !(|fr| == |frac| == |rate| == |dur|) then Repeat(NaN, |fr|)
    else seq(|fr|, i requires 0 <= i < |fr| => WithinBurstAt(fr[i], frac[i], rate[i], dur[i]))
  }

  /**
   * For finite inputs the rate is spikes in bursts per second over time in
   * bursts per second, i.e. FR times fraction times 60000 over rate times
   * duration.
   */
  lemma WithinBurstClosedForm(fr: real, frac: real, rate: real, dur: real)
    requires rate > 0.0 && dur > 0.0 && frac > 0.0
    requires rate / 60.0 * (dur / 1000.0) > MinTimeInBursts
    ensures WithinBurstAt(Fin(fr), Fin(frac), Fin(rate), Fin(dur)) == Fin(fr * frac * 60000.0 / (rate * dur))
  {
    var t := rate / 60.0 * (dur / 1000.0);
    assert t == rate * dur / 60000.0;
    assert fr * frac / t == fr * frac * 60000.0 / (rate * dur);
  }

  /** An electrode with a non-NaN output had positive burst rate, duration and fraction. */
  lemma WithinBurstNeedsBursts(fr: seq<Num>, frac: seq<Num>, rate: seq<Num>, dur: seq<Num>, i: nat)
    requires i < |fr|
    requires !CalculateWithinBurstFiringRate(fr, frac, rate, dur)[i].NaN?
    ensures |fr| == |frac| == |rate| == |dur|
    ensures Gt(rate[i], 0.0) && Gt(dur[i], 0.0) && Gt(frac[i], 0.0) && !fr[i].NaN?
    ensures Gt(TimeInBursts(rate[i], dur[i]), MinTimeInBursts)
  {
  }

  // --------------------------------------------- convert_to_dashboard_format

  /** Per-electrode metrics, in the order the conversion visits them. */
  const ElectrodeMetrics: seq<string> := [
    "FR", "channelBurstRate", "channelBurstDur",
    "channelISIwithinBurst", "channeISIoutsideBurst",
    "channelFracSpikesInBursts", "channelFRinBurst"]

  /** Per-recording metrics, visited after the electrode metrics. */
  const RecordingMetrics: seq<string> := [
    "numActiveElec", "FRmean", "FRmedian", "NBurstRate",
    "meanNBstLengthS", "CVofINBI", "fracInNburst",
    "meanNumChansInvolvedInNbursts", "meanISIWithinNbursts_ms",
    "meanISIoutsideNbursts_ms", "singleElecBurstRate",
    "singleElecBurstDur", "singleElecISIwithinBurst",
    "singleElecISIoutsideBurst", "meanFracSpikesInBurstsPerElec"]

  /** Every bucket gets one list per metric, electrode metrics first. */
  const AllMetrics: seq<string> := ElectrodeMetrics + RecordingMetrics

  const MetricCount: nat := 22

  /** One entry of `load_all_experiment_data`'s list, with `Info.Grp[0]` and `Info.DIV[0]` already unwrapped. */
  datatype LoadedExperiment = LoadedExperiment(name: string, groupRaw: string, div: int, ephys: Dict<string, Field>)

  function GroupOf(e: LoadedExperiment): string {
    Strip(e.groupRaw)
  }

  function DivOf(e: LoadedExperiment): int {
    e.div
  }

  function NameOf(e: LoadedExperiment): string {
    e.name
  }

  /** Whether metric `i` of `AllMetrics` can be read without raising. */
  predicate MetricWellTyped(ephys: Dict<string, Field>, i: nat)
    requires i < MetricCount
  {
    match Get(ephys, AllMetrics[i])
    case None => true
    case Some(f) => if i < |ElectrodeMetrics| then f.Arr? else f.Scalar?
  }

  /**
   * What metric `i` adds to a bucket: an electrode array's values, or a
   * recording scalar unless it is NaN; nothing when the metric is absent.
   */
  function MetricContribution(ephys: Dict<string, Field>, i: nat): (r: seq<Num>)
    requires i < MetricCount
    ensures i >= |ElectrodeMetrics| ==> |r| <= 1 && forall k | 0 <= k < |r| :: !r[k].NaN?
  {
    var f: Option<Field> := Get(ephys, AllMetrics[i]);
    if f.None? then []
    else if f.value.Arr? && i < |ElectrodeMetrics| then f.value.items
    else if f.value.Scalar? && i >= |ElectrodeMetrics| && !f.value.x.NaN? then [f.value.x]
    else []
  }

  /** The exception reading metric `i` raises. */
  function MetricError(ephys: Dict<string, Field>, i: nat): string
    requires i < MetricCount
  {
    if i < |ElectrodeMetrics| then
      if Get(ephys, AllMetrics[i]) == Some(Null) then "TypeError: object of type 'NoneType' has no len()"
      else "TypeError: object of type 'float' has no len()"
    else if Get(ephys, AllMetrics[i]) == Some(Null) then
      "TypeError: ufunc 'isnan' not supported for the input types"
    else "ValueError: The truth value of an array is ambiguous"
  }

  /** Reading metric `i`: its contribution, or the exception it raises. */
  function ReadMetric(ephys: Dict<string, Field>): nat -> Result<seq<Num>> {
    (i: nat) =>
      if i >= MetricCount then Success([])
      else if MetricWellTyped(ephys, i) then Success(MetricContribution(ephys, i))
      else Failure(MetricError(ephys, i))
  }

  /** The contributions of metrics `i..` , failing at the first one that raises. */
  function ContributionsFrom(ephys: Dict<string, Field>, i: nat): (r: Result<seq<seq<Num>>>)
    requires i <= MetricCount
    ensures r.Success? <==> forall j | i <= j < MetricCount :: MetricWellTyped(ephys, j)
    ensures r.Success? ==> |r.value| == MetricCount - i
    ensures r.Success? ==> forall j | 0 <= j < |r.value| :: r.value[j] == MetricContribution(ephys, i + j)
  {
    ReadMetricMeans(ephys);
    CollectFrom(ReadMetric(ephys), i, MetricCount)
  }

  /** Reading a metric succeeds exactly when it is well typed, and then yields its contribution. */
  lemma ReadMetricMeans(ephys: Dict<string, Field>)
    ensures forall j | 0 <= j < MetricCount :: ReadMetric(ephys)(j).Success? <==> MetricWellTyped(ephys, j)
    ensures forall j | 0 <= j < MetricCount && ReadMetric(ephys)(j).Success? ::
              ReadMetric(ephys)(j).value == MetricContribution(ephys, j)
  {
  }

  /** Every metric of the experiment can be read (`ContributionsFrom` states it metric by metric). */
  predicate WellTyped(e: LoadedExperiment) {
    ContributionsFrom(e.ephys, 0).Success?
  }

  /** Everything one experiment adds, metric by metric. */
  function Contributed(e: LoadedExperiment): (r: seq<seq<Num>>)
    ensures |r| == MetricCount
    ensures forall j | 0 <= j < MetricCount :: r[j] == MetricContribution(e.ephys, j)
  {
    seq(MetricCount, j requires 0 <= j < MetricCount => MetricContribution(e.ephys, j))
  }

  /** A `by_group` entry: its `exp_names` and one list per metric of `AllMetrics`. */
  datatype GroupBucket = GroupBucket(expNames: seq<string>, columns: seq<seq<Num>>)

  /** A `by_div` entry: `exp_names`, the parallel `groups`, and one list per metric. */
  datatype DivBucket = DivBucket(expNames: seq<string>, groups: seq<string>, columns: seq<seq<Num>>)

  datatype NeuronalSection = NeuronalSection(
    byExperiment: Dict<string, ExpRecord>,
    byGroup: Dict<string, GroupBucket>,
    byDiv: Dict<int, DivBucket>,
    groups: seq<string>,
    divs: seq<int>)

  /** The `info` part: groups, per-group experiment names by DIV, and per-group experiment names. */
  datatype InfoSection = InfoSection(
    groups: seq<string>,
    divs: Dict<string, Dict<int, seq<string>>>,
    experiments: Dict<string, seq<string>>)

  datatype DashboardFormat = DashboardFormat(neuronal: NeuronalSection, info: InfoSection)

  const EmptyFormat: DashboardFormat :=
    DashboardFormat(NeuronalSection([], [], [], [], []), InfoSection([], [], []))

  const EmptyGroupBucket: GroupBucket := GroupBucket([], Repeat([], MetricCount))

  const EmptyDivBucket: DivBucket := DivBucket([], [], Repeat([], MetricCount))

  /** Extends each metric list of a bucket by the matching contribution. */
  function Extend(columns: seq<seq<Num>>, cs: seq<seq<Num>>): (r: seq<seq<Num>>)
    requires |columns| == |cs|
    ensures |r| == |columns| && forall j | 0 <= j < |r| :: r[j] == columns[j] + cs[j]
  {
    seq(|columns|, j requires 0 <= j < |columns| => columns[j] + cs[j])
  }

  function AddToGroup(b: GroupBucket, e: LoadedExperiment): GroupBucket {
    if |b.columns| == MetricCount then GroupBucket(b.expNames + [e.name], Extend(b.columns, Contributed(e)))
    else b
  }

  function AddToDiv(b: DivBucket, e: LoadedExperiment): DivBucket {
    if |b.columns| == MetricCount then
      DivBucket(b.expNames + [e.name], b.groups + [GroupOf(e)], Extend(b.columns, Contributed(e)))
    else b
  }

  function AddName(names: seq<string>, e: LoadedExperiment): seq<string> {
    names + [e.name]
  }

  /** Filing an experiment's name under its DIV in one group's `info.divs` entry. */
  function AddToDivIndex(index: Dict<int, seq<string>>, e: LoadedExperiment): Dict<int, seq<string>> {
    Put(index, e.div, Get(index, e.div).GetOr([]) + [e.name])
  }

  function RecordOf(e: LoadedExperiment): ExpRecord {
    ExpRecord(Some(GroupOf(e)), Some(e.div), Holds(e.ephys), None)
  }

  /** The updates of one pass, in the order the loop body makes them. */
  function Advance(acc: DashboardFormat, e: LoadedExperiment): DashboardFormat {
    var group := GroupOf(e);
    var n := acc.neuronal;
    var info := acc.info;
    var isNew := group !in n.groups;
    var experiments0 := if isNew then Put(info.experiments, group, []) else info.experiments;
    var divIndex0 := if isNew then Put(info.divs, group, []) else info.divs;
    var index := Get(divIndex0, group).GetOr([]);
    DashboardFormat(
      NeuronalSection(
        Put(n.byExperiment, e.name, RecordOf(e)),
        Put(n.byGroup, group, AddToGroup(Get(n.byGroup, group).GetOr(EmptyGroupBucket), e)),
        Put(n.byDiv, e.div, AddToDiv(Get(n.byDiv, e.div).GetOr(EmptyDivBucket), e)),
        if isNew then n.groups + [group] else n.groups,
        if e.div in n.divs then n.divs else n.divs + [e.div]),
      InfoSection(
        if isNew then info.groups + [group] else info.groups,
        Put(divIndex0, group, AddToDivIndex(index, e)),
        Put(experiments0, group, Get(experiments0, group).GetOr([]) + [e.name])))
  }

  /**
   * The experiment whose metrics raise first: the loop stops there. The
   * conversion reads every metric before it moves to the next experiment.
   */
  predicate IllTyped(e: LoadedExperiment) {
    !WellTyped(e)
  }

  /**
   * The loop over the experiments, before the final sort of `divs`: the
   * exception of the first ill-typed experiment, or the updates of every
   * pass applied in order.
   */
  function ConvertLoop(exps: seq<LoadedExperiment>): (r: Result<DashboardFormat>)
    ensures r.Success? <==> forall i | 0 <= i < |exps| :: WellTyped(exps[i])
    ensures r.Failure? ==> exists i | 0 <= i < |exps| ::
              && !WellTyped(exps[i])
              && (forall j | 0 <= j < i :: WellTyped(exps[j]))
              && r.error == ContributionsFrom(exps[i].ephys, 0).error
    ensures r.Success? ==> r.value == FoldLeft(Advance, EmptyFormat, exps)
  {
    match FirstWhere(IllTyped, exps)
    case Some(i) => Failure(ContributionsFrom(exps[i].ephys, 0).error)
    case None => Success(FoldLeft(Advance, EmptyFormat, exps))
  }

  /** `convert_to_dashboard_format`: the loop, then `divs.sort()`. */
  function ConvertToDashboardFormat(exps: seq<LoadedExperiment>): (r: Result<DashboardFormat>)
    ensures r.Success? <==> forall i | 0 <= i < |exps| :: WellTyped(exps[i])
    ensures r.Success? ==> Sorted(r.value.neuronal.divs)
    ensures r.Success? ==> r.value == SortDivs(FoldLeft(Advance, EmptyFormat, exps))
  {
    var acc :- ConvertLoop(exps);
    Success(SortDivs(acc))
  }

  /** The last step, `divs.sort()`. */
  function SortDivs(acc: DashboardFormat): (r: DashboardFormat)
    ensures Sorted(r.neuronal.divs)
  {
    acc.(neuronal := acc.neuronal.(divs := Sort(acc.neuronal.divs)))
  }

  function PickRecord(previous: ExpRecord, e: LoadedExperiment): ExpRecord {
    RecordOf(e)
  }

  const NoRecord: ExpRecord := ExpRecord(None, None, Missing, None)

  /**
   * The loop's state after `exps`, part by part, as independent groupings
   * of the experiments: by name, by group and by DIV.
   */
  predicate Grouped(acc: DashboardFormat, exps: seq<LoadedExperiment>) {
    && acc.neuronal.byExperiment == Bucket(exps, NameOf, NoRecord, PickRecord)
    && acc.neuronal.byGroup == Bucket(exps, GroupOf, EmptyGroupBucket, AddToGroup)
    && acc.neuronal.byDiv == Bucket(exps, DivOf, EmptyDivBucket, AddToDiv)
    && acc.neuronal.groups == Dedup(Map(GroupOf, exps))
    && acc.neuronal.divs == Dedup(Map(DivOf, exps))
    && acc.info.groups == acc.neuronal.groups
    && acc.info.divs == Bucket(exps, GroupOf, [], AddToDivIndex)
    && acc.info.experiments == Bucket(exps, GroupOf, [], AddName)
  }

  /** Resetting a missing key before updating it is the same as updating it from the default. */
  lemma ResetThenUpdate<V>(d: Dict<string, V>, k: string, init: V, isNew: bool, f: V -> V)
    requires isNew ==> k !in Keys(d)
    ensures var d0 := if isNew then Put(d, k, init) else d;
            Put(d0, k, f(Get(d0, k).GetOr(init))) == Put(d, k, f(Get(d, k).GetOr(init)))
  {
    if isNew {
      GetPut(d, k, init, k);
      PutPut(d, k, init, f(init));
    }
  }

  /** One pass of the loop keeps the state equal to the groupings of the experiments seen so far. */
  lemma AdvanceGrouped(acc: DashboardFormat, pre: seq<LoadedExperiment>, e: LoadedExperiment)
    requires Grouped(acc, pre)
    ensures Grouped(Advance(acc, e), pre + [e])
  {
    AdvanceNeuronal(acc.neuronal, pre, e);
    ResetBucket(pre, e, [], AddToDivIndex, acc.info.divs, acc.neuronal.groups);
    ResetBucket(pre, e, [], AddName, acc.info.experiments, acc.neuronal.groups);
  }

  /** The neuronal section after one pass holds the groupings of the experiments seen so far. */
  lemma AdvanceNeuronal(n: NeuronalSection, pre: seq<LoadedExperiment>, e: LoadedExperiment)
    requires n.byExperiment == Bucket(pre, NameOf, NoRecord, PickRecord)
    requires n.byGroup == Bucket(pre, GroupOf, EmptyGroupBucket, AddToGroup)
    requires n.byDiv == Bucket(pre, DivOf, EmptyDivBucket, AddToDiv)
    requires n.groups == Dedup(Map(GroupOf, pre))
    requires n.divs == Dedup(Map(DivOf, pre))
    ensures Put(n.byExperiment, e.name, RecordOf(e)) == Bucket(pre + [e], NameOf, NoRecord, PickRecord)
    ensures Put(n.byGroup, GroupOf(e), AddToGroup(Get(n.byGroup, GroupOf(e)).GetOr(EmptyGroupBucket), e))
            == Bucket(pre + [e], GroupOf, EmptyGroupBucket, AddToGroup)
    ensures Put(n.byDiv, e.div, AddToDiv(Get(n.byDiv, e.div).GetOr(EmptyDivBucket), e))
            == Bucket(pre + [e], DivOf, EmptyDivBucket, AddToDiv)
    ensures (if GroupOf(e) !in n.groups then n.groups + [GroupOf(e)] else n.groups) == Dedup(Map(GroupOf, pre + [e]))
    ensures (if e.div in n.divs then n.divs else n.divs + [e.div]) == Dedup(Map(DivOf, pre + [e]))
  {
    BucketSnoc(pre, NameOf, NoRecord, PickRecord, e);
    BucketSnoc(pre, GroupOf, EmptyGroupBucket, AddToGroup, e);
    BucketSnoc(pre, DivOf, EmptyDivBucket, AddToDiv, e);
    DedupMapSnoc(GroupOf, pre, e);
    DedupMapSnoc(DivOf, pre, e);
  }

  /**
   * A per-group entry of the info section after one pass: the entry is
   * reset when the group is new, then updated, which files the
   * experiment as the per-group bucket does.
   */
  lemma ResetBucket<V>(pre: seq<LoadedExperiment>, e: LoadedExperiment, init: V, add: (V, LoadedExperiment) -> V,
                       d: Dict<string, V>, groups: seq<string>)
    requires d == Bucket(pre, GroupOf, init, add)
    requires groups == Dedup(Map(GroupOf, pre))
    ensures var d0 := if GroupOf(e) !in groups then Put(d, GroupOf(e), init) else d;
            Put(d0, GroupOf(e), add(Get(d0, GroupOf(e)).GetOr(init), e)) == Bucket(pre + [e], GroupOf, init, add)
  {
    BucketSnoc(pre, GroupOf, init, add, e);
    ResetThenUpdate(d, GroupOf(e), init, GroupOf(e) !in groups, (v: V) => add(v, e));
  }

  lemma {:induction false} FoldGrouped(exps: seq<LoadedExperiment>)
    ensures Grouped(FoldLeft(Advance, EmptyFormat, exps), exps)
    decreases |exps|
  {
    if exps != [] {
      var n := |exps| - 1;
      var pre := exps[..n];
      SplitLast(exps);
      FoldGrouped(pre);
      FoldLeftSnoc(Advance, EmptyFormat, pre, exps[n]);
      AdvanceGrouped(FoldLeft(Advance, EmptyFormat, pre), pre, exps[n]);
    }
  }

  // ------------------------------------- what the conversion's buckets hold

  /** Metric `j`'s contributions from `s`, concatenated in order. */
  function Gather(s: seq<LoadedExperiment>, j: nat): (r: seq<Num>)
    requires j < MetricCount
    ensures j >= |ElectrodeMetrics| ==> |r| <= |s| && forall k | 0 <= k < |r| :: !r[k].NaN?
    decreases |s|
  {
    if s == [] then []
    else
      var pre := Gather(s[..|s| - 1], j);
      var more := MetricContribution(s[|s| - 1].ephys, j);
      assert forall k | |pre| <= k < |pre + more| :: (pre + more)[k] == more[k - |pre|];
      pre + more
  }

  /** One list per metric: each metric's contributions from `s`. */
  function Columns(s: seq<LoadedExperiment>): (r: seq<seq<Num>>)
    ensures |r| == MetricCount
    ensures forall j | 0 <= j < MetricCount :: r[j] == Gather(s, j)
  {
    seq(MetricCount, j requires 0 <= j < MetricCount => Gather(s, j))
  }

  lemma GatherSnoc(s: seq<LoadedExperiment>, e: LoadedExperiment, j: nat)
    requires j < MetricCount
    ensures Gather(s + [e], j) == Gather(s, j) + MetricContribution(e.ephys, j)
  {
    assert (s + [e])[..|s|] == s;
  }

  lemma {:induction false} FoldAddToGroup(s: seq<LoadedExperiment>)
    ensures FoldLeft(AddToGroup, EmptyGroupBucket, s) == GroupBucket(Map(NameOf, s), Columns(s))
    decreases |s|
  {
    if s != [] {
      var n := |s| - 1;
      var pre := s[..n];
      SplitLast(s);
      FoldAddToGroup(pre);
      FoldLeftSnoc(AddToGroup, EmptyGroupBucket, pre, s[n]);
      MapSnoc(NameOf, pre, s[n]);
      forall j | 0 <= j < MetricCount {
        GatherSnoc(pre, s[n], j);
      }
    }
  }

  lemma {:induction false} FoldAddToDiv(s: seq<LoadedExperiment>)
    ensures FoldLeft(AddToDiv, EmptyDivBucket, s) == DivBucket(Map(NameOf, s), Map(GroupOf, s), Columns(s))
    decreases |s|
  {
    if s != [] {
      var n := |s| - 1;
      var pre := s[..n];
      SplitLast(s);
      FoldAddToDiv(pre);
      FoldLeftSnoc(AddToDiv, EmptyDivBucket, pre, s[n]);
      MapSnoc(NameOf, pre, s[n]);
      MapSnoc(GroupOf, pre, s[n]);
      forall j | 0 <= j < MetricCount {
        GatherSnoc(pre, s[n], j);
      }
    }
  }

  lemma {:induction false} FoldAddName(s: seq<LoadedExperiment>)
    ensures FoldLeft(AddName, [], s) == Map(NameOf, s)
    decreases |s|
  {
    if s != [] {
      var n := |s| - 1;
      SplitLast(s);
      FoldAddName(s[..n]);
      MapSnoc(NameOf, s[..n], s[n]);
    }
  }

  /** One group's `info.divs` entry is that group's experiments bucketed by DIV. */
  lemma {:induction false} FoldAddToDivIndex(s: seq<LoadedExperiment>)
    ensures FoldLeft(AddToDivIndex, [], s) == Bucket(s, DivOf, [], AddName)
    decreases |s|
  {
    if s != [] {
      var n := |s| - 1;
      var pre, x := s[..n], s[n];
      SplitLast(s);
      FoldAddToDivIndex(pre);
      FoldLeftSnoc(AddToDivIndex, [], pre, x);
      BucketSnoc(pre, DivOf, [], AddName, x);
      var b := Bucket(pre, DivOf, [], AddName);
      assert AddToDivIndex(b, x) == Put(b, DivOf(x), AddName(Get(b, DivOf(x)).GetOr([]), x));
    }
  }

  lemma FoldPickRecord(s: seq<LoadedExperiment>)
    requires s != []
    ensures FoldLeft(PickRecord, NoRecord, s) == RecordOf(s[|s| - 1])
  {
  }

  /** The conversion's value, for inputs it accepts. */
  function Converted(exps: seq<LoadedExperiment>): DashboardFormat
    requires forall i | 0 <= i < |exps| :: WellTyped(exps[i])
  {
    ConvertToDashboardFormat(exps).value
  }

  lemma ConvertedIsSortedFold(exps: seq<LoadedExperiment>)
    requires forall i | 0 <= i < |exps| :: WellTyped(exps[i])
    ensures var acc := FoldLeft(Advance, EmptyFormat, exps);
            Converted(exps) == SortDivs(acc)
  {
  }

  /** The converted format, part by part, as groupings of the experiments. */
  lemma ConvertedParts(exps: seq<LoadedExperiment>)
    requires forall i | 0 <= i < |exps| :: WellTyped(exps[i])
    ensures var r := Converted(exps);
            && r.neuronal.byExperiment == Bucket(exps, NameOf, NoRecord, PickRecord)
            && r.neuronal.byGroup == Bucket(exps, GroupOf, EmptyGroupBucket, AddToGroup)
            && r.neuronal.byDiv == Bucket(exps, DivOf, EmptyDivBucket, AddToDiv)
            && r.neuronal.groups == Dedup(Map(GroupOf, exps))
            && r.neuronal.divs == Sort(Dedup(Map(DivOf, exps)))
            && r.info.groups == r.neuronal.groups
            && r.info.divs == Bucket(exps, GroupOf, [], AddToDivIndex)
            && r.info.experiments == Bucket(exps, GroupOf, [], AddName)
  {
    var acc := FoldLeft(Advance, EmptyFormat, exps);
    FoldGrouped(exps);
    ConvertedIsSortedFold(exps);
    GroupedParts(acc, exps, Converted(exps));
  }

  lemma GroupedParts(acc: DashboardFormat, exps: seq<LoadedExperiment>, r: DashboardFormat)
    requires Grouped(acc, exps) && r == SortDivs(acc)
    ensures && r.neuronal.byExperiment == Bucket(exps, NameOf, NoRecord, PickRecord)
            && r.neuronal.byGroup == Bucket(exps, GroupOf, EmptyGroupBucket, AddToGroup)
            && r.neuronal.byDiv == Bucket(exps, DivOf, EmptyDivBucket, AddToDiv)
            && r.neuronal.groups == Dedup(Map(GroupOf, exps))
            && r.neuronal.divs == Sort(Dedup(Map(DivOf, exps)))
            && r.info.groups == r.neuronal.groups
            && r.info.divs == Bucket(exps, GroupOf, [], AddToDivIndex)
            && r.info.experiments == Bucket(exps, GroupOf, [], AddName)
  {
  }

  /**
   * The group list holds every experiment's stripped group once, in order
   * of first appearance, and `by_group`, `info.groups`, `info.experiments`
   * and `info.divs` are keyed by exactly that list.
   */
  lemma ConvertGroups(exps: seq<LoadedExperiment>)
    requires forall i | 0 <= i < |exps| :: WellTyped(exps[i])
    ensures var r := Converted(exps);
            && r.neuronal.groups == Dedup(Map(GroupOf, exps))
            && r.info.groups == r.neuronal.groups
            && Keys(r.neuronal.byGroup) == r.neuronal.groups
            && Keys(r.info.experiments) == r.neuronal.groups
            && Keys(r.info.divs) == r.neuronal.groups
  {
    ConvertedParts(exps);
  }

  /**
   * `divs` is strictly increasing and holds exactly the experiments' DIVs;
   * `by_div` has one entry per DIV, in order of first appearance.
   */
  lemma ConvertDivs(exps: seq<LoadedExperiment>)
    requires forall i | 0 <= i < |exps| :: WellTyped(exps[i])
    ensures var r := Converted(exps);
            && StrictlyIncreasing(r.neuronal.divs)
            && (forall d :: d in r.neuronal.divs <==> d in Map(DivOf, exps))
            && Keys(r.neuronal.byDiv) == Dedup(Map(DivOf, exps))
  {
    ConvertedParts(exps);
    var divs := Dedup(Map(DivOf, exps));
    SortNoDup(divs);
    forall d
      ensures d in Sort(divs) <==> d in divs
    {
      SortMember(divs, d);
    }
  }

  /**
   * A group's bucket lists the names of that group's experiments in input
   * order, and per metric their contributions concatenated in the same
   * order; `info.experiments` holds the same names.
   */
  lemma ConvertGroupBucket(exps: seq<LoadedExperiment>, g: string)
    requires forall i | 0 <= i < |exps| :: WellTyped(exps[i])
    requires g in Map(GroupOf, exps)
    ensures var r := Converted(exps);
            var mine := Filter(KeyIs(GroupOf, g), exps);
            && Get(r.neuronal.byGroup, g) == Some(GroupBucket(Map(NameOf, mine), Columns(mine)))
            && Get(r.info.experiments, g) == Some(Map(NameOf, mine))
  {
    ConvertedParts(exps);
    var mine := Filter(KeyIs(GroupOf, g), exps);
    BucketGet(exps, GroupOf, EmptyGroupBucket, AddToGroup, g);
    BucketGet(exps, GroupOf, [], AddName, g);
    FoldAddToGroup(mine);
    FoldAddName(mine);
  }

  /**
   * A DIV's bucket lists the names and the groups of the experiments at
   * that DIV, position by position, and their contributions per metric.
   */
  lemma ConvertDivBucket(exps: seq<LoadedExperiment>, d: int)
    requires forall i | 0 <= i < |exps| :: WellTyped(exps[i])
    requires d in Map(DivOf, exps)
    ensures var r := Converted(exps);
            var mine := Filter(KeyIs(DivOf, d), exps);
            && Get(r.neuronal.byDiv, d) == Some(DivBucket(Map(NameOf, mine), Map(GroupOf, mine), Columns(mine)))
            && |Get(r.neuronal.byDiv, d).value.expNames| == |Get(r.neuronal.byDiv, d).value.groups|
  {
    ConvertedParts(exps);
    BucketGet(exps, DivOf, EmptyDivBucket, AddToDiv, d);
    FoldAddToDiv(Filter(KeyIs(DivOf, d), exps));
  }

  /** `info.divs[g][d]` lists the names of group `g`'s experiments at DIV `d`, in input order. */
  lemma ConvertDivIndex(exps: seq<LoadedExperiment>, g: string, d: int)
    requires forall i | 0 <= i < |exps| :: WellTyped(exps[i])
    requires g in Map(GroupOf, exps)
    ensures var r := Converted(exps);
            var mine := Filter(KeyIs(GroupOf, g), exps);
            && Get(r.info.divs, g).Some?
            && Keys(Get(r.info.divs, g).value) == Dedup(Map(DivOf, mine))
            && (d in Map(DivOf, mine) ==> Get(Get(r.info.divs, g).value, d) == Some(Map(NameOf, Filter(KeyIs(DivOf, d), mine))))
  {
    ConvertedParts(exps);
    var mine := Filter(KeyIs(GroupOf, g), exps);
    GroupDivIndex(exps, g);
    DivNames(mine, d);
  }

  /** A group's entry in the DIV index is the names of its experiments bucketed by DIV. */
  lemma GroupDivIndex(exps: seq<LoadedExperiment>, g: string)
    requires g in Map(GroupOf, exps)
    ensures Get(Bucket(exps, GroupOf, [], AddToDivIndex), g) == Some(Bucket(Filter(KeyIs(GroupOf, g), exps), DivOf, [], AddName))
  {
    BucketGet(exps, GroupOf, [], AddToDivIndex, g);
    FoldAddToDivIndex(Filter(KeyIs(GroupOf, g), exps));
  }

  /** Bucketing names by DIV files under each DIV the names of the experiments at that DIV. */
  lemma DivNames(s: seq<LoadedExperiment>, d: int)
    ensures Keys(Bucket(s, DivOf, [], AddName)) == Dedup(Map(DivOf, s))
    ensures d in Map(DivOf, s) ==> Get(Bucket(s, DivOf, [], AddName), d) == Some(Map(NameOf, Filter(KeyIs(DivOf, d), s)))
  {
    BucketGet(s, DivOf, [], AddName, d);
    FoldAddName(Filter(KeyIs(DivOf, d), s));
  }

  /** `by_experiment` has one entry per name, holding the last experiment of that name. */
  lemma ConvertByExperiment(exps: seq<LoadedExperiment>, name: string)
    requires forall i | 0 <= i < |exps| :: WellTyped(exps[i])
    requires name in Map(NameOf, exps)
    ensures var r := Converted(exps);
            var same := Filter(KeyIs(NameOf, name), exps);
            && Keys(r.neuronal.byExperiment) == Dedup(Map(NameOf, exps))
            && same != []
            && Get(r.neuronal.byExperiment, name) == Some(RecordOf(same[|same| - 1]))
  {
    ConvertedParts(exps);
    var same := Filter(KeyIs(NameOf, name), exps);
    FilterKeyPresent(NameOf, name, exps);
    BucketGet(exps, NameOf, NoRecord, PickRecord, name);
    FoldPickRecord(same);
  }
}

=== FILE: metric_processors.dfy ===
/**
 * utils/metric_processors.py: per-metric validity filters, the node-level
 * and recording-level processors that re-bucket experiments into
 * `by_group` / `by_div` records of parallel lists, and the processor
 * registry.
 *
 * Every processor has the same skeleton: select the groups to process,
 * create an empty bucket per selected group and per DIV, then walk
 * `by_experiment` in order and append what each experiment contributes.
 * The skeleton is `Aggregate`; each processor supplies its own
 * contribution function.
 */
module MetricProcessors {
  import opened Wrappers
  import opened Numeric
  import opened Seqs
  import opened Dicts
  import opened DashboardData
  import Config

  // ----------------------------------------------------- field variations

  const VariationTable: map<string, seq<string>> := map[
    "channelFracSpikesInBursts" := ["channelFracSpikesInBursts", "fracSpikesInBursts", "FracSpikesInBursts"],
    "channelBurstRate" := ["channelBurstRate", "burstRate", "BurstRate", "channel_burst_rate"],
    "channelFRinBurst" := ["channelFRinBurst", "FRinBurst", "FR_in_burst", "channel_FR_in_burst"],
    "channelBurstDur" := ["channelBurstDur", "burstDur", "BurstDur", "burst_duration", "channel_burst_dur"],
    "channelISIwithinBurst" := ["channelISIwithinBurst", "ISIwithinBurst", "ISI_within_burst", "channel_ISI_within_burst"],
    "channeISIoutsideBurst" := ["channeISIoutsideBurst", "channelISIoutsideBurst", "ISIoutsideBurst", "ISI_outside_burst"],
    "FR" := ["FR", "firing_rate", "firingRate", "channel_FR"]
  ]

  /** `get_field_variations`: the names under which a metric may be stored, its own name first. */
  function FieldVariations(metric: string): (r: seq<string>)
    ensures |r| >= 1 && r[0] == metric
    ensures metric !in VariationTable ==> r == [metric]
  {
    if metric in VariationTable then VariationTable[metric] else [metric]
  }

  /** The value under the first of `names` that `d` has, if any. */
  function FirstPresent(d: Dict<string, Field>, names: seq<string>): (r: Option<Field>)
    ensures r.None? <==> forall i | 0 <= i < |names| :: !HasKey(d, names[i])
    ensures r.Some? ==> exists i | 0 <= i < |names| ::
              Get(d, names[i]) == r && forall j | 0 <= j < i :: !HasKey(d, names[j])
    decreases |names|
  {
    if names == [] then None
    else if HasKey(d, names[0]) then Get(d, names[0])
    else
      var r := FirstPresent(d, names[1..]);
      assert forall i | 1 <= i < |names| :: names[i] == names[1..][i - 1];
      if r.Some? then
        var i :| 0 <= i < |names[1..]| && Get(d, names[1..][i]) == r && forall j | 0 <= j < i :: !HasKey(d, names[1..][j]);
        assert Get(d, names[i + 1]) == r;
        r
      else r
  }

  // ----------------------------------------------------- validity filters

  const NonNegativeMetrics: seq<string> := ["FR", "channelBurstRate", "channelBurstDur", "channelFRinBurst"]
  const PositiveMetrics: seq<string> := ["channelISIwithinBurst", "channeISIoutsideBurst"]

  /** The range a finite value of `metric` must lie in to be kept. */
  predicate InMetricRange(metric: string, x: real) {
    if metric == "channelFracSpikesInBursts" then 0.0 <= x <= 1.0
    else if metric in NonNegativeMetrics then x >= 0.0
    else if metric in PositiveMetrics then x > 0.0
    else true
  }

  /** A value the filters keep: finite, and in the metric's range. */
  predicate ValidFor(metric: string, v: Num) {
    v.Fin? && InMetricRange(metric, v.r)
  }

  /** Anything but NaN. */
  predicate NotNaN(v: Num) {
    !IsNaN(v)
  }

  /** A finite number. */
  predicate NotNaNAndFinite(v: Num) {
    !IsNaN(v) && IsFinite(v)
  }

  /** The range masks, in numpy's comparison semantics. */
  predicate NonNegative(v: Num) {
    Ge(v, 0.0)
  }

  predicate Positive(v: Num) {
    Gt(v, 0.0)
  }

  predicate InUnitInterval(v: Num) {
    Ge(v, 0.0) && Le(v, 1.0)
  }

  /** `apply_enhanced_filtering`: the finite values, then the metric's range mask. */
  function ApplyEnhancedFiltering(values: seq<Num>, metric: string): seq<Num> {
    var valid := Filter(NotNaNAndFinite, values);
    if valid == [] then []
    else if metric == "channelFracSpikesInBursts" then Filter(InUnitInterval, valid)
    else if metric in NonNegativeMetrics then Filter(NonNegative, valid)
    else if metric in PositiveMetrics then Filter(Positive, valid)
    else valid
  }

  /** `_filter_valid_values`: NaN removed, then infinities, then one range mask per metric. */
  function FilterValidValues(values: seq<Num>, metric: string): seq<Num> {
    var notNaN := Filter(NotNaN, values);
    var valid := Filter(IsFinite, notNaN);
    if metric == "FR" then Filter(NonNegative, valid)
    else if metric in ["channelBurstRate", "channelBurstDur"] then Filter(NonNegative, valid)
    else if metric in PositiveMetrics then Filter(Positive, valid)
    else if metric == "channelFracSpikesInBursts" then Filter(InUnitInterval, valid)
    else if metric == "channelFRinBurst" then Filter(NonNegative, valid)
    else valid
  }

  /** The validity test for one metric, as a predicate value. */
  function ValidPred(metric: string): Num -> bool {
    (v: Num) => ValidFor(metric, v)
  }

  /** The reference: the elements of `values` valid for `metric`, in order. */
  function ValidValues(values: seq<Num>, metric: string): (r: seq<Num>)
    ensures IsSubseq(r, values)
    ensures forall k | 0 <= k < |r| :: ValidFor(metric, r[k])
    ensures forall i | 0 <= i < |values| && ValidFor(metric, values[i]) :: values[i] in r
  {
    Filter(ValidPred(metric), values)
  }

  /**
   * `apply_enhanced_filtering` keeps exactly the finite values in the
   * metric's range: [0,1] for the burst fraction, non-negative for firing
   * and burst rates and durations, positive for the two ISI metrics.
   */
  lemma {:induction false} EnhancedFilteringIsValidFilter(values: seq<Num>, metric: string)
    ensures ApplyEnhancedFiltering(values, metric) == ValidValues(values, metric)
  {
    var valid := Filter(NotNaNAndFinite, values);
    if valid == [] {
      FilterFilter(NotNaNAndFinite, ValidPred(metric), ValidPred(metric), values);
    } else if metric == "channelFracSpikesInBursts" {
      FilterFilter(NotNaNAndFinite, InUnitInterval, ValidPred(metric), values);
    } else if metric in NonNegativeMetrics {
      FilterFilter(NotNaNAndFinite, NonNegative, ValidPred(metric), values);
    } else if metric in PositiveMetrics {
      FilterFilter(NotNaNAndFinite, Positive, ValidPred(metric), values);
    } else {
      FilterExt(NotNaNAndFinite, ValidPred(metric), values);
    }
  }

  /** `_filter_valid_values` applies the same predicate as `apply_enhanced_filtering`, for every metric. */
  lemma FilterValidValuesAgrees(values: seq<Num>, metric: string)
    ensures FilterValidValues(values, metric) == ApplyEnhancedFiltering(values, metric)
  {
    FilterFilter(NotNaN, IsFinite, NotNaNAndFinite, values);
  }

  // ------------------------------------------------------------- buckets

  /** A `by_group` entry built by a processor: metric values and their experiment names. */
  datatype GroupBucket = GroupBucket(values: seq<Num>, expNames: seq<string>)

  /** A `by_div` entry: metric values, experiment names and the experiments' groups. */
  datatype DivBucket = DivBucket(values: seq<Num>, expNames: seq<string>, groups: seq<Option<string>>)

  /** The three parallel lists of `b` followed by those of `c`. */
  function Concat(b: DivBucket, c: DivBucket): DivBucket {
    DivBucket(b.values + c.values, b.expNames + c.expNames, b.groups + c.groups)
  }

  /** What one experiment appends to a DIV bucket: its values, its name and group once per value. */
  function Piece(name: string, e: ExpRecord, vals: seq<Num>): DivBucket {
    DivBucket(vals, Repeat(name, |vals|), Repeat(e.group, |vals|))
  }

  lemma ConcatAssoc(a: DivBucket, b: DivBucket, c: DivBucket)
    ensures Concat(Concat(a, b), c) == Concat(a, Concat(b, c))
    ensures Concat(a, DivBucket([], [], [])) == a
    ensures Concat(DivBucket([], [], []), a) == a
  {
    assert a.values + b.values + c.values == a.values + (b.values + c.values);
    assert a.expNames + b.expNames + c.expNames == a.expNames + (b.expNames + c.expNames);
    assert a.groups + b.groups + c.groups == a.groups + (b.groups + c.groups);
    assert a.values + [] == a.values && a.expNames + [] == a.expNames && a.groups + [] == a.groups;
    assert [] + a.values == a.values && [] + a.expNames == a.expNames && [] + a.groups == a.groups;
  }

  /** A group bucket followed by more values and names. */
  function GConcat(b: GroupBucket, c: GroupBucket): GroupBucket {
    GroupBucket(b.values + c.values, b.expNames + c.expNames)
  }

  /** The group-bucket part of a DIV-shaped bucket. */
  function ForGroup(c: DivBucket): GroupBucket {
    GroupBucket(c.values, c.expNames)
  }

  lemma GConcatAssoc(a: GroupBucket, b: DivBucket, c: DivBucket)
    ensures GConcat(GConcat(a, ForGroup(b)), ForGroup(c)) == GConcat(a, ForGroup(Concat(b, c)))
    ensures GConcat(a, ForGroup(DivBucket([], [], []))) == a
    ensures GConcat(GroupBucket([], []), ForGroup(b)) == ForGroup(b)
  {
    assert a.values + b.values + c.values == a.values + (b.values + c.values);
    assert a.expNames + b.expNames + c.expNames == a.expNames + (b.expNames + c.expNames);
    assert a.values + [] == a.values && a.expNames + [] == a.expNames;
    assert [] + b.values == b.values && [] + b.expNames == b.expNames;
  }

  datatype Buckets = Buckets(byGroup: Dict<string, GroupBucket>, byDiv: Dict<int, DivBucket>)

  /** What one experiment adds: the values to append, or the exception it raises. */
  type Contribution = (string, ExpRecord) -> Result<seq<Num>>

  /** The initial `by_group`: one empty bucket per group to process. */
  function EmptyGroups(gtp: seq<string>): (r: Dict<string, GroupBucket>)
    ensures Keys(r) == Dedup(gtp)
    ensures forall e | e in r :: e.1 == GroupBucket([], [])
    decreases |gtp|
  {
    if gtp == [] then []
    else Put(EmptyGroups(gtp[..|gtp| - 1]), gtp[|gtp| - 1], GroupBucket([], []))
  }

  /** The initial `by_div`: one empty bucket per DIV of the data. */
  function EmptyDivs(divs: seq<int>): (r: Dict<int, DivBucket>)
    ensures Keys(r) == Dedup(divs)
    ensures forall e | e in r :: e.1 == DivBucket([], [], [])
    decreases |divs|
  {
    if divs == [] then []
    else Put(EmptyDivs(divs[..|divs| - 1]), divs[|divs| - 1], DivBucket([], [], []))
  }

  /** Appending an experiment's values, with its name once per value, to its group's bucket. */
  function AddToGroup(bs: Dict<string, GroupBucket>, name: string, e: ExpRecord, vals: seq<Num>): Dict<string, GroupBucket> {
    if GroupTruthy(e.group) && HasKey(bs, e.group.value) then
      var b := Get(bs, e.group.value).value;
      Put(bs, e.group.value, GConcat(b, ForGroup(Piece(name, e, vals))))
    else bs
  }

  /** Appending an experiment's values, name and group to its DIV's bucket. */
  function AddToDiv(bs: Dict<int, DivBucket>, name: string, e: ExpRecord, vals: seq<Num>): Dict<int, DivBucket> {
    if DivTruthy(e.div) && HasKey(bs, e.div.value) then
      var b := Get(bs, e.div.value).value;
      Put(bs, e.div.value, Concat(b, Piece(name, e, vals)))
    else bs
  }

  /** The loop over `by_experiment.items()`; the first experiment that raises ends it. */
  function Aggregate(exps: Dict<string, ExpRecord>, init: Buckets, contrib: Contribution): Result<Buckets>
    decreases |exps|
  {
    if exps == [] then Success(init)
    else
      var st :- Aggregate(exps[..|exps| - 1], init, contrib);
      var (name, e) := exps[|exps| - 1];
      var vals :- contrib(name, e);
      Success(Buckets(AddToGroup(st.byGroup, name, e, vals), AddToDiv(st.byDiv, name, e, vals)))
  }

  predicate AllSucceed(exps: Dict<string, ExpRecord>, contrib: Contribution) {
    forall i | 0 <= i < |exps| :: contrib(exps[i].0, exps[i].1).Success?
  }

  /**
   * The reference definition of a bucket's contents: the contributions of
   * the experiments that `sel` picks, concatenated in experiment order,
   * each value paired with its experiment's name and group.
   */
  function Gathered(exps: Dict<string, ExpRecord>, contrib: Contribution, sel: ExpRecord -> bool): (r: DivBucket)
    requires AllSucceed(exps, contrib)
    ensures |r.values| == |r.expNames| == |r.groups|
    decreases |exps|
  {
    if exps == [] then DivBucket([], [], [])
    else
      var p := exps[..|exps| - 1];
      assert forall i | 0 <= i < |p| :: p[i] == exps[i];
      var prev := Gathered(p, contrib, sel);
      var name := exps[|exps| - 1].0;
      var e := exps[|exps| - 1].1;
      if sel(e) then Concat(prev, Piece(name, e, contrib(name, e).value))
      else prev
  }

  /** Some experiment picked by `sel` has this name and group. */
  predicate Picked(exps: Dict<string, ExpRecord>, sel: ExpRecord -> bool, name: string, group: Option<string>) {
    exists i | 0 <= i < |exps| :: exps[i].0 == name && exps[i].1.group == group && sel(exps[i].1)
  }

  /** Every name in a gathered bucket is that of a picked experiment, recorded with its group. */
  lemma {:induction false} GatheredNamesPicked(exps: Dict<string, ExpRecord>, contrib: Contribution, sel: ExpRecord -> bool)
    requires AllSucceed(exps, contrib)
    ensures forall k | 0 <= k < |Gathered(exps, contrib, sel).expNames| ::
      Picked(exps, sel, Gathered(exps, contrib, sel).expNames[k], Gathered(exps, contrib, sel).groups[k])
    decreases |exps|
  {
    if exps != [] {
      var p := exps[..|exps| - 1];
      assert forall i | 0 <= i < |p| :: p[i] == exps[i];
      GatheredNamesPicked(p, contrib, sel);
      var prev := Gathered(p, contrib, sel);
      var r := Gathered(exps, contrib, sel);
      forall k | 0 <= k < |r.expNames|
        ensures Picked(exps, sel, r.expNames[k], r.groups[k])
      {
        if k < |prev.expNames| {
          assert Picked(p, sel, prev.expNames[k], prev.groups[k]);
          var i :| 0 <= i < |p| && p[i].0 == prev.expNames[k] && p[i].1.group == prev.groups[k] && sel(p[i].1);
          assert r.expNames[k] == prev.expNames[k] && r.groups[k] == prev.groups[k];
          assert exps[i] == p[i];
        } else {
          assert exps[|exps| - 1].0 == r.expNames[k];
        }
      }
    }
  }

  /** The experiments whose values go to group `g`. */
  function InGroup(g: string): ExpRecord -> bool {
    (e: ExpRecord) => GroupTruthy(e.group) && e.group.value == g
  }

  /** The experiments whose values go to DIV `d`. */
  function InDiv(d: int): ExpRecord -> bool {
    (e: ExpRecord) => DivTruthy(e.div) && e.div.value == d
  }

  lemma {:induction false} AggregateSucceeds(exps: Dict<string, ExpRecord>, init: Buckets, contrib: Contribution)
    ensures Aggregate(exps, init, contrib).Success? <==> AllSucceed(exps, contrib)
    decreases |exps|
  {
    if exps != [] {
      var p := exps[..|exps| - 1];
      AggregateSucceeds(p, init, contrib);
      assert forall i | 0 <= i < |p| :: p[i] == exps[i];
    }
  }

  /** The pass over the experiments creates no bucket and removes none. */
  lemma {:induction false} AggregateKeys(exps: Dict<string, ExpRecord>, init: Buckets, contrib: Contribution)
    requires Aggregate(exps, init, contrib).Success?
    ensures Keys(Aggregate(exps, init, contrib).value.byGroup) == Keys(init.byGroup)
    ensures Keys(Aggregate(exps, init, contrib).value.byDiv) == Keys(init.byDiv)
    decreases |exps|
  {
    if exps != [] {
      AggregateKeys(exps[..|exps| - 1], init, contrib);
    }
  }

  /** One more experiment: the reference takes its values when `sel` picks it. */
  lemma GatheredSnoc(exps: Dict<string, ExpRecord>, contrib: Contribution, sel: ExpRecord -> bool)
    requires exps != [] && AllSucceed(exps, contrib)
    ensures AllSucceed(exps[..|exps| - 1], contrib)
    ensures var prev := Gathered(exps[..|exps| - 1], contrib, sel);
      var name := exps[|exps| - 1].0;
      var e := exps[|exps| - 1].1;
      var vals := contrib(name, e).value;
      Gathered(exps, contrib, sel) ==
        if sel(e) then Concat(prev, Piece(name, e, vals)) else prev
  {
  }

  /** One more experiment: the pass appends its values to the buckets it belongs to. */
  lemma AggregateSnoc(exps: Dict<string, ExpRecord>, init: Buckets, contrib: Contribution)
    requires exps != [] && Aggregate(exps[..|exps| - 1], init, contrib).Success?
    requires contrib(exps[|exps| - 1].0, exps[|exps| - 1].1).Success?
    ensures var st := Aggregate(exps[..|exps| - 1], init, contrib).value;
      var name := exps[|exps| - 1].0;
      var e := exps[|exps| - 1].1;
      var vals := contrib(name, e).value;
      Aggregate(exps, init, contrib) == Success(Buckets(AddToGroup(st.byGroup, name, e, vals), AddToDiv(st.byDiv, name, e, vals)))
  {
  }

  /** Looking a group up after an experiment was added. */
  lemma AddToGroupGet(bs: Dict<string, GroupBucket>, name: string, e: ExpRecord, vals: seq<Num>, g: string)
    ensures Get(AddToGroup(bs, name, e, vals), g) ==
      if InGroup(g)(e) && Get(bs, g).Some? then Some(GConcat(Get(bs, g).value, ForGroup(Piece(name, e, vals))))
      else Get(bs, g)
  {
    if GroupTruthy(e.group) && HasKey(bs, e.group.value) {
      var b := Get(bs, e.group.value).value;
      GetPut(bs, e.group.value, GConcat(b, ForGroup(Piece(name, e, vals))), g);
    }
  }

  /** Looking a DIV up after an experiment was added. */
  lemma AddToDivGet(bs: Dict<int, DivBucket>, name: string, e: ExpRecord, vals: seq<Num>, d: int)
    ensures Get(AddToDiv(bs, name, e, vals), d) ==
      if InDiv(d)(e) && Get(bs, d).Some? then Some(Concat(Get(bs, d).value, Piece(name, e, vals)))
      else Get(bs, d)
  {
    if DivTruthy(e.div) && HasKey(bs, e.div.value) {
      var b := Get(bs, e.div.value).value;
      GetPut(bs, e.div.value, Concat(b, Piece(name, e, vals)), d);
    }
  }

  /**
   * The single pass over the experiments leaves every group bucket it was
   * given holding its initial contents followed by exactly the reference
   * contents for that group.
   */
  lemma {:induction false} AggregateGroupReference(exps: Dict<string, ExpRecord>, init: Buckets, contrib: Contribution, g: string)
    requires AllSucceed(exps, contrib)
    ensures Aggregate(exps, init, contrib).Success?
    ensures Get(Aggregate(exps, init, contrib).value.byGroup, g).None? <==> Get(init.byGroup, g).None?
    ensures Get(init.byGroup, g).Some? ==>
      Get(Aggregate(exps, init, contrib).value.byGroup, g) == Some(GConcat(Get(init.byGroup, g).value, ForGroup(Gathered(exps, contrib, InGroup(g)))))
    decreases |exps|
  {
    AggregateSucceeds(exps, init, contrib);
    if exps != [] {
      var p := exps[..|exps| - 1];
      GatheredSnoc(exps, contrib, InGroup(g));
      AggregateGroupReference(p, init, contrib, g);
      AggregateSnoc(exps, init, contrib);
      var st := Aggregate(p, init, contrib).value;
      var name := exps[|exps| - 1].0;
      var e := exps[|exps| - 1].1;
      var vals := contrib(name, e).value;
      AddToGroupGet(st.byGroup, name, e, vals, g);
      if Get(init.byGroup, g).Some? {
        var b := Get(init.byGroup, g).value;
        GConcatAssoc(b, Gathered(p, contrib, InGroup(g)), Piece(name, e, vals));
      }
    } else if Get(init.byGroup, g).Some? {
      GConcatAssoc(Get(init.byGroup, g).value, DivBucket([], [], []), DivBucket([], [], []));
    }
  }

  /** The same for every DIV bucket, whose three lists grow together. */
  lemma {:induction false} AggregateDivReference(exps: Dict<string, ExpRecord>, init: Buckets, contrib: Contribution, d: int)
    requires AllSucceed(exps, contrib)
    ensures Aggregate(exps, init, contrib).Success?
    ensures Get(Aggregate(exps, init, contrib).value.byDiv, d).None? <==> Get(init.byDiv, d).None?
    ensures Get(init.byDiv, d).Some? ==>
      Get(Aggregate(exps, init, contrib).value.byDiv, d) == Some(Concat(Get(init.byDiv, d).value, Gathered(exps, contrib, InDiv(d))))
    decreases |exps|
  {
    AggregateSucceeds(exps, init, contrib);
    if exps != [] {
      var p := exps[..|exps| - 1];
      GatheredSnoc(exps, contrib, InDiv(d));
      AggregateDivReference(p, init, contrib, d);
      AggregateSnoc(exps, init, contrib);
      var st := Aggregate(p, init, contrib).value;
      var name := exps[|exps| - 1].0;
      var e := exps[|exps| - 1].1;
      var vals := contrib(name, e).value;
      AddToDivGet(st.byDiv, name, e, vals, d);
      if Get(init.byDiv, d).Some? {
        var b := Get(init.byDiv, d).value;
        ConcatAssoc(b, Gathered(p, contrib, InDiv(d)), Piece(name, e, vals));
      }
    } else if Get(init.byDiv, d).Some? {
      var b := Get(init.byDiv, d).value;
      ConcatAssoc(b, b, b);
    }
  }

  /** If every contribution satisfies `P` element-wise, so does every gathered bucket. */
  lemma {:induction false} GatheredValuesSatisfy(exps: Dict<string, ExpRecord>, contrib: Contribution, sel: ExpRecord -> bool, P: Num -> bool)
    requires AllSucceed(exps, contrib)
    requires forall i, k | 0 <= i < |exps| && 0 <= k < |contrib(exps[i].0, exps[i].1).value| :: P(contrib(exps[i].0, exps[i].1).value[k])
    ensures forall k | 0 <= k < |Gathered(exps, contrib, sel).values| :: P(Gathered(exps, contrib, sel).values[k])
    decreases |exps|
  {
    if exps != [] {
      var p := exps[..|exps| - 1];
      assert forall i | 0 <= i < |p| :: p[i] == exps[i];
      GatheredValuesSatisfy(p, contrib, sel, P);
      var i := |exps| - 1;
      assert forall k | 0 <= k < |contrib(exps[i].0, exps[i].1).value| :: P(contrib(exps[i].0, exps[i].1).value[k]);
    }
  }

  // ----------------------------------------------------------- processors

  /** What a processor returns: the buckets plus the pass-through keys. */
  datatype Processed = Processed(
    field: string,
    byGroup: Dict<string, GroupBucket>,
    byDiv: Option<Dict<int, DivBucket>>,
    byExperiment: Dict<string, ExpRecord>,
    groups: seq<string>,
    divs: seq<int>)

  /** The empty buckets a processor starts from; requires the data's `groups` and `divs`. */
  function InitialBuckets(data: Dataset, selected: seq<string>, withDivs: bool): Buckets
    requires data.groups.Some? && data.divs.Some?
  {
    Buckets(EmptyGroups(SelectPresent(selected, data.groups.value)), if withDivs then EmptyDivs(data.divs.value) else [])
  }

  /**
   * The shared skeleton: `neuronal_data['groups']` and `['divs']` must
   * exist (KeyError otherwise); `by_experiment` defaults to empty. The
   * factory-made processors build no `by_div`. It fails exactly when a
   * top-level key is missing or an experiment raises.
   */
  function RunProcessor(field: string, data: Dataset, selected: seq<string>, contrib: Contribution, withDivs: bool): (r: Result<Processed>)
    ensures r.Success? <==> data.groups.Some? && data.divs.Some? && AllSucceed(data.byExperiment.GetOr([]), contrib)
    ensures r.Success? ==> (r.value.byDiv.Some? <==> withDivs)
  {
    if data.groups.None? then Failure("KeyError: 'groups'")
    else if data.divs.None? then Failure("KeyError: 'divs'")
    else
      var exps := data.byExperiment.GetOr([]);
      var init := InitialBuckets(data, selected, withDivs);
      AggregateSucceeds(exps, init, contrib);
      var b :- Aggregate(exps, init, contrib);
      Success(Processed(field, b.byGroup, if withDivs then Some(b.byDiv) else None, exps, data.groups.value, data.divs.value))
  }

  /** Unfolds a successful run into the pass over the experiments. */
  lemma RunProcessorValue(field: string, data: Dataset, selected: seq<string>, contrib: Contribution, withDivs: bool)
    requires RunProcessor(field, data, selected, contrib, withDivs).Success?
    ensures Aggregate(data.byExperiment.GetOr([]), InitialBuckets(data, selected, withDivs), contrib).Success?
    ensures var b := Aggregate(data.byExperiment.GetOr([]), InitialBuckets(data, selected, withDivs), contrib).value;
      RunProcessor(field, data, selected, contrib, withDivs) ==
        Success(Processed(field, b.byGroup, if withDivs then Some(b.byDiv) else None, data.byExperiment.GetOr([]), data.groups.value, data.divs.value))
  {
  }

  /**
   * A processor's `by_group` has exactly the groups to process, each
   * holding the reference contents with as many names as values; `groups`,
   * `divs` and `by_experiment` pass through unchanged.
   */
  lemma ProcessorGroups(field: string, data: Dataset, selected: seq<string>, contrib: Contribution, withDivs: bool, g: string)
    requires RunProcessor(field, data, selected, contrib, withDivs).Success?
    ensures var p := RunProcessor(field, data, selected, contrib, withDivs).value;
      && p.field == field
      && p.groups == data.groups.value && p.divs == data.divs.value && p.byExperiment == data.byExperiment.GetOr([])
      && Keys(p.byGroup) == Dedup(SelectPresent(selected, data.groups.value))
    ensures var p := RunProcessor(field, data, selected, contrib, withDivs).value;
      var ref := Gathered(data.byExperiment.GetOr([]), contrib, InGroup(g));
      && (g in SelectPresent(selected, data.groups.value) ==> Get(p.byGroup, g) == Some(GroupBucket(ref.values, ref.expNames)))
      && |ref.values| == |ref.expNames|
  {
    RunProcessorValue(field, data, selected, contrib, withDivs);
    var gtp := SelectPresent(selected, data.groups.value);
    var exps := data.byExperiment.GetOr([]);
    var init := InitialBuckets(data, selected, withDivs);
    AggregateKeys(exps, init, contrib);
    AggregateGroupReference(exps, init, contrib, g);
    if g in gtp {
      assert Get(init.byGroup, g).Some?;
      assert (g, Get(init.byGroup, g).value) in init.byGroup;
      GConcatAssoc(GroupBucket([], []), Gathered(exps, contrib, InGroup(g)), Gathered(exps, contrib, InGroup(g)));
    }
  }

  /** With DIV buckets, `by_div` has exactly the data's DIVs, each holding the reference contents. */
  lemma ProcessorDivs(field: string, data: Dataset, selected: seq<string>, contrib: Contribution, d: int)
    requires RunProcessor(field, data, selected, contrib, true).Success?
    ensures var p := RunProcessor(field, data, selected, contrib, true).value;
      && Keys(p.byDiv.value) == Dedup(data.divs.value)
      && (d in data.divs.value ==> Get(p.byDiv.value, d) == Some(Gathered(data.byExperiment.GetOr([]), contrib, InDiv(d))))
  {
    RunProcessorValue(field, data, selected, contrib, true);
    var exps := data.byExperiment.GetOr([]);
    var init := InitialBuckets(data, selected, true);
    AggregateKeys(exps, init, contrib);
    AggregateDivReference(exps, init, contrib, d);
    if d in data.divs.value {
      assert Get(init.byDiv, d).Some?;
      assert (d, Get(init.byDiv, d).value) in init.byDiv;
      assert Get(init.byDiv, d).value == DivBucket([], [], []);
      var ref := Gathered(exps, contrib, InDiv(d));
      ConcatAssoc(ref, ref, ref);
    }
  }

  // node level

  /**
   * One experiment of `_process_node_level_metric`: its activity, or an
   * empty one when missing, is searched for the metric's variations, which raises when the
   * activity is None; the first variation present wins even when it holds
   * None; an array is filtered; a scalar makes `len()` raise.
   */
  function NodeContribution(metric: string, name: string, e: ExpRecord): Result<seq<Num>> {
    if e.activity.NoneValue? then Failure(NoneNotIterable)
    else
      match FirstPresent(ActivityOrEmpty(e), FieldVariations(metric))
      case None => Success([])
      case Some(Null) => Success([])
      case Some(Scalar(_)) => Failure("TypeError: len() of unsized object")
      case Some(Arr(xs)) => if |xs| > 0 then Success(ApplyEnhancedFiltering(xs, metric)) else Success([])
  }

  /** `_process_node_level_metric`. */
  function ProcessNodeLevel(data: Dataset, metric: string, selected: seq<string>): Result<Processed> {
    RunProcessor(metric, data, selected, (n, e) => NodeContribution(metric, n, e), true)
  }

  /**
   * A node-level experiment contributes exactly the valid values of the
   * electrode array found under the first present variation, and raises
   * exactly when its activity is None or that entry is a scalar.
   */
  lemma NodeContributionSpec(metric: string, name: string, e: ExpRecord)
    ensures var f := FirstPresent(ActivityOrEmpty(e), FieldVariations(metric));
      && (NodeContribution(metric, name, e).Failure? <==> e.activity.NoneValue? || (f.Some? && f.value.Scalar?))
      && (!e.activity.NoneValue? && f.Some? && f.value.Arr? ==> NodeContribution(metric, name, e) == Success(ValidValues(f.value.items, metric)))
      && (!e.activity.NoneValue? && (f.None? || (f.Some? && f.value.Null?)) ==> NodeContribution(metric, name, e) == Success([]))
  {
    var f := FirstPresent(ActivityOrEmpty(e), FieldVariations(metric));
    if f.Some? && f.value.Arr? {
      EnhancedFilteringIsValidFilter(f.value.items, metric);
    }
  }

  /** Every value a node-level processor puts in a group or DIV bucket is valid for the metric. */
  lemma NodeLevelValuesValid(data: Dataset, metric: string, selected: seq<string>, g: string, d: int)
    requires ProcessNodeLevel(data, metric, selected).Success?
    ensures var p := ProcessNodeLevel(data, metric, selected).value;
      && (Get(p.byGroup, g).Some? ==> forall k | 0 <= k < |Get(p.byGroup, g).value.values| :: ValidFor(metric, Get(p.byGroup, g).value.values[k]))
      && (Get(p.byDiv.value, d).Some? ==> forall k | 0 <= k < |Get(p.byDiv.value, d).value.values| :: ValidFor(metric, Get(p.byDiv.value, d).value.values[k]))
  {
    var contrib: Contribution := (n, e) => NodeContribution(metric, n, e);
    var exps := data.byExperiment.GetOr([]);
    ProcessorGroups(metric, data, selected, contrib, true, g);
    ProcessorDivs(metric, data, selected, contrib, d);
    var p := ProcessNodeLevel(data, metric, selected).value;
    forall i | 0 <= i < |exps|
      ensures forall k | 0 <= k < |contrib(exps[i].0, exps[i].1).value| :: ValidFor(metric, contrib(exps[i].0, exps[i].1).value[k])
    {
      NodeContributionSpec(metric, exps[i].0, exps[i].1);
    }
    GatheredValuesSatisfy(exps, contrib, InGroup(g), (v: Num) => ValidFor(metric, v));
    GatheredValuesSatisfy(exps, contrib, InDiv(d), (v: Num) => ValidFor(metric, v));
    if Get(p.byGroup, g).Some? {
      assert g in Keys(p.byGroup);
    }
    if Get(p.byDiv.value, d).Some? {
      assert d in Keys(p.byDiv.value);
    }
  }

  // recording level: FRActive and numActiveElec

  /** `valid_fr`: the non-NaN, finite, non-negative firing rates. */
  function ValidFiringRates(fr: seq<Num>): seq<Num> {
    Filter(ValidRate, fr)
  }

  predicate ValidRate(v: Num) {
    !IsNaN(v) && IsFinite(v) && Ge(v, 0.0)
  }

  /** Sum of the finite values. */
  function SumFinite(xs: seq<Num>): real
    decreases |xs|
  {
    if xs == [] then 0.0 else (if xs[0].Fin? then xs[0].r else 0.0) + SumFinite(xs[1..])
  }

  /** `np.mean` of finite values, in exact arithmetic. */
  function Mean(xs: seq<Num>): real
    requires |xs| > 0
  {
    SumFinite(xs) / (|xs| as real)
  }

  lemma {:induction false} SumAbove(xs: seq<Num>, t: real)
    requires forall k | 0 <= k < |xs| :: xs[k].Fin? && xs[k].r > t
    ensures |xs| > 0 ==> SumFinite(xs) > t * (|xs| as real)
    decreases |xs|
  {
    if |xs| > 1 {
      assert forall k | 0 <= k < |xs[1..]| :: xs[1..][k] == xs[k + 1];
      SumAbove(xs[1..], t);
    }
  }

  /**
   * The FR array of an experiment, if it has a non-empty list of them;
   * testing the activity for FR raises when the activity is None.
   */
  function FiringRates(e: ExpRecord): (r: Result<Option<seq<Num>>>)
    ensures r.Failure? <==> e.activity.NoneValue?
    ensures r.Success? && r.value.Some? <==>
              e.activity.Holds? && Get(e.activity.value, "FR").Some? && Get(e.activity.value, "FR").value.Arr? &&
              |Get(e.activity.value, "FR").value.items| > 0
    ensures r.Success? && r.value.Some? ==> Get(ActivityOrEmpty(e), "FR") == Some(Arr(r.value.value))
  {
    var fr :- ActivityEntry(e, "FR");
    if fr.Some? && fr.value.Arr? && |fr.value.items| > 0 then Success(Some(fr.value.items)) else Success(None)
  }

  /** One experiment of `_process_recording_level_active_metric`: the mean of its active electrodes. */
  function ActiveContribution(threshold: real, name: string, e: ExpRecord): Result<seq<Num>> {
    var rates :- FiringRates(e);
    match rates
    case None => Success([])
    case Some(fr) =>
      var active := Filter(Above(threshold), ValidFiringRates(fr));
      if |active| > 0 then Success([Fin(Mean(active))]) else Success([])
  }

  /** `_process_recording_level_active_metric`, under the configured threshold. */
  function ProcessActive(data: Dataset, selected: seq<string>): Result<Processed> {
    RunProcessor("FRActiveNode", data, selected, (n, e) => ActiveContribution(Config.ActiveElectrodeThreshold, n, e), true)
  }

  /**
   * An experiment raises exactly when its activity is None; otherwise it
   * contributes one FRActive value exactly when it has a non-empty FR
   * array with at least one valid electrode strictly above the threshold,
   * and that value, a mean of such electrodes, is itself strictly above
   * the threshold.
   */
  lemma ActiveContributionSpec(threshold: real, name: string, e: ExpRecord)
    requires threshold >= 0.0
    ensures ActiveContribution(threshold, name, e).Failure? <==> e.activity.NoneValue?
    ensures ActiveContribution(threshold, name, e).Success? ==>
      var vals := ActiveContribution(threshold, name, e).value;
      var fr := FiringRates(e).value;
      && |vals| <= 1
      && (|vals| == 1 <==> fr.Some? && exists k | 0 <= k < |fr.value| :: FiniteAbove(threshold)(fr.value[k]))
      && (|vals| == 1 ==> vals[0].Fin? && vals[0].r > threshold)
  {
    if FiringRates(e).Success? && FiringRates(e).value.Some? {
      var fr := FiringRates(e).value.value;
      var active := Filter(Above(threshold), ValidFiringRates(fr));
      ActiveCountSpec(fr, threshold);
      CountPositive(FiniteAbove(threshold), fr);
      if |active| > 0 {
        MeanOfActiveAbove(fr, threshold);
      }
    }
  }

  /** The mean of the active electrodes lies strictly above the threshold. */
  lemma MeanOfActiveAbove(fr: seq<Num>, threshold: real)
    requires |Filter(Above(threshold), ValidFiringRates(fr))| > 0
    ensures Mean(Filter(Above(threshold), ValidFiringRates(fr))) > threshold
  {
    var valid := ValidFiringRates(fr);
    var active := Filter(Above(threshold), valid);
    forall k | 0 <= k < |active|
      ensures active[k].Fin? && active[k].r > threshold
    {
      FilterIn(Above(threshold), valid, active[k]);
      FilterIn(ValidRate, fr, active[k]);
    }
    MeanAbove(active, threshold);
  }

  lemma MeanAbove(xs: seq<Num>, t: real)
    requires |xs| > 0
    requires forall k | 0 <= k < |xs| :: xs[k].Fin? && xs[k].r > t
    ensures Mean(xs) > t
  {
    SumAbove(xs, t);
    DivAbove(SumFinite(xs), t, |xs| as real);
  }

  lemma DivAbove(total: real, t: real, n: real)
    requires n > 0.0 && total > t * n
    ensures total / n > t
  {
    assert total / n * n == total;
  }

  /** The number of valid firing rates above the threshold. */
  function ActiveCount(fr: seq<Num>, threshold: real): nat {
    Count(Above(threshold), ValidFiringRates(fr))
  }

  /** With a non-negative threshold the count is that of the finite rates above it, at most the array length. */
  lemma ActiveCountSpec(fr: seq<Num>, threshold: real)
    requires threshold >= 0.0
    ensures ActiveCount(fr, threshold) == Count(FiniteAbove(threshold), fr)
    ensures ActiveCount(fr, threshold) <= |fr|
  {
    FilterFilter(ValidRate, Above(threshold), FiniteAbove(threshold), fr);
    CountBound(FiniteAbove(threshold), fr);
  }

  /** One experiment of `_process_recording_level_count_metric`: its count, even when zero. */
  function CountContribution(threshold: real, name: string, e: ExpRecord): Result<seq<Num>> {
    var rates :- FiringRates(e);
    match rates
    case None => Success([])
    case Some(fr) => Success([Fin(ActiveCount(fr, threshold) as real)])
  }

  /** `_process_recording_level_count_metric`, under the configured threshold. */
  function ProcessCount(data: Dataset, selected: seq<string>): Result<Processed> {
    RunProcessor("numActiveElec", data, selected, (n, e) => CountContribution(Config.ActiveElectrodeThreshold, n, e), true)
  }

  /**
   * An experiment raises exactly when its activity is None; otherwise one
   * with a non-empty FR array contributes exactly one count, between 0 and
   * the number of electrodes, and the others contribute nothing.
   */
  lemma CountContributionSpec(threshold: real, name: string, e: ExpRecord)
    requires threshold >= 0.0
    ensures CountContribution(threshold, name, e).Failure? <==> e.activity.NoneValue?
    ensures CountContribution(threshold, name, e).Success? ==>
      var vals := CountContribution(threshold, name, e).value;
      var fr := FiringRates(e).value;
      && (|vals| == 1 <==> fr.Some?)
      && (fr.None? ==> vals == [])
      && (fr.Some? ==>
            vals == [Fin(Count(FiniteAbove(threshold), fr.value) as real)]
            && 0.0 <= vals[0].r <= |fr.value| as real)
  {
    if FiringRates(e).Success? && FiringRates(e).value.Some? {
      ActiveCountSpec(FiringRates(e).value.value, threshold);
    }
  }

  // recording level: stored scalars

  /**
   * One experiment of `_process_recording_level_scalar_metric`. An
   * activity that is None makes the membership test raise; a one-element
   * array passes the NaN and finiteness tests as its element; None makes
   * `isnan` raise; the truth value of any other array is ambiguous and
   * raises. The source appends the one-element array object itself, which
   * this model records as its element, since buckets hold numbers.
   */
  function ScalarContribution(metric: string, name: string, e: ExpRecord): Result<seq<Num>> {
    var entry :- ActivityEntry(e, metric);
    match entry
    case None => Success([])
    case Some(Null) => Failure("TypeError: isnan of None")
    case Some(Scalar(x)) => if !IsNaN(x) && IsFinite(x) then Success([x]) else Success([])
    case Some(Arr(xs)) =>
      if |xs| == 1 then (if !IsNaN(xs[0]) && IsFinite(xs[0]) then Success([xs[0]]) else Success([]))
      else Failure("ValueError: truth value of an array is ambiguous")
  }

  /** `_process_recording_level_scalar_metric`. */
  function ProcessScalar(data: Dataset, metric: string, selected: seq<string>): Result<Processed> {
    RunProcessor(metric, data, selected, (n, e) => ScalarContribution(metric, n, e), true)
  }

  /**
   * A stored scalar is contributed exactly when it is finite, and never
   * twice; the experiment raises exactly when its activity is None or the
   * entry is None or an array of other than one element.
   */
  lemma ScalarContributionSpec(metric: string, name: string, e: ExpRecord)
    ensures var r := ScalarContribution(metric, name, e);
      r.Success? ==> |r.value| <= 1 && forall k | 0 <= k < |r.value| :: r.value[k].Fin?
    ensures ScalarContribution(metric, name, e).Failure? <==>
      e.activity.NoneValue? ||
      (e.activity.Holds? && Get(e.activity.value, metric).Some? &&
        (Get(e.activity.value, metric).value.Null? ||
         (Get(e.activity.value, metric).value.Arr? && |Get(e.activity.value, metric).value.items| != 1)))
    ensures forall x | e.activity.Holds? && Get(e.activity.value, metric) == Some(Scalar(x)) ::
      ScalarContribution(metric, name, e) == (if x.Fin? then Success([x]) else Success([]))
  {
  }

  /** Every value the scalar processor stores in a group or DIV bucket is finite. */
  lemma ScalarValuesFinite(data: Dataset, metric: string, selected: seq<string>, g: string, d: int)
    requires ProcessScalar(data, metric, selected).Success?
    ensures var p := ProcessScalar(data, metric, selected).value;
      && (Get(p.byGroup, g).Some? ==> forall k | 0 <= k < |Get(p.byGroup, g).value.values| :: Get(p.byGroup, g).value.values[k].Fin?)
      && (Get(p.byDiv.value, d).Some? ==> forall k | 0 <= k < |Get(p.byDiv.value, d).value.values| :: Get(p.byDiv.value, d).value.values[k].Fin?)
  {
    var contrib: Contribution := (n, e) => ScalarContribution(metric, n, e);
    var exps := data.byExperiment.GetOr([]);
    ProcessorGroups(metric, data, selected, contrib, true, g);
    ProcessorDivs(metric, data, selected, contrib, d);
    var p := ProcessScalar(data, metric, selected).value;
    forall i | 0 <= i < |exps|
      ensures forall k | 0 <= k < |contrib(exps[i].0, exps[i].1).value| :: contrib(exps[i].0, exps[i].1).value[k].Fin?
    {
      ScalarContributionSpec(metric, exps[i].0, exps[i].1);
    }
    GatheredValuesSatisfy(exps, contrib, InGroup(g), (v: Num) => v.Fin?);
    GatheredValuesSatisfy(exps, contrib, InDiv(d), (v: Num) => v.Fin?);
    if Get(p.byGroup, g).Some? {
      assert g in Keys(p.byGroup);
    }
    if Get(p.byDiv.value, d).Some? {
      assert d in Keys(p.byDiv.value);
    }
  }

  // recording level: factory-made processors

  /** The error of the import at the head of a factory-made processor's loop: the module defines no such function. */
  const ImportFailure := "ImportError: cannot import name 'extract_recording_level_metrics' from 'data_processing.experiment_mat_loader'"

  /**
   * One experiment of a factory-made processor as written: the cached
   * `recording_metrics` is used when present; otherwise the extractor is
   * imported first, and that import fails. Only NaN is rejected, so
   * infinities pass.
   */
  function FactoryContributionAsWritten(metric: string, name: string, e: ExpRecord): Result<seq<Num>> {
    if e.recordingMetrics.None? then Failure(ImportFailure)
    else
      match Get(e.recordingMetrics.value, metric)
      case Some(v) => if !IsNaN(v) then Success([v]) else Success([])
      case None => Success([])
  }

  /** `create_recording_level_processor(metric)` as written. */
  function ProcessFactoryAsWritten(data: Dataset, metric: string, selected: seq<string>): Result<Processed> {
    RunProcessor(metric, data, selected, (n, e) => FactoryContributionAsWritten(metric, n, e), false)
  }

  /** Every record in `by_experiment` carries cached recording metrics. */
  predicate AllCached(exps: Dict<string, ExpRecord>) {
    forall i | 0 <= i < |exps| :: exps[i].1.recordingMetrics.Some?
  }

  /**
   * When the pass fails, some experiment's contribution failed, and the
   * pass carries that contribution's error.
   */
  lemma {:induction false} AggregateError(exps: Dict<string, ExpRecord>, init: Buckets, contrib: Contribution)
    requires Aggregate(exps, init, contrib).Failure?
    ensures exists i | 0 <= i < |exps| :: contrib(exps[i].0, exps[i].1).Failure? &&
              Aggregate(exps, init, contrib).error == contrib(exps[i].0, exps[i].1).error
    decreases |exps|
  {
    var n := |exps| - 1;
    var pre := exps[..n];
    if Aggregate(pre, init, contrib).Failure? {
      AggregateError(pre, init, contrib);
      var i :| 0 <= i < |pre| && contrib(pre[i].0, pre[i].1).Failure? &&
               Aggregate(pre, init, contrib).error == contrib(pre[i].0, pre[i].1).error;
      assert pre[i] == exps[i];
    } else {
      assert contrib(exps[n].0, exps[n].1).Failure?;
    }
  }

  /**
   * As written, a factory-made processor succeeds exactly when both
   * top-level keys are present and every experiment has cached
   * `recording_metrics`; with both keys present it fails with the import
   * error. When every experiment has them the import is
   * never reached, and the result is the corrected processor's for any
   * extractor.
   */
  lemma FactoryAsWrittenRaises(data: Dataset, metric: string, extract: ExpRecord -> Dict<string, Num>, selected: seq<string>)
    ensures ProcessFactoryAsWritten(data, metric, selected).Success? <==>
              data.groups.Some? && data.divs.Some? && AllCached(data.byExperiment.GetOr([]))
    ensures data.groups.Some? && data.divs.Some? && ProcessFactoryAsWritten(data, metric, selected).Failure? ==>
              ProcessFactoryAsWritten(data, metric, selected).error == ImportFailure
    ensures AllCached(data.byExperiment.GetOr([])) ==>
              ProcessFactoryAsWritten(data, metric, selected) == ProcessFactory(data, metric, extract, selected)
  {
    var asWritten: Contribution := (n, e) => FactoryContributionAsWritten(metric, n, e);
    var corrected: Contribution := (n, e) => FactoryContribution(metric, extract, n, e);
    var exps := data.byExperiment.GetOr([]);
    if data.groups.Some? && data.divs.Some? && ProcessFactoryAsWritten(data, metric, selected).Failure? {
      var init := InitialBuckets(data, selected, false);
      AggregateSucceeds(exps, init, asWritten);
      AggregateError(exps, init, asWritten);
    }
    if data.groups.Some? && data.divs.Some? && AllCached(exps) {
      var init := InitialBuckets(data, selected, false);
      assert forall i | 0 <= i < |exps| :: asWritten(exps[i].0, exps[i].1) == corrected(exps[i].0, exps[i].1);
      AggregateSameContributions(exps, init, asWritten, corrected);
    }
  }

  /** Two contributions that agree on every experiment give the same pass. */
  lemma {:induction false} AggregateSameContributions(exps: Dict<string, ExpRecord>, init: Buckets, c1: Contribution, c2: Contribution)
    requires forall i | 0 <= i < |exps| :: c1(exps[i].0, exps[i].1) == c2(exps[i].0, exps[i].1)
    ensures Aggregate(exps, init, c1) == Aggregate(exps, init, c2)
    decreases |exps|
  {
    if exps != [] {
      var n := |exps| - 1;
      assert forall i | 0 <= i < n :: exps[..n][i] == exps[i];
      AggregateSameContributions(exps[..n], init, c1, c2);
    }
  }

  /** The loaders never cache recording metrics, so one loaded experiment makes the processor raise. */
  lemma FactoryImportFails(metric: string)
    ensures var e := ExpRecord(Some("G"), Some(14), Holds([]), None);
            var data := Dataset(None, Some([("E_DIV14", e)]), Some(["G"]), Some([14]));
            ProcessFactoryAsWritten(data, metric, []) == Failure(ImportFailure)
  {
  }

  /**
   * One experiment of a factory-made processor, corrected: the cached
   * `recording_metrics` is used when present, otherwise `extract` (the
   * extractor the import means to bring in) computes it; only NaN is
   * rejected, so infinities pass.
   */
  function FactoryContribution(metric: string, extract: ExpRecord -> Dict<string, Num>, name: string, e: ExpRecord): Result<seq<Num>> {
    var rm := if e.recordingMetrics.Some? then e.recordingMetrics.value else extract(e);
    match Get(rm, metric)
    case Some(v) => if !IsNaN(v) then Success([v]) else Success([])
    case None => Success([])
  }

  /** `create_recording_level_processor(metric)`: group buckets only. */
  function ProcessFactory(data: Dataset, metric: string, extract: ExpRecord -> Dict<string, Num>, selected: seq<string>): Result<Processed> {
    RunProcessor(metric, data, selected, (n, e) => FactoryContribution(metric, extract, n, e), false)
  }

  /**
   * With an extractor that exists, a factory-made experiment never raises
   * and contributes at most one value, never NaN; infinities are kept.
   */
  lemma FactoryContributionSpec(metric: string, extract: ExpRecord -> Dict<string, Num>, name: string, e: ExpRecord)
    ensures FactoryContribution(metric, extract, name, e).Success?
    ensures var r := FactoryContribution(metric, extract, name, e).value;
      |r| <= 1 && forall k | 0 <= k < |r| :: !r[k].NaN?
    ensures e.recordingMetrics.Some? && Get(e.recordingMetrics.value, metric) == Some(PosInf) ==>
      FactoryContribution(metric, extract, name, e) == Success([PosInf])
  {
  }

  /** With an extractor that exists, a factory-made processor fails only for a missing top-level key, and builds no `by_div`. */
  lemma FactoryNeverRaises(data: Dataset, metric: string, extract: ExpRecord -> Dict<string, Num>, selected: seq<string>)
    ensures ProcessFactory(data, metric, extract, selected).Success? <==> data.groups.Some? && data.divs.Some?
    ensures ProcessFactory(data, metric, extract, selected).Success? ==> ProcessFactory(data, metric, extract, selected).value.byDiv.None?
  {
    var contrib: Contribution := (n, e) => FactoryContribution(metric, extract, n, e);
    var exps := data.byExperiment.GetOr([]);
    forall i | 0 <= i < |exps|
      ensures contrib(exps[i].0, exps[i].1).Success?
    {
      FactoryContributionSpec(metric, extract, exps[i].0, exps[i].1);
    }
  }

  /** No value a factory-made processor stores in a group bucket is NaN. */
  lemma FactoryValuesNotNaN(data: Dataset, metric: string, extract: ExpRecord -> Dict<string, Num>, selected: seq<string>, g: string)
    requires ProcessFactory(data, metric, extract, selected).Success?
    ensures var p := ProcessFactory(data, metric, extract, selected).value;
      Get(p.byGroup, g).Some? ==> forall k | 0 <= k < |Get(p.byGroup, g).value.values| :: !Get(p.byGroup, g).value.values[k].NaN?
  {
    var contrib: Contribution := (n, e) => FactoryContribution(metric, extract, n, e);
    var exps := data.byExperiment.GetOr([]);
    ProcessorGroups(metric, data, selected, contrib, false, g);
    var p := ProcessFactory(data, metric, extract, selected).value;
    forall i | 0 <= i < |exps|
      ensures forall k | 0 <= k < |contrib(exps[i].0, exps[i].1).value| :: !contrib(exps[i].0, exps[i].1).value[k].NaN?
    {
      FactoryContributionSpec(metric, extract, exps[i].0, exps[i].1);
    }
    GatheredValuesSatisfy(exps, contrib, InGroup(g), (v: Num) => !v.NaN?);
    if Get(p.byGroup, g).Some? {
      assert g in Keys(p.byGroup);
    }
  }

  // ------------------------------------------------------------- registry

  datatype Processor =
    | NodeProcessor(metric: string)
    | ActiveProcessor
    | CountProcessor
    | ScalarProcessor(metric: string)
    | FactoryProcessor(metric: string)

  /** `NEURONAL_METRIC_PROCESSORS` as written out literally. */
  const BaseRegistry: Dict<string, Processor> := [
    ("FR", NodeProcessor("FR")),
    ("channelBurstRate", NodeProcessor("channelBurstRate")),
    ("channelFRinBurst", NodeProcessor("channelFRinBurst")),
    ("channelBurstDur", NodeProcessor("channelBurstDur")),
    ("channelISIwithinBurst", NodeProcessor("channelISIwithinBurst")),
    ("channeISIoutsideBurst", NodeProcessor("channeISIoutsideBurst")),
    ("channelFracSpikesInBursts", NodeProcessor("channelFracSpikesInBursts")),
    ("FRActive", ActiveProcessor),
    ("numActiveElec", CountProcessor),
    ("NBurstRate", ScalarProcessor("NBurstRate")),
    ("FRmean", ScalarProcessor("FRmean")),
    ("FRmedian", ScalarProcessor("FRmedian"))
  ]

  const MissingRecordingMetrics: seq<string> := [
    "meanNBstLengthS", "meanISIWithinNbursts_ms", "meanISIoutsideNbursts_ms", "CVofINBI",
    "fracInNburst", "meanNumChansInvolvedInNbursts", "singleElecBurstRate", "singleElecBurstDur",
    "singleElecISIwithinBurst", "singleElecISIoutsideBurst", "meanFracSpikesInBurstsPerElec",
    "channelAveBurstRate", "channelAveBurstDur", "channelAveISIwithinBurst", "channelAveISIoutsideBurst",
    "channelAveFracSpikesInBursts", "numNbursts", "FRstd", "FRsem", "FRiqr"
  ]

  /** The module-level loop: a factory-made processor for each name not yet registered. */
  function Register(reg: Dict<string, Processor>, names: seq<string>): Dict<string, Processor>
    decreases |names|
  {
    if names == [] then reg
    else
      var prev := Register(reg, names[..|names| - 1]);
      var m := names[|names| - 1];
      if HasKey(prev, m) then prev else Put(prev, m, FactoryProcessor(m))
  }

  /** Registration adds every listed name and overwrites no existing entry. */
  lemma {:induction false} RegisterSpec(reg: Dict<string, Processor>, names: seq<string>, k: string)
    ensures HasKey(Register(reg, names), k) <==> HasKey(reg, k) || k in names
    ensures HasKey(reg, k) ==> Get(Register(reg, names), k) == Get(reg, k)
    ensures !HasKey(reg, k) && k in names ==> Get(Register(reg, names), k) == Some(FactoryProcessor(k))
    decreases |names|
  {
    if names != [] {
      var p := names[..|names| - 1];
      var m := names[|names| - 1];
      assert names == p + [m];
      RegisterSpec(reg, p, k);
      var prev := Register(reg, p);
      if !HasKey(prev, m) {
        GetPut(prev, m, FactoryProcessor(m), k);
      }
    }
  }

  /** The registry after the module-level loop has run. */
  function Registry(): Dict<string, Processor> {
    Register(BaseRegistry, MissingRecordingMetrics)
  }

  /** `is_metric_available`. */
  predicate IsMetricAvailable(metric: string) {
    HasKey(Registry(), metric)
  }

  /** `get_metric_processor`: KeyError exactly for metrics not registered. */
  function GetMetricProcessor(metric: string): (r: Result<Processor>)
    ensures r.Failure? <==> !IsMetricAvailable(metric)
    ensures r.Success? ==> (metric, r.value) in Registry()
  {
    match Get(Registry(), metric)
    case None => Failure("KeyError: metric is not available")
    case Some(p) => Success(p)
  }

  /** A metric is available exactly when it is literally registered or on the missing-metrics list. */
  lemma AvailableMetrics(metric: string)
    ensures IsMetricAvailable(metric) <==> HasKey(BaseRegistry, metric) || metric in MissingRecordingMetrics
    ensures HasKey(BaseRegistry, metric) ==> GetMetricProcessor(metric) == Success(Get(BaseRegistry, metric).value)
    ensures !HasKey(BaseRegistry, metric) && metric in MissingRecordingMetrics ==>
      GetMetricProcessor(metric) == Success(FactoryProcessor(metric))
  {
    RegisterSpec(BaseRegistry, MissingRecordingMetrics, metric);
  }

  /** Runs a registered processor. */
  function RunRegistered(p: Processor, data: Dataset, selected: seq<string>, extract: ExpRecord -> Dict<string, Num>): Result<Processed> {
    match p
    case NodeProcessor(m) => ProcessNodeLevel(data, m, selected)
    case ActiveProcessor => ProcessActive(data, selected)
    case CountProcessor => ProcessCount(data, selected)
    case ScalarProcessor(m) => ProcessScalar(data, m, selected)
    case FactoryProcessor(m) => ProcessFactory(data, m, extract, selected)
  }

  /** `process_metric`: look the processor up, then run it. */
  function ProcessMetric(metric: string, data: Dataset, selected: seq<string>, extract: ExpRecord -> Dict<string, Num>): (r: Result<Processed>)
    ensures !IsMetricAvailable(metric) ==> r.Failure?
    ensures IsMetricAvailable(metric) ==> r == RunRegistered(Get(Registry(), metric).value, data, selected, extract)
  {
    var p :- GetMetricProcessor(metric);
    RunRegistered(p, data, selected, extract)
  }

  // --------------------------------------------------------- metric lists

  const NodeLevelMetricNames: seq<string> := [
    "FR", "channelBurstRate", "channelFRinBurst",
    "channelBurstDur", "channelISIwithinBurst", "channeISIoutsideBurst",
    "channelFracSpikesInBursts"
  ]

  const RecordingLevelMetricNames: seq<string> := ["FRActive", "numActiveElec", "NBurstRate", "FRmean", "FRmedian"]

  /** This module's node list is the configuration's; its recording list is a part of the configuration's. */
  lemma MetricListsAgreeWithConfig(metric: string)
    ensures NodeLevelMetricNames == Config.NodeLevelMetrics
    ensures metric in RecordingLevelMetricNames ==> Config.IsRecordingLevelMetric(metric)
    ensures Config.IsRecordingLevelMetric("meanNBstLengthS") && "meanNBstLengthS" !in RecordingLevelMetricNames
  {
  }
}

=== FILE: network_activity.dfy ===
/**
 * components/network_activity.py, its data logic: which values of a
 * group reach which DIV in the half-violin plot, which lags the lag plot
 * shows, the per-experiment node-role proportions and the experiments the
 * node-cartography plot draws from. Kernel densities, jitter and figure
 * layout are not modelled.
 */
module NetworkActivity {
  import opened Wrappers
  import opened Numeric
  import opened Seqs
  import opened Dicts
  import opened DashboardData
  import opened DataLoader
  import opened NeuronalActivity
  import opened Text

  // ------------------------------------------------ half-violin values

  /**
   * The DIV test of both plots as written: the tag `DIV<div>` occurs
   * inside some `_`-part of the name, not necessarily as the whole part.
   */
  predicate PartMatchAsWritten(name: string, div: int) {
    exists k | 0 <= k < |Split(name, '_')| :: Contains(Split(name, '_')[k], DivTag(div))
  }

  /** The tag of DIV 5 is a substring of the part `DIV50`: the experiment feeds DIV 5 and DIV 50. */
  lemma PartMatchAsWrittenOvermatches()
    ensures PartMatchAsWritten("S_DIV50", 5) && PartMatchAsWritten("S_DIV50", 50)
    ensures NodeMatch("S_DIV50", 50) && !NodeMatch("S_DIV50", 5)
  {
    var name := "S_DIV50";
    SplitDated(name);
    Div50Tags(Split(name, '_')[1]);
    DivKeyOfDatedPart(name);
  }

  /** The part `DIV50` contains the tags of DIV 5 and of DIV 50. */
  lemma Div50Tags(part: string)
    requires part == "DIV50"
    ensures Contains(part, DivTag(5)) && Contains(part, DivTag(50))
  {
    assert IntToString(5) == "5" && IntToString(50) == "50";
    assert part[0..4] == DivTag(5);
    assert OccursAt(part, DivTag(5), 0);
    assert part[0..5] == DivTag(50);
    assert OccursAt(part, DivTag(50), 0);
  }

  /** A value the plot keeps: present and finite. */
  predicate Kept(v: Num) {
    v.Fin?
  }

  /** A stored metric as a list: an array as is, a scalar as a one-element list. */
  function AsList(f: Field): (r: seq<Num>)
    ensures f.Arr? ==> r == f.items
    ensures f.Scalar? ==> r == [f.x]
    ensures f.Null? ==> r == []
  {
    match f
    case Arr(xs) => xs
    case Scalar(x) => [x]
    case Null => []
  }

  function NameOnly(matches: string -> bool): (string, Num) -> bool {
    (n: string, v: Num) => matches(n)
  }

  function NameAndKept(matches: string -> bool): (string, Num) -> bool {
    (n: string, v: Num) => matches(n) && Kept(v)
  }

  /**
   * The values of one DIV as written: the finite values are filtered
   * first, and the i-th survivor goes to the DIV when the i-th name
   * matches. Without names every DIV gets every finite value.
   */
  function DivValuesAsWritten(values: seq<Num>, names: seq<string>, matches: string -> bool): (r: seq<Num>)
    ensures names == [] ==> r == Filter(Kept, values)
    ensures forall k | 0 <= k < |r| :: Kept(r[k])
    ensures |r| <= |Filter(Kept, values)|
  {
    var kept := Filter(Kept, values);
    if names == [] then kept
    else Pick(kept, PairedPositions(names, kept, NameOnly(matches)))
  }

  /** The experiments whose value goes to the DIV: the finite ones whose name matches. */
  function Sources(values: seq<Num>, names: seq<string>, matches: string -> bool): (idx: seq<nat>)
    ensures forall k | 0 <= k < |idx| :: idx[k] < |names| && idx[k] < |values| && matches(names[idx[k]]) && Kept(values[idx[k]])
    ensures forall i | 0 <= i < |names| && i < |values| && matches(names[i]) && Kept(values[i]) :: i in idx
    ensures forall j, k | 0 <= j < k < |idx| :: idx[j] < idx[k]
  {
    var idx := PairedPositions(names, values, NameAndKept(matches));
    assert forall k | 0 <= k < |idx| :: NameAndKept(matches)(names[idx[k]], values[idx[k]]);
    assert forall i | 0 <= i < |names| && i < |values| && matches(names[i]) && Kept(values[i]) :: NameAndKept(matches)(names[i], values[i]);
    idx
  }

  /**
   * The values of one DIV paired by experiment: value k is the value of
   * the k-th experiment, in order, whose value is finite and whose name
   * matches.
   */
  function DivValues(values: seq<Num>, names: seq<string>, matches: string -> bool): (r: seq<Num>)
    ensures names == [] ==> r == Filter(Kept, values)
    ensures names != [] ==> (|r| == |Sources(values, names, matches)| &&
              forall k | 0 <= k < |r| :: r[k] == values[Sources(values, names, matches)[k]])
    ensures forall k | 0 <= k < |r| :: Kept(r[k])
  {
    if names == [] then Filter(Kept, values)
    else Pick(values, Sources(values, names, matches))
  }

  /**
   * A non-finite value before the first matching experiment shifts every
   * later value one experiment back: the DIV of `a` receives the value
   * measured in `b`, and under pairing by experiment it receives nothing.
   */
  lemma DivValuesMisattributes(a: string, b: string, matches: string -> bool, v: real)
    requires matches(a) && !matches(b)
    ensures DivValuesAsWritten([NaN, Fin(v)], [a, b], matches) == [Fin(v)]
    ensures DivValues([NaN, Fin(v)], [a, b], matches) == []
  {
    var values := [NaN, Fin(v)];
    assert values[1..][1..] == [];
    assert Filter(Kept, values) == [Fin(v)];
    var idx := PairedPositions([a, b], [Fin(v)], NameOnly(matches));
    assert 0 in idx;
    assert idx == [0];
    var z := Zip([a, b], values);
    assert z == [(a, NaN), (b, Fin(v))];
    assert z[..1] == [(a, NaN)];
    assert Positions(PairHolds(NameAndKept(matches)), z) == [];
  }

  /** The source's DIV test of both plots, for one DIV. */
  function PartMatchAsWrittenOf(div: int): string -> bool {
    name => PartMatchAsWritten(name, div)
  }

  /**
   * One group's column of the half-violin plot for one DIV: None when the
   * group or the metric is missing or no value is finite (the group is
   * skipped); otherwise the finite values of the experiments the DIV test
   * `matches` accepts, each paired with its own experiment. The source's
   * test is `PartMatchAsWrittenOf(div)`.
   */
  function GroupDivValues(byGroup: Dict<string, GroupRecord>, group: string, metric: string, matches: string -> bool): (r: Option<seq<Num>>)
    ensures r.None? <==> Get(byGroup, group).None? || Get(Get(byGroup, group).value.fields, metric).None? ||
                         Filter(Kept, AsList(Get(Get(byGroup, group).value.fields, metric).value)) == []
    ensures r.Some? ==> forall k | 0 <= k < |r.value| :: Kept(r.value[k])
    ensures r.Some? ==> var values := AsList(Get(Get(byGroup, group).value.fields, metric).value);
              var names := Get(byGroup, group).value.expNames.GetOr([]);
              && (names == [] ==> r.value == Filter(Kept, values))
              && (names != [] ==>
                    |r.value| == |Sources(values, names, matches)| &&
                    forall k | 0 <= k < |r.value| :: r.value[k] == values[Sources(values, names, matches)[k]])
  {
    match Get(byGroup, group)
    case None => None
    case Some(rec) =>
      match Get(rec.fields, metric)
      case None => None
      case Some(f) =>
        var values := AsList(f);
        if Filter(Kept, values) == [] then None
        else Some(DivValues(values, rec.expNames.GetOr([]), matches))
  }

  // -------------------------------------------------------- lag plot

  /** The `network_metrics` of one group at one lag: experiment names and metric lists. */
  datatype LagMetrics = LagMetrics(expNames: Option<seq<string>>, metrics: Dict<string, seq<Num>>)

  /**
   * The values of one DIV at one lag: the metric entry of every matching
   * experiment that the list reaches. The names must be present, and the
   * metric must be present once some experiment matches.
   */
  function LagDivValues(lm: LagMetrics, metric: string, matches: string -> bool): (r: Result<seq<Num>>)
    ensures lm.expNames.None? ==> r.Failure?
    ensures r.Failure? ==> lm.expNames.None? || (Get(lm.metrics, metric).None? && Positions(matches, lm.expNames.value) != [])
    ensures r.Success? ==> var names := lm.expNames.value; var xs := Get(lm.metrics, metric).GetOr([]);
              var idx := PairedPositions(names, xs, NameOnly(matches));
              |r.value| == |idx| && forall k | 0 <= k < |idx| :: matches(names[idx[k]]) && r.value[k] == xs[idx[k]]
  {
    match lm.expNames
    case None => Failure("KeyError: 'exp_names'")
    case Some(names) =>
      var stored := Get(lm.metrics, metric);
      if stored.None? && Positions(matches, names) != [] then
        Failure("KeyError: metric")
      else
        var xs := stored.GetOr([]);
        var idx := PairedPositions(names, xs, NameOnly(matches));
        assert forall k | 0 <= k < |idx| :: NameOnly(matches)(names[idx[k]], xs[idx[k]]);
        Success(Pick(xs, idx))
  }

  /** The values of one DIV at a lag the group has. */
  function LagValuesAt(byLag: Dict<int, LagMetrics>, metric: string, matches: string -> bool, lag: int): Result<seq<Num>>
    requires Get(byLag, lag).Some?
  {
    LagDivValues(Get(byLag, lag).value, metric, matches)
  }

  /**
   * The points of one DIV's line, walking the lags in order: a lag the
   * group has gives a point when some experiment the DIV test `matches`
   * accepts has a value there; the first lag whose lookup raises decides
   * the error. The source's test is `PartMatchAsWrittenOf(div)`.
   */
  function LagPoints(lags: seq<int>, byLag: Dict<int, LagMetrics>, metric: string, matches: string -> bool): (r: Result<seq<(int, seq<Num>)>>)
    ensures r.Success? <==> forall k | 0 <= k < |lags| && Get(byLag, lags[k]).Some? :: LagValuesAt(byLag, metric, matches, lags[k]).Success?
    ensures r.Success? ==> IsSubseq(Firsts(r.value), lags)
    ensures r.Success? ==> forall k | 0 <= k < |r.value| ::
              Get(byLag, r.value[k].0).Some? && LagValuesAt(byLag, metric, matches, r.value[k].0) == Success(r.value[k].1) &&
              r.value[k].1 != []
    ensures r.Success? ==> forall k | 0 <= k < |lags| && Get(byLag, lags[k]).Some? && LagValuesAt(byLag, metric, matches, lags[k]).value != [] ::
              lags[k] in Firsts(r.value)
    decreases |lags|
  {
    if lags == [] then Success([])
    else
      assert forall k | 1 <= k < |lags| :: lags[1..][k - 1] == lags[k];
      match Get(byLag, lags[0])
      case None =>
        var rest :- LagPoints(lags[1..], byLag, metric, matches);
        PointsSkip(lags, rest);
        Success(rest)
      case Some(lm) =>
        var vs :- LagDivValues(lm, metric, matches);
        var rest :- LagPoints(lags[1..], byLag, metric, matches);
        if vs == [] then
          PointsSkip(lags, rest);
          Success(rest)
        else
          PointsCons(lags, rest, vs);
          Success([(lags[0], vs)] + rest)
  }

  /** Skipping the first lag keeps the points' lags a subsequence. */
  lemma PointsSkip(lags: seq<int>, rest: seq<(int, seq<Num>)>)
    requires lags != [] && IsSubseq(Firsts(rest), lags[1..])
    ensures IsSubseq(Firsts(rest), lags)
  {
    assert lags == [lags[0]] + lags[1..];
    SubseqCons(Firsts(rest), lags[0], lags[1..]);
  }

  /** A point at the first lag in front of the others keeps their lags a subsequence. */
  lemma PointsCons(lags: seq<int>, rest: seq<(int, seq<Num>)>, vs: seq<Num>)
    requires lags != [] && IsSubseq(Firsts(rest), lags[1..])
    ensures IsSubseq(Firsts([(lags[0], vs)] + rest), lags)
    ensures Firsts([(lags[0], vs)] + rest) == [lags[0]] + Firsts(rest)
  {
    var r := [(lags[0], vs)] + rest;
    assert Firsts(r)[1..] == Firsts(rest);
  }

  /** The lag plot of one DIV lists its lags in ascending order, each one a lag of the data. */
  lemma LagSeriesAscending(lags: seq<int>, byLag: Dict<int, LagMetrics>, metric: string, matches: string -> bool)
    requires LagPoints(Sort(lags), byLag, metric, matches).Success?
    ensures var pts := LagPoints(Sort(lags), byLag, metric, matches).value;
            Sorted(Firsts(pts)) && forall k | 0 <= k < |pts| :: pts[k].0 in lags
  {
    var pts := LagPoints(Sort(lags), byLag, metric, matches).value;
    SubseqOfSort(Firsts(pts), lags);
  }

  // ---------------------------------------------- role proportions

  /**
   * One experiment's node cartography at one lag. `roles`, `p` and `z`
   * are checked with `in` before use, so a missing key and a None value
   * differ.
   */
  datatype CartData = CartData(roles: Slot<seq<string>>, p: Slot<seq<real>>, z: Slot<seq<real>>)

  /**
   * The cartography-relevant part of a `by_experiment` entry: its group,
   * its DIV and its records by lag, where a stored record may be None.
   */
  datatype CartExp = CartExp(group: Option<string>, div: Option<int>, lags: Slot<Dict<int, Option<CartData>>>)

  /** The experiment records the group and the DIV asked for. */
  predicate ExpMatches(e: CartExp, group: string, div: int) {
    e.group == Some(group) && e.div == Some(div)
  }

  const IndexError: string := "IndexError: list index out of range"

  /**
   * The record at `lag`, when the experiment has one: `lag in lags` raises
   * on lags that are None, and the first `in` test on a stored record that
   * is None raises too.
   */
  function CartAt(e: CartExp, lag: int): (r: Result<Option<CartData>>)
    ensures r.Failure? <==> e.lags.NoneValue? || (e.lags.Holds? && Get(e.lags.value, lag) == Some(None))
    ensures r.Success? && r.value.Some? <==> e.lags.Holds? && Get(e.lags.value, lag).Some? && Get(e.lags.value, lag).value.Some?
    ensures r.Success? && r.value.Some? ==> Get(e.lags.value, lag) == Some(r.value)
  {
    match e.lags
    case Missing => Success(None)
    case NoneValue => Failure(NoneNotIterable)
    case Holds(d) =>
      match Get(d, lag)
      case None => Success(None)
      case Some(stored) => if stored.None? then Failure(NoneNotIterable) else Success(stored)
  }

  /**
   * The share of one experiment's nodes holding `role` at `lag`, recorded
   * only for an experiment of the group and DIV with a non-empty role
   * list; taking the length of roles that are None raises.
   */
  function ExpRoleShare(e: CartExp, group: string, div: int, lag: int, role: string): (r: Result<Option<real>>)
    ensures r.Failure? <==>
              ExpMatches(e, group, div) &&
              (CartAt(e, lag).Failure? || (CartAt(e, lag).value.Some? && CartAt(e, lag).value.value.roles.NoneValue?))
    ensures r.Success? && r.value.Some? <==>
              ExpMatches(e, group, div) && CartAt(e, lag).Success? && CartAt(e, lag).value.Some? &&
              CartAt(e, lag).value.value.roles.Holds? && |CartAt(e, lag).value.value.roles.value| > 0
    ensures r.Success? && r.value.Some? ==> 0.0 <= r.value.value <= 1.0
    ensures r.Success? && r.value.Some? ==> var roles := CartAt(e, lag).value.value.roles.value;
              r.value.value == Count(RoleIs(role), roles) as real / |roles| as real
  {
    if !ExpMatches(e, group, div) then Success(None)
    else
      var cart :- CartAt(e, lag);
      match cart
      case None => Success(None)
      case Some(c) =>
        match c.roles
        case Missing => Success(None)
        case NoneValue => Failure(NoLenError)
        case Holds(roles) =>
          if |roles| == 0 then Success(None)
          else
            CountBound(RoleIs(role), roles);
            ShareBounds(Count(RoleIs(role), roles), |roles|);
            Success(Some(Count(RoleIs(role), roles) as real / |roles| as real))
  }

  /** Whether a share raises does not depend on the role: the plot fails on its first role or not at all. */
  lemma RoleShareFailureIndependentOfRole(e: CartExp, group: string, div: int, lag: int, role1: string, role2: string)
    ensures ExpRoleShare(e, group, div, lag, role1).Failure? <==> ExpRoleShare(e, group, div, lag, role2).Failure?
  {
  }

  function ShareOf(group: string, div: int, lag: int, role: string): ((string, CartExp)) -> Result<Option<real>> {
    (entry: (string, CartExp)) => ExpRoleShare(entry.1, group, div, lag, role)
  }

  /** The experiments that contribute a proportion. */
  function HasShare(group: string, div: int, lag: int, role: string): ((string, CartExp)) -> bool {
    SomeOf(OkSome(ShareOf(group, div, lag, role)))
  }

  /**
   * The proportions averaged into one point of a role's line: the share of
   * every experiment that has one, in `by_experiment` order; the first
   * experiment whose share raises decides the error.
   */
  function DivProportions(byExp: Dict<string, CartExp>, group: string, div: int, lag: int, role: string): (r: Result<seq<real>>)
    ensures r.Success? <==> forall k | 0 <= k < |byExp| :: ExpRoleShare(byExp[k].1, group, div, lag, role).Success?
    ensures r.Failure? ==> exists k | 0 <= k < |byExp| ::
              ExpRoleShare(byExp[k].1, group, div, lag, role).Failure? &&
              r.error == ExpRoleShare(byExp[k].1, group, div, lag, role).error &&
              forall j | 0 <= j < k :: ExpRoleShare(byExp[j].1, group, div, lag, role).Success?
    ensures r.Success? ==> var idx := Positions(HasShare(group, div, lag, role), byExp);
              |r.value| == |idx| &&
              forall j | 0 <= j < |r.value| :: ExpRoleShare(byExp[idx[j]].1, group, div, lag, role) == Success(Some(r.value[j]))
    ensures r.Success? ==> forall k | 0 <= k < |byExp| ::
              k in Positions(HasShare(group, div, lag, role), byExp) <==>
              ExpRoleShare(byExp[k].1, group, div, lag, role).value.Some?
    ensures r.Success? ==> forall y | y in r.value :: 0.0 <= y <= 1.0
  {
    var r := FilterMapAll(ShareOf(group, div, lag, role), byExp);
    ProportionsInOrder(byExp, group, div, lag, role, r);
    r
  }

  lemma ProportionsInOrder(byExp: Dict<string, CartExp>, group: string, div: int, lag: int, role: string, r: Result<seq<real>>)
    requires r == FilterMapAll(ShareOf(group, div, lag, role), byExp)
    ensures r.Success? ==> var idx := Positions(HasShare(group, div, lag, role), byExp);
            |r.value| == |idx| &&
            forall j | 0 <= j < |r.value| :: ExpRoleShare(byExp[idx[j]].1, group, div, lag, role) == Success(Some(r.value[j]))
    ensures r.Success? ==> forall y | y in r.value :: 0.0 <= y <= 1.0
  {
    if r.Failure? {
      return;
    }
    var f := ShareOf(group, div, lag, role);
    FilterMapPositions(OkSome(f), byExp);
    var idx := Positions(HasShare(group, div, lag, role), byExp);
    assert forall j | 0 <= j < |r.value| :: f(byExp[idx[j]]) == Success(Some(r.value[j]));
    forall y | y in r.value ensures 0.0 <= y <= 1.0 {
      var j :| 0 <= j < |r.value| && r.value[j] == y;
      assert f(byExp[idx[j]]) == Success(Some(y));
    }
  }

  /** A DIV is on a role's line when it has at least one proportion. */
  function DivHasProportions(byExp: Dict<string, CartExp>, group: string, lag: int, role: string): int -> Result<bool> {
    d => var ps :- DivProportions(byExp, group, d, lag, role); Success(ps != [])
  }

  /**
   * The DIVs on a role's line: the ascending DIVs with at least one
   * proportion; the first DIV whose proportions raise decides the error.
   */
  function RoleDivs(byExp: Dict<string, CartExp>, group: string, divs: seq<int>, lag: int, role: string): (r: Result<seq<int>>)
    ensures r.Success? <==> forall d | d in divs :: DivProportions(byExp, group, d, lag, role).Success?
    ensures r.Failure? ==> exists k | 0 <= k < |Sort(divs)| ::
              DivProportions(byExp, group, Sort(divs)[k], lag, role).Failure? &&
              r.error == DivProportions(byExp, group, Sort(divs)[k], lag, role).error &&
              forall j | 0 <= j < k :: DivProportions(byExp, group, Sort(divs)[j], lag, role).Success?
    ensures r.Success? ==> Sorted(r.value) && IsSubseq(r.value, Sort(divs))
    ensures r.Success? ==> forall d | d in divs :: d in r.value <==> DivProportions(byExp, group, d, lag, role).value != []
  {
    var r := FilterAll(DivHasProportions(byExp, group, lag, role), Sort(divs));
    RoleDivsFacts(byExp, group, divs, lag, role, r);
    r
  }

  lemma RoleDivsFacts(byExp: Dict<string, CartExp>, group: string, divs: seq<int>, lag: int, role: string, r: Result<seq<int>>)
    requires r == FilterAll(DivHasProportions(byExp, group, lag, role), Sort(divs))
    ensures r.Success? <==> forall d | d in divs :: DivProportions(byExp, group, d, lag, role).Success?
    ensures r.Failure? ==> exists k | 0 <= k < |Sort(divs)| ::
              DivProportions(byExp, group, Sort(divs)[k], lag, role).Failure? &&
              r.error == DivProportions(byExp, group, Sort(divs)[k], lag, role).error &&
              forall j | 0 <= j < k :: DivProportions(byExp, group, Sort(divs)[j], lag, role).Success?
    ensures r.Success? ==> Sorted(r.value) && IsSubseq(r.value, Sort(divs))
    ensures r.Success? ==> forall d | d in divs :: d in r.value <==> DivProportions(byExp, group, d, lag, role).value != []
  {
    var p := DivHasProportions(byExp, group, lag, role);
    var sorted := Sort(divs);
    forall d ensures p(d).Success? <==> DivProportions(byExp, group, d, lag, role).Success? {
      DivTestOf(byExp, group, lag, role, d);
    }
    SortedSucceeds(p, divs);
    if r.Failure? {
      RoleDivsFirstFailure(byExp, group, divs, lag, role, r);
    } else {
      RoleDivsMembers(byExp, group, divs, lag, role, r);
    }
  }

  lemma RoleDivsFirstFailure(byExp: Dict<string, CartExp>, group: string, divs: seq<int>, lag: int, role: string, r: Result<seq<int>>)
    requires r == FilterAll(DivHasProportions(byExp, group, lag, role), Sort(divs)) && r.Failure?
    ensures exists k | 0 <= k < |Sort(divs)| ::
              DivProportions(byExp, group, Sort(divs)[k], lag, role).Failure? &&
              r.error == DivProportions(byExp, group, Sort(divs)[k], lag, role).error &&
              forall j | 0 <= j < k :: DivProportions(byExp, group, Sort(divs)[j], lag, role).Success?
  {
    var p := DivHasProportions(byExp, group, lag, role);
    var sorted := Sort(divs);
    var k :| 0 <= k < |sorted| && p(sorted[k]).Failure? && r.error == p(sorted[k]).error &&
             forall j | 0 <= j < k :: p(sorted[j]).Success?;
    DivTestOf(byExp, group, lag, role, sorted[k]);
    forall j | 0 <= j < k ensures DivProportions(byExp, group, sorted[j], lag, role).Success? {
      DivTestOf(byExp, group, lag, role, sorted[j]);
    }
  }

  lemma RoleDivsMembers(byExp: Dict<string, CartExp>, group: string, divs: seq<int>, lag: int, role: string, r: Result<seq<int>>)
    requires r == FilterAll(DivHasProportions(byExp, group, lag, role), Sort(divs)) && r.Success?
    requires forall d | d in divs :: DivProportions(byExp, group, d, lag, role).Success?
    ensures Sorted(r.value) && IsSubseq(r.value, Sort(divs))
    ensures forall d | d in divs :: d in r.value <==> DivProportions(byExp, group, d, lag, role).value != []
  {
    var p := DivHasProportions(byExp, group, lag, role);
    SubseqOfSorted(r.value, Sort(divs));
    forall d | d in divs
      ensures d in r.value <==> DivProportions(byExp, group, d, lag, role).value != []
    {
      FilterSortIn(OkTrue(p), divs, d);
      DivTestOf(byExp, group, lag, role, d);
    }
  }

  /** The DIV test raises exactly when the DIV's proportions do, and accepts a DIV that has some. */
  lemma DivTestOf(byExp: Dict<string, CartExp>, group: string, lag: int, role: string, d: int)
    ensures var t := DivHasProportions(byExp, group, lag, role)(d); var ps := DivProportions(byExp, group, d, lag, role);
            (t.Success? <==> ps.Success?) && (t.Failure? ==> t.error == ps.error) &&
            (t == Success(true) <==> ps.Success? && ps.value != [])
  {
  }

  /** A test succeeds on every element of the sorted sequence exactly when it does on every element of the sequence. */
  lemma SortedSucceeds<R>(p: int -> Result<R>, s: seq<int>)
    ensures (forall k | 0 <= k < |Sort(s)| :: p(Sort(s)[k]).Success?) <==> (forall d | d in s :: p(d).Success?)
  {
    var sorted := Sort(s);
    forall d ensures d in sorted <==> d in s {
      SortMember(s, d);
    }
    if forall d | d in s :: p(d).Success? {
      forall k | 0 <= k < |sorted| ensures p(sorted[k]).Success? {
        assert sorted[k] in sorted;
      }
    }
    if forall k | 0 <= k < |sorted| :: p(sorted[k]).Success? {
      forall d | d in s ensures p(d).Success? {
        assert d in sorted;
        var k :| 0 <= k < |sorted| && sorted[k] == d;
      }
    }
  }

  // -------------------------------------------------------- cartography

  /** The record has all three keys `p`, `z` and `roles`, whatever they hold. */
  predicate Drawable(c: CartData) {
    !c.p.Missing? && !c.z.Missing? && !c.roles.Missing?
  }

  /** The length of a stored list; a value that is not an array is drawn as a one-element list. */
  function SlotLen<T>(s: Slot<seq<T>>): nat {
    if s.Holds? then |s.value| else 1
  }

  /**
   * Every node holding one of the six colored roles has a participation
   * coefficient and a within-module degree to plot; a None role list
   * becomes `[None]`, which holds no colored role.
   */
  predicate ScatterFits(c: CartData) {
    c.roles.Holds? ==>
      forall i | 0 <= i < |c.roles.value| && c.roles.value[i] in RoleNames :: i < SlotLen(c.p) && i < SlotLen(c.z)
  }

  /** What one experiment contributes to the scatter plot: nothing, its record, or an error. */
  function CartStep(group: string, div: int, lag: int): ((string, CartExp)) -> Result<Option<CartData>> {
    (entry: (string, CartExp)) =>
      if !ExpMatches(entry.1, group, div) then Success(None)
      else
        var cart :- CartAt(entry.1, lag);
        if cart.None? || !Drawable(cart.value) then Success(None)
        else if !ScatterFits(cart.value) then Failure(IndexError)
        else Success(cart)
  }

  /** The experiments whose record the scatter plot draws. */
  function Draws(group: string, div: int, lag: int): ((string, CartExp)) -> bool {
    SomeOf(OkSome(CartStep(group, div, lag)))
  }

  /**
   * The cartography records the scatter plot draws: the record at `lag` of
   * every experiment of the group and DIV that has one with `p`, `z` and
   * `roles`, in `by_experiment` order, and only those. A None where the
   * lag lookup expects a dict raises, and so does a colored role with no
   * coordinates.
   */
  function CartographyData(byExp: Dict<string, CartExp>, group: string, div: int, lag: int): (r: Result<seq<CartData>>)
    ensures r.Success? <==> forall k | 0 <= k < |byExp| && ExpMatches(byExp[k].1, group, div) ::
              CartAt(byExp[k].1, lag).Success? &&
              (CartAt(byExp[k].1, lag).value.Some? && Drawable(CartAt(byExp[k].1, lag).value.value) ==>
                 ScatterFits(CartAt(byExp[k].1, lag).value.value))
    ensures r.Success? ==> var idx := Positions(Draws(group, div, lag), byExp);
              |r.value| == |idx| &&
              forall j | 0 <= j < |r.value| ::
                ExpMatches(byExp[idx[j]].1, group, div) && CartAt(byExp[idx[j]].1, lag) == Success(Some(r.value[j])) &&
                Drawable(r.value[j])
    ensures r.Success? ==> forall k | 0 <= k < |byExp| ::
              k in Positions(Draws(group, div, lag), byExp) <==>
              ExpMatches(byExp[k].1, group, div) && CartAt(byExp[k].1, lag).value.Some? &&
              Drawable(CartAt(byExp[k].1, lag).value.value)
  {
    var r := FilterMapAll(CartStep(group, div, lag), byExp);
    FilterMapPositions(OkSome(CartStep(group, div, lag)), byExp);
    r
  }
}

=== FILE: neuronal_activity.dfy ===
/**
 * components/neuronal_activity.py, its decision logic: which groups and
 * DIVs a half-violin plot shows, which values each (group, DIV) cell
 * collects, the guards of the summary statistics and of the two-sample
 * test, the outlier rule, and the effect-size and significance labels.
 * Every number numpy or scipy computes (mean, percentiles, p-values, the
 * pooled standard deviation) is an input.
 */
module NeuronalActivity {
  import opened Wrappers
  import opened Numeric
  import opened Seqs
  import opened Text
  import opened Dicts
  import opened Utilities
  import opened DashboardData
  import opened DataLoader

  // ------------------------------------------------------------ selection

  /** The groups a by-group plot shows: the selected ones present in the data, or all of them. */
  function PlotGroups(selected: seq<string>, groups: seq<string>): (r: seq<string>)
    ensures selected == [] ==> r == groups
    ensures selected != [] ==> IsSubseq(r, selected) && forall k | 0 <= k < |r| :: r[k] in groups
    ensures forall g | g in selected && g in groups :: g in r
  {
    SelectPresent(selected, groups)
  }

  /** The DIVs a plot shows: the selected ones present in the data, or all of them in ascending order. */
  function PlotDivs(selected: seq<int>, divs: seq<int>): (r: seq<int>)
    ensures selected == [] ==> Sorted(r) && multiset(r) == multiset(divs)
    ensures selected != [] ==> IsSubseq(r, selected) && forall k | 0 <= k < |r| :: r[k] in divs
    ensures selected != [] ==> forall d | d in selected && d in divs :: d in r
  {
    if selected == [] then Sort(divs) else SelectPresent(selected, divs)
  }

  // ---------------------------------------------------- DIV of a recording

  /** The component's own list of recording-level metrics. */
  const PlotRecordingMetrics: seq<string> := [
    "FRmean", "FRmedian", "numActiveElec", "NBurstRate",
    "meanNumChansInvolvedInNbursts", "meanNBstLengthS",
    "meanISIWithinNbursts_ms", "meanISIoutsideNbursts_ms",
    "CVofINBI", "fracInNburst"]

  /** The name has a DIV part and the first one reads as this DIV; a text DIV never equals a number. */
  predicate RecordingMatch(name: string, div: int) {
    DivKey(name).Some? && DivKey(name).value.DivNum? && DivKey(name).value.n == div
  }

  function RecordingMatchOf(div: int): string -> bool {
    name => RecordingMatch(name, div)
  }

  /** The positions of the experiments whose DIV is `div`, ascending. */
  function RecordingIndices(names: seq<string>, div: int): (r: seq<nat>)
    ensures forall k | 0 <= k < |r| :: r[k] < |names| && RecordingMatch(names[r[k]], div)
    ensures forall i | 0 <= i < |names| && RecordingMatch(names[i], div) :: i in r
    ensures forall j, k | 0 <= j < k < |r| :: r[j] < r[k]
  {
    var r := Positions(RecordingMatchOf(div), names);
    assert forall k | 0 <= k < |r| :: RecordingMatchOf(div)(names[r[k]]);
    r
  }

  /**
   * The recording-level values of one DIV: the metric's entries at the
   * matching positions, kept only when the list reaches the last of them.
   * Taking `len()` of a stored scalar or None raises.
   */
  function RecordingPart(names: seq<string>, field: Field, div: int): (r: Result<seq<Num>>)
    ensures var idx := RecordingIndices(names, div);
            r.Failure? <==> idx != [] && !field.Arr?
    ensures var idx := RecordingIndices(names, div);
            r.Success? && field.Arr? && (forall k | 0 <= k < |idx| :: idx[k] < |field.items|) ==>
              |r.value| == |idx| && forall k | 0 <= k < |idx| :: r.value[k] == field.items[idx[k]]
    ensures var idx := RecordingIndices(names, div);
            r.Success? && !(field.Arr? && forall k | 0 <= k < |idx| :: idx[k] < |field.items|) ==> r.value == []
  {
    var idx := RecordingIndices(names, div);
    if idx == [] then Success([])
    else if !field.Arr? then Failure(NoLenError)
    else
      var xs := field.items;
      if |xs| >= idx[|idx| - 1] + 1 then
        RecordingIndicesBelowLast(idx);
        Success(Pick(xs, idx))
      else
        assert idx[|idx| - 1] >= |xs|;
        Success([])
  }

  lemma RecordingIndicesBelowLast(idx: seq<nat>)
    requires idx != [] && forall j, k | 0 <= j < k < |idx| :: idx[j] < idx[k]
    ensures forall k | 0 <= k < |idx| :: idx[k] <= idx[|idx| - 1]
  {
    forall k | 0 <= k < |idx| ensures idx[k] <= idx[|idx| - 1] {
      if k < |idx| - 1 {
        assert idx[k] < idx[|idx| - 1];
      }
    }
  }

  // ---------------------------------------------------- DIV of a node list

  /** The text `f'DIV{div}'`. */
  function DivTag(div: int): string {
    "DIV" + IntToString(div)
  }

  /**
   * The node-level test as written: the tag `DIV<div>` is looked for
   * anywhere in the whole name, once per `_`-part.
   */
  predicate NodeMatchAsWritten(name: string, div: int) {
    |Split(name, '_')| > 0 && Contains(name, DivTag(div))
  }

  /** The tag of DIV 5 also occurs in a DIV 50 name: one experiment feeds two DIVs. */
  lemma NodeMatchAsWrittenOvermatches()
    ensures NodeMatchAsWritten("S_DIV50", 5) && NodeMatchAsWritten("S_DIV50", 50)
    ensures RecordingMatch("S_DIV50", 50) && !RecordingMatch("S_DIV50", 5)
  {
    var name := "S_DIV50";
    assert IntToString(5) == "5" && IntToString(50) == "50";
    assert name[2..6] == DivTag(5);
    assert OccursAt(name, DivTag(5), 2);
    assert name[2..7] == DivTag(50);
    assert OccursAt(name, DivTag(50), 2);
    DivKeyOfDatedPart(name);
  }

  lemma DivKeyOfDatedPart(name: string)
    requires name == "S_DIV50"
    ensures DivKey(name) == Some(DivNum(50))
  {
    SplitDated(name);
    NoDivInS();
    assert OccursAt("DIV50", "DIV", 0);
    DivKeyFirstPart(name, 1);
    Div50Text();
    DivRoundTrip(50);
  }

  lemma SplitDated(name: string)
    requires name == "S_DIV50"
    ensures Split(name, '_') == ["S", "DIV50"]
  {
    var parts := ["S", "DIV50"];
    assert Join(parts, ['_']) == name;
    assert '_' !in parts[0] && '_' !in parts[1];
    SplitJoin(parts, '_');
  }

  lemma NoDivInS()
    ensures !Contains("S", "DIV")
  {
  }

  lemma Div50Text()
    ensures "DIV" + NatToString(50) == "DIV50"
  {
    assert NatToString(5) == "5";
    assert NatToString(50) == NatToString(5) + [DigitChar(0)];
  }

  /** The node-level test the recording rule already uses: the first DIV part is this DIV. */
  predicate NodeMatch(name: string, div: int) {
    RecordingMatch(name, div)
  }

  /** Under the corrected test an experiment feeds at most one DIV. */
  lemma NodeMatchUnique(name: string, d1: int, d2: int)
    requires NodeMatch(name, d1) && NodeMatch(name, d2)
    ensures d1 == d2
  {
  }

  function NodeMatchOf(div: int): string -> bool {
    name => NodeMatch(name, div)
  }

  /**
   * One experiment's node-level values for the metric: its record, or an
   * empty one when it is not listed, then its activity entry. Testing membership in an activity that is
   * None raises, and so does extending by a stored scalar or None.
   */
  function ExpActivity(byExp: Dict<string, ExpRecord>, name: string, metric: string): (r: Result<seq<Num>>)
    ensures Get(byExp, name).None? ==> r == Success([])
    ensures Get(byExp, name).Some? ==> var rec := Get(byExp, name).value;
              var f := Get(ActivityOrEmpty(rec), metric);
              && (r.Failure? <==> rec.activity.NoneValue? || (f.Some? && !f.value.Arr?))
              && (r.Success? && f.Some? ==> r.value == f.value.items)
              && (r.Success? && f.None? ==> r.value == [])
  {
    match Get(byExp, name)
    case None => Success([])
    case Some(rec) =>
      var entry :- ActivityEntry(rec, metric);
      match entry
      case None => Success([])
      case Some(f) => if f.Arr? then Success(f.items) else Failure(NotIterableError)
  }

  function ExpActivityOf(byExp: Dict<string, ExpRecord>, metric: string): string -> Result<seq<Num>> {
    name => ExpActivity(byExp, name, metric)
  }

  function ActivityOr(byExp: Dict<string, ExpRecord>, metric: string): string -> seq<Num> {
    OkOr(ExpActivityOf(byExp, metric))
  }

  /**
   * The node-level values of one DIV: the activity of every listed
   * experiment the test `matches` accepts, in listing order.
   */
  function NodePart(names: seq<string>, byExp: Dict<string, ExpRecord>, metric: string, matches: string -> bool): (r: Result<seq<Num>>)
    ensures r.Success? <==> forall k | 0 <= k < |names| && matches(names[k]) :: ExpActivity(byExp, names[k], metric).Success?
    ensures r.Success? ==> r.value == Flatten(Map(ActivityOr(byExp, metric), Filter(matches, names)))
  {
    var f := ExpActivityOf(byExp, metric);
    FilterForall(matches, x => f(x).Success?, names);
    FlattenAll(f, Filter(matches, names))
  }

  /** The source's node-level test for one DIV: the tag anywhere in the name. */
  function NodeMatchAsWrittenOf(div: int): string -> bool {
    name => NodeMatchAsWritten(name, div)
  }

  /**
   * The values of one (group, DIV) cell: the recording-level entries of
   * the DIV when the metric is a recording metric, then the node-level
   * activity of the experiments the node test `matches` accepts. A group
   * record without `exp_names` raises. The source's node test is
   * `NodeMatchAsWrittenOf(div)`; `NodeMatchOf(div)` is the corrected one.
   */
  function CellData(group: GroupRecord, field: Field, byExp: Dict<string, ExpRecord>, metric: string, div: int,
                    matches: string -> bool): (r: Result<seq<Num>>)
    ensures group.expNames.None? ==> r.Failure?
    ensures group.expNames.Some? ==>
              var names := group.expNames.value;
              var isRec := metric in PlotRecordingMetrics;
              && (r.Failure? <==>
                    (isRec && RecordingIndices(names, div) != [] && !field.Arr?) ||
                    exists k | 0 <= k < |names| && matches(names[k]) :: ExpActivity(byExp, names[k], metric).Failure?)
              && (r.Success? ==>
                    r.value == (if isRec then RecordingPart(names, field, div).value else []) +
                               Flatten(Map(ActivityOr(byExp, metric), Filter(matches, names))))
  {
    if group.expNames.None? then Failure("KeyError: 'exp_names'")
    else
      var names := group.expNames.value;
      var rec :- if metric in PlotRecordingMetrics then RecordingPart(names, field, div) else Success([]);
      var node :- NodePart(names, byExp, metric, matches);
      Success(rec + node)
  }

  /** Node-level data reaches a cell only from experiments whose first DIV part is that DIV. */
  lemma CellNodeSources(names: seq<string>, byExp: Dict<string, ExpRecord>, metric: string, div: int)
    ensures forall k | 0 <= k < |Filter(NodeMatchOf(div), names)| ::
              var name := Filter(NodeMatchOf(div), names)[k];
              name in names && DivKey(name) == Some(DivNum(if div < 0 then 0 else div)) && div >= 0
  {
    var f := Filter(NodeMatchOf(div), names);
    forall k | 0 <= k < |f|
      ensures f[k] in names && DivKey(f[k]) == Some(DivNum(if div < 0 then 0 else div)) && div >= 0
    {
      FilterIn(NodeMatchOf(div), names, f[k]);
      assert NodeMatchOf(div)(f[k]);
    }
  }

  // ------------------------------------------------------- summary numbers

  /**
   * What numpy and scipy compute for a sample without NaN: mean, median,
   * spread, quartiles, extremes and the 95% interval. Infinities in the
   * sample may make any of them infinite or NaN.
   */
  datatype Moments = Moments(
    mean: Num, median: Num, sd: Num, sem: Num,
    q25: Num, q75: Num, min: Num, max: Num,
    ciLower: Num, ciUpper: Num)

  /** numpy's reductions of a sample holding NaN: every one is NaN. */
  const NaNMoments: Moments := Moments(NaN, NaN, NaN, NaN, NaN, NaN, NaN, NaN, NaN, NaN)

  datatype DetailedStats = DetailedStats(
    n: nat, mean: Num, median: Num, std: Num, sem: Num,
    q25: Num, q75: Num, min: Num, max: Num, cv: Num,
    ciLower: Num, ciUpper: Num, nOutliers: nat, outliers: seq<Num>)

  predicate HasNaN(data: seq<Num>) {
    exists k | 0 <= k < |data| :: data[k].NaN?
  }

  /** The lower fence, one and a half interquartile ranges below the first quartile, in IEEE arithmetic. */
  function LowerFence(q25: Num, q75: Num): Num {
    Sub(q25, Mul(Fin(1.5), Sub(q75, q25)))
  }

  /** The upper fence, one and a half interquartile ranges above the third quartile, in IEEE arithmetic. */
  function UpperFence(q25: Num, q75: Num): Num {
    Add(q75, Mul(Fin(1.5), Sub(q75, q25)))
  }

  /** Outside Tukey's fences: strictly below the lower or strictly above the upper one. */
  function OutsideFences(q25: Num, q75: Num): Num -> bool {
    x => LtNum(x, LowerFence(q25, q75)) || LtNum(UpperFence(q25, q75), x)
  }

  /**
   * `calculate_detailed_stats`: None for no data; a sample holding NaN
   * gets NaN statistics and so no outliers; a single value has no spread
   * and a degenerate interval; outliers are only sought from five values
   * on, against the fences of the quartiles.
   */
  function DetailedStatsOf(data: seq<Num>, given: Moments): (r: Option<DetailedStats>)
    ensures r.None? <==> data == []
    ensures r.Some? ==> r.value.n == |data|
    ensures r.Some? && HasNaN(data) ==>
              r.value.mean.NaN? && r.value.median.NaN? && r.value.q25.NaN? && r.value.q75.NaN? &&
              r.value.min.NaN? && r.value.max.NaN? && r.value.outliers == [] && r.value.nOutliers == 0
    ensures r.Some? && !HasNaN(data) ==>
              r.value.mean == given.mean && r.value.median == given.median &&
              r.value.q25 == given.q25 && r.value.q75 == given.q75 &&
              r.value.min == given.min && r.value.max == given.max
    ensures r.Some? && |data| == 1 ==>
              r.value.std == Fin(0.0) && r.value.sem == Fin(0.0) && r.value.cv == Fin(0.0) &&
              r.value.ciLower == r.value.mean && r.value.ciUpper == r.value.mean
    ensures r.Some? && |data| > 1 && !HasNaN(data) ==>
              r.value.std == given.sd && r.value.sem == given.sem &&
              r.value.ciLower == given.ciLower && r.value.ciUpper == given.ciUpper &&
              r.value.cv == (if given.mean != Fin(0.0) then Mul(Div(given.sd, given.mean), Fin(100.0)) else Fin(0.0))
    ensures r.Some? && |data| <= 4 ==> r.value.outliers == [] && r.value.nOutliers == 0
    ensures r.Some? && |data| > 4 ==>
              var out := OutsideFences(r.value.q25, r.value.q75);
              IsSubseq(r.value.outliers, data) &&
              r.value.nOutliers == |r.value.outliers| == Count(out, data) &&
              (forall k | 0 <= k < |r.value.outliers| :: out(r.value.outliers[k])) &&
              (forall i | 0 <= i < |data| && out(data[i]) :: data[i] in r.value.outliers)
  {
    var n := |data|;
    if n == 0 then None
    else
      var m := if HasNaN(data) then NaNMoments else given;
      var many := n > 1;
      var outliers := if n > 4 then Filter(OutsideFences(m.q25, m.q75), data) else [];
      assert m.q25.NaN? ==> forall x :: !OutsideFences(m.q25, m.q75)(x);
      Some(DetailedStats(
        n, m.mean, m.median,
        if many then m.sd else Fin(0.0),
        if many then m.sem else Fin(0.0),
        m.q25, m.q75, m.min, m.max,
        if m.mean != Fin(0.0) && many then Mul(Div(m.sd, m.mean), Fin(100.0)) else Fin(0.0),
        if many then m.ciLower else m.mean,
        if many then m.ciUpper else m.mean,
        |outliers|, outliers))
  }

  /** With finite quartiles the fences are the real-number ones, `q25 - 1.5 IQR` and `q75 + 1.5 IQR`. */
  lemma FiniteFences(q25: real, q75: real, x: Num)
    ensures OutsideFences(Fin(q25), Fin(q75))(x) <==>
              Lt(x, q25 - 1.5 * (q75 - q25)) || Gt(x, q75 + 1.5 * (q75 - q25))
  {
  }

  /**
   * Ordered quartiles of which one is infinite leave every value inside
   * the fences: the interquartile range is infinite or NaN, and so is each
   * fence on its own side.
   */
  lemma InfiniteQuartilesNoOutliers(q25: Num, q75: Num, x: Num)
    requires !q25.NaN? && !q75.NaN? && !LtNum(q75, q25)
    requires !q25.Fin? || !q75.Fin?
    ensures !OutsideFences(q25, q75)(x)
  {
  }

  // ------------------------------------------------------ two-sample test

  /** What scipy computes for the two samples. */
  datatype TestInputs = TestInputs(
    shapiroP1: real, shapiroP2: real,
    tStatistic: real, tP: real,
    mwStatistic: real, mwP: real,
    mean1: real, mean2: real, pooledStd: real)

  datatype TestResult = TestResult(
    testName: string, pValue: real, statistic: real,
    cohensD: real, effectSize: string, significant: bool, comparison: string)

  function Abs(x: real): real {
    if x < 0.0 then -x else x
  }

  /** Cohen's d buckets by magnitude. */
  function EffectSize(d: real): (r: string)
    ensures r == "negligible" <==> Abs(d) < 0.2
    ensures r == "small" <==> 0.2 <= Abs(d) < 0.5
    ensures r == "medium" <==> 0.5 <= Abs(d) < 0.8
    ensures r == "large" <==> 0.8 <= Abs(d)
  {
    if Abs(d) < 0.2 then "negligible"
    else if Abs(d) < 0.5 then "small"
    else if Abs(d) < 0.8 then "medium"
    else "large"
  }

  function EffectRank(bucket: string): nat {
    if bucket == "negligible" then 0
    else if bucket == "small" then 1
    else if bucket == "medium" then 2
    else 3
  }

  /** A larger effect never gets a smaller bucket; the bucket depends only on |d|. */
  lemma EffectSizeMonotone(d1: real, d2: real)
    requires Abs(d1) <= Abs(d2)
    ensures EffectRank(EffectSize(d1)) <= EffectRank(EffectSize(d2))
    ensures EffectSize(d1) == EffectSize(-d1)
  {
  }

  const TTest: string := "t-test"
  const MannWhitney: string := "Mann-Whitney U"

  /**
   * `perform_statistical_test`: no result under three values per sample;
   * a normality check only above eight values each, the t-test unless it
   * rejects; significance at 0.05.
   */
  function StatisticalTest(g1: seq<Num>, g2: seq<Num>, name1: string, name2: string, t: TestInputs): (r: Option<TestResult>)
    ensures r.None? <==> |g1| < 3 || |g2| < 3
    ensures r.Some? ==> (r.value.significant <==> r.value.pValue < 0.05)
    ensures r.Some? ==> (r.value.testName == TTest <==> (|g1| <= 8 || |g2| <= 8 || (t.shapiroP1 > 0.05 && t.shapiroP2 > 0.05)))
    ensures r.Some? ==> r.value.testName in {TTest, MannWhitney}
    ensures r.Some? ==> r.value.pValue == (if r.value.testName == TTest then t.tP else t.mwP)
    ensures r.Some? ==> (t.pooledStd <= 0.0 ==> r.value.cohensD == 0.0) && r.value.effectSize == EffectSize(r.value.cohensD)
    ensures r.Some? ==> r.value.comparison == name1 + " vs " + name2
  {
    if |g1| < 3 || |g2| < 3 then None
    else
      var normal := if |g1| > 8 && |g2| > 8 then t.shapiroP1 > 0.05 && t.shapiroP2 > 0.05 else true;
      var stat := if normal then t.tStatistic else t.mwStatistic;
      var p := if normal then t.tP else t.mwP;
      var name := if normal then TTest else MannWhitney;
      var d := if t.pooledStd > 0.0 then (t.mean1 - t.mean2) / t.pooledStd else 0.0;
      Some(TestResult(name, p, stat, d, EffectSize(d), p < 0.05, name1 + " vs " + name2))
  }

  /** The annotation over a significant comparison: three, two or one star, else "ns". */
  function SignificanceLabel(significant: bool, p: real): (r: string)
    ensures !significant ==> r == "ns"
    ensures significant ==> r == Repeat('*', StarCount(p))
  {
    if significant then (if p < 0.001 then "***" else if p < 0.01 then "**" else "*")
    else "ns"
  }

  /** One star per threshold 0.01 and 0.001 that p is below, and one for being significant at all. */
  function StarCount(p: real): nat {
    1 + (if p < 0.01 then 1 else 0) + (if p < 0.001 then 1 else 0)
  }

  /**
   * For a test result, the label is "ns" exactly when p is at least 0.05,
   * and a smaller p never gets fewer stars.
   */
  lemma SignificanceOfTest(g1: seq<Num>, g2: seq<Num>, name1: string, name2: string, t: TestInputs)
    requires StatisticalTest(g1, g2, name1, name2, t).Some?
    ensures var res := StatisticalTest(g1, g2, name1, name2, t).value;
            SignificanceLabel(res.significant, res.pValue) == "ns" <==> res.pValue >= 0.05
  {
    var res := StatisticalTest(g1, g2, name1, name2, t).value;
    if res.significant {
      assert SignificanceLabel(res.significant, res.pValue)[0] == '*';
    }
  }

  lemma StarsMonotone(p1: real, p2: real)
    requires p1 <= p2 < 0.05
    ensures |SignificanceLabel(true, p2)| <= |SignificanceLabel(true, p1)|
  {
  }
}

=== FILE: neuronal_callbacks.dfy ===
/**
 * callbacks/neuronal_callbacks.py: the four plot callbacks of the
 * neuronal tab. An empty metric selection draws an empty figure; the two
 * recording-level callbacks first refile the experiments that carry the
 * metric under their group or under their DIV, and the plot then reads
 * those columns.
 */
module NeuronalCallbacks {
  import opened Wrappers
  import opened Seqs
  import opened Dicts
  import opened Utilities
  import opened DashboardData
  import opened DataLoader

  /** The metric to plot, or None when no metric is chosen and the callback returns an empty figure. */
  function MetricToPlot(metric: Option<string>): (r: Option<string>)
    ensures r.None? <==> metric.None? || metric.value == ""
    ensures r.Some? ==> r == metric
  {
    if metric.None? || metric.value == "" then None else metric
  }

  type Entry = (string, ExpRecord)

  /** The experiment's `activity[metric]`, when the activity exists, is not None and has the metric. */
  function MetricValue(e: Entry, metric: string): (r: Option<Field>)
    ensures r.Some? <==> ActivityEntry(e.1, metric).Success? && ActivityEntry(e.1, metric).value.Some?
    ensures r.Some? ==> e.1.activity.Holds? && Get(e.1.activity.value, metric) == r
  {
    match ActivityEntry(e.1, metric)
    case Success(v) => v
    case Failure(_) => None
  }

  /**
   * The loop that files experiments under pre-created keys: `keyOf` says
   * where an experiment goes (None: skipped) or raises; filing under a key
   * that was not created raises a KeyError. The first experiment that does
   * not fit decides the error.
   */
  function Regroup<K(==,!new)>(keys: seq<K>, entries: seq<Entry>, keyOf: Entry -> Result<Option<K>>): (r: Result<Dict<K, seq<Entry>>>)
    ensures r.Success? <==> KeysCover(keys, entries, keyOf)
    ensures r.Failure? ==> exists n | 0 <= n < |entries| :: FirstMisfit(keys, entries, keyOf, n) && r.error == StepError(keyOf, entries[n])
    ensures r.Success? ==> Keys(r.value) == Dedup(keys)
    ensures r.Success? ==> forall k | k in keys :: Get(r.value, k) == Some(Filter(FiledUnder(keyOf, k), entries))
    decreases |entries|
  {
    if entries == [] then
      Success(InitEach(keys, []))
    else
      var n := |entries| - 1;
      var e := entries[n];
      KeysCoverSnoc(keys, entries, keyOf);
      match Regroup(keys, entries[..n], keyOf)
      case Failure(err) =>
        FirstMisfitPrefix(keys, entries, keyOf);
        Failure(err)
      case Success(pre) =>
        match keyOf(e)
        case Failure(err) =>
          assert FirstMisfit(keys, entries, keyOf, n);
          Failure(err)
        case Success(None) =>
          SkipStep(keys, entries, keyOf, pre);
          Success(pre)
        case Success(Some(k)) =>
          if k !in keys then
            assert FirstMisfit(keys, entries, keyOf, n);
            Failure(MissingKeyError)
          else
            FileStep(keys, entries, keyOf, pre, k);
            Success(Put(pre, k, Get(pre, k).value + [e]))
  }

  /** The experiment is filed under a pre-created key or skipped, without raising. */
  predicate Fits<K(==)>(keys: seq<K>, keyOf: Entry -> Result<Option<K>>, e: Entry) {
    keyOf(e).Success? && (keyOf(e).value.Some? ==> keyOf(e).value.value in keys)
  }

  /** What raises on an experiment that does not fit: its key function, or the missing key. */
  function StepError<K>(keyOf: Entry -> Result<Option<K>>, e: Entry): string {
    if keyOf(e).Failure? then keyOf(e).error else MissingKeyError
  }

  /** Every experiment fits. */
  predicate KeysCover<K(==)>(keys: seq<K>, entries: seq<Entry>, keyOf: Entry -> Result<Option<K>>) {
    forall i | 0 <= i < |entries| :: Fits(keys, keyOf, entries[i])
  }

  /** Experiment `n` is the first that does not fit. */
  predicate FirstMisfit<K(==)>(keys: seq<K>, entries: seq<Entry>, keyOf: Entry -> Result<Option<K>>, n: nat)
    requires n < |entries|
  {
    KeysCover(keys, entries[..n], keyOf) && !Fits(keys, keyOf, entries[n])
  }

  lemma KeysCoverSnoc<K>(keys: seq<K>, entries: seq<Entry>, keyOf: Entry -> Result<Option<K>>)
    requires entries != []
    ensures var n := |entries| - 1;
            KeysCover(keys, entries, keyOf) <==>
              KeysCover(keys, entries[..n], keyOf) && Fits(keys, keyOf, entries[n])
  {
    var n := |entries| - 1;
    if KeysCover(keys, entries[..n], keyOf) {
      forall i | 0 <= i < n
        ensures entries[i] == entries[..n][i]
      {
      }
    }
  }

  /** The first misfit of a prefix is the first misfit of the whole. */
  lemma FirstMisfitPrefix<K>(keys: seq<K>, entries: seq<Entry>, keyOf: Entry -> Result<Option<K>>)
    requires entries != []
    ensures var n := |entries| - 1;
            forall m | 0 <= m < n :: FirstMisfit(keys, entries[..n], keyOf, m) ==> FirstMisfit(keys, entries, keyOf, m)
  {
    var n := |entries| - 1;
    forall m | 0 <= m < n
      ensures entries[..n][..m] == entries[..m] && entries[..n][m] == entries[m]
    {
    }
  }

  /** An experiment without a key leaves every pre-created key's list as it was. */
  lemma SkipStep<K(!new)>(keys: seq<K>, entries: seq<Entry>, keyOf: Entry -> Result<Option<K>>, pre: Dict<K, seq<Entry>>)
    requires entries != [] && keyOf(entries[|entries| - 1]) == Success(None)
    requires forall k | k in keys :: Get(pre, k) == Some(Filter(FiledUnder(keyOf, k), entries[..|entries| - 1]))
    ensures forall k | k in keys :: Get(pre, k) == Some(Filter(FiledUnder(keyOf, k), entries))
  {
    forall k | k in keys
      ensures Get(pre, k) == Some(Filter(FiledUnder(keyOf, k), entries))
    {
      FilterStep(FiledUnder(keyOf, k), entries, Get(pre, k).value, Get(pre, k).value);
    }
  }

  /** Filing the last experiment under its pre-created key extends that key's list and no other. */
  lemma FileStep<K(!new)>(keys: seq<K>, entries: seq<Entry>, keyOf: Entry -> Result<Option<K>>, pre: Dict<K, seq<Entry>>, k: K)
    requires entries != [] && keyOf(entries[|entries| - 1]) == Success(Some(k)) && k in keys
    requires Keys(pre) == Dedup(keys)
    requires forall k | k in keys :: Get(pre, k) == Some(Filter(FiledUnder(keyOf, k), entries[..|entries| - 1]))
    ensures Keys(Put(pre, k, Get(pre, k).value + [entries[|entries| - 1]])) == Dedup(keys)
    ensures forall k2 | k2 in keys ::
              Get(Put(pre, k, Get(pre, k).value + [entries[|entries| - 1]]), k2) == Some(Filter(FiledUnder(keyOf, k2), entries))
  {
    forall k2 | k2 in keys
      ensures Get(Put(pre, k, Get(pre, k).value + [entries[|entries| - 1]]), k2) == Some(Filter(FiledUnder(keyOf, k2), entries))
    {
      FileStepAt(entries, keyOf, pre, k, k2);
    }
  }

  lemma FileStepAt<K>(entries: seq<Entry>, keyOf: Entry -> Result<Option<K>>, pre: Dict<K, seq<Entry>>, k: K, k2: K)
    requires entries != [] && keyOf(entries[|entries| - 1]) == Success(Some(k))
    requires Get(pre, k) == Some(Filter(FiledUnder(keyOf, k), entries[..|entries| - 1]))
    requires Get(pre, k2) == Some(Filter(FiledUnder(keyOf, k2), entries[..|entries| - 1]))
    ensures Get(Put(pre, k, Get(pre, k).value + [entries[|entries| - 1]]), k2) == Some(Filter(FiledUnder(keyOf, k2), entries))
  {
    var e := entries[|entries| - 1];
    var filed := Get(pre, k).value + [e];
    GetPut(pre, k, filed, k2);
    var prev := Get(pre, k2).value;
    if k2 == k {
      assert FiledUnder(keyOf, k2)(e);
      FilterStep(FiledUnder(keyOf, k2), entries, prev, prev + [e]);
    } else {
      assert !FiledUnder(keyOf, k2)(e);
      FilterStep(FiledUnder(keyOf, k2), entries, prev, prev);
    }
  }

  const MissingKeyError: string := "KeyError: missing key"

  function FiledUnder<K(==)>(keyOf: Entry -> Result<Option<K>>, k: K): Entry -> bool {
    (e: Entry) => keyOf(e) == Success(Some(k))
  }

  // ------------------------------------------------------------ by group

  /** The columns a by-group plot reads: the metric values and the experiment names, in parallel. */
  datatype GroupColumn = GroupColumn(values: seq<Field>, expNames: seq<string>)

  function ValueOf(metric: string): Entry -> Field {
    (e: Entry) => MetricValue(e, metric).GetOr(Null)
  }

  function NameOf(e: Entry): string {
    e.0
  }

  /**
   * An experiment goes to its group when it names one and its activity
   * has the metric; the membership test raises on an activity that is None.
   */
  function GroupKey(metric: string): Entry -> Result<Option<string>> {
    (e: Entry) =>
      if e.1.group.None? then Success(None)
      else
        var v :- ActivityEntry(e.1, metric);
        Success(if v.Some? then e.1.group else None)
  }

  function ToGroupColumn(metric: string): seq<Entry> -> GroupColumn {
    (es: seq<Entry>) => GroupColumn(Map(ValueOf(metric), es), Map(NameOf, es))
  }

  /**
   * The debug report over `data['groups']` takes the length of every group
   * list the metric names, which raises on a stored scalar or None.
   */
  predicate GroupListsSized(groups: seq<string>, byGroup: Dict<string, GroupRecord>, metric: string) {
    forall j | 0 <= j < |groups| ::
      Get(byGroup, groups[j]).None? ||
      Get(Get(byGroup, groups[j]).value.fields, metric).None? ||
      Get(Get(byGroup, groups[j]).value.fields, metric).value.Arr?
  }

  /** The debug report over `by_experiment` tests the metric in every activity, which raises on None. */
  predicate ActivitiesIterable(byExp: Dict<string, ExpRecord>) {
    forall i | 0 <= i < |byExp| :: !byExp[i].1.activity.NoneValue?
  }

  /**
   * `update_neuronal_recording_group_plot`'s regrouping, after its two
   * debug reports: every group of `data['groups']` gets a column, possibly
   * empty; an experiment lands in its group's column, in `by_experiment`
   * order, exactly when its activity has the metric; an experiment of an
   * unlisted group raises.
   */
  function RecordingByGroup(groups: seq<string>, byGroup: Dict<string, GroupRecord>, byExp: Dict<string, ExpRecord>,
                            metric: string): (r: Result<Dict<string, GroupColumn>>)
    ensures !GroupListsSized(groups, byGroup, metric) ==> r == Failure(NoLenError)
    ensures GroupListsSized(groups, byGroup, metric) && !ActivitiesIterable(byExp) ==> r == Failure(NoneNotIterable)
    ensures r.Success? <==>
              GroupListsSized(groups, byGroup, metric) && ActivitiesIterable(byExp) &&
              forall i | 0 <= i < |byExp| && byExp[i].1.group.Some? && MetricValue(byExp[i], metric).Some? ::
                byExp[i].1.group.value in groups
    ensures r.Success? ==> Keys(r.value) == Dedup(groups)
    ensures r.Success? ==> forall g | g in groups ::
              var filed := Filter(FiledUnder(GroupKey(metric), g), byExp);
              Get(r.value, g) == Some(GroupColumn(Map(ValueOf(metric), filed), Map(NameOf, filed)))
  {
    if !GroupListsSized(groups, byGroup, metric) then Failure(NoLenError)
    else if !ActivitiesIterable(byExp) then Failure(NoneNotIterable)
    else
      assert forall i | 0 <= i < |byExp| :: Fits(groups, GroupKey(metric), byExp[i]) <==>
               (byExp[i].1.group.Some? && MetricValue(byExp[i], metric).Some? ==> byExp[i].1.group.value in groups);
      var d :- Regroup(groups, byExp, GroupKey(metric));
      Success(MapValues(d, ToGroupColumn(metric)))
  }

  /** Within a group the two columns stay parallel: value k belongs to the k-th filed experiment. */
  lemma GroupColumnsAligned(groups: seq<string>, byGroup: Dict<string, GroupRecord>, byExp: Dict<string, ExpRecord>,
                            metric: string, g: string)
    requires RecordingByGroup(groups, byGroup, byExp, metric).Success? && g in groups
    ensures var col := Get(RecordingByGroup(groups, byGroup, byExp, metric).value, g).value;
            |col.values| == |col.expNames| &&
            forall k | 0 <= k < |col.values| :: exists i | 0 <= i < |byExp| ::
              byExp[i].0 == col.expNames[k] && byExp[i].1.group == Some(g) && MetricValue(byExp[i], metric) == Some(col.values[k])
  {
    var filed := Filter(FiledUnder(GroupKey(metric), g), byExp);
    var col := Get(RecordingByGroup(groups, byGroup, byExp, metric).value, g).value;
    assert col == GroupColumn(Map(ValueOf(metric), filed), Map(NameOf, filed));
    forall k | 0 <= k < |col.values|
      ensures exists i | 0 <= i < |byExp| ::
                byExp[i].0 == col.expNames[k] && byExp[i].1.group == Some(g) && MetricValue(byExp[i], metric) == Some(col.values[k])
    {
      var i := FiledEntry(byExp, metric, g, filed, k);
      assert byExp[i].0 == col.expNames[k];
      assert MetricValue(byExp[i], metric) == Some(col.values[k]);
    }
  }

  /** The k-th experiment filed under a group is an entry of the dict, of that group, storing the metric. */
  lemma FiledEntry(byExp: Dict<string, ExpRecord>, metric: string, g: string, filed: seq<Entry>, k: nat) returns (i: nat)
    requires filed == Filter(FiledUnder(GroupKey(metric), g), byExp) && k < |filed|
    ensures i < |byExp| && byExp[i] == filed[k]
    ensures byExp[i].1.group == Some(g) && MetricValue(byExp[i], metric) == Some(ValueOf(metric)(filed[k]))
  {
    assert FiledUnder(GroupKey(metric), g)(filed[k]);
    SubseqMembers(filed, byExp);
    assert filed[k] in byExp;
    i :| 0 <= i < |byExp| && byExp[i] == filed[k];
  }

  // -------------------------------------------------------------- by age

  /** The columns a by-age plot reads: values, experiment names and groups, in parallel. */
  datatype DivColumn = DivColumn(values: seq<Field>, expNames: seq<string>, groups: seq<string>)

  function GroupNameOf(e: Entry): string {
    e.1.group.GetOr("")
  }

  /**
   * An experiment that names a group and has a `_`-part mentioning "DIV"
   * goes to the DIV of the first such part when its activity has the
   * metric; only then is its activity searched, which raises on None.
   */
  function DivKeyOf(metric: string): Entry -> Result<Option<DivValue>> {
    (e: Entry) =>
      if e.1.group.None? || DivKey(e.0).None? then Success(None)
      else
        var v :- ActivityEntry(e.1, metric);
        Success(if v.Some? then DivKey(e.0) else None)
  }

  function ToDivColumn(metric: string): seq<Entry> -> DivColumn {
    (es: seq<Entry>) => DivColumn(Map(ValueOf(metric), es), Map(NameOf, es), Map(GroupNameOf, es))
  }

  /**
   * `update_neuronal_recording_age_plot`'s regrouping: one column per DIV
   * of `data['divs']`; an experiment without a group or a DIV part is
   * skipped; among the others, the first whose activity is None or whose
   * DIV is not listed (or is not a number) while it has the metric raises.
   */
  function RecordingByAge(divs: seq<int>, byExp: Dict<string, ExpRecord>, metric: string): (r: Result<Dict<DivValue, DivColumn>>)
    ensures r.Success? <==>
              forall i | 0 <= i < |byExp| && byExp[i].1.group.Some? && DivKey(byExp[i].0).Some? ::
                !byExp[i].1.activity.NoneValue? &&
                (MetricValue(byExp[i], metric).Some? ==> DivKey(byExp[i].0).value in Map(AsDivNum, divs))
    ensures r.Failure? ==> exists n | 0 <= n < |byExp| ::
              FirstMisfit(Map(AsDivNum, divs), byExp, DivKeyOf(metric), n) &&
              r.error == (if byExp[n].1.activity.NoneValue? then NoneNotIterable else MissingKeyError)
    ensures r.Success? ==> Keys(r.value) == Dedup(Map(AsDivNum, divs))
    ensures r.Success? ==> forall d | d in divs ::
              var filed := Filter(FiledUnder(DivKeyOf(metric), AsDivNum(d)), byExp);
              Get(r.value, AsDivNum(d)) == Some(DivColumn(Map(ValueOf(metric), filed), Map(NameOf, filed), Map(GroupNameOf, filed)))
  {
    var keys := Map(AsDivNum, divs);
    forall i | 0 <= i < |byExp| {
      DivFits(keys, metric, byExp[i]);
    }
    var d :- Regroup(keys, byExp, DivKeyOf(metric));
    forall x | x in divs ensures AsDivNum(x) in keys {
      var j :| 0 <= j < |divs| && divs[j] == x;
      assert keys[j] == AsDivNum(x);
    }
    Success(MapValues(d, ToDivColumn(metric)))
  }

  /** Where an experiment fits in the by-age loop, and what raises when it does not. */
  lemma DivFits(keys: seq<DivValue>, metric: string, e: Entry)
    ensures Fits(keys, DivKeyOf(metric), e) <==>
              (e.1.group.Some? && DivKey(e.0).Some? ==>
                 !e.1.activity.NoneValue? && (MetricValue(e, metric).Some? ==> DivKey(e.0).value in keys))
    ensures !Fits(keys, DivKeyOf(metric), e) ==>
              StepError(DivKeyOf(metric), e) == (if e.1.activity.NoneValue? then NoneNotIterable else MissingKeyError)
  {
  }
}

=== FILE: numeric.dfy ===
/**
 * IEEE-style numbers as numpy sees them: a finite value, NaN, or a signed
 * infinity. Finite values are exact reals; rounding is not modelled.
 * Comparisons follow numpy: every comparison with NaN is false.
 */
module Numeric {

  datatype Num = Fin(r: real) | NaN | PosInf | NegInf

  /** `np.isfinite`. */
  predicate IsFinite(x: Num) { x.Fin? }

  /** `np.isnan`. */
  predicate IsNaN(x: Num) { x.NaN? }

  /** `x > t` for a finite threshold `t`. */
  predicate Gt(x: Num, t: real) {
    match x
    case Fin(v) => v > t
    case PosInf => true
    case _ => false
  }

  /** `x >= t` for a finite threshold `t`. */
  predicate Ge(x: Num, t: real) {
    match x
    case Fin(v) => v >= t
    case PosInf => true
    case _ => false
  }

  /** `x < t` for a finite threshold `t`. */
  predicate Lt(x: Num, t: real) {
    match x
    case Fin(v) => v < t
    case NegInf => true
    case _ => false
  }

  /** `x <= t` for a finite threshold `t`. */
  predicate Le(x: Num, t: real) {
    match x
    case Fin(v) => v <= t
    case NegInf => true
    case _ => false
  }

  /** Sign of a non-NaN number: -1, 0 or 1. */
  function Sign(x: Num): int
    requires !x.NaN?
  {
    match x
    case Fin(v) => if v > 0.0 then 1 else if v < 0.0 then -1 else 0
    case PosInf => 1
    case NegInf => -1
  }

  function InfOfSign(s: int): Num {
    if s < 0 then NegInf else PosInf
  }

  /** IEEE multiplication without overflow: infinity times zero is NaN. */
  function Mul(a: Num, b: Num): (r: Num)
    ensures a.Fin? && b.Fin? ==> r == Fin(a.r * b.r)
    ensures a.NaN? || b.NaN? ==> r.NaN?
  {
    if a.NaN? || b.NaN? then NaN
    else if a.Fin? && b.Fin? then Fin(a.r * b.r)
    else if Sign(a) * Sign(b) == 0 then NaN
    else InfOfSign(Sign(a) * Sign(b))
  }

  /** IEEE division without overflow or signed zeros. */
  function Div(a: Num, b: Num): (r: Num)
    ensures a.Fin? && b.Fin? && b.r != 0.0 ==> r == Fin(a.r / b.r)
    ensures a.NaN? || b.NaN? ==> r.NaN?
  {
    if a.NaN? || b.NaN? then NaN
    else if a.Fin? && b.Fin? then
      if b.r != 0.0 then Fin(a.r / b.r)
      else if a.r == 0.0 then NaN
      else InfOfSign(Sign(a))
    else if a.Fin? then Fin(0.0)
    else if b.Fin? then (if Sign(b) == 0 then InfOfSign(Sign(a)) else InfOfSign(Sign(a) * Sign(b)))
    else NaN
  }

  /** IEEE addition without overflow: opposite infinities give NaN. */
  function Add(a: Num, b: Num): (r: Num)
    ensures a.Fin? && b.Fin? ==> r == Fin(a.r + b.r)
    ensures a.NaN? || b.NaN? ==> r.NaN?
    ensures (a.PosInf? && b.NegInf?) || (a.NegInf? && b.PosInf?) ==> r.NaN?
    ensures a.Fin? && !b.Fin? ==> r == b
    ensures !a.Fin? && b.Fin? ==> r == a
  {
    if a.NaN? || b.NaN? then NaN
    else if a.Fin? && b.Fin? then Fin(a.r + b.r)
    else if a.Fin? then b
    else if b.Fin? then a
    else if a == b then a
    else NaN
  }

  function Neg(a: Num): Num {
    match a
    case Fin(v) => Fin(-v)
    case PosInf => NegInf
    case NegInf => PosInf
    case NaN => NaN
  }

  /** IEEE subtraction: `a + (-b)`. */
  function Sub(a: Num, b: Num): Num {
    Add(a, Neg(b))
  }

  /** IEEE `a < b`: false whenever either side is NaN. */
  predicate LtNum(a: Num, b: Num) {
    if a.NaN? || b.NaN? then false
    else if a.Fin? && b.Fin? then a.r < b.r
    else a != b && (a.NegInf? || b.PosInf?)
  }

  /** `x > threshold`, elementwise. */
  function Above(threshold: real): Num -> bool {
    (v: Num) => Gt(v, threshold)
  }

  /** A finite value strictly above the threshold. */
  function FiniteAbove(threshold: real): Num -> bool {
    (v: Num) => v.Fin? && v.r > threshold
  }
}

=== FILE: seqs.dfy ===
/**
 * Sequence vocabulary used by the whole model: order-preserving
 * subsequences, filtering, counting, zipping, sorting and de-duplication.
 */
module Seqs {
  import opened Wrappers

  /** `a` is an order-preserving subsequence of `b` (greedy matching is complete). */
  predicate IsSubseq<T(==)>(a: seq<T>, b: seq<T>)
    decreases |b|
  {
    if a == [] then true
    else if b == [] then false
    else if a[0] == b[0] then IsSubseq(a[1..], b[1..])
    else IsSubseq(a, b[1..])
  }

  lemma {:induction false} SubseqDropHead<T>(a: seq<T>, b: seq<T>)
    requires a != [] && IsSubseq(a, b)
    ensures IsSubseq(a[1..], b)
    decreases |b|, 0
  {
    if a[1..] == [] {
    } else if a[0] == b[0] {
      SubseqDropHead(a[1..], b[1..]);
      SubseqCons(a[1..][1..], b[0], b[1..]);
      assert [b[0]] + b[1..] == b;
    } else {
      SubseqDropHead(a, b[1..]);
      SubseqCons(a[1..], b[0], b[1..]);
      assert [b[0]] + b[1..] == b;
    }
  }

  lemma {:induction false} SubseqCons<T>(a: seq<T>, x: T, b: seq<T>)
    requires IsSubseq(a, b)
    ensures IsSubseq(a, [x] + b)
    decreases |b|, 1
  {
    var c := [x] + b;
    assert c[1..] == b;
    if a != [] && a[0] == x {
      SubseqDropHead(a, b);
    }
  }

  lemma {:induction false} SubseqRefl<T>(a: seq<T>)
    ensures IsSubseq(a, a)
    decreases |a|
  {
    if a != [] {
      SubseqRefl(a[1..]);
    }
  }

  lemma {:induction false} SubseqTrans<T>(a: seq<T>, b: seq<T>, c: seq<T>)
    requires IsSubseq(a, b) && IsSubseq(b, c)
    ensures IsSubseq(a, c)
    decreases |c|
  {
    if a == [] {
    } else if b[0] == c[0] {
      if a[0] == b[0] {
        SubseqTrans(a[1..], b[1..], c[1..]);
      } else {
        SubseqTrans(a, b[1..], c[1..]);
        SubseqCons(a, c[0], c[1..]);
        assert [c[0]] + c[1..] == c;
      }
    } else {
      SubseqTrans(a, b, c[1..]);
      SubseqCons(a, c[0], c[1..]);
      assert [c[0]] + c[1..] == c;
    }
  }

  lemma {:induction false} SubseqMembers<T>(a: seq<T>, b: seq<T>)
    requires IsSubseq(a, b)
    ensures |a| <= |b|
    ensures forall x | x in a :: x in b
    decreases |b|
  {
    if a == [] {
    } else if a[0] == b[0] {
      SubseqMembers(a[1..], b[1..]);
      assert forall x | x in a :: x == a[0] || x in a[1..];
    } else {
      SubseqMembers(a, b[1..]);
    }
  }

  lemma {:induction false} SubseqSnoc<T>(a: seq<T>, b: seq<T>, x: T)
    requires IsSubseq(a, b)
    ensures IsSubseq(a + [x], b + [x])
    ensures IsSubseq(a, b + [x])
    decreases |b|
  {
    if b == [] {
      assert a == [];
      assert (a + [x])[1..] == [];
    } else if a == [] {
      SubseqRefl([x]);
      SubseqPrefix([x], b);
      assert a + [x] == [x];
    } else if a[0] == b[0] {
      SubseqSnoc(a[1..], b[1..], x);
      assert (a + [x])[1..] == a[1..] + [x];
      assert (b + [x])[1..] == b[1..] + [x];
    } else {
      SubseqSnoc(a, b[1..], x);
      assert (b + [x])[1..] == b[1..] + [x];
    }
  }

  /** A suffix can be matched after any prefix. */
  lemma {:induction false} SubseqPrefix<T>(a: seq<T>, p: seq<T>)
    requires IsSubseq(a, a)
    ensures IsSubseq(a, p + a)
    decreases |p|
  {
    if p == [] {
      assert p + a == a;
    } else {
      SubseqPrefix(a, p[1..]);
      SubseqCons(a, p[0], p[1..] + a);
      assert [p[0]] + (p[1..] + a) == p + a;
    }
  }

  /** Number of elements of `s` satisfying `p`. */
  function Count<T>(p: T -> bool, s: seq<T>): nat
    decreases |s|
  {
    if s == [] then 0 else (if p(s[0]) then 1 else 0) + Count(p, s[1..])
  }

  lemma {:induction false} CountBound<T>(p: T -> bool, s: seq<T>)
    ensures Count(p, s) <= |s|
    decreases |s|
  {
    if s != [] {
      CountBound(p, s[1..]);
    }
  }

  lemma {:induction false} CountAppend<T>(p: T -> bool, a: seq<T>, b: seq<T>)
    ensures Count(p, a + b) == Count(p, a) + Count(p, b)
    decreases |a|
  {
    if a == [] {
      assert a + b == b;
    } else {
      CountAppend(p, a[1..], b);
      assert (a + b)[1..] == a[1..] + b;
    }
  }

  /**
   * The elements of `s` satisfying `p`, in order. Characterised without
   * reference to its body: an order-preserving subsequence, made only of
   * `p`-elements, that keeps every `p`-element and as many as there are.
   */
  function Filter<T>(p: T -> bool, s: seq<T>): (r: seq<T>)
    ensures IsSubseq(r, s)
    ensures forall k | 0 <= k < |r| :: p(r[k])
    ensures forall i | 0 <= i < |s| && p(s[i]) :: s[i] in r
    ensures |r| == Count(p, s)
    decreases |s|
  {
    if s == [] then []
    else
      var rest := Filter(p, s[1..]);
      assert forall i | 1 <= i < |s| :: s[i] == s[1..][i - 1];
      if p(s[0]) then
        assert ([s[0]] + rest)[1..] == rest;
        [s[0]] + rest
      else
        SubseqCons(rest, s[0], s[1..]);
        assert [s[0]] + s[1..] == s;
        rest
  }

  lemma {:induction false} FilterAppend<T>(p: T -> bool, a: seq<T>, b: seq<T>)
    ensures Filter(p, a + b) == Filter(p, a) + Filter(p, b)
    decreases |a|
  {
    if a == [] {
      assert a + b == b;
    } else {
      var h := if p(a[0]) then [a[0]] else [];
      FilterHead(p, a);
      FilterHead(p, a + b);
      TailOfAppend(a, b);
      FilterAppend(p, a[1..], b);
      ConcatStep(h, Filter(p, a[1..]), Filter(p, b), Filter(p, a), Filter(p, a + b));
    }
  }

  lemma TailOfAppend<T>(a: seq<T>, b: seq<T>)
    requires a != []
    ensures (a + b)[0] == a[0] && (a + b)[1..] == a[1..] + b
  {
  }

  lemma ConcatStep<T>(h: seq<T>, x: seq<T>, y: seq<T>, hx: seq<T>, hxy: seq<T>)
    requires hx == h + x && hxy == h + (x + y)
    ensures hxy == hx + y
  {
  }

  /** A filter keeps or drops the head, then filters the tail. */
  lemma FilterHead<T>(p: T -> bool, s: seq<T>)
    requires s != []
    ensures Filter(p, s) == (if p(s[0]) then [s[0]] else []) + Filter(p, s[1..])
  {
  }

  /** `[x] * n`. */
  function Repeat<T>(x: T, n: nat): (r: seq<T>)
    ensures |r| == n
    ensures forall k | 0 <= k < n :: r[k] == x
  {
    seq(n, _ => x)
  }

  /** Counting depends only on the predicate's values on the sequence. */
  /** Counting up to the last element, then the last element. */
  lemma CountLast<T>(p: T -> bool, s: seq<T>)
    requires s != []
    ensures Count(p, s) == Count(p, s[..|s| - 1]) + (if p(s[|s| - 1]) then 1 else 0)
  {
    var n := |s| - 1;
    CountAppend(p, s[..n], [s[n]]);
    SplitLast(s);
    assert [s[n]][1..] == [];
  }

  lemma {:induction false} CountExt<T>(p: T -> bool, q: T -> bool, s: seq<T>)
    requires forall i | 0 <= i < |s| :: p(s[i]) == q(s[i])
    ensures Count(p, s) == Count(q, s)
    decreases |s|
  {
    if s != [] {
      assert forall i | 0 <= i < |s[1..]| :: s[1..][i] == s[i + 1];
      CountExt(p, q, s[1..]);
    }
  }

  /** Complementary predicates split the sequence between them. */
  lemma {:induction false} CountComplement<T>(p: T -> bool, q: T -> bool, s: seq<T>)
    requires forall i | 0 <= i < |s| :: q(s[i]) == !p(s[i])
    ensures Count(p, s) + Count(q, s) == |s|
    decreases |s|
  {
    if s != [] {
      assert forall i | 0 <= i < |s[1..]| :: s[1..][i] == s[i + 1];
      CountComplement(p, q, s[1..]);
    }
  }

  /** A member of a filtered sequence satisfies the predicate and comes from the input. */
  lemma FilterIn<T>(p: T -> bool, s: seq<T>, x: T)
    requires x in Filter(p, s)
    ensures p(x) && x in s
  {
    var r := Filter(p, s);
    var k :| 0 <= k < |r| && r[k] == x;
    SubseqMembers(r, s);
  }

  /** Some element satisfies `p` exactly when the count is positive. */
  lemma {:induction false} CountPositive<T>(p: T -> bool, s: seq<T>)
    ensures Count(p, s) > 0 <==> exists i | 0 <= i < |s| :: p(s[i])
    decreases |s|
  {
    if s != [] {
      CountPositive(p, s[1..]);
      assert forall i | 0 <= i < |s[1..]| :: s[1..][i] == s[i + 1];
      if Count(p, s[1..]) > 0 {
        var i :| 0 <= i < |s[1..]| && p(s[1..][i]);
        assert p(s[i + 1]);
      }
    }
  }

  /** Filtering depends only on the predicate's values on the sequence. */
  lemma {:induction false} FilterExt<T>(p: T -> bool, q: T -> bool, s: seq<T>)
    requires forall i | 0 <= i < |s| :: p(s[i]) == q(s[i])
    ensures Filter(p, s) == Filter(q, s)
    decreases |s|
  {
    if s != [] {
      assert forall i | 0 <= i < |s[1..]| :: s[1..][i] == s[i + 1];
      FilterExt(p, q, s[1..]);
    }
  }

  /** Two filters in a row keep what satisfies both predicates. */
  lemma {:induction false} FilterFilter<T>(p: T -> bool, q: T -> bool, both: T -> bool, s: seq<T>)
    requires forall i | 0 <= i < |s| :: both(s[i]) == (p(s[i]) && q(s[i]))
    ensures Filter(q, Filter(p, s)) == Filter(both, s)
    decreases |s|
  {
    if s != [] {
      assert forall i | 0 <= i < |s[1..]| :: s[1..][i] == s[i + 1];
      FilterFilter(p, q, both, s[1..]);
      if p(s[0]) {
        assert Filter(p, s)[1..] == Filter(p, s[1..]);
      }
    }
  }

  /** Pairs `a[i], b[i]` up to the shorter length, like Python's `zip`. */
  function Zip<A, B>(a: seq<A>, b: seq<B>): (r: seq<(A, B)>)
    ensures |r| == if |a| <= |b| then |a| else |b|
    ensures forall i | 0 <= i < |r| :: r[i] == (a[i], b[i])
  {
    seq(if |a| <= |b| then |a| else |b|, i requires 0 <= i < |a| && i < |b| => (a[i], b[i]))
  }

  function Firsts<A, B>(z: seq<(A, B)>): (r: seq<A>)
    ensures |r| == |z|
    ensures forall i | 0 <= i < |z| :: r[i] == z[i].0
  {
    seq(|z|, i requires 0 <= i < |z| => z[i].0)
  }

  function Seconds<A, B>(z: seq<(A, B)>): (r: seq<B>)
    ensures |r| == |z|
    ensures forall i | 0 <= i < |z| :: r[i] == z[i].1
  {
    seq(|z|, i requires 0 <= i < |z| => z[i].1)
  }

  lemma ZipUnzip<A, B>(z: seq<(A, B)>)
    ensures Zip(Firsts(z), Seconds(z)) == z
  {
  }

  lemma {:induction false} SubseqMap<A, B>(a: seq<(A, B)>, b: seq<(A, B)>)
    requires IsSubseq(a, b)
    ensures IsSubseq(Firsts(a), Firsts(b))
    ensures IsSubseq(Seconds(a), Seconds(b))
    decreases |b|
  {
    if a == [] {
    } else if a[0] == b[0] {
      SubseqMap(a[1..], b[1..]);
      assert Firsts(a)[1..] == Firsts(a[1..]);
      assert Firsts(b)[1..] == Firsts(b[1..]);
      assert Seconds(a)[1..] == Seconds(a[1..]);
      assert Seconds(b)[1..] == Seconds(b[1..]);
    } else {
      SubseqMap(a, b[1..]);
      assert Firsts(b[1..]) == Firsts(b)[1..];
      assert Seconds(b[1..]) == Seconds(b)[1..];
      SubseqCons(Firsts(a), Firsts(b)[0], Firsts(b)[1..]);
      SubseqCons(Seconds(a), Seconds(b)[0], Seconds(b)[1..]);
      assert [Firsts(b)[0]] + Firsts(b)[1..] == Firsts(b);
      assert [Seconds(b)[0]] + Seconds(b)[1..] == Seconds(b);
    }
  }

  // ---------------------------------------------------------------- sorting

  predicate Sorted(s: seq<int>) {
    forall i, j | 0 <= i < j < |s| :: s[i] <= s[j]
  }

  predicate StrictlyIncreasing(s: seq<int>) {
    forall i, j | 0 <= i < j < |s| :: s[i] < s[j]
  }

  /** A subsequence of a sorted sequence is sorted. */
  lemma {:induction false} SubseqOfSorted(a: seq<int>, b: seq<int>)
    requires IsSubseq(a, b) && Sorted(b)
    ensures Sorted(a)
    decreases |b|
  {
    if a == [] {
    } else if a[0] == b[0] {
      SubseqOfSorted(a[1..], b[1..]);
      SubseqMembers(a[1..], b[1..]);
      forall j | 0 < j < |a|
        ensures a[0] <= a[j]
      {
        assert a[j] == a[1..][j - 1];
        assert a[j] in b[1..];
      }
    } else {
      SubseqOfSorted(a, b[1..]);
    }
  }

  lemma SortedCons(a: int, t: seq<int>)
    requires Sorted(t)
    requires forall k | 0 <= k < |t| :: a <= t[k]
    ensures Sorted([a] + t)
  {
    var r := [a] + t;
    forall i, j | 0 <= i < j < |r|
      ensures r[i] <= r[j]
    {
      if i > 0 {
        assert r[i] == t[i - 1] && r[j] == t[j - 1];
      } else {
        assert r[j] == t[j - 1];
      }
    }
  }

  function Insert(x: int, s: seq<int>): (r: seq<int>)
    requires Sorted(s)
    ensures Sorted(r)
    ensures multiset(r) == multiset(s) + multiset{x}
    decreases |s|
  {
    if s == [] then [x]
    else if x <= s[0] then [x] + s
    else
      var t := Insert(x, s[1..]);
      InsertStep(x, s, t);
      [s[0]] + t
  }

  /** Putting the head back in front of the tail with `x` inserted. */
  lemma InsertStep(x: int, s: seq<int>, t: seq<int>)
    requires s != [] && Sorted(s) && s[0] < x
    requires Sorted(t) && multiset(t) == multiset(s[1..]) + multiset{x}
    ensures Sorted([s[0]] + t)
    ensures multiset([s[0]] + t) == multiset(s) + multiset{x}
  {
    assert s == [s[0]] + s[1..];
    forall k | 0 <= k < |t|
      ensures s[0] <= t[k]
    {
      assert t[k] in multiset(s[1..]) + multiset{x};
    }
    SortedCons(s[0], t);
  }

  /** Python's `sorted` on integers: a sorted permutation. */
  function Sort(s: seq<int>): (r: seq<int>)
    ensures Sorted(r)
    ensures multiset(r) == multiset(s)
    decreases |s|
  {
    if s == [] then []
    else
      assert s == [s[0]] + s[1..];
      Insert(s[0], Sort(s[1..]))
  }

  function InsertNew(x: int, s: seq<int>): (r: seq<int>)
    requires StrictlyIncreasing(s)
    ensures StrictlyIncreasing(r)
    ensures forall y :: y in r <==> y in s || y == x
    decreases |s|
  {
    if s == [] then [x]
    else if x == s[0] then s
    else if x < s[0] then [x] + s
    else
      assert forall y :: y in s <==> y == s[0] || y in s[1..];
      var t := InsertNew(x, s[1..]);
      assert forall k | 0 <= k < |t| :: s[0] < t[k] by {
        forall k | 0 <= k < |t|
          ensures s[0] < t[k]
        {
          assert t[k] in t;
        }
      }
      [s[0]] + t
  }

  /** Python's `sorted(set(s))` on integers. */
  function SortedDistinct(s: seq<int>): (r: seq<int>)
    ensures StrictlyIncreasing(r)
    ensures forall y :: y in r <==> y in s
    decreases |s|
  {
    if s == [] then []
    else
      assert forall y :: y in s <==> y == s[0] || y in s[1..];
      InsertNew(s[0], SortedDistinct(s[1..]))
  }

  // ---------------------------------------------------------- de-duplication

  predicate NoDup<T(==)>(s: seq<T>) {
    forall i, j | 0 <= i < j < |s| :: s[i] != s[j]
  }

  /** Index of the first occurrence of `x` in `s`. */
  function FirstIndex<T(==)>(s: seq<T>, x: T): (i: nat)
    requires x in s
    ensures i < |s| && s[i] == x
    ensures forall j | 0 <= j < i :: s[j] != x
  {
    if s[0] == x then 0 else 1 + FirstIndex(s[1..], x)
  }

  lemma {:induction false} FirstIndexSnoc<T>(s: seq<T>, x: T, y: T)
    requires y in s
    ensures y in s + [x] && FirstIndex(s + [x], y) == FirstIndex(s, y)
  {
    var i := FirstIndex(s, y);
    assert (s + [x])[i] == y;
    var k := FirstIndex(s + [x], y);
    assert k <= i;
    assert (s + [x])[k] == s[k];
  }

  /** The elements of `s` in first-seen order, each once. */
  predicate FirstSeenOrder<T(==)>(r: seq<T>, s: seq<T>)
    requires forall x | x in r :: x in s
  {
    forall i, j | 0 <= i < j < |r| :: FirstIndex(s, r[i]) < FirstIndex(s, r[j])
  }

  /** Python's "append if not already present" loop over `s`. */
  function Dedup<T(==,!new)>(s: seq<T>): (r: seq<T>)
    ensures NoDup(r)
    ensures forall x :: x in r <==> x in s
    ensures IsSubseq(r, s)
    ensures FirstSeenOrder(r, s)
    decreases |s|
  {
    if s == [] then []
    else
      var p := s[..|s| - 1];
      var x := s[|s| - 1];
      assert s == p + [x];
      var d := Dedup(p);
      DedupStep(p, x, d);
      if x in d then d else d + [x]
  }

  /** One pass of the "append if not already present" loop keeps its result distinct, complete and in first-seen order. */
  lemma DedupStep<T>(p: seq<T>, x: T, d: seq<T>)
    requires NoDup(d) && (forall y :: y in d <==> y in p) && IsSubseq(d, p) && FirstSeenOrder(d, p)
    ensures var r := if x in d then d else d + [x];
            && NoDup(r) && (forall y :: y in r <==> y in p + [x])
            && IsSubseq(r, p + [x]) && FirstSeenOrder(r, p + [x])
  {
    SubseqSnoc(d, p, x);
    if x in d {
      FirstSeenKept(p, x, d);
    } else {
      FirstSeenAppended(p, x, d);
    }
  }

  /** The first occurrences in `p` stay where they are when `x` is appended. */
  lemma FirstIndicesKept<T>(p: seq<T>, x: T)
    ensures forall y | y in p :: y in p + [x] && FirstIndex(p + [x], y) == FirstIndex(p, y)
  {
    forall y | y in p
      ensures y in p + [x] && FirstIndex(p + [x], y) == FirstIndex(p, y)
    {
      FirstIndexSnoc(p, x, y);
    }
  }

  lemma FirstSeenKept<T>(p: seq<T>, x: T, d: seq<T>)
    requires (forall y :: y in d <==> y in p) && FirstSeenOrder(d, p)
    ensures FirstSeenOrder(d, p + [x])
  {
    FirstIndicesKept(p, x);
  }

  lemma FirstSeenAppended<T>(p: seq<T>, x: T, d: seq<T>)
    requires (forall y :: y in d <==> y in p) && FirstSeenOrder(d, p) && x !in p
    ensures FirstSeenOrder(d + [x], p + [x])
  {
    var s := p + [x];
    FirstIndicesKept(p, x);
    assert FirstIndex(s, x) == |p| by {
      assert s[|p|] == x;
    }
    var r := d + [x];
    forall i, j | 0 <= i < j < |r|
      ensures FirstIndex(s, r[i]) < FirstIndex(s, r[j])
    {
      if j == |d| {
        assert r[i] == d[i];
      } else {
        assert r[i] == d[i] && r[j] == d[j];
      }
    }
  }

  /** One more element either is already present or goes at the end. */
  lemma DedupSnoc<T(!new)>(s: seq<T>, x: T)
    ensures Dedup(s + [x]) == if x in Dedup(s) then Dedup(s) else Dedup(s) + [x]
  {
    assert (s + [x])[..|s|] == s;
  }

  /** The distinct keys of a sequence after one more element. */
  lemma DedupMapSnoc<T, K(!new)>(key: T -> K, s: seq<T>, x: T)
    ensures Dedup(Map(key, s + [x])) ==
            if key(x) in Dedup(Map(key, s)) then Dedup(Map(key, s)) else Dedup(Map(key, s)) + [key(x)]
  {
    MapSnoc(key, s, x);
    DedupSnoc(Map(key, s), key(x));
  }

  /** One step of a left-to-right filtering loop: keeping the last element when it passes extends the filter of the prefix. */
  lemma FilterStep<T>(p: T -> bool, s: seq<T>, prev: seq<T>, out: seq<T>)
    requires s != [] && prev == Filter(p, s[..|s| - 1])
    requires out == prev + if p(s[|s| - 1]) then [s[|s| - 1]] else []
    ensures out == Filter(p, s)
  {
    SplitLast(s);
    FilterSnoc(p, s[..|s| - 1], s[|s| - 1]);
  }

  /** A non-empty sequence is its prefix followed by its last element. */
  lemma SplitLast<T>(s: seq<T>)
    requires s != []
    ensures s[..|s| - 1] + [s[|s| - 1]] == s
  {
  }

  lemma FilterSnoc<T>(p: T -> bool, s: seq<T>, x: T)
    ensures Filter(p, s + [x]) == if p(x) then Filter(p, s) + [x] else Filter(p, s)
  {
    FilterAppend(p, s, [x]);
    assert [x][1..] == [];
  }

  /** The least index in [k, bound) satisfying `p`: a left-to-right search. */
  function FirstFrom(p: nat -> bool, k: nat, bound: nat): (r: Option<nat>)
    ensures r.Some? ==> k <= r.value < bound && p(r.value)
    ensures r.Some? ==> forall j: nat | k <= j < r.value :: !p(j)
    ensures r.None? ==> forall j: nat | k <= j < bound :: !p(j)
    decreases bound - k
  {
    if k >= bound then None
    else if p(k) then Some(k)
    else FirstFrom(p, k + 1, bound)
  }

  /** The search finds `i` when `p` holds there and nowhere before. */
  lemma {:induction false} FirstFromFinds(p: nat -> bool, k: nat, bound: nat, i: nat)
    requires k <= i < bound && p(i)
    requires forall j: nat | k <= j < i :: !p(j)
    ensures FirstFrom(p, k, bound) == Some(i)
    decreases i - k
  {
    if k < i {
      FirstFromFinds(p, k + 1, bound, i);
    }
  }

  function HoldsAt<T>(p: T -> bool, s: seq<T>): nat -> bool {
    (i: nat) => i < |s| && p(s[i])
  }

  /** The first position of `s` whose element satisfies `p`. */
  function FirstWhere<T>(p: T -> bool, s: seq<T>): (r: Option<nat>)
    ensures r.Some? ==> r.value < |s| && p(s[r.value])
    ensures r.Some? ==> forall j | 0 <= j < r.value :: !p(s[j])
    ensures r.None? ==> forall j | 0 <= j < |s| :: !p(s[j])
  {
    var r := FirstFrom(HoldsAt(p, s), 0, |s|);
    var stop := if r.Some? then r.value else |s|;
    assert r.Some? ==> HoldsAt(p, s)(stop);
    assert forall j | 0 <= j < stop :: !p(s[j]) by {
      forall j | 0 <= j < stop
        ensures !p(s[j])
      {
        assert !HoldsAt(p, s)(j);
      }
    }
    r
  }

  /** `[f(x) for x in s]`. */
  function Map<T, U>(f: T -> U, s: seq<T>): (r: seq<U>)
    ensures |r| == |s|
    ensures forall i | 0 <= i < |s| :: r[i] == f(s[i])
  {
    seq(|s|, i requires 0 <= i < |s| => f(s[i]))
  }

  lemma MapSnoc<T, U>(f: T -> U, s: seq<T>, x: T)
    ensures Map(f, s + [x]) == Map(f, s) + [f(x)]
  {
  }

  /** A left-to-right accumulation: `acc = init; for x in s: acc = add(acc, x)`. */
  function FoldLeft<T, V>(add: (V, T) -> V, init: V, s: seq<T>): V
    decreases |s|
  {
    if s == [] then init else add(FoldLeft(add, init, s[..|s| - 1]), s[|s| - 1])
  }

  lemma FoldLeftSnoc<T, V>(add: (V, T) -> V, init: V, s: seq<T>, x: T)
    ensures FoldLeft(add, init, s + [x]) == add(FoldLeft(add, init, s), x)
  {
    assert (s + [x])[..|s|] == s;
  }

  /** The elements whose key is `k`. */
  function KeyIs<T, K(==)>(key: T -> K, k: K): T -> bool {
    (x: T) => key(x) == k
  }

  /** Keeping the elements with key `k` leaves nothing when no key is `k`. */
  lemma FilterKeyAbsent<T, K>(key: T -> K, k: K, s: seq<T>)
    requires k !in Map(key, s)
    ensures Filter(KeyIs(key, k), s) == []
  {
    var r := Filter(KeyIs(key, k), s);
    if r != [] {
      FilterIn(KeyIs(key, k), s, r[0]);
    }
  }

  /** Some element has key `k`, so keeping those leaves something. */
  lemma FilterKeyPresent<T, K>(key: T -> K, k: K, s: seq<T>)
    requires k in Map(key, s)
    ensures Filter(KeyIs(key, k), s) != []
  {
    var i :| 0 <= i < |s| && Map(key, s)[i] == k;
    assert KeyIs(key, k)(s[i]);
  }

  lemma StrictCons(a: int, t: seq<int>)
    requires StrictlyIncreasing(t)
    requires forall k | 0 <= k < |t| :: a < t[k]
    ensures StrictlyIncreasing([a] + t)
  {
    var r := [a] + t;
    forall i, j | 0 <= i < j < |r|
      ensures r[i] < r[j]
    {
      assert r[j] == t[j - 1];
      if i > 0 {
        assert r[i] == t[i - 1];
      }
    }
  }

  lemma {:induction false} InsertStrict(x: int, s: seq<int>)
    requires StrictlyIncreasing(s) && x !in s
    ensures StrictlyIncreasing(Insert(x, s))
    decreases |s|
  {
    if s == [] {
    } else if x <= s[0] {
      forall k | 0 <= k < |s|
        ensures x < s[k]
      {
        assert s[0] <= s[k];
      }
      StrictCons(x, s);
    } else {
      assert s == [s[0]] + s[1..];
      var t := Insert(x, s[1..]);
      InsertStrict(x, s[1..]);
      forall k | 0 <= k < |t|
        ensures s[0] < t[k]
      {
        assert t[k] in multiset(s[1..]) + multiset{x};
        if t[k] != x {
          var m :| 0 <= m < |s[1..]| && s[1..][m] == t[k];
          assert s[m + 1] == t[k];
        }
      }
      StrictCons(s[0], t);
    }
  }

  /** Sorting a sequence without repetitions gives a strictly increasing one. */
  lemma {:induction false} SortNoDup(s: seq<int>)
    requires NoDup(s)
    ensures StrictlyIncreasing(Sort(s))
    decreases |s|
  {
    if s != [] {
      var t := s[1..];
      assert NoDup(t) by {
        forall i, j | 0 <= i < j < |t|
          ensures t[i] != t[j]
        {
          assert t[i] == s[i + 1] && t[j] == s[j + 1];
        }
      }
      SortNoDup(t);
      assert s[0] !in t by {
        forall k | 0 <= k < |t|
          ensures t[k] != s[0]
        {
          assert t[k] == s[k + 1];
        }
      }
      assert s[0] !in multiset(Sort(t));
      InsertStrict(s[0], Sort(t));
    }
  }

  /** The accumulation step `acc.append(f(x))`. */
  function AppendMapped<T, U>(f: T -> U): (seq<U>, T) -> seq<U> {
    (acc: seq<U>, x: T) => acc + [f(x)]
  }

  lemma {:induction false} FoldAppendMapped<T, U>(f: T -> U, s: seq<T>)
    ensures FoldLeft(AppendMapped(f), [], s) == Map(f, s)
    decreases |s|
  {
    if s != [] {
      var n := |s| - 1;
      SplitLast(s);
      FoldAppendMapped(f, s[..n]);
      MapSnoc(f, s[..n], s[n]);
    }
  }

  /** Concatenation of a list of lists, in order. */
  function Flatten<T>(ss: seq<seq<T>>): seq<T>
    decreases |ss|
  {
    if ss == [] then [] else Flatten(ss[..|ss| - 1]) + ss[|ss| - 1]
  }

  lemma FlattenSnoc<T>(ss: seq<seq<T>>, s: seq<T>)
    ensures Flatten(ss + [s]) == Flatten(ss) + s
  {
    assert (ss + [s])[..|ss|] == ss;
  }

  /** `[f(j) for j in range(i, n)]` where a step may raise: the first failure, or every value in order. */
  function CollectFrom<U>(f: nat -> Result<U>, i: nat, n: nat): (r: Result<seq<U>>)
    requires i <= n
    ensures r.Success? <==> forall j | i <= j < n :: f(j).Success?
    ensures r.Success? ==> |r.value| == n - i
    ensures r.Success? ==> forall j | 0 <= j < |r.value| :: f(i + j) == Success(r.value[j])
    decreases n - i
  {
    if i == n then Success([])
    else
      match f(i)
      case Failure(e) => Failure(e)
      case Success(x) =>
        match CollectFrom(f, i + 1, n)
        case Failure(e) => Failure(e)
        case Success(rest) =>
          var r := [x] + rest;
          assert forall j | 1 <= j < |r| :: r[j] == rest[j - 1] && i + j == (i + 1) + (j - 1);
          Success(r)
  }

  /** The value of a fallible step, or nothing when it fails. */
  function OkOr<T, U>(f: T -> Result<seq<U>>): T -> seq<U> {
    x => f(x).GetOr([])
  }

  /** `for x in s: out.extend(f(x))`, where a step may raise: the first failure, or all the values in order. */
  function FlattenAll<T, U>(f: T -> Result<seq<U>>, s: seq<T>): (r: Result<seq<U>>)
    ensures r.Success? <==> forall k | 0 <= k < |s| :: f(s[k]).Success?
    ensures r.Success? ==> r.value == Flatten(Map(OkOr(f), s))
    decreases |s|
  {
    if s == [] then Success([])
    else
      var n := |s| - 1;
      AllSucceedLast(f, s[..n], s);
      match FlattenAll(f, s[..n])
      case Failure(e) => Failure(e)
      case Success(pre) =>
        match f(s[n])
        case Failure(e) => Failure(e)
        case Success(xs) =>
          SplitLast(s);
          MapSnoc(OkOr(f), s[..n], s[n]);
          FlattenSnoc(Map(OkOr(f), s[..n]), xs);
          Success(pre + xs)
  }

  /** Every step of `s` succeeds exactly when every step of its prefix and its last one do. */
  lemma AllSucceedLast<T, R>(f: T -> Result<R>, p: seq<T>, s: seq<T>)
    requires s != [] && p == s[..|s| - 1]
    ensures (forall k | 0 <= k < |s| :: f(s[k]).Success?) <==>
      (forall k | 0 <= k < |p| :: f(p[k]).Success?) && f(s[|s| - 1]).Success?
  {
    assert forall k | 0 <= k < |p| :: p[k] == s[k];
  }

  /** A property holds on everything a filter keeps exactly when it holds on every element passing the filter. */
  lemma FilterForall<T>(keep: T -> bool, q: T -> bool, s: seq<T>)
    ensures (forall k | 0 <= k < |Filter(keep, s)| :: q(Filter(keep, s)[k]))
            ==> (forall i | 0 <= i < |s| && keep(s[i]) :: q(s[i]))
    ensures (forall i | 0 <= i < |s| && keep(s[i]) :: q(s[i]))
            ==> (forall k | 0 <= k < |Filter(keep, s)| :: q(Filter(keep, s)[k]))
  {
    if forall k | 0 <= k < |Filter(keep, s)| :: q(Filter(keep, s)[k]) {
      FilterForallOut(keep, q, s);
    }
    if forall i | 0 <= i < |s| && keep(s[i]) :: q(s[i]) {
      FilterForallIn(keep, q, s);
    }
  }

  lemma FilterForallOut<T>(keep: T -> bool, q: T -> bool, s: seq<T>)
    requires forall k | 0 <= k < |Filter(keep, s)| :: q(Filter(keep, s)[k])
    ensures forall i | 0 <= i < |s| && keep(s[i]) :: q(s[i])
  {
    var f := Filter(keep, s);
    forall i | 0 <= i < |s| && keep(s[i])
      ensures q(s[i])
    {
      assert s[i] in f;
    }
  }

  lemma FilterForallIn<T>(keep: T -> bool, q: T -> bool, s: seq<T>)
    requires forall i | 0 <= i < |s| && keep(s[i]) :: q(s[i])
    ensures forall k | 0 <= k < |Filter(keep, s)| :: q(Filter(keep, s)[k])
  {
    var f := Filter(keep, s);
    SubseqMembers(f, s);
    forall k | 0 <= k < |f|
      ensures q(f[k])
    {
      assert keep(f[k]) && f[k] in s;
      var i :| 0 <= i < |s| && s[i] == f[k];
    }
  }

  /** Counting by a predicate that is one of two exclusive ones adds the two counts. */
  lemma {:induction false} CountDisjoint<T>(p: T -> bool, q: T -> bool, either: T -> bool, s: seq<T>)
    requires forall x :: either(x) == (p(x) || q(x))
    requires forall x :: !(p(x) && q(x))
    ensures Count(either, s) == Count(p, s) + Count(q, s)
    decreases |s|
  {
    if s != [] {
      CountDisjoint(p, q, either, s[1..]);
    }
  }

  lemma {:induction false} FlattenMember<T(!new)>(ss: seq<seq<T>>, x: T)
    ensures x in Flatten(ss) <==> exists i | 0 <= i < |ss| :: x in ss[i]
    decreases |ss|
  {
    if ss != [] {
      var n := |ss| - 1;
      var pre := ss[..n];
      FlattenMember(pre, x);
      assert Flatten(ss) == Flatten(pre) + ss[n];
      if x in Flatten(pre) {
        var i :| 0 <= i < n && x in pre[i];
        assert pre[i] == ss[i];
      }
      if exists i | 0 <= i < |ss| :: x in ss[i] {
        var i :| 0 <= i < |ss| && x in ss[i];
        if i < n {
          assert pre[i] == ss[i];
        }
      }
    }
  }

  /** `[g for x in s if (g := f(x)) is not None]`: the values `f` yields, in order. */
  function FilterMap<T, U(!new)>(f: T -> Option<U>, s: seq<T>): (r: seq<U>)
    ensures |r| <= |s|
    ensures forall y :: y in r <==> exists k | 0 <= k < |s| :: f(s[k]) == Some(y)
    decreases |s|
  {
    if s == [] then []
    else
      var n := |s| - 1;
      var pre := FilterMap(f, s[..n]);
      match f(s[n])
      case Some(y) => pre + [y]
      case None => pre
  }

  /** With distinct keys, the elements holding one element's key are that element alone. */
  lemma {:induction false} FilterKeyUnique<T, K>(key: T -> K, s: seq<T>, i: nat)
    requires NoDup(Map(key, s)) && i < |s|
    ensures Filter(KeyIs(key, key(s[i])), s) == [s[i]]
    decreases |s|
  {
    var n := |s| - 1;
    var pre := s[..n];
    var x := s[n];
    var p := KeyIs(key, key(s[i]));
    SplitLast(s);
    FilterSnoc(p, pre, x);
    KeysNoDupLast(key, pre, s);
    if i == n {
      FilterKeyAbsent(key, key(x), pre);
      assert p(x);
    } else {
      assert pre[i] == s[i];
      FilterKeyUnique(key, pre, i);
      assert !p(x);
    }
  }

  /** Distinct keys stay distinct on a prefix, and the last key is not among the prefix's. */
  lemma KeysNoDupLast<T, K>(key: T -> K, pre: seq<T>, s: seq<T>)
    requires s != [] && pre == s[..|s| - 1] && NoDup(Map(key, s))
    ensures NoDup(Map(key, pre))
    ensures key(s[|s| - 1]) !in Map(key, pre)
    ensures forall a | 0 <= a < |pre| :: key(pre[a]) != key(s[|s| - 1])
  {
    var m := Map(key, s);
    assert forall a | 0 <= a < |pre| :: Map(key, pre)[a] == m[a];
    assert m[|s| - 1] == key(s[|s| - 1]);
  }

  /** An element of the flattened images is in the image of some element, and conversely. */
  lemma FlattenMapMember<T, U(!new)>(f: T -> seq<U>, s: seq<T>, y: U)
    ensures y in Flatten(Map(f, s)) <==> exists x | x in s :: y in f(x)
  {
    FlattenMember(Map(f, s), y);
    if exists x | x in s :: y in f(x) {
      var x :| x in s && y in f(x);
      var i :| 0 <= i < |s| && s[i] == x;
      assert y in Map(f, s)[i];
    }
  }

  /** The positions of the elements satisfying `p`, ascending. */
  function Positions<T>(p: T -> bool, s: seq<T>): (r: seq<nat>)
    ensures forall k | 0 <= k < |r| :: r[k] < |s| && p(s[r[k]])
    ensures forall i | 0 <= i < |s| && p(s[i]) :: i in r
    ensures forall j, k | 0 <= j < k < |r| :: r[j] < r[k]
    ensures |r| <= |s|
    decreases |s|
  {
    if s == [] then []
    else
      var n := |s| - 1;
      var pre := Positions(p, s[..n]);
      if p(s[n]) then pre + [n] else pre
  }

  /** No element passes, so no position is listed. */
  lemma {:induction false} PositionsNone<T>(p: T -> bool, s: seq<T>)
    requires forall i | 0 <= i < |s| :: !p(s[i])
    ensures Positions(p, s) == []
    decreases |s|
  {
    if s != [] {
      PositionsNone(p, s[..|s| - 1]);
    }
  }

  /** A subsequence of the sorted `s` is sorted and made of elements of `s`. */
  lemma SubseqOfSort(a: seq<int>, s: seq<int>)
    requires IsSubseq(a, Sort(s))
    ensures Sorted(a)
    ensures forall k | 0 <= k < |a| :: a[k] in s
  {
    var t := Sort(s);
    SubseqOfSorted(a, t);
    SubseqMembers(a, t);
    forall k | 0 <= k < |a|
      ensures a[k] in s
    {
      SortMember(s, a[k]);
    }
  }

  lemma SortMember(s: seq<int>, x: int)
    ensures x in Sort(s) <==> x in s
  {
    assert x in Sort(s) <==> x in multiset(Sort(s));
  }

  /** An element of `s` survives filtering the sorted `s` exactly when it passes. */
  lemma FilterSortIn(p: int -> bool, s: seq<int>, x: int)
    requires x in s
    ensures x in Filter(p, Sort(s)) <==> p(x)
  {
    SortMember(s, x);
    if x in Filter(p, Sort(s)) {
      FilterIn(p, Sort(s), x);
    }
  }

  /** `[s[i] for i in idx]`. */
  function Pick<T>(s: seq<T>, idx: seq<nat>): (r: seq<T>)
    requires forall k | 0 <= k < |idx| :: idx[k] < |s|
    ensures |r| == |idx|
    ensures forall k | 0 <= k < |idx| :: r[k] == s[idx[k]]
  {
    seq(|idx|, k requires 0 <= k < |idx| => s[idx[k]])
  }

  function PairHolds<A, B>(keep: (A, B) -> bool): ((A, B)) -> bool {
    (p: (A, B)) => keep(p.0, p.1)
  }

  /**
   * The positions `i` below both lengths where `keep(a[i], b[i])` holds,
   * ascending: `zip(a, b)` walked with its index.
   */
  function PairedPositions<A, B>(a: seq<A>, b: seq<B>, keep: (A, B) -> bool): (r: seq<nat>)
    ensures forall k | 0 <= k < |r| :: r[k] < |a| && r[k] < |b| && keep(a[r[k]], b[r[k]])
    ensures forall i | 0 <= i < |a| && i < |b| && keep(a[i], b[i]) :: i in r
    ensures forall j, k | 0 <= j < k < |r| :: r[j] < r[k]
    ensures |r| <= |a| && |r| <= |b|
  {
    var z := Zip(a, b);
    var r := Positions(PairHolds(keep), z);
    assert forall k | 0 <= k < |r| :: PairHolds(keep)(z[r[k]]) && z[r[k]] == (a[r[k]], b[r[k]]);
    assert forall i | 0 <= i < |a| && i < |b| && keep(a[i], b[i]) :: i < |z| && PairHolds(keep)(z[i]);
    r
  }

  /** Whether `f` yields a value for an element. */
  function SomeOf<T, U>(f: T -> Option<U>): T -> bool {
    x => f(x).Some?
  }

  /** Position `idx[j]` of `s` is where `f` yields `r[j]`, for every `j`. */
  ghost predicate YieldsAt<T, U>(f: T -> Option<U>, s: seq<T>, idx: seq<nat>, r: seq<U>) {
    |r| == |idx| && forall j | 0 <= j < |r| :: idx[j] < |s| && f(s[idx[j]]) == Some(r[j])
  }

  /** Extending `s` by one element keeps every earlier pairing. */
  lemma YieldsAtSnoc<T, U>(f: T -> Option<U>, s: seq<T>, idx: seq<nat>, r: seq<U>)
    requires s != [] && YieldsAt(f, s[..|s| - 1], idx, r)
    ensures YieldsAt(f, s, idx, r)
    ensures f(s[|s| - 1]).Some? ==> YieldsAt(f, s, idx + [|s| - 1], r + [f(s[|s| - 1]).value])
  {
    var n := |s| - 1;
    assert forall j | 0 <= j < |r| :: s[..n][idx[j]] == s[idx[j]];
    if f(s[n]).Some? {
      var idx' := idx + [n];
      var r' := r + [f(s[n]).value];
      forall j | 0 <= j < |r'|
        ensures idx'[j] < |s| && f(s[idx'[j]]) == Some(r'[j])
      {
        if j < |r| {
          assert idx'[j] == idx[j] && r'[j] == r[j];
        }
      }
    }
  }

  /** FilterMap keeps, in order, exactly the values at the positions where `f` yields one. */
  lemma {:induction false} FilterMapPositions<T, U(!new)>(f: T -> Option<U>, s: seq<T>)
    ensures YieldsAt(f, s, Positions(SomeOf(f), s), FilterMap(f, s))
    decreases |s|
  {
    if s != [] {
      var n := |s| - 1;
      FilterMapPositions(f, s[..n]);
      YieldsAtSnoc(f, s, Positions(SomeOf(f), s[..n]), FilterMap(f, s[..n]));
    }
  }

  /** The optional value of a fallible step, or nothing when it fails. */
  function OkSome<T, U>(f: T -> Result<Option<U>>): T -> Option<U> {
    x => if f(x).Success? then f(x).value else None
  }

  /**
   * `[g for x in s if (g := f(x)) is not None]` where a step may raise:
   * the first failure, or the values `f` yields, in order.
   */
  function FilterMapAll<T, U(!new)>(f: T -> Result<Option<U>>, s: seq<T>): (r: Result<seq<U>>)
    ensures r.Success? <==> forall k | 0 <= k < |s| :: f(s[k]).Success?
    ensures r.Success? ==> r.value == FilterMap(OkSome(f), s)
    ensures r.Failure? ==> exists k | 0 <= k < |s| ::
              f(s[k]).Failure? && r.error == f(s[k]).error && forall j | 0 <= j < k :: f(s[j]).Success?
    decreases |s|
  {
    if s == [] then Success([])
    else
      var n := |s| - 1;
      AllSucceedLast(f, s[..n], s);
      assert forall i | 0 <= i < n :: s[..n][i] == s[i];
      match FilterMapAll(f, s[..n])
      case Failure(e) => Failure(e)
      case Success(pre) =>
        match f(s[n])
        case Failure(e) => Failure(e)
        case Success(y) => Success(if y.Some? then pre + [y.value] else pre)
  }

  /** The elements a fallible test accepts. */
  function OkTrue<T>(p: T -> Result<bool>): T -> bool {
    x => p(x) == Success(true)
  }

  /** `[x for x in s if p(x)]` where the test may raise: the first failure, or the accepted elements in order. */
  function FilterAll<T>(p: T -> Result<bool>, s: seq<T>): (r: Result<seq<T>>)
    ensures r.Success? <==> forall k | 0 <= k < |s| :: p(s[k]).Success?
    ensures r.Success? ==> r.value == Filter(OkTrue(p), s)
    ensures r.Failure? ==> exists k | 0 <= k < |s| ::
              p(s[k]).Failure? && r.error == p(s[k]).error && forall j | 0 <= j < k :: p(s[j]).Success?
    decreases |s|
  {
    if s == [] then Success([])
    else
      var n := |s| - 1;
      AllSucceedLast(p, s[..n], s);
      assert forall i | 0 <= i < n :: s[..n][i] == s[i];
      match FilterAll(p, s[..n])
      case Failure(e) => Failure(e)
      case Success(pre) =>
        match p(s[n])
        case Failure(e) => Failure(e)
        case Success(b) =>
          FilterStep(OkTrue(p), s, pre, if b then pre + [s[n]] else pre);
          Success(if b then pre + [s[n]] else pre)
  }
}

=== FILE: text.dfy ===
/**
 * Python string behaviour on ASCII text: digits and decimal numerals,
 * `str.find`, `in`, `split`, `join`, `replace`, `strip` and `int()`.
 * Python's `\d`, `isdigit` and `isspace` also accept non-ASCII characters;
 * the model recognises only their ASCII members.
 */
module Text {
  import opened Wrappers

  // ------------------------------------------------------------- digits

  predicate IsDigit(c: char) {
    '0' <= c <= '9'
  }

  predicate AllDigits(s: string) {
    forall i | 0 <= i < |s| :: IsDigit(s[i])
  }

  /** Python `str.isdigit`: non-empty and made of digits only. */
  predicate IsDigitString(s: string) {
    |s| > 0 && AllDigits(s)
  }

  function DigitChar(d: nat): (c: char)
    requires d < 10
    ensures IsDigit(c)
  {
    ('0' as int + d) as char
  }

  function DigitValue(c: char): (d: nat)
    requires IsDigit(c)
    ensures d < 10
    ensures DigitChar(d) == c
  {
    c as int - '0' as int
  }

  /** Value of a decimal numeral, most significant digit first. */
  function DigitsValue(s: string): nat
    requires AllDigits(s)
    decreases |s|
  {
    if s == [] then 0 else 10 * DigitsValue(s[..|s| - 1]) + DigitValue(s[|s| - 1])
  }

  /** Python `str(n)` for a natural number: the canonical decimal numeral. */
  function NatToString(n: nat): (r: string)
    ensures IsDigitString(r)
    ensures r[0] == '0' <==> n == 0
    ensures n == 0 ==> r == "0"
    decreases n
  {
    if n < 10 then [DigitChar(n)] else NatToString(n / 10) + [DigitChar(n % 10)]
  }

  /** Python `str(i)` for an integer. */
  function IntToString(i: int): (r: string)
    ensures |r| > 0
    ensures i < 0 <==> r[0] == '-'
  {
    if i < 0 then "-" + NatToString(-i) else NatToString(i)
  }

  /** Reading back the numeral of `n` gives `n`. */
  lemma {:induction false} DecimalRoundTrip(n: nat)
    ensures DigitsValue(NatToString(n)) == n
    decreases n
  {
    if n >= 10 {
      DecimalRoundTrip(n / 10);
      var s := NatToString(n);
      assert s[..|s| - 1] == NatToString(n / 10);
    }
  }

  lemma {:induction false} LeadingNonZeroPositive(s: string)
    requires IsDigitString(s) && s[0] != '0'
    ensures DigitsValue(s) > 0
    decreases |s|
  {
    if |s| > 1 {
      LeadingNonZeroPositive(s[..|s| - 1]);
    }
  }

  /** A canonical numeral (no leading zero) is the numeral of its value. */
  lemma {:induction false} NumeralRoundTrip(s: string)
    requires IsDigitString(s) && (s[0] != '0' || |s| == 1)
    ensures NatToString(DigitsValue(s)) == s
    decreases |s|
  {
    var p := s[..|s| - 1];
    if p != [] {
      LeadingNonZeroPositive(p);
      NumeralRoundTrip(p);
      var v := DigitsValue(p);
      var n := DigitsValue(s);
      assert n / 10 == v && n % 10 == DigitValue(s[|s| - 1]);
      assert s == p + [s[|s| - 1]];
    }
  }

  /** The longest prefix of `s` made of digits. */
  function LeadingDigits(s: string): (r: string)
    ensures AllDigits(r) && |r| <= |s| && r == s[..|r|]
    ensures |r| == |s| || !IsDigit(s[|r|])
    decreases |s|
  {
    if s != [] && IsDigit(s[0]) then [s[0]] + LeadingDigits(s[1..]) else []
  }

  /** Start of the longest suffix of `s` made of digits. */
  function TrailingDigitsStart(s: string): (i: nat)
    ensures i <= |s| && AllDigits(s[i..])
    ensures i == 0 || !IsDigit(s[i - 1])
    decreases |s|
  {
    if s != [] && IsDigit(s[|s| - 1]) then
      var i := TrailingDigitsStart(s[..|s| - 1]);
      assert s[i..] == s[..|s| - 1][i..] + [s[|s| - 1]];
      i
    else |s|
  }

  lemma TrailingDigitsOfNumeral(p: string, d: string)
    requires IsDigitString(d)
    requires p == [] || !IsDigit(p[|p| - 1])
    ensures TrailingDigitsStart(p + d) == |p|
  {
    var s := p + d;
    var i := TrailingDigitsStart(s);
    DigitsFrom(s, i);
    DigitsFrom(s, |p|);
    if p != [] {
      assert s[|p| - 1] == p[|p| - 1];
    }
  }

  /** Every character from `i` on is a digit when the suffix at `i` is. */
  lemma DigitsFrom(s: string, i: nat)
    requires i <= |s| && AllDigits(s[i..])
    ensures forall j | i <= j < |s| :: IsDigit(s[j])
  {
    forall j | i <= j < |s|
      ensures IsDigit(s[j])
    {
      assert s[j] == s[i..][j - i];
    }
  }

  // ---------------------------------------------------------- searching

  /** `p` occurs in `s` starting at index `i`. */
  predicate OccursAt(s: string, p: string, i: nat) {
    i + |p| <= |s| && s[i..i + |p|] == p
  }

  /** Python `p in s` for strings. */
  predicate Contains(s: string, p: string) {
    exists i: nat | i <= |s| :: OccursAt(s, p, i)
  }

  lemma OccursAtShift(s: string, p: string, i: nat)
    requires s != []
    ensures OccursAt(s[1..], p, i) <==> OccursAt(s, p, i + 1)
  {
    if i + 1 + |p| <= |s| {
      assert s[1..][i..i + |p|] == s[i + 1..i + 1 + |p|];
    }
  }

  lemma OccursAtPrefix(s: string, p: string, n: nat, i: nat)
    requires n <= |s|
    ensures OccursAt(s[..n], p, i) <==> (OccursAt(s, p, i) && i + |p| <= n)
  {
    if i + |p| <= n {
      assert s[..n][i..i + |p|] == s[i..i + |p|];
    }
  }

  /** The first occurrence of `p` in `s` at or after `k`, given none before `k`. */
  function FindFrom(s: string, p: string, k: nat): (r: Option<nat>)
    requires k <= |s| + 1
    requires forall j: nat | j < k :: !OccursAt(s, p, j)
    ensures r.Some? ==> k <= r.value && OccursAt(s, p, r.value)
    ensures r.Some? ==> forall j: nat | j < r.value :: !OccursAt(s, p, j)
    ensures r.None? ==> forall j: nat :: !OccursAt(s, p, j)
    decreases |s| + 1 - k
  {
    if k + |p| > |s| then None
    else if s[k..k + |p|] == p then Some(k)
    else FindFrom(s, p, k + 1)
  }

  /** Python `s.find(p)`, with `None` for -1. */
  function Find(s: string, p: string): (r: Option<nat>)
    ensures r.Some? ==> OccursAt(s, p, r.value)
    ensures r.Some? ==> forall j: nat | j < r.value :: !OccursAt(s, p, j)
    ensures r.None? <==> !Contains(s, p)
  {
    FindFrom(s, p, 0)
  }

  lemma ContainsSingle(s: string, c: char)
    ensures Contains(s, [c]) <==> c in s
  {
    if c in s {
      var i :| 0 <= i < |s| && s[i] == c;
      assert s[i..i + 1] == [c];
      assert OccursAt(s, [c], i);
    }
    if Contains(s, [c]) {
      var i: nat :| i <= |s| && OccursAt(s, [c], i);
      assert s[i..i + 1][0] == s[i];
    }
  }

  // ---------------------------------------------------- split and join

  /** Python `sep.join(parts)`. */
  function Join(parts: seq<string>, sep: string): string
    decreases |parts|
  {
    if parts == [] then ""
    else if |parts| == 1 then parts[0]
    else parts[0] + sep + Join(parts[1..], sep)
  }

  /** Python `s.split(sep)` for a non-empty separator: empty parts are kept. */
  function SplitStr(s: string, sep: string): (r: seq<string>)
    requires |sep| > 0
    ensures |r| >= 1
    ensures forall k | 0 <= k < |r| :: !Contains(r[k], sep)
    ensures Join(r, sep) == s
    decreases |s|
  {
    match Find(s, sep)
    case None => [s]
    case Some(i) =>
      SplitAtFirst(s, sep, i);
      var rest := SplitStr(s[i + |sep|..], sep);
      JoinCons(s[..i], rest, sep);
      [s[..i]] + rest
  }

  /** The text before the first occurrence of `sep` holds none, and the text is rebuilt around it. */
  lemma SplitAtFirst(s: string, sep: string, i: nat)
    requires |sep| > 0 && OccursAt(s, sep, i)
    requires forall j: nat | j < i :: !OccursAt(s, sep, j)
    ensures !Contains(s[..i], sep)
    ensures s == s[..i] + sep + s[i + |sep|..]
  {
    forall j: nat
      ensures !OccursAt(s[..i], sep, j)
    {
      OccursAtPrefix(s, sep, i, j);
    }
    assert s == s[..i] + s[i..i + |sep|] + s[i + |sep|..];
  }

  lemma JoinCons(head: string, rest: seq<string>, sep: string)
    requires |rest| >= 1
    ensures Join([head] + rest, sep) == head + sep + Join(rest, sep)
  {
    assert ([head] + rest)[1..] == rest;
  }

  /** Where the separator first occurs, the first part ends and the rest is split again. */
  lemma SplitStrFound(s: string, sep: string, i: nat)
    requires |sep| > 0 && Find(s, sep) == Some(i)
    ensures i + |sep| <= |s|
    ensures SplitStr(s, sep) == [s[..i]] + SplitStr(s[i + |sep|..], sep)
  {
  }

  /** A separator that occurs splits the text in at least two parts. */
  lemma SplitFound(s: string, sep: string)
    requires |sep| > 0 && Contains(s, sep)
    ensures |SplitStr(s, sep)| >= 2
  {
    JoinSingle(SplitStr(s, sep), sep);
  }

  lemma JoinSingle(parts: seq<string>, sep: string)
    ensures |parts| == 1 ==> Join(parts, sep) == parts[0]
  {
  }

  /** Python `s.split(c)` for a one-character separator. */
  function Split(s: string, c: char): (r: seq<string>)
    ensures |r| >= 1
    ensures forall k | 0 <= k < |r| :: c !in r[k]
    ensures Join(r, [c]) == s
  {
    var r := SplitStr(s, [c]);
    forall k | 0 <= k < |r|
      ensures c !in r[k]
    {
      ContainsSingle(r[k], c);
    }
    r
  }

  /** Splitting a join on a separator that no part contains gives back the parts. */
  lemma {:induction false} SplitJoin(parts: seq<string>, c: char)
    requires |parts| >= 1
    requires forall k | 0 <= k < |parts| :: c !in parts[k]
    ensures Split(Join(parts, [c]), c) == parts
    decreases |parts|
  {
    var s := Join(parts, [c]);
    ContainsSingle(parts[0], c);
    if |parts| == 1 {
      assert Find(s, [c]).None?;
    } else {
      var rest := Join(parts[1..], [c]);
      assert s == parts[0] + [c] + rest;
      var f := Find(s, [c]);
      assert s[|parts[0]|..|parts[0]| + 1] == [c];
      assert OccursAt(s, [c], |parts[0]|);
      forall j: nat | j < |parts[0]|
        ensures !OccursAt(s, [c], j)
      {
        assert s[j] == parts[0][j];
        assert s[j..j + 1] == [s[j]];
      }
      assert f.Some? && f.value == |parts[0]|;
      assert s[f.value + 1..] == rest;
      SplitJoin(parts[1..], c);
      assert SplitStr(rest, [c]) == parts[1..];
      assert SplitStr(s, [c]) == [parts[0]] + parts[1..];
    }
  }

  // ------------------------------------------------------------ replace

  /** Python `s.replace(pat, rep)` for a non-empty pattern: left to right, non-overlapping. */
  function ReplaceAll(s: string, pat: string, rep: string): (r: string)
    requires |pat| > 0
    decreases |s|
  {
    if |s| < |pat| then s
    else if s[..|pat|] == pat then rep + ReplaceAll(s[|pat|..], pat, rep)
    else [s[0]] + ReplaceAll(s[1..], pat, rep)
  }

  /** Text without the pattern is left unchanged. */
  lemma {:induction false} ReplaceAbsent(s: string, pat: string, rep: string)
    requires |pat| > 0 && !Contains(s, pat)
    ensures ReplaceAll(s, pat, rep) == s
    decreases |s|
  {
    if |s| >= |pat| {
      assert !OccursAt(s, pat, 0);
      assert !Contains(s[1..], pat) by {
        if Contains(s[1..], pat) {
          var j: nat :| j <= |s[1..]| && OccursAt(s[1..], pat, j);
          OccursAtShift(s, pat, j);
        }
      }
      ReplaceAbsent(s[1..], pat, rep);
      assert [s[0]] + s[1..] == s;
    }
  }

  /** One step of the scan when the text does not start with the pattern. */
  lemma ReplaceMiss(s: string, pat: string, rep: string)
    requires |pat| > 0 && s != [] && !(|s| >= |pat| && s[..|pat|] == pat)
    ensures ReplaceAll(s, pat, rep) == [s[0]] + ReplaceAll(s[1..], pat, rep)
  {
    if |s| < |pat| {
      assert [s[0]] + s[1..] == s;
    }
  }

  /**
   * When the pattern occurs nowhere before a given occurrence, that
   * occurrence is replaced and the text on either side is treated
   * independently.
   */
  lemma {:induction false} ReplaceSplice(x: string, pat: string, rep: string, y: string)
    requires |pat| > 0
    requires forall i: nat | i < |x| :: !OccursAt(x + pat + y, pat, i)
    ensures ReplaceAll(x + pat + y, pat, rep) == ReplaceAll(x, pat, rep) + rep + ReplaceAll(y, pat, rep)
    decreases |x|
  {
    var s := x + pat + y;
    if x == [] {
      assert s == pat + y;
      assert s[..|pat|] == pat;
      assert s[|pat|..] == y;
    } else {
      var t := x[1..] + pat + y;
      SpliceShift(x, pat, y);
      ReplaceSplice(x[1..], pat, rep, y);
      SpliceMiss(x, pat, rep, y);
      var a, b := ReplaceAll(x[1..], pat, rep), ReplaceAll(y, pat, rep);
      assert [x[0]] + (a + rep + b) == ([x[0]] + a) + rep + b;
    }
  }

  /** Dropping the first character of the splice keeps its hypothesis. */
  lemma SpliceShift(x: string, pat: string, y: string)
    requires x != []
    requires forall i: nat | i < |x| :: !OccursAt(x + pat + y, pat, i)
    ensures (x + pat + y)[1..] == x[1..] + pat + y
    ensures forall i: nat | i < |x[1..]| :: !OccursAt(x[1..] + pat + y, pat, i)
  {
    var s := x + pat + y;
    assert s[1..] == x[1..] + pat + y;
    forall i: nat | i < |x[1..]|
      ensures !OccursAt(x[1..] + pat + y, pat, i)
    {
      OccursAtShift(s, pat, i);
    }
  }

  /** Neither the splice nor its left part starts with the pattern. */
  lemma SpliceMiss(x: string, pat: string, rep: string, y: string)
    requires |pat| > 0 && x != []
    requires !OccursAt(x + pat + y, pat, 0)
    ensures ReplaceAll(x + pat + y, pat, rep) == [x[0]] + ReplaceAll((x + pat + y)[1..], pat, rep)
    ensures ReplaceAll(x, pat, rep) == [x[0]] + ReplaceAll(x[1..], pat, rep)
  {
    var s := x + pat + y;
    assert s[0] == x[0];
    ReplaceMiss(s, pat, rep);
    if |x| >= |pat| {
      assert x[..|pat|] == s[..|pat|];
    }
    ReplaceMiss(x, pat, rep);
  }

  // -------------------------------------------------------------- strip

  /** Python `str.isspace` on one ASCII character. */
  predicate IsSpace(c: char) {
    c == ' ' || '\t' <= c <= '\r' || '\U{1c}' <= c <= '\U{1f}'
  }

  function StripLeft(s: string): (r: string)
    ensures |r| <= |s| && r == s[|s| - |r|..]
    ensures r == [] || !IsSpace(r[0])
    ensures forall i | 0 <= i < |s| - |r| :: IsSpace(s[i])
    decreases |s|
  {
    if s != [] && IsSpace(s[0]) then StripLeft(s[1..]) else s
  }

  function StripRight(s: string): (r: string)
    ensures |r| <= |s| && r == s[..|r|]
    ensures r == [] || !IsSpace(r[|r| - 1])
    ensures forall i | |r| <= i < |s| :: IsSpace(s[i])
    decreases |s|
  {
    if s != [] && IsSpace(s[|s| - 1]) then StripRight(s[..|s| - 1]) else s
  }

  /** Python `s.strip()`: the slice left after removing whitespace at both ends. */
  function Strip(s: string): (r: string)
    ensures |r| <= |s|
    ensures r == [] || (!IsSpace(r[0]) && !IsSpace(r[|r| - 1]))
  {
    StripRight(StripLeft(s))
  }

  /** What `strip()` removes is whitespace at the two ends, and what it keeps is one slice of the text. */
  lemma StripIsSlice(s: string) returns (i: nat, j: nat)
    ensures i <= j <= |s| && Strip(s) == s[i..j]
    ensures forall k | 0 <= k < i :: IsSpace(s[k])
    ensures forall k | j <= k < |s| :: IsSpace(s[k])
  {
    var l := StripLeft(s);
    var r := StripRight(l);
    i := |s| - |l|;
    j := i + |r|;
    SliceOfSuffix(s, i, |r|);
    SpacesShift(s, i, |r|);
  }

  lemma SliceOfSuffix(s: string, i: nat, m: nat)
    requires i + m <= |s|
    ensures s[i..][..m] == s[i..i + m] && s[i..][m..] == s[i + m..]
  {
  }

  /** Whitespace after position `m` of the suffix at `i` is whitespace after `i + m` in the text. */
  lemma SpacesShift(s: string, i: nat, m: nat)
    requires i + m <= |s|
    requires forall k | m <= k < |s[i..]| :: IsSpace(s[i..][k])
    ensures forall k | i + m <= k < |s| :: IsSpace(s[k])
  {
    forall k | i + m <= k < |s|
      ensures IsSpace(s[k])
    {
      assert s[k] == s[i..][k - i];
    }
  }

  /** Text with no whitespace at either end is its own strip. */
  lemma StripUnchanged(s: string)
    requires |s| > 0 && !IsSpace(s[0]) && !IsSpace(s[|s| - 1])
    ensures Strip(s) == s
  {
    assert StripLeft(s) == s;
    assert StripRight(s) == s;
  }

  // -------------------------------------------------------------- int()

  /**
   * The body of a Python integer literal accepted by `int()`: digits,
   * optionally separated by single underscores.
   */
  predicate IsIntBody(t: string) {
    && |t| > 0
    && IsDigit(t[0]) && IsDigit(t[|t| - 1])
    && (forall i | 0 <= i < |t| :: IsDigit(t[i]) || t[i] == '_')
    && (forall i | 0 <= i < |t| - 1 :: !DoubleUnderscoreAt(t, i))
  }

  /** Two underscores in a row start at position `i`. */
  predicate DoubleUnderscoreAt(t: string, i: nat)
    requires i + 1 < |t|
  {
    t[i] == '_' && t[i + 1] == '_'
  }

  function RemoveUnderscores(t: string): (r: string)
    requires forall i | 0 <= i < |t| :: IsDigit(t[i]) || t[i] == '_'
    ensures AllDigits(r)
    decreases |t|
  {
    if t == [] then []
    else (if t[0] == '_' then [] else [t[0]]) + RemoveUnderscores(t[1..])
  }

  /** Python `int(s)` on text: `None` where Python raises ValueError. */
  function ParseInt(s: string): Option<int> {
    ParseStripped(Strip(s))
  }

  /** `int()` on text with the surrounding whitespace already removed. */
  function ParseStripped(t: string): Option<int> {
    var neg := |t| > 0 && t[0] == '-';
    var body := if |t| > 0 && (t[0] == '-' || t[0] == '+') then t[1..] else t;
    if !IsIntBody(body) then None
    else
      var v: int := DigitsValue(RemoveUnderscores(body));
      Some(if neg then -v else v)
  }

  /** A plain digit string parses to its decimal value. */
  lemma ParseDigits(s: string)
    requires IsDigitString(s)
    ensures ParseInt(s) == Some(DigitsValue(s))
  {
    StripUnchanged(s);
    ParseStrippedDigits(s);
  }

  lemma ParseStrippedDigits(s: string)
    requires IsDigitString(s)
    ensures ParseStripped(s) == Some(DigitsValue(s))
  {
    DigitsIntBody(s);
    NoUnderscores(s);
  }

  lemma {:induction false} NoUnderscores(s: string)
    requires AllDigits(s)
    ensures RemoveUnderscores(s) == s
    decreases |s|
  {
    if s != [] {
      NoUnderscores(s[1..]);
      assert [s[0]] + s[1..] == s;
    }
  }

  /** `int(str(i)) == i`. */
  lemma IntRoundTrip(i: int)
    ensures ParseInt(IntToString(i)) == Some(i)
  {
    if i >= 0 {
      var d := NatToString(i);
      assert IntToString(i) == d;
      ParseDigits(d);
      DecimalRoundTrip(i);
    } else {
      var n: nat := -i;
      var d := NatToString(n);
      assert IntToString(i) == "-" + d;
      ParseNegDigits(d);
      DecimalRoundTrip(n);
    }
  }

  /** A minus sign before a plain digit string parses to the negated decimal value. */
  lemma ParseNegDigits(d: string)
    requires IsDigitString(d)
    ensures ParseInt("-" + d) == Some(-(DigitsValue(d) as int))
  {
    NegDigitsUnstripped(d);
    NegDigitsBody(d);
  }

  /** `int()` reads "-" followed by digits as the negated decimal value. */
  lemma NegDigitsBody(d: string)
    requires IsDigitString(d)
    ensures ParseStripped("-" + d) == Some(-(DigitsValue(d) as int))
  {
    var t := "-" + d;
    assert t[0] == '-' && t[1..] == d;
    DigitsIntBody(d);
    NoUnderscores(d);
  }

  /** "-" followed by digits has nothing for `strip()` to remove. */
  lemma NegDigitsUnstripped(d: string)
    requires IsDigitString(d)
    ensures Strip("-" + d) == "-" + d
  {
    var s := "-" + d;
    assert s[0] == '-' && s[|s| - 1] == d[|d| - 1];
    StripUnchanged(s);
  }

  lemma DigitsIntBody(d: string)
    requires IsDigitString(d)
    ensures IsIntBody(d)
  {
  }

  // ------------------------------------------------------- string order

  /** Python's `<` on strings: code-point order, a proper prefix first. */
  predicate StrLt(a: string, b: string)
    decreases |a|
  {
    if a == [] then b != []
    else b != [] && (a[0] < b[0] || (a[0] == b[0] && StrLt(a[1..], b[1..])))
  }

  lemma {:induction false} StrLtIrreflexive(a: string)
    ensures !StrLt(a, a)
    decreases |a|
  {
    if a != [] {
      StrLtIrreflexive(a[1..]);
    }
  }

  lemma {:induction false} StrLtTransitive(a: string, b: string, c: string)
    requires StrLt(a, b) && StrLt(b, c)
    ensures StrLt(a, c)
    decreases |a|
  {
    if a != [] && a[0] == b[0] && b[0] == c[0] {
      StrLtTransitive(a[1..], b[1..], c[1..]);
    }
  }

  lemma {:induction false} StrLtTotal(a: string, b: string)
    requires a != b
    ensures StrLt(a, b) || StrLt(b, a)
    decreases |a|
  {
    if a != [] && b != [] && a[0] == b[0] {
      assert a == [a[0]] + a[1..] && b == [b[0]] + b[1..];
      StrLtTotal(a[1..], b[1..]);
    }
  }

  predicate StrIncreasing(s: seq<string>) {
    forall i, j | 0 <= i < j < |s| :: StrLt(s[i], s[j])
  }

  function InsertNewStr(x: string, s: seq<string>): (r: seq<string>)
    requires StrIncreasing(s)
    ensures StrIncreasing(r)
    ensures forall y :: y in r <==> y in s || y == x
    decreases |s|
  {
    if s == [] then [x]
    else if x == s[0] then s
    else if StrLt(x, s[0]) then
      assert forall k | 0 < k < |s| :: StrLt(x, s[k]) by {
        forall k | 0 < k < |s|
          ensures StrLt(x, s[k])
        {
          StrLtTransitive(x, s[0], s[k]);
        }
      }
      [x] + s
    else
      StrLtTotal(x, s[0]);
      assert forall y :: y in s <==> y == s[0] || y in s[1..];
      var t := InsertNewStr(x, s[1..]);
      assert forall k | 0 <= k < |t| :: StrLt(s[0], t[k]) by {
        forall k | 0 <= k < |t|
          ensures StrLt(s[0], t[k])
        {
          assert t[k] in t;
        }
      }
      [s[0]] + t
  }

  /** Python's `sorted(set(s))` on strings. */
  function SortedDistinctStr(s: seq<string>): (r: seq<string>)
    ensures StrIncreasing(r)
    ensures forall y :: y in r <==> y in s
    decreases |s|
  {
    if s == [] then []
    else
      assert forall y :: y in s <==> y == s[0] || y in s[1..];
      InsertNewStr(s[0], SortedDistinctStr(s[1..]))
  }
}

=== FILE: utilities.dfy ===
/**
 * data_processing/utilities.py: DIV parsing, flattening of MATLAB values
 * and struct field access, plus the value type the loaders read.
 */
module Utilities {
  import opened Wrappers
  import opened Numeric
  import opened Text
  import opened Seqs
  import opened Dicts

  /**
   * A Python value as read from a MATLAB file. `NdArray` is a numpy array
   * stored row-major: its size is the length of `flat`, and a well-formed
   * array has as many elements as the product of its shape.
   */
  datatype PyValue =
    | PyNone
    | PyStr(s: string)
    | PyNum(x: Num)
    | PyInt(i: int)
    | PyList(items: seq<PyValue>)
    | PyTuple(items: seq<PyValue>)
    | PyDict(entries: Dict<string, PyValue>)
    | NdArray(shape: seq<nat>, flat: seq<PyValue>)

  // -------------------------------------------------- extract_div_value

  /** What `extract_div_value` returns: an int, or the text left after removing "DIV". */
  datatype DivValue = DivNum(n: nat) | DivText(s: string)

  /** The text with every "DIV" removed. */
  function RemoveDivMarkers(s: string): string {
    ReplaceAll(s, "DIV", "")
  }

  /**
   * The text that `(\d+)$` has to end on: Python's `$` also matches just
   * before a final newline.
   */
  function BeforeFinalNewline(t: string): (b: string)
    ensures b == t || (t == b + "\n")
  {
    if |t| > 0 && t[|t| - 1] == '\n' then t[..|t| - 1] else t
  }

  /** `(\d+)$` finds a match. */
  predicate EndsInDigits(t: string) {
    || (|t| > 0 && IsDigit(t[|t| - 1]))
    || (|t| > 1 && t[|t| - 1] == '\n' && IsDigit(t[|t| - 2]))
  }

  /** `extract_div_value`: the trailing number once every "DIV" is removed, else the text itself. */
  function ExtractDivValue(s: string): (r: DivValue)
    ensures r.DivNum? <==> EndsInDigits(RemoveDivMarkers(s))
    ensures r.DivText? ==> r.s == RemoveDivMarkers(s)
    ensures r.DivNum? ==> exists i: nat | i < |BeforeFinalNewline(RemoveDivMarkers(s))| ::
              var b := BeforeFinalNewline(RemoveDivMarkers(s));
              IsDigitString(b[i..]) && (i == 0 || !IsDigit(b[i - 1])) && r.n == DigitsValue(b[i..])
  {
    var t := RemoveDivMarkers(s);
    var b := BeforeFinalNewline(t);
    var i := TrailingDigitsStart(b);
    if i < |b| then DivNum(DigitsValue(b[i..])) else DivText(t)
  }

  /** "DIV" overlaps itself nowhere, so text free of it stays free up to an appended "DIV". */
  lemma NoDivBefore(x: string, y: string)
    requires !Contains(x, "DIV")
    ensures forall i: nat | i < |x| :: !OccursAt(x + "DIV" + y, "DIV", i)
  {
    var s := x + "DIV" + y;
    forall i: nat | i < |x|
      ensures !OccursAt(s, "DIV", i)
    {
      if i + 3 <= |x| {
        assert s[i..i + 3] == x[i..i + 3];
        assert !OccursAt(x, "DIV", i);
      } else if i + 2 == |x| {
        assert s[i + 2] == 'D';
      } else {
        assert s[i + 1] == 'D';
      }
    }
  }

  /**
   * Every "DIV" is removed, not only a leading one: removal splits at each
   * occurrence and works on both sides independently.
   */
  lemma DivMarkersRemovedEverywhere(x: string, y: string)
    requires !Contains(x, "DIV")
    ensures RemoveDivMarkers(x + "DIV" + y) == x + RemoveDivMarkers(y)
  {
    NoDivBefore(x, y);
    ReplaceSplice(x, "DIV", "", y);
    ReplaceAbsent(x, "DIV", "");
  }


  lemma ConcatNoDiv(p: string, d: string)
    requires !Contains(p, "DIV") && AllDigits(d)
    ensures !Contains(p + d, "DIV")
  {
    var rest := p + d;
    forall i: nat | i <= |rest|
      ensures !OccursAt(rest, "DIV", i)
    {
      if i + 3 <= |rest| {
        if i + 3 <= |p| {
          assert rest[i..i + 3] == p[i..i + 3];
          assert !OccursAt(p, "DIV", i);
        } else if i >= |p| {
          assert rest[i] == d[i - |p|];
        } else {
          assert rest[|p|] == d[0];
        }
      }
    }
  }

  /** Once the markers are gone, a text ending in a digit run yields that run's value. */
  lemma ExtractOfCleanText(s: string, t: string, k: nat)
    requires RemoveDivMarkers(s) == t
    requires |t| > 0 && t[|t| - 1] != '\n'
    requires k < |t| && TrailingDigitsStart(t) == k
    ensures ExtractDivValue(s) == DivNum(DigitsValue(t[k..]))
  {
  }

  /**
   * After a leading "DIV", a name whose tail is a number preceded by a
   * non-digit yields that number: the maximal trailing digit run.
   */
  lemma DivOfTrailingNumber(p: string, n: nat)
    requires !Contains(p, "DIV")
    requires p == [] || !IsDigit(p[|p| - 1])
    ensures ExtractDivValue("DIV" + p + NatToString(n)) == DivNum(n)
  {
    var d := NatToString(n);
    var rest := p + d;
    MarkerThenClean(p, d);
    TrailingDigitsOfNumeral(p, d);
    assert rest[|p|..] == d;
    DecimalRoundTrip(n);
    ExtractOfCleanText("DIV" + p + d, rest, |p|);
  }

  /** Removing the markers from "DIV" then marker-free text then digits leaves the text and the digits. */
  lemma MarkerThenClean(p: string, d: string)
    requires !Contains(p, "DIV") && AllDigits(d)
    ensures RemoveDivMarkers("DIV" + p + d) == p + d
  {
    var rest := p + d;
    assert "DIV" + p + d == [] + "DIV" + rest;
    DivMarkersRemovedEverywhere([], rest);
    ConcatNoDiv(p, d);
    ReplaceAbsent(rest, "DIV", "");
  }

  /** For every natural n, the name "DIV<n>" yields n. */
  lemma DivRoundTrip(n: nat)
    ensures ExtractDivValue("DIV" + NatToString(n)) == DivNum(n)
  {
    DivOfTrailingNumber([], n);
    assert "DIV" + [] + NatToString(n) == "DIV" + NatToString(n);
  }

  /** Text without a 'D' holds no "DIV" marker. */
  lemma NoDivMarker(p: string)
    requires forall k | 0 <= k < |p| :: p[k] != 'D'
    ensures !Contains(p, "DIV")
  {
    forall i: nat | i <= |p|
      ensures !OccursAt(p, "DIV", i)
    {
      if i + 3 <= |p| {
        assert p[i] != 'D';
      }
    }
  }

  /**
   * A date-stamped name of the MEA-NAP naming scheme, "DIV" then a stamp
   * without a 'D' that ends in '-' (as in "DIV20240816-24w-50"), yields its
   * last number.
   */
  lemma DivOfDatedName(stamp: string, n: nat)
    requires forall k | 0 <= k < |stamp| :: stamp[k] != 'D'
    requires stamp != [] && stamp[|stamp| - 1] == '-'
    ensures ExtractDivValue("DIV" + stamp + NatToString(n)) == DivNum(n)
  {
    NoDivMarker(stamp);
    DivOfTrailingNumber(stamp, n);
  }

  /** Text that does not end in digits is returned without its "DIV" markers. */
  lemma DivTextUnchanged(s: string)
    requires !Contains(s, "DIV") && !EndsInDigits(s)
    ensures ExtractDivValue(s) == DivText(s)
  {
    ReplaceAbsent(s, "DIV", "");
  }

  // ------------------------------------------------- safe_flatten_array

  /** `safe_flatten_array` for values other than structured arrays. */
  function SafeFlatten(v: PyValue): (r: seq<PyValue>)
    ensures v.PyNone? ==> r == []
    ensures v.PyList? || v.PyTuple? ==> r == v.items
    ensures v.NdArray? ==> IsSubseq(r, v.flat) && forall k | 0 <= k < |r| :: !r[k].PyNone?
    ensures v.NdArray? ==> forall k | 0 <= k < |v.flat| && !v.flat[k].PyNone? :: v.flat[k] in r
    ensures !(v.PyNone? || v.PyList? || v.PyTuple? || v.NdArray?) ==> r == [v]
  {
    match v
    case PyNone => []
    case NdArray(_, flat) => Filter((x: PyValue) => !x.PyNone?, flat)
    case PyList(items) => items
    case PyTuple(items) => items
    case _ => [v]
  }

  /** Flattening the flattened list changes nothing. */
  lemma FlattenIdempotent(v: PyValue)
    ensures SafeFlatten(PyList(SafeFlatten(v))) == SafeFlatten(v)
  {
  }

  // ----------------------------------------- extract_matlab_struct_data

  /** `extract_matlab_struct_data` on a dict: the field's value, else `default`. */
  function ExtractStructData(d: Dict<string, PyValue>, field: string, default: PyValue): (r: PyValue)
    ensures HasKey(d, field) ==> (field, r) in d
    ensures !HasKey(d, field) ==> r == default
    ensures Valid(d) && HasKey(d, field) ==> Get(d, field) == Some(r)
  {
    match Get(d, field)
    case Some(v) => v
    case None => default
  }
}

=== FILE: utils_api.dfy ===
/**
 * utils/__init__.py: the package's high-level entry points — the metric
 * catalogue the dropdowns offer, the validation of a visualization
 * request, and the routing of a request to the by-group or the by-age
 * plot.
 */
module UtilsApi {
  import opened Seqs
  import opened Dicts
  import Config
  import MetricProcessors

  // ------------------------------------------------------------ catalogue

  /** The four lists `get_all_metrics` returns. */
  datatype MetricCatalogue = MetricCatalogue(
    nodeMetrics: seq<string>, recordingMetrics: seq<string>,
    electrodeLevel: seq<string>, recordingLevel: seq<string>)

  /** `get_all_metrics`: the option values in dropdown order, and the processors' two lists. */
  function AllMetrics(): (r: MetricCatalogue)
    ensures |r.nodeMetrics| == |Config.NeuronalNodeMetrics|
    ensures forall i | 0 <= i < |r.nodeMetrics| :: r.nodeMetrics[i] == Config.NeuronalNodeMetrics[i].value
    ensures |r.recordingMetrics| == |Config.NeuronalRecordingMetrics|
    ensures forall i | 0 <= i < |r.recordingMetrics| :: r.recordingMetrics[i] == Config.NeuronalRecordingMetrics[i].value
    ensures r.electrodeLevel == MetricProcessors.NodeLevelMetricNames
    ensures r.recordingLevel == MetricProcessors.RecordingLevelMetricNames
  {
    MetricCatalogue(
      Config.OptionValues(Config.NeuronalNodeMetrics),
      Config.OptionValues(Config.NeuronalRecordingMetrics),
      MetricProcessors.NodeLevelMetricNames,
      MetricProcessors.RecordingLevelMetricNames)
  }

  /** Every metric a dropdown offers has a processor. */
  lemma OfferedMetricsAvailable(m: string)
    requires m in AllMetrics().nodeMetrics || m in AllMetrics().recordingMetrics
    ensures MetricProcessors.IsMetricAvailable(m)
  {
    NodeOptionValues();
    RecordingOptionValues();
    BaseRegistryKeys();
    MetricProcessors.AvailableMetrics(m);
    if m !in Keys(MetricProcessors.BaseRegistry) {
      assert m in MetricProcessors.MissingRecordingMetrics;
    }
  }

  lemma NodeOptionValues()
    ensures Config.OptionValues(Config.NeuronalNodeMetrics) ==
      ["FR", "channelBurstRate", "channelFRinBurst", "channelBurstDur",
       "channelISIwithinBurst", "channeISIoutsideBurst", "channelFracSpikesInBursts"]
  {
  }

  lemma RecordingOptionValues()
    ensures Config.OptionValues(Config.NeuronalRecordingMetrics) ==
      ["FRActive", "numActiveElec", "FRmean", "FRmedian", "NBurstRate",
       "meanNBstLengthS", "meanISIWithinNbursts_ms", "meanISIoutsideNbursts_ms",
       "CVofINBI", "fracInNburst", "meanNumChansInvolvedInNbursts"]
  {
  }

  lemma BaseRegistryKeys()
    ensures Keys(MetricProcessors.BaseRegistry) ==
      ["FR", "channelBurstRate", "channelFRinBurst", "channelBurstDur",
       "channelISIwithinBurst", "channeISIoutsideBurst", "channelFracSpikesInBursts",
       "FRActive", "numActiveElec", "NBurstRate", "FRmean", "FRmedian"]
  {
  }

  // ----------------------------------------------------------- validation

  /** The outcome of `validate_visualization_request`. */
  datatype Validation = Validation(isValid: bool, errors: seq<string>)

  function MetricError(metric: string): string {
    "Metric '" + metric + "' is not available"
  }

  function ComparisonError(comparison: string): string {
    "Comparison type '" + comparison + "' is not valid"
  }

  const GroupsError: string := "At least one group must be selected"
  const DivsError: string := "At least one DIV must be selected"

  /** The four messages in the order the checks run. */
  function AllErrors(metric: string, comparison: string): seq<string> {
    [MetricError(metric), ComparisonError(comparison), GroupsError, DivsError]
  }

  function ErrorIf(failed: bool, message: string): seq<string> {
    if failed then [message] else []
  }

  /** The messages of the failed checks, in check order. */
  function Errors(metric: string, comparison: string, m: bool, c: bool, g: bool, d: bool): (r: seq<string>)
    ensures IsSubseq(r, AllErrors(metric, comparison))
    ensures MetricError(metric) in r <==> m
    ensures ComparisonError(comparison) in r <==> c
    ensures GroupsError in r <==> g
    ensures DivsError in r <==> d
  {
    var r := ErrorIf(m, MetricError(metric)) + ErrorIf(c, ComparisonError(comparison))
             + ErrorIf(g, GroupsError) + ErrorIf(d, DivsError);
    ErrorsDistinct(metric, comparison);
    ErrorsInOrder(metric, comparison, m, c, g, d);
    r
  }

  /**
   * `validate_visualization_request`: one message per failed check, in
   * the order metric, comparison (against the neuronal list), groups,
   * DIVs; the request is valid exactly when there is none.
   */
  function ValidateRequest(metric: string, comparison: string, groups: seq<string>, divs: seq<int>): (r: Validation)
    ensures r.isValid <==> r.errors == []
    ensures IsSubseq(r.errors, AllErrors(metric, comparison))
    ensures MetricError(metric) in r.errors <==> !MetricProcessors.IsMetricAvailable(metric)
    ensures ComparisonError(comparison) in r.errors <==> !Config.ValidateComparisonType(comparison, "neuronal")
    ensures GroupsError in r.errors <==> groups == []
    ensures DivsError in r.errors <==> divs == []
  {
    var errors := Errors(metric, comparison, !MetricProcessors.IsMetricAvailable(metric),
                         !Config.ValidateComparisonType(comparison, "neuronal"), groups == [], divs == []);
    Validation(|errors| == 0, errors)
  }

  /** The four messages differ from each other, whatever the metric and comparison. */
  lemma ErrorsDistinct(metric: string, comparison: string)
    ensures MetricError(metric) != ComparisonError(comparison)
    ensures MetricError(metric) != GroupsError && MetricError(metric) != DivsError
    ensures ComparisonError(comparison) != GroupsError && ComparisonError(comparison) != DivsError
    ensures GroupsError != DivsError
  {
    assert MetricError(metric)[0] == 'M';
    assert ComparisonError(comparison)[0] == 'C';
    assert GroupsError[0] == 'A' && DivsError[0] == 'A';
    assert GroupsError[13] == 'g' && DivsError[13] == 'D';
  }

  lemma ErrorsInOrder(metric: string, comparison: string, m: bool, c: bool, g: bool, d: bool)
    ensures IsSubseq(ErrorIf(m, MetricError(metric)) + ErrorIf(c, ComparisonError(comparison))
                     + ErrorIf(g, GroupsError) + ErrorIf(d, DivsError), AllErrors(metric, comparison))
  {
    KeptInOrder(m, c, g, d, MetricError(metric), ComparisonError(comparison), GroupsError, DivsError);
  }

  /** Keeping some of four messages, in their order, gives a subsequence of the four. */
  lemma KeptInOrder(m: bool, c: bool, g: bool, d: bool, w: string, x: string, y: string, z: string)
    ensures IsSubseq(ErrorIf(m, w) + ErrorIf(c, x) + ErrorIf(g, y) + ErrorIf(d, z), [w, x, y, z])
  {
    var t2 := ErrorIf(g, y) + ErrorIf(d, z);
    var t3 := ErrorIf(c, x) + t2;
    assert ErrorIf(m, w) + ErrorIf(c, x) + ErrorIf(g, y) + ErrorIf(d, z) == ErrorIf(m, w) + t3;
    OptionalHead(d, z, [], []);
    assert ErrorIf(d, z) + [] == ErrorIf(d, z) && [z] + [] == [z];
    OptionalHead(g, y, ErrorIf(d, z), [z]);
    OptionalHead(c, x, t2, [y, z]);
    OptionalHead(m, w, t3, [x, y, z]);
    assert [y] + [z] == [y, z] && [x] + [y, z] == [x, y, z] && [w] + [x, y, z] == [w, x, y, z];
  }

  /** Dropping or keeping a head element preserves being a subsequence. */
  lemma OptionalHead(keep: bool, x: string, a: seq<string>, b: seq<string>)
    requires IsSubseq(a, b)
    ensures IsSubseq(ErrorIf(keep, x) + a, [x] + b)
  {
    if keep {
      assert (ErrorIf(keep, x) + a)[1..] == a;
      assert ([x] + b)[1..] == b;
    } else {
      assert ErrorIf(keep, x) + a == a;
      SubseqCons(a, x, b);
    }
  }

  // -------------------------------------------------------------- routing

  /** What `create_neuronal_visualization` draws. */
  datatype Route = ByGroupPlot(field: string) | ByAgePlot(field: string) | ErrorPlot(message: string)

  /**
   * `create_neuronal_visualization`: the two by-group comparisons draw the
   * by-group plot and the two by-age ones the by-age plot, both on the
   * metric's stored field; anything else draws an error plot naming the
   * comparison.
   */
  function RouteRequest(metric: string, comparison: string): (r: Route)
    ensures r.ByGroupPlot? <==> comparison == "nodebygroup" || comparison == "recordingsbygroup"
    ensures r.ByAgePlot? <==> comparison == "nodebyage" || comparison == "recordingsbyage"
    ensures !r.ErrorPlot? ==> r.field == Config.MetricFieldName(metric)
    ensures r.ErrorPlot? ==> r.message == "Unknown comparison type: " + comparison
  {
    var field := Config.MetricFieldName(metric);
    if comparison in ["nodebygroup", "recordingsbygroup"] then ByGroupPlot(field)
    else if comparison in ["nodebyage", "recordingsbyage"] then ByAgePlot(field)
    else ErrorPlot("Unknown comparison type: " + comparison)
  }

  /** A comparison passes validation exactly when routing draws a plot for it. */
  lemma RoutingAgreesWithValidation(metric: string, comparison: string)
    ensures Config.ValidateComparisonType(comparison, "neuronal") <==> !RouteRequest(metric, comparison).ErrorPlot?
  {
  }
}

=== FILE: visualization_helpers.dfy ===
/**
 * utils/visualization_helpers.py: the data-side decisions behind the
 * plots: which plot type a sample size gets, how values are gathered per
 * group and DIV, whether there is anything to plot, the export file name
 * and the figure size.
 */
module VisualizationHelpers {
  import opened Wrappers
  import opened Numeric
  import opened Seqs
  import opened Text
  import opened Dicts
  import opened DashboardData
  import Config
  import opened DataHelpers

  // ------------------------------------------------------------- plot type

  datatype PlotType = Empty | SinglePoint | Scatter | Violin

  /** `determine_plot_type`: by sample size, with violins from four values on. */
  function DeterminePlotType(values: seq<Num>): (r: PlotType)
    ensures r == Empty <==> |values| == 0
    ensures r == SinglePoint <==> |values| == 1
    ensures r == Scatter <==> 2 <= |values| <= 3
    ensures r == Violin <==> |values| >= 4
  {
    if |values| == 0 then Empty
    else if |values| == 1 then SinglePoint
    else if |values| < 4 then Scatter
    else Violin
  }

  /** The classification part of `prepare_violin_data`'s result. */
  datatype ViolinData = ViolinData(values: seq<Num>, plotType: PlotType)

  /** `prepare_violin_data`: the cleaned values and the plot type they call for. */
  function PrepareViolinData(values: seq<Num>, minPoints: int): (r: ViolinData)
    ensures r.values == CleanNumericArray(values)
    ensures r.plotType == Empty <==> Count(IsFinite, values) == 0
    ensures r.plotType == SinglePoint <==> Count(IsFinite, values) == 1
    ensures r.plotType == Violin <==> Count(IsFinite, values) >= 2 && Count(IsFinite, values) >= minPoints
  {
    var clean := CleanNumericArray(values);
    if |clean| == 0 then ViolinData([], Empty)
    else if |clean| == 1 then ViolinData(clean, SinglePoint)
    else if |clean| < minPoints then ViolinData(clean, Scatter)
    else ViolinData(clean, Violin)
  }

  /** With the default of four points, both classifiers agree on the cleaned values. */
  lemma ViolinAgreesWithPlotType(values: seq<Num>)
    ensures PrepareViolinData(values, 4).plotType == DeterminePlotType(CleanNumericArray(values))
  {
  }

  // ------------------------------------------------------ organize_plot_data

  /** `clean_numeric_array` on a stored metric: numpy lifts a scalar to a 0-d array, and None cannot be checked for finiteness. */
  function CleanField(f: Field): (r: Result<seq<Num>>)
    ensures f.Null? <==> r.Failure?
    ensures f.Arr? ==> r == Success(CleanNumericArray(f.items))
    ensures f.Scalar? ==> r == Success(CleanNumericArray([f.x]))
  {
    match f
    case Arr(xs) => Success(CleanNumericArray(xs))
    case Scalar(x) => Success(CleanNumericArray([x]))
    case Null => Failure("TypeError: ufunc 'isfinite' not supported for the input types")
  }

  /**
   * `organize_plot_data` raises for one DIV: `clean_numeric_array` of None,
   * or `len()` of a number once a name mentions the DIV.
   */
  predicate PlotRaises(f: Field, names: Option<seq<string>>, d: int) {
    f.Null? || (f.Scalar? && names.Some? && Count(MentionsDiv(d), names.value) > 0)
  }

  /**
   * The values for one DIV of one group: with a non-empty `exp_names`, the
   * entries whose name mentions `DIV<d>`, falling back to the whole list
   * when none does; otherwise the whole stored value. Then cleaned.
   */
  function DivPlotValues(f: Field, names: Option<seq<string>>, d: int): (r: Result<seq<Num>>)
    ensures r.Failure? <==> PlotRaises(f, names, d)
    ensures r.Success? ==> forall k | 0 <= k < |r.value| :: r.value[k].Fin?
    ensures f.Arr? && names.Some? && NamedPositions(f.items, names.value, MentionsDiv(d)) != [] ==>
              r == Success(CleanNumericArray(Pick(f.items, NamedPositions(f.items, names.value, MentionsDiv(d)))))
    ensures f.Arr? && (names.None? || NamedPositions(f.items, names.value, MentionsDiv(d)) == []) ==>
              r == Success(CleanNumericArray(f.items))
    ensures f.Scalar? && !PlotRaises(f, names, d) ==> r == Success(CleanNumericArray([f.x]))
  {
    if names.Some? && names.value != [] then
      if f.Arr? then
        PickNamedPositions(f.items, names.value, MentionsDiv(d));
        var picked := PickNamed(f.items, names.value, MentionsDiv(d)).values;
        Success(CleanNumericArray(if picked == [] then f.items else picked))
      else if Count(MentionsDiv(d), names.value) > 0 then Failure("TypeError: object has no len()")
      else CleanField(f)
    else CleanField(f)
  }

  /** With no name mentioning the DIV, the whole list is plotted. */
  lemma DivPlotFallback(f: Field, names: seq<string>, d: int)
    requires f.Arr? && Count(MentionsDiv(d), names) == 0
    ensures DivPlotValues(f, Some(names), d) == Success(CleanNumericArray(f.items))
  {
    CountPositive(MentionsDiv(d), names);
    PositionsNone(MentionsDiv(d), Aligned(f.items, names));
  }

  function DivPlotStep(f: Field, names: Option<seq<string>>): int -> Result<Option<seq<Num>>> {
    (d: int) => var v :- DivPlotValues(f, names, d); Success(Some(v))
  }

  /** The stored metric of a group that exists and has it. */
  function StoredMetric(bg: Dict<string, GroupRecord>, g: string, metric: string): Option<Field> {
    match Get(bg, g)
    case None => None
    case Some(rec) => Get(rec.fields, metric)
  }

  function GroupPlotStep(bg: Dict<string, GroupRecord>, metric: string, divs: seq<int>): string -> Result<Option<Dict<int, seq<Num>>>> {
    (g: string) =>
      match StoredMetric(bg, g, metric)
      case None => Success(None)
      case Some(f) =>
        var perDiv :- AssignEach(divs, DivPlotStep(f, Get(bg, g).value.expNames));
        Success(Some(perDiv))
  }

  /** A requested group that exists and stores the metric raises for no requested DIV. */
  predicate GroupPlots(bg: Dict<string, GroupRecord>, g: string, metric: string, divs: seq<int>) {
    match Get(bg, g)
    case None => true
    case Some(rec) =>
      match Get(rec.fields, metric)
      case None => true
      case Some(f) => forall j | 0 <= j < |divs| :: !PlotRaises(f, rec.expNames, divs[j])
  }

  /** `organize_plot_data`: `{group: {div: values}}`. */
  function OrganizePlotData(data: Dataset, metric: string, groups: seq<string>, divs: seq<int>): (r: Result<Dict<string, Dict<int, seq<Num>>>>)
    ensures groups != [] && data.byGroup.None? ==> r == Failure("KeyError: 'by_group'")
    ensures r.Success? <==> ((groups == [] || data.byGroup.Some?) &&
              forall i | 0 <= i < |groups| :: GroupPlots(data.byGroup.GetOr([]), groups[i], metric, divs))
  {
    if groups != [] && data.byGroup.None? then Failure("KeyError: 'by_group'")
    else AssignEach(groups, GroupPlotStep(data.byGroup.GetOr([]), metric, divs))
  }

  /** The group exists and stores the metric. */
  function StoresMetric(bg: Dict<string, GroupRecord>, metric: string): string -> bool {
    (g: string) => StoredMetric(bg, g, metric).Some?
  }

  /** The plotted groups are the requested ones that exist and store the metric, each once, in request order. */
  lemma OrganizePlotDataGroups(data: Dataset, metric: string, groups: seq<string>, divs: seq<int>)
    requires OrganizePlotData(data, metric, groups, divs).Success?
    ensures Keys(OrganizePlotData(data, metric, groups, divs).value) == Dedup(Filter(StoresMetric(data.byGroup.GetOr([]), metric), groups))
  {
    var bg := data.byGroup.GetOr([]);
    AssignEachKeys(groups, GroupPlotStep(bg, metric, divs), StoresMetric(bg, metric));
  }

  /**
   * A plotted group maps every requested DIV, each to finite values: the
   * DIV's own entries, or the whole list when no name mentions the DIV.
   */
  lemma OrganizePlotDataEntry(data: Dataset, metric: string, groups: seq<string>, divs: seq<int>, i: nat, j: nat)
    requires OrganizePlotData(data, metric, groups, divs).Success?
    requires i < |groups| && j < |divs|
    requires StoredMetric(data.byGroup.GetOr([]), groups[i], metric).Some?
    ensures var bg := data.byGroup.GetOr([]);
            var f := StoredMetric(bg, groups[i], metric).value;
            var v := DivPlotValues(f, Get(bg, groups[i]).value.expNames, divs[j]);
            var perDiv := Get(OrganizePlotData(data, metric, groups, divs).value, groups[i]);
            && perDiv.Some?
            && Keys(perDiv.value) == Dedup(divs)
            && v.Success?
            && Get(perDiv.value, divs[j]) == Some(v.value)
            && forall k | 0 <= k < |v.value| :: v.value[k].Fin?
  {
    var bg := data.byGroup.GetOr([]);
    var g := groups[i];
    AssignEachGet(groups, GroupPlotStep(bg, metric, divs), i);
    var f := StoredMetric(bg, g, metric).value;
    var step := DivPlotStep(f, Get(bg, g).value.expNames);
    assert AssignEach(divs, step).Success?;
    AssignEachGet(divs, step, j);
    AssignEachKeys(divs, step, (d: int) => true);
    FilterAll(divs);
  }

  lemma {:induction false} FilterAll(s: seq<int>)
    ensures Filter((d: int) => true, s) == s
    decreases |s|
  {
    if s != [] {
      FilterAll(s[1..]);
      assert [s[0]] + s[1..] == s;
    }
  }

  // ------------------------------------------------------ validate_plot_data

  /** The group stores the metric as a non-empty list or as a number. */
  predicate Plottable(bg: Dict<string, GroupRecord>, g: string, metric: string) {
    match StoredMetric(bg, g, metric)
    case None => false
    case Some(f) => (f.Arr? && |f.items| > 0) || f.Scalar?
  }

  function AnyPlottable(bg: Dict<string, GroupRecord>, groups: seq<string>, metric: string): (r: bool)
    ensures r <==> exists i | 0 <= i < |groups| :: Plottable(bg, groups[i], metric)
    decreases |groups|
  {
    if groups == [] then false
    else
      var n := |groups| - 1;
      AnyPlottable(bg, groups[..n], metric) || Plottable(bg, groups[n], metric)
  }

  /** `validate_plot_data`. */
  function ValidatePlotData(data: Dataset, metric: string, groups: seq<string>): (r: bool)
    ensures data.byGroup.None? ==> !r
    ensures data.byGroup.Some? ==> (r <==> exists i | 0 <= i < |groups| :: Plottable(data.byGroup.value, groups[i], metric))
  {
    match data.byGroup
    case None => false
    case Some(bg) => AnyPlottable(bg, groups, metric)
  }

  /** Data that passes `validate_metric_data` for at least one group can be plotted. */
  lemma MetricDataIsPlottable(data: Dataset, metric: string, groups: seq<string>)
    requires groups != []
    requires ValidateMetricData(data, metric, groups)
    ensures ValidatePlotData(data, metric, groups)
  {
    var bg := data.byGroup.value;
    assert HasMetricData(bg, groups[0], metric);
    assert Plottable(bg, groups[0], metric);
  }

  // ------------------------------------------------- generate_export_filename

  /** The named parts before the timestamp; empty values are left out. */
  function FilenameParts(metric: string, comparison: string, groups: seq<string>, divs: seq<int>): (r: seq<string>)
    ensures |r| >= 1 && r[0] == "MEA-NAP"
    ensures |r| == 1 + (if metric != "" then 1 else 0) + (if comparison != "" then 1 else 0)
                     + (if groups != [] then 1 else 0) + (if divs != [] then 1 else 0)
    ensures metric != "" ==> r[1] == metric
    ensures comparison != "" ==> r[if metric != "" then 2 else 1] == comparison
    ensures groups != [] ==> r[|r| - (if divs != [] then 2 else 1)] == "group-" + groups[0]
    ensures divs != [] ==> r[|r| - 1] == "DIV" + IntToString(divs[0])
  {
    ["MEA-NAP"]
      + (if metric != "" then [metric] else [])
      + (if comparison != "" then [comparison] else [])
      + (if groups != [] then ["group-" + groups[0]] else [])
      + (if divs != [] then ["DIV" + IntToString(divs[0])] else [])
  }

  /** `generate_export_filename`, with the timestamp passed in. */
  function GenerateExportFilename(metric: string, comparison: string, groups: seq<string>, divs: seq<int>,
                                  customFilename: string, timestamp: string): (r: string)
    ensures customFilename != "" ==> r == customFilename
  {
    if customFilename != "" then customFilename
    else Join(FilenameParts(metric, comparison, groups, divs) + [timestamp], "_")
  }

  lemma {:induction false} JoinSplitLast(ps: seq<string>, a: string, b: string)
    ensures Join(ps + [a + "_" + b], "_") == Join(ps + [a, b], "_")
    decreases |ps|
  {
    if ps == [] {
      assert [a, b][1..] == [b];
    } else {
      JoinSplitLast(ps[1..], a, b);
      assert (ps + [a + "_" + b])[1..] == ps[1..] + [a + "_" + b];
      assert (ps + [a, b])[1..] == ps[1..] + [a, b];
    }
  }

  lemma NoUnderscoreInInt(i: int)
    ensures '_' !in IntToString(i)
  {
    var s := IntToString(i);
    if i < 0 {
      assert s == "-" + NatToString(-i);
      assert forall k | 1 <= k < |s| :: s[k] == NatToString(-i)[k - 1];
    }
  }

  /**
   * Without custom name, and with parts free of `_`, the file name splits
   * back into "MEA-NAP", the present parts, and the timestamp's date and time.
   */
  lemma ExportFilenameRoundTrip(metric: string, comparison: string, groups: seq<string>, divs: seq<int>, date: string, time: string)
    requires '_' !in metric && '_' !in comparison && '_' !in date && '_' !in time
    requires groups != [] ==> '_' !in groups[0]
    ensures Split(GenerateExportFilename(metric, comparison, groups, divs, "", date + "_" + time), '_')
            == FilenameParts(metric, comparison, groups, divs) + [date, time]
  {
    var ps := FilenameParts(metric, comparison, groups, divs);
    if divs != [] {
      NoUnderscoreInInt(divs[0]);
    }
    if groups != [] {
      assert forall k | 6 <= k < |"group-" + groups[0]| :: ("group-" + groups[0])[k] == groups[0][k - 6];
    }
    var all := ps + [date, time];
    assert forall k | 0 <= k < |all| :: '_' !in all[k];
    JoinSplitLast(ps, date, time);
    SplitJoin(all, '_');
  }

  // ---------------------------------------------- calculate_plot_dimensions

  /** `calculate_plot_dimensions`: 300 pixels per group, never narrower than the base width. */
  function CalculatePlotDimensions(numGroups: int, baseWidth: int): (r: (int, int))
    ensures r.0 >= baseWidth && r.0 >= 300 * numGroups
    ensures r.0 == baseWidth || r.0 == 300 * numGroups
    ensures r.1 == Config.PlotHeight
  {
    (if baseWidth >= numGroups * 300 then baseWidth else numGroups * 300, Config.PlotHeight)
  }
}

=== FILE: wrappers.dfy ===
/** Failure-compatible wrappers shared by every module of the model. */
module Wrappers {

  /** Python's "value or None". */
  datatype Option<+T> = None | Some(value: T) {
    predicate IsFailure() { None? }

    function PropagateFailure<U>(): Option<U>
      requires None?
    {
      None
    }

    function Extract(): T
      requires Some?
    {
      value
    }

    function GetOr(default: T): T {
      match this
      case Some(v) => v
      case None => default
    }
  }

  /** The outcome of a computation that may raise; `error` names the Python exception. */
  datatype Result<+T> = Success(value: T) | Failure(error: string) {
    predicate IsFailure() { Failure? }

    function PropagateFailure<U>(): Result<U>
      requires Failure?
    {
      Failure(error)
    }

    function Extract(): T
      requires Success?
    {
      value
    }

    function GetOr(default: T): T {
      match this
      case Success(v) => v
      case Failure(_) => default
    }
  }
}
